=== FILE: README.md ===
# A Dafny model of a vn.py futures-data and strategy toolkit

This project models the deterministic core of a set of vn.py plugins used for
Chinese commodity futures. The data path runs from TDX minute files and CSV
exports to a local bar database, then to hourly and daily bars, a
backtester, a MultiCharts data feed and a set of sample CTA strategies.
Every part is modelled in the form the Python code has. Stateful objects
become classes whose methods are proved against pure specification
functions. Loops become methods with invariants. Expression code becomes
functions, and lemmas state its properties.

- **Aggregation** (`aggregation.dfy`, `bar_store.dfy`, `store_properties.dfy`).
  - `aggregate_hourly_data` and `aggregate_daily_data` of the chart wizard's preprocessor are modelled as streaming folds over ordered minute rows.
  - Each fold is proved equal to a specification: maximal runs with one `%Y%m%d %H` hour key, and sessions closed by the 14:59:00 bar.
  - The bar table and the bar-overview table are sequences held by a `BarDatabase` class.
  - The class also holds the fresh, force and incremental policy, the overview upsert and `process_symbol`.
  - An insert that hits the table's unique index raises; `process_symbol` catches the raise for that interval and goes on.
  - The exchange guess `_get_exchange_from_symbol` is in `exchange_guess.dfy`.
  - The chart data reader's prefix cascade is the same function (`ExchangeGuess.SymbolExchange`).
- **TDX conversion** (`tdx.dfy`, `csv_convert.dfy`).
  - The packed date and minute decoding.
  - The night-session relabelling state machine of `miniute2csv_data`.
  - Output-name normalisation.
  - `check_timestamp`.
  - The row converters `convert_to_vnpy_format` and `convert_to_vnpy_csv.convert`, with their counters.
- **Data manager** (`scheduler.dfy`).
  - The `DataUpdateScheduler` status record: processed files and per-contract updates.
  - Pending files.
  - The symbol and exchange resolution of the automatic import.
  - The statistics of the update pipeline.
- **Backtester** (`trade_pairs.dfy`, `backtester_widget.dfy`, `backtester_engine.dfy`).
  - FIFO trade pairing.
  - The widget's exchange guess, CSV symbol listing, symbol code and pnl partition.
  - The engine's interval tables, CSV history loading, CSV cache, exchange fallback chain, single-worker guard and worker policy.
- **MultiCharts feed** (`mcdata.dfy`).
  - `to_mc_symbol`, `get_product` and `check_perpetual`.
  - The bar conversion of `query_bar_history`: time shift, last-wins deduplication, ascending order and the weekday loop.
- **Strategies** (`cta_common.dfy`, `breakout.dfy`, `ma21_macd.dfy`, `daily_ma_breakout.dfy`, `csv_signal.dfy`).
  - Parameter clamping and the configuration table.
  - Entry and exit decisions, as state machines over the strategy's fields.
  - The CSV signal strategy's file scanning and signal dispatch.
  - Indicator values and array-manager contents are inputs. Orders are returned values.
- **Chart viewer** (`data_reader.py` and `backtest_chart_viewer.py` in `data_reader.dfy` and `chart_viewer.dfy`).
  - The query the data reader sends.
  - The search-box split.
  - The trade-marker classification.

`wrappers.dfy` (Option and Result), `strings.dfy` (Python string
operations), `calendar.dfy` (dates, times and the day after) and
`sorting.dfy` (an insertion sort used wherever the code calls
`sorted` or `list.sort`) are shared helpers.

Where the code and its documentation disagree, the model follows the code:

- The ma21 strategy clamps the stop loss to 1%..2% and the trailing stop to 1%..5%. Its comments say 20% and 30%.
- The breakout strategy's minute table has cases for 240, 120 and 60 minutes. These cases are unreachable.
- The daily strategy's reverse-entry orders are unreachable.
- `conver_all_with_vnpy_format` counts every file twice.
- The widget's `TA` prefix goes to CFFEX before the CZCE group is reached.

## Model

| member | source | states |
|---|---|---|
| Aggregation.MaxHighIsMaximum | vnpy_chartwizard/preprocess_daily_data.py:256-266 | the hourly high of a non-empty group is the largest high of its rows and is attained by one of them |
| Aggregation.MinLowIsMinimum | vnpy_chartwizard/preprocess_daily_data.py:256-266 | the hourly low of a non-empty group is the smallest low of its rows and is attained by one of them |
| Aggregation.SeededHighIsMaximum | vnpy_chartwizard/preprocess_daily_data.py:412-430 | the daily high, seeded with 0, is max(largest high of the session, 0) |
| Aggregation.SeededLowIsMinimum | vnpy_chartwizard/preprocess_daily_data.py:413-431 | the daily low, seeded with 999999999999999, is min(smallest low of the session, that seed) |
| Aggregation.GroupSnoc | vnpy_chartwizard/preprocess_daily_data.py:264-272 | one more row updates high by max, low by min, close to the row's close and adds its volume; the open stays the first row's |
| Aggregation.HourOf | vnpy_chartwizard/preprocess_daily_data.py:238-243 | the `%Y%m%d %H` key of a row, as the stamp `YYYY-MM-DD HH:00:00`: same date and hour, minute and second zero |
| Aggregation.Runs | vnpy_chartwizard/preprocess_daily_data.py:233-272 | the hour groups of the rows are empty exactly when the rows are, and the last group ends with the last row |
| Aggregation.RunsSnoc | vnpy_chartwizard/preprocess_daily_data.py:241-272 | a row whose hour key equals the current one extends the last group; any other row starts a new group |
| Aggregation.RunsSameHour | vnpy_chartwizard/preprocess_daily_data.py:238-241 | every hour group lies within one hour key |
| Aggregation.RunsPartition | vnpy_chartwizard/preprocess_daily_data.py:233-289 | the hour groups, concatenated in order, give back exactly the rows read: none lost, none repeated |
| Aggregation.RunsMaximal | vnpy_chartwizard/preprocess_daily_data.py:241 | neighbouring hour groups have different hour keys, so groups are maximal runs |
| Aggregation.HourlyStep | vnpy_chartwizard/preprocess_daily_data.py:241-272 | one more row either updates the open group's bar (max high, min low, new close, summed volume) or flushes it and opens a group with that row |
| Aggregation.HourFeedStep | vnpy_chartwizard/preprocess_daily_data.py:233-272 | the loop body keeps the invariant linking the accumulators (index, current hour, open/high/low/close/volume, bars so far) to the hour groups of the rows consumed |
| Aggregation.HourFoldFinal | vnpy_chartwizard/preprocess_daily_data.py:274-289 | after the loop, flushing the open group when `index > 0` completes exactly the hourly bars of all rows |
| Aggregation.AggregateHourly | vnpy_chartwizard/preprocess_daily_data.py:224-289 | the source's streaming loop with its running accumulators returns exactly the hourly bars of the hour groups |
| Aggregation.HourlyBarOfRun | vnpy_chartwizard/preprocess_daily_data.py:243-272 | hourly bar k is stamped with group k's hour key and has the first row's open, the last row's close, the summed volume, a high and low that bound every row and are attained, turnover and open interest 0 |
| Aggregation.HourlyOne | vnpy_chartwizard/preprocess_daily_data.py:274-289 | a single row gives a single hourly bar (the final flush) |
| Aggregation.HourlyStamps | vnpy_chartwizard/preprocess_daily_data.py:241-289 | after one more row the bars keep their stamps, with the last bar replaced within the same hour or one bar added for a new hour |
| Aggregation.HourlyBarsAscending | vnpy_chartwizard/preprocess_daily_data.py:203-289 | over rows in `ORDER BY datetime` order (equal stamps allowed) the hourly bars are strictly ascending, so no two bars of one call share a stamp |
| Aggregation.HourKeysAdvance | vnpy_chartwizard/preprocess_daily_data.py:238 | two ordered times with different hour keys have ordered hour keys |
| Aggregation.HourStartBefore | vnpy_chartwizard/preprocess_daily_data.py:243 | a time that is not on the hour lies strictly after its hour's stamp |
| Aggregation.HourlyLastStamp | vnpy_chartwizard/preprocess_daily_data.py:274-289 | over ordered rows the last hourly bar carries the last row's hour key and no bar is stamped later |
| Aggregation.IsClose | vnpy_chartwizard/preprocess_daily_data.py:439 | the session-closing row is the one whose time of day is exactly 14:59:00 |
| Aggregation.Segments | vnpy_chartwizard/preprocess_daily_data.py:418-464 | the sessions of the rows are empty exactly when the rows are, and the last session ends with the last row |
| Aggregation.SegmentsSnoc | vnpy_chartwizard/preprocess_daily_data.py:428-462 | a row extends the open session unless the last row was 14:59:00, in which case it opens a new one |
| Aggregation.HoldsSnoc | vnpy_chartwizard/preprocess_daily_data.py:428-436 | one row of the open session sets the open only when `index == 0`, updates high/low by max/min, sets the close and adds the volume |
| Aggregation.FlushBar | vnpy_chartwizard/preprocess_daily_data.py:439-462 | the bar a 14:59:00 row emits is the daily bar of its session, stamped that date at 15:00:00 |
| Aggregation.DayFeedStep | vnpy_chartwizard/preprocess_daily_data.py:418-464 | the loop body keeps the invariant linking the accumulators and the bars so far to the sessions of the rows consumed, with the reset after a flush |
| Aggregation.DayFoldFinal | vnpy_chartwizard/preprocess_daily_data.py:466-484 | after the loop the accumulators are non-empty exactly when the last row is not 14:59:00, and flushing them stamped with that row's own time completes the bars |
| Aggregation.AggregateDaily | vnpy_chartwizard/preprocess_daily_data.py:410-484 | the source's streaming loop, with its flush on 14:59:00 and its final flush, returns exactly the daily bars of the sessions |
| Aggregation.SegmentsShape | vnpy_chartwizard/preprocess_daily_data.py:439-462 | a 14:59:00 row can only end a session, and every session but the last ends with one |
| Aggregation.SegmentsPartition | vnpy_chartwizard/preprocess_daily_data.py:418-484 | the sessions, concatenated in order, give back exactly the rows read |
| Aggregation.DailyBarCount | vnpy_chartwizard/preprocess_daily_data.py:439-484 | one daily bar per 14:59:00 row, plus exactly one more when the stream does not end on 14:59:00 and none when it does |
| Aggregation.DailyBarOfSegment | vnpy_chartwizard/preprocess_daily_data.py:428-484 | daily bar k has its session's first open, last close and summed volume, the seeded high and low, is stamped 15:00:00 of the closing row's date, or else is the last bar and carries the last row's own time |
| Aggregation.DailyLastStamp | vnpy_chartwizard/preprocess_daily_data.py:439-484 | the last daily bar is stamped no earlier than the last row read |
| BarStore.Latest | vnpy_chartwizard/preprocess_daily_data.py:115-118 | `MAX(datetime)` is None exactly when the key has no rows |
| BarStore.Earliest | vnpy_chartwizard/preprocess_daily_data.py:307-311 | `MIN(datetime)` is None exactly when the key has no rows |
| BarStore.SelectMembers | vnpy_chartwizard/preprocess_daily_data.py:173-176 | the rows selected for a (symbol, exchange, interval) are exactly the table's rows of that key |
| BarStore.DeleteMembers | vnpy_chartwizard/preprocess_daily_data.py:193-196 | after the DELETE the table holds exactly its rows of other keys |
| BarStore.AfterMembers | vnpy_chartwizard/preprocess_daily_data.py:209-211 | `datetime > ?` keeps exactly the rows strictly after the resume point, or all rows without one |
| BarStore.LatestIsMax | vnpy_chartwizard/preprocess_daily_data.py:115-118 | `MAX(datetime)` is the stamp of some row and no row is later |
| BarStore.EarliestIsMin | vnpy_chartwizard/preprocess_daily_data.py:307-311 | `MIN(datetime)` is the stamp of some row and no row is earlier |
| BarStore.ChoosePlan | vnpy_chartwizard/preprocess_daily_data.py:180-198 | delete-then-read-all exactly when rows exist and force is set; read-after exactly when rows exist, not forced, incremental and the last stamp parsed, resuming from that stamp; read-all otherwise, always when no rows exist |
| BarStore.UpdateAll | vnpy_chartwizard/preprocess_daily_data.py:325-330 | the UPDATE sets every overview row of the key to the new values and leaves every other row |
| BarStore.StoredKeyHasRows | vnpy_chartwizard/preprocess_daily_data.py:291-311 | after a non-empty insert the key has rows, so COUNT/MIN/MAX are defined |
| BarStore.LastAggregationTime | vnpy_chartwizard/preprocess_daily_data.py:100-129 | the last aggregation time is defined exactly when the stored `MAX(datetime)` exists and parses |
| BarStore.ProcessRunSnoc | vnpy_chartwizard/preprocess_daily_data.py:553-569 | one more interval name runs after the others on the tables they left; its count is added when it returns, nothing is added when it raises |
| BarStore.ProcessRunCatches | vnpy_chartwizard/preprocess_daily_data.py:554-567 | an interval whose call raises leaves the tables as that call left them and the running total unchanged, and the loop goes on |
| BarStore.BarDatabase.AggregateInterval | vnpy_chartwizard/preprocess_daily_data.py:157-341 | one aggregator call (policy, delete, read, fold, insert, overview upsert) changes the tables and returns or raises exactly as the pure run does; when the insert hits the unique index it raises, keeping the DELETE but no inserted row and no overview change, and reports no count |
| BarStore.BarDatabase.AggregateHourlyData | vnpy_chartwizard/preprocess_daily_data.py:157-341 | `aggregate_hourly_data` is the shared run on the `1h` interval, raise included |
| BarStore.BarDatabase.AggregateDailyData | vnpy_chartwizard/preprocess_daily_data.py:343-536 | `aggregate_daily_data` is the shared run on the `d` interval, raise included |
| BarStore.BarDatabase.ProcessInterval | vnpy_chartwizard/preprocess_daily_data.py:555-566 | one interval name runs the hourly or the daily aggregation, which returns or raises as the pure run does, or is skipped |
| BarStore.BarDatabase.ProcessStep | vnpy_chartwizard/preprocess_daily_data.py:554-567 | one pass of the loop: the try block's call on the current tables, its count added only when it returns, the `except` adding nothing |
| BarStore.BarDatabase.ProcessNames | vnpy_chartwizard/preprocess_daily_data.py:552-569 | the loop over the names, catching each raised call and adding only returned counts, changes the tables and sums exactly as the pure fold over the names does |
| BarStore.BarDatabase.ProcessSymbol | vnpy_chartwizard/preprocess_daily_data.py:538-569 | `process_symbol`, with the default list `['1h', '1D']` when none is given, equals the pure fold with its per-interval catch |
| StoreProperties.DeleteAbsent | vnpy_chartwizard/preprocess_daily_data.py:193-196 | a DELETE of a key without rows leaves the table as it is |
| StoreProperties.QueryHas | vnpy_chartwizard/preprocess_daily_data.py:201-213 | every minute row of the contract past the resume point is in the sorted query result |
| StoreProperties.QueryEmpty | vnpy_chartwizard/preprocess_daily_data.py:213-219 | when no minute row is past the resume point the query is empty |
| StoreProperties.QueryFrom | vnpy_chartwizard/preprocess_daily_data.py:201-213 | every row of the query result is a minute row of the contract strictly past the resume point, when there is one |
| StoreProperties.QueryLastIsLatest | vnpy_chartwizard/preprocess_daily_data.py:211-213 | the query, ordered by datetime, ends with a latest row |
| StoreProperties.RunFrame | vnpy_chartwizard/preprocess_daily_data.py:193-301 | a call only deletes or appends rows of its own key: every other key keeps its rows in order |
| StoreProperties.ForceRegenerates | vnpy_chartwizard/preprocess_daily_data.py:189-197 | a forced call on a key with rows is a DELETE of them followed by a fresh call, whatever the incremental flag |
| StoreProperties.RunCount | vnpy_chartwizard/preprocess_daily_data.py:291-340 | after a call the key holds the rows it kept plus exactly as many new rows as it reports (none when it raises) |
| StoreProperties.RunWithoutMinutes | vnpy_chartwizard/preprocess_daily_data.py:189-219 | a contract without minute rows: 0 is returned, nothing is written and the overview table is untouched; only the forced DELETE, if any, happens |
| StoreProperties.UpsertSets | vnpy_chartwizard/preprocess_daily_data.py:315-336 | after the upsert the key has at least one overview row, all equal to the new values, and other keys' rows are unchanged |
| StoreProperties.UpsertKeepsUnique | vnpy_chartwizard/preprocess_daily_data.py:315-336 | the upsert never creates a second overview row for a key |
| StoreProperties.RunOverview | vnpy_chartwizard/preprocess_daily_data.py:303-338 | when rows were written and reported the key's overview row is COUNT/MIN/MAX of the key's bars; otherwise, a raise included, the overview table is untouched; at most one row per key is kept |
| StoreProperties.RunKeepsMinutes | vnpy_chartwizard/preprocess_daily_data.py:193-301 | an hourly or daily call never deletes or adds minute rows |
| StoreProperties.RunStages | vnpy_chartwizard/preprocess_daily_data.py:180-301 | a call is: clear (when forced), read after the resume point, fold and store what was read |
| StoreProperties.UnreadBeforeResume | vnpy_chartwizard/preprocess_daily_data.py:183-211 | a minute row a call did not read lies at or before its resume point, which therefore exists |
| StoreProperties.ResumeKept | vnpy_chartwizard/preprocess_daily_data.py:183-187 | the target row the resume point came from is still there after the call |
| StoreProperties.DailyCovers | vnpy_chartwizard/preprocess_daily_data.py:439-484 | after a daily call that returns, every minute row of the contract is at or before some stored daily stamp |
| StoreProperties.DailyRerunAddsNothing | vnpy_chartwizard/preprocess_daily_data.py:367-406 | an incremental daily rerun right after any daily call that returned reads nothing, writes nothing and returns 0 |
| StoreProperties.HourlyResumePoint | vnpy_chartwizard/preprocess_daily_data.py:181-289 | an hourly call starting without hourly rows returns, and leaves the latest hourly stamp at the last minute row's hour key |
| StoreProperties.HourlyRerunCollides | vnpy_chartwizard/preprocess_daily_data.py:181-301 | under the time-stamp resume filter the model uses (the corrected comparison): when the last minute row is not on the hour, the first hourly call returns and an incremental hourly rerun without new data raises on the unique index (the hour is read again and its bar is stamped like the stored last one), leaving the tables as they were; with the code's text comparison the same-day rows are skipped and the rerun returns 0 instead |
| StoreProperties.ProcessHourlyRerun | vnpy_chartwizard/preprocess_daily_data.py:540-569 | under the same time-stamp filter, `process_symbol(intervals=['1h'])` in that state catches the raise: it changes nothing and returns 0 |
| StoreProperties.RunRaises | vnpy_chartwizard/preprocess_daily_data.py:291-301 | a call raises exactly when it read rows and the bars folded from them share a (symbol, exchange, interval, datetime) slot with a kept row or with each other; a raise leaves the tables as the DELETE left them |
| StoreProperties.FreshKeyNoCollision | vnpy_chartwizard/preprocess_daily_data.py:291-301 | strictly ascending bars stored under a key without rows never hit the unique index |
| StoreProperties.UnparsedLastReadsAll | vnpy_chartwizard/preprocess_daily_data.py:123-129 | when the stored last stamp does not parse, an incremental call has no resume point, reads every minute row of the contract and behaves as a full rebuild |
| StoreProperties.RereadWrites | vnpy_chartwizard/preprocess_daily_data.py:215-301 | a call that reads some minute row either raises on the insert or writes and reports at least one row |
| StoreProperties.ProcessRunSkipsUnknown | vnpy_chartwizard/preprocess_daily_data.py:559-561 | a name that is neither hourly nor daily changes nothing and adds nothing |
| StoreProperties.ProcessRunDefault | vnpy_chartwizard/preprocess_daily_data.py:549-550 | without a list `process_symbol` runs the hourly aggregation and then the daily one on what it left, adding each count only if that call returned |
| StoreProperties.TextBoundSkipsSameDay | vnpy_chartwizard/preprocess_daily_data.py:208-213 | as written, `datetime > start_time.isoformat()` lets no stored `YYYY-MM-DD HH:MM:SS` row of the bound's own date through, whatever its time |
| StoreProperties.SameDayRowSkipped | vnpy_chartwizard/preprocess_daily_data.py:208-213 | a 2024-01-02 10:05:00 row lies after a 2024-01-02 10:00:00 bound, yet its text does not pass the comparison |
| StoreProperties.IsoText | vnpy_chartwizard/preprocess_daily_data.py:211 | the bound `isoformat()` sends is 19 characters with `T` at position 10 |
| Tdx.DecodeDate | vnpy_datamanager/translate_tdx_kline_data.py:95-97 | the packed date decodes to year = a0 // 2048 + 2004 (2004..2035), month = (a0 % 2048) // 100, day = (a0 % 2048) % 100 |
| Tdx.DateRoundTrip | vnpy_datamanager/translate_tdx_kline_data.py:95-97 | decoding is a bijection on packable dates: packing what a value decodes to gives the value back, and decoding a packed date gives the date back |
| Tdx.DecodeMinute | vnpy_datamanager/translate_tdx_kline_data.py:82-98 | the time of day of 00:00:00 plus (a1 − 1) minutes: a valid time, minute count a1 − 1 for 1..1440, 23:59 for 0 |
| Tdx.DecodeMinutePeriodic | vnpy_datamanager/translate_tdx_kline_data.py:98 | minute numbers one day apart decode to the same time of day |
| Tdx.FailureSticks | vnpy_datamanager/translate_tdx_kline_data.py:142 | once a record's date fails to parse (strptime raises), the whole conversion fails |
| Tdx.RelabelNight | vnpy_datamanager/translate_tdx_kline_data.py:84-150 | the record loop with its state `last_time`, `old_date`, `cover_codiction`, `first_date_filter` and `line` returns exactly the conversion function's result |
| Tdx.FeedRecord | vnpy_datamanager/translate_tdx_kline_data.py:105-148 | one pass of the loop body is one step of the conversion function: the same new loop variables, or the bad-date failure exactly where that step fails |
| Tdx.LastTrigger | vnpy_datamanager/translate_tdx_kline_data.py:105-111 | the latest night-session start at or before a record is a record whose previous bar's time starts with `14:5` and whose own hour is not `14` |
| Tdx.NightSince | vnpy_datamanager/translate_tdx_kline_data.py:105-129 | night mode holds at a record exactly when a session started at or before it and no bar at or after 03:01 has ended it since; the session date is the date of the bar before that start |
| Tdx.Label | vnpy_datamanager/translate_tdx_kline_data.py:112-135 | the date a record is written with is a valid date: the own date outside night mode, the session date from 21:00, the next day before 03:00, the own date from 03:01, and a repeat of the previous line at exactly 03:00 |
| Tdx.FirstTrigger | vnpy_datamanager/translate_tdx_kline_data.py:106-148 | the first night-session start: no record before it is a start |
| Tdx.ArmedFrom | vnpy_datamanager/translate_tdx_kline_data.py:106-148 | a session has started at or before a record exactly when the record is at or after the first start, so writing is on from there |
| Tdx.FeedNight | vnpy_datamanager/translate_tdx_kline_data.py:105-140 | on loop variables matching the records so far, the trigger test, night mode, `old_date` and `first_date_filter` agree with the closed forms |
| Tdx.BranchLabel | vnpy_datamanager/translate_tdx_kline_data.py:112-135 | the three night-mode branches and the day branch produce the record's label, fail only on a date that does not parse, and leave night mode exactly at 03:01 or later |
| Tdx.FeedMatches | vnpy_datamanager/translate_tdx_kline_data.py:86-150 | one iteration fails exactly when the record has no label (only with a bad date) and otherwise keeps the loop variables matching |
| Tdx.FoldMatches | vnpy_datamanager/translate_tdx_kline_data.py:86-150 | the loop runs to completion exactly when every record has a label, and its variables then match the closed forms |
| Tdx.RelabelMatchesLabels | vnpy_datamanager/translate_tdx_kline_data.py:86-150 | the conversion fails exactly when some record has no label, and otherwise writes one line per record from the first night-session start on, each its label, and nothing for the records before |
| Tdx.AfterLast | vnpy_datamanager/translate_tdx_kline_data.py:44 | `split(sep)[-1]` is a suffix of the text |
| Tdx.LastFour | vnpy_datamanager/translate_tdx_kline_data.py:59 | `s[-4:]` has four characters, or all of a shorter text |
| Tdx.BaseNameOf | vnpy_datamanager/translate_tdx_kline_data.py:44 | a file name `<market>#<code>.lc1` reduces to the code with `L9` replaced by `8888` |
| Tdx.IndexName | vnpy_datamanager/translate_tdx_kline_data.py:44 | a main-contract name `<letters>L9` becomes `<letters>8888` |
| Tdx.LettersOfContract | vnpy_datamanager/translate_tdx_kline_data.py:47 | the alphabetic characters of `<letters><digits>` are the product code |
| Tdx.ContractName | vnpy_datamanager/translate_tdx_kline_data.py:51-60 | on a `<code><digits>` name, replacing the code by its table key gives key + digits, and splitting on the key leaves the digits |
| Tdx.ShortNameOfContract | vnpy_datamanager/translate_tdx_kline_data.py:44-65 | the output name of `<code><digits>`: the code is looked up as written or else lower-cased (and lowered in the name), and a CZCE contract not ending in `8888` loses the first digit after the code |
| Tdx.OutputFileNameOf | vnpy_datamanager/translate_tdx_kline_data.py:44-73 | the CSV written for the TDX file `<market>#<code><digits>.lc1` is the contract's stem plus `_1min_1.csv`, and the stem holds no '_' |
| Tdx.VnpyOutputOfConverted | vnpy_datamanager/translate_tdx_kline_data.py:366-369 | a converted file `<stem>_1min_1.csv` gets the import file `<stem>_vnpy_import.csv` |
| Tdx.ConvertToVnpyFormat | vnpy_datamanager/translate_tdx_kline_data.py:366-440 | lines blank after `strip` are dropped uncounted; the rest go through the shared row conversion; total_in = total_out + bad_lines |
| Tdx.Disorders | vnpy_datamanager/translate_tdx_kline_data.py:264-277 | every reported position has a timestamp not greater than the previous row's |
| Tdx.DisordersEmpty | vnpy_datamanager/translate_tdx_kline_data.py:264-295 | no position is reported exactly when the timestamps strictly increase |
| Tdx.CheckTimestamp | vnpy_datamanager/translate_tdx_kline_data.py:251-295 | a missing file gives None; otherwise the loop reports exactly the disordered positions, and the check passes exactly when there is none |
| Tdx.Lc1Files | vnpy_datamanager/translate_tdx_kline_data.py:482 | the names selected all contain `.lc1` |
| Tdx.ConvertAllCount | vnpy_datamanager/translate_tdx_kline_data.py:480-512 | the loop converts exactly the `.lc1` names, in directory order, and returns twice their number |
| VnpyCsv.PadNum | vnpy_datamanager/convert_to_vnpy_csv.py:73-74 | digits read as a number and zero-padded back to their width give the same digits |
| VnpyCsv.NumPad | vnpy_datamanager/convert_to_vnpy_csv.py:73-74 | a zero-padded number reads back as itself |
| VnpyCsv.ParseCompact | vnpy_datamanager/convert_to_vnpy_csv.py:73 | `strptime(..., "%Y%m%d%H:%M:%S")` succeeds only on a 16-character text naming a valid date and time |
| VnpyCsv.FormatDash | vnpy_datamanager/convert_to_vnpy_csv.py:74 | `strftime("%Y-%m-%d %H:%M:%S")` has 19 characters |
| VnpyCsv.ReformatKeepsDigits | vnpy_datamanager/convert_to_vnpy_csv.py:73-74 | the re-emitted date-time is the input's digits with `-` and ` ` inserted: parse then format only moves separators |
| VnpyCsv.ParseFormatCompact | vnpy_datamanager/convert_to_vnpy_csv.py:73 | every valid date-time written in the compact form parses back to itself |
| VnpyCsv.ParseFormatDash | vnpy_datamanager/convert_to_vnpy_csv.py:74 | every valid date-time written in the dashed form parses back to itself |
| VnpyCsv.TrimEmpty | vnpy_datamanager/convert_to_vnpy_csv.py:52-53 | the trimmed row is a prefix of the row, does not end in a blank field, and every field removed was blank |
| VnpyCsv.PopEmpty | vnpy_datamanager/convert_to_vnpy_csv.py:52-53 | the `row.pop()` loop computes the trimmed row |
| VnpyCsv.ConvertRowSpec | vnpy_datamanager/convert_to_vnpy_csv.py:52-91 | a row is bad exactly when fewer than 9 fields survive trimming or fields 0 and 1 do not parse; a good row is the reformatted date-time, stripped fields 3..7, turnover "0" and field 8 as open interest |
| VnpyCsv.ConvertedOrBad | vnpy_datamanager/convert_to_vnpy_csv.py:48-94 | every line read is either written or counted bad, never both, never neither |
| VnpyCsv.ConvertStep | vnpy_datamanager/convert_to_vnpy_csv.py:48-94 | one more line adds its row to the output or one to the bad count |
| VnpyCsv.ConvertLine | vnpy_datamanager/convert_to_vnpy_csv.py:52-91 | the loop body (pop blanks, check width, parse) computes the row conversion of one line |
| VnpyCsv.ConvertRows | vnpy_datamanager/convert_to_vnpy_csv.py:48-94 | the row loop writes exactly the converted rows and counts total_in = total_out + bad_lines |
| VnpyCsv.NormalizeLine | vnpy_datamanager/convert_to_vnpy_csv.py:14-23 | None gives ""; otherwise the stripped line with every full-width `，` replaced by `,` and every other character kept |
| VnpyCsv.ReplaceCharSpec | vnpy_datamanager/convert_to_vnpy_csv.py:22 | replacing one character by one character maps the text character by character |
| VnpyCsv.NonBlankLines | vnpy_datamanager/convert_to_vnpy_csv.py:31-37 | the collected lines are cleaned and none is empty |
| VnpyCsv.CollectLines | vnpy_datamanager/convert_to_vnpy_csv.py:31-37 | the line-collecting loop keeps exactly the lines that are not empty after cleaning, in file order |
| VnpyCsv.Convert | vnpy_datamanager/convert_to_vnpy_csv.py:25-94 | `convert`: lines empty after normalising are dropped uncounted; the others are counted in and end up written or bad, total_in = total_out + bad_lines |
| VnpyCsv.CountedLines | vnpy_datamanager/convert_to_vnpy_csv.py:31-49 | total_in is the number of file lines minus the lines blank after cleaning |
| Scheduler.AddProcessed | vnpy_datamanager/engine.py:77-78 | `update_status(file_path=p)` never loses an entry, keeps the list duplicate-free, and adds exactly p when p is given, non-empty and absent |
| Scheduler.AddAll | vnpy_datamanager/engine.py:584-586 | marking files one after another keeps the list duplicate-free and only extends it |
| Scheduler.AddAllMembers | vnpy_datamanager/engine.py:584-586 | after marking, a file is processed exactly when it was before or is one of the non-empty marked paths |
| Scheduler.Unprocessed | vnpy_datamanager/engine.py:99-106 | the walked `.lc1` paths not processed yet, at most one per walked file |
| Scheduler.UnprocessedMembers | vnpy_datamanager/engine.py:99-106 | a path is collected exactly when some walked file ending in `.lc1` has it and it is not processed |
| Scheduler.TouchContract | vnpy_datamanager/engine.py:70-73 | `update_status(contract=c)` creates c's entry if missing and sets its time to now; every other contract keeps its entry and time; no contract is removed |
| Scheduler.DataUpdateScheduler.constructor | vnpy_datamanager/engine.py:44-53 | a fresh status record has no last update, no contracts and no processed files |
| Scheduler.DataUpdateScheduler.UpdateStatus | vnpy_datamanager/engine.py:64-81 | each argument left None leaves its part alone; last_update is set when given; contracts and processed files change as TouchContract and AddProcessed say; the list stays duplicate-free |
| Scheduler.DataUpdateScheduler.ContractLastUpdate | vnpy_datamanager/engine.py:88-93 | the stored time of a known contract, None exactly for an unknown one |
| Scheduler.DataUpdateScheduler.GetPendingFiles | vnpy_datamanager/engine.py:95-108 | [] for a missing directory; otherwise the walk's unprocessed `.lc1` paths, sorted |
| Scheduler.PendingSpec | vnpy_datamanager/engine.py:95-108 | the pending list is sorted and holds exactly the unprocessed walked `.lc1` paths, none for a missing directory |
| Scheduler.StillThere | vnpy_datamanager/engine.py:584-585 | the pending files that still exist, in order |
| Scheduler.StillThereMembers | vnpy_datamanager/engine.py:584-585 | a file is marked exactly when it is pending and still exists |
| Scheduler.MarkStep | vnpy_datamanager/engine.py:584-586 | one more pending file is marked processed exactly when it still exists |
| Scheduler.MarkedFilesProcessed | vnpy_datamanager/engine.py:584-586 | after `_process_new_files` every pending file that still exists is processed |
| Scheduler.CommodityExchange | vnpy_datamanager/engine.py:378-396 | the built-in table names only SHFE, DCE, CZCE and CFFEX |
| Scheduler.ResolveExchange | vnpy_datamanager/engine.py:426-436 | the built-in table wins; otherwise the contract file's `exchange` entry when present and non-empty; otherwise the code is unresolved |
| Scheduler.Imports | vnpy_datamanager/engine.py:412-474 | at most one import per listed file |
| Scheduler.ImportsSound | vnpy_datamanager/engine.py:412-474 | every counted import is of a listed `_vnpy_import.csv` file, under the symbol its name gives, with a resolved exchange that is a valid `Exchange` and an import that succeeded |
| Scheduler.ImportOfConverted | vnpy_datamanager/engine.py:420 | the converter's output for `<stem>_1min_1.csv` is imported under the symbol `<stem>` |
| Scheduler.ImportOfTdxFile | vnpy_datamanager/engine.py:414-420 | for a TDX file `<market>#<code><digits>.lc1`, the symbol the import reads from the derived import file is exactly the stem of the CSV the converter wrote |
| Scheduler.ImportSymbolOf | vnpy_datamanager/engine.py:420 | an import file name gives back the symbol it was written for |
| Scheduler.RebarExchange | vnpy_datamanager/engine.py:381-427 | `rb` resolves to SHFE whatever the contract file says |
| Scheduler.AutoImport | vnpy_datamanager/engine.py:361-476 | 0 for a missing target directory; otherwise the loop imports exactly Imports(...) and imported_count is their number |
| Scheduler.MarkDoneKeys | vnpy_datamanager/engine.py:611-634 | a contract key is stamped after the loop exactly when it was before or some symbol with that key completed both steps; new keys get now |
| Scheduler.TotalsSplit | vnpy_datamanager/engine.py:608-636 | the totals over two stretches of symbols add up, so a failure in one symbol does not lose the others' counts |
| Scheduler.AllHourlyFailed | vnpy_datamanager/engine.py:619-634 | symbols whose hourly step raises add nothing to either total |
| Scheduler.StaleContracts | vnpy_datamanager/engine.py:662-672 | at most one reported name per query row |
| Scheduler.StaleMembers | vnpy_datamanager/engine.py:662-672 | a `symbol.exchange` name is reported exactly when some row's last bar is more than 24 hours before now |
| Scheduler.ManagerEngine.ProcessNewFiles | vnpy_datamanager/engine.py:566-588 | 0 and nothing marked without pending files; otherwise the batch count, after every pending file that still exists is marked processed; nothing else in the record changes |
| Scheduler.ManagerEngine.AutoAggregate | vnpy_datamanager/engine.py:590-636 | (0, 0) when the preprocessor cannot be imported or has no symbols; otherwise the summed counts of the steps that completed, and only symbols whose steps all completed are stamped |
| Scheduler.ManagerEngine.CheckForUpdates | vnpy_datamanager/engine.py:642-683 | the pending files, and the contracts whose last bar is over a day old; a failed query reports no contract |
| Scheduler.RunPipeline | vnpy_datamanager/engine.py:503-564 | counters start at 0; each step runs when its input is given and writes its count; the first step that raises stops the pipeline with errors = 1, keeping earlier counts and 0 for the rest |
| TradePairs.CloseAgainst | vnpy_ctabacktester/ui/widget.py:2652-2670 | the inner `while` loop closes the trade against the opposite queue exactly as the match function does, and changes only the trade's volume |
| TradePairs.GenerateTradePairs | vnpy_ctabacktester/ui/widget.py:2636-2675 | the loop over the trades returns exactly the pairs of replaying them through the two queues |
| TradePairs.MatchShape | vnpy_ctabacktester/ui/widget.py:2652-2670 | the loop stops with the trade used up or the queue empty; the queue left over is the old queue minus the entries fully consumed, its head possibly reduced |
| TradePairs.MatchPairs | vnpy_ctabacktester/ui/widget.py:2653-2664 | pair i is opened by queued trade i (first in, first out), takes its direction, open time and open price, takes the closing trade's time and price, and has positive volume |
| TradePairs.MatchVolume | vnpy_ctabacktester/ui/widget.py:2655-2670 | one match conserves volume on each side: the closing trade's volume is its paired volume plus what it has left, and the opposite queue loses exactly the paired volume |
| TradePairs.MatchTakesMin | vnpy_ctabacktester/ui/widget.py:2652-2668 | pair i takes min(volume of queued trade i, what the closing trade has left after the earlier pairs), and every pair but the last uses its queued trade up |
| TradePairs.MatchPositive | vnpy_ctabacktester/ui/widget.py:2666-2668 | a fully consumed open trade is popped, so no queued trade has zero volume |
| TradePairs.MatchKeepsSide | vnpy_ctabacktester/ui/widget.py:2645-2668 | matching keeps the opposite queue on its side, and every pair has the direction of that side |
| TradePairs.StepValid | vnpy_ctabacktester/ui/widget.py:2642-2673 | one trade keeps the book valid: at most one of the two queues is non-empty and every queued trade has positive volume |
| TradePairs.ReplayValid | vnpy_ctabacktester/ui/widget.py:2636-2675 | after any trades at most one side is open and no queued trade is empty |
| TradePairs.ReplayVolume | vnpy_ctabacktester/ui/widget.py:2642-2673 | volume is conserved: the traded volume is twice the paired volume plus what is still queued on either side |
| TradePairs.PairsPositive | vnpy_ctabacktester/ui/widget.py:2655-2664 | every pair in the table has positive volume |
| BacktesterWidget.ListedSpec | vnpy_ctabacktester/ui/widget.py:156-170 | the listed `symbol.exchange` entries have no repeats and are exactly those of the `.csv` files not starting with `contract_attribute` with at least three `_` parts whose third part is the interval |
| BacktesterWidget.CsvSymbolsForInterval | vnpy_ctabacktester/ui/widget.py:143-178 | [] for an empty or missing CSV path; otherwise the loop's listed symbols, sorted |
| BacktesterWidget.CsvSymbolsSpec | vnpy_ctabacktester/ui/widget.py:156-173 | the result is sorted, has no repeats, and holds exactly what the matching files name |
| BacktesterWidget.CodeOfSpec | vnpy_ctabacktester/ui/widget.py:192-206 | the symbol code spells the leading letters regardless of case: all upper case for if/ih/ic/im/t/tf/tl/ts, all lower case otherwise, and "" exactly without letters |
| BacktesterWidget.SymbolCodeOfParts | vnpy_ctabacktester/ui/widget.py:181-206 | for a stripped `vt_symbol` `<letters><rest>.<exchange>` with no '.' before the exchange and `rest` not starting with a letter, the product code is the code of `letters` |
| BacktesterWidget.LeadingLettersOf | vnpy_ctabacktester/ui/widget.py:196-199 | `^([a-zA-Z]+)` on letters followed by a non-letter matches exactly those letters |
| BacktesterWidget.SymbolCodeRebar | vnpy_ctabacktester/ui/widget.py:191-200 | `rb8888.SHFE` gives the code `rb` |
| BacktesterWidget.SymbolCodeIndex | vnpy_ctabacktester/ui/widget.py:191-206 | `IF8888.CFFEX` gives the code `IF`, upper case again as an index future |
| BacktesterWidget.SymbolCodeNoDot | vnpy_ctabacktester/ui/widget.py:192-193 | a `vt_symbol` without a '.' gives no code |
| BacktesterWidget.Days | vnpy_ctabacktester/ui/widget.py:1652-1658 | the profit or loss bar positions are day indices |
| BacktesterWidget.DaysSpec | vnpy_ctabacktester/ui/widget.py:1652-1658 | the positions increase, and a day is a profit bar exactly when its net PnL is at least 0 and a loss bar exactly when it is below 0 |
| BacktesterWidget.DaysCount | vnpy_ctabacktester/ui/widget.py:1652-1658 | the two bar series together cover every day once |
| BacktesterWidget.PnlBars | vnpy_ctabacktester/ui/widget.py:1647-1658 | the loop fills the profit and loss positions as Days says, with heights equal to those days' PnL |
| ExchangeGuess.SymbolExchange | vnpy_chartwizard/preprocess_daily_data.py:38-51 | the guessed exchange is one of SHFE, CZCE, DCE, INE |
| ExchangeGuess.SymbolExchangeIronOre | vnpy_chartwizard/preprocess_daily_data.py:40-41 | symbols starting with `i` or `j` (iron ore, coking coal) go to SHFE, since the first group matches first |
| ExchangeGuess.SymbolExchangeBitumen | vnpy_chartwizard/preprocess_daily_data.py:46-49 | symbols starting with `bu` go to DCE, since the DCE group's `b` matches before the INE group |
| ExchangeGuess.SymbolExchangeDefault | vnpy_chartwizard/preprocess_daily_data.py:50-51 | a symbol matching no group gets CZCE |
| ExchangeGuess.GuessExchange | vnpy_ctabacktester/ui/widget.py:248-267 | the result is the symbol, a dot, and one of CFFEX, SHFE, DCE, CZCE, GFEX, INE |
| ExchangeGuess.GuessedExchange | vnpy_ctabacktester/ui/widget.py:248-267 | the exchange part is one of the six exchanges |
| ExchangeGuess.GuessExchangeDefault | vnpy_ctabacktester/ui/widget.py:265-267 | a symbol whose first character begins no prefix of the seven groups gets `symbol.SHFE` |
| ExchangeGuess.GuessPta | vnpy_ctabacktester/ui/widget.py:251-259 | `TA…` (PTA) gets CFFEX, since the CFFEX group's `T` matches first |
| ExchangeGuess.GuessGfexShadowed | vnpy_ctabacktester/ui/widget.py:257-261 | `lc…` and `pt…` get DCE, since the DCE group's `l` and `p` match before the GFEX group |
| ExchangeGuess.FullSymbolWithExchange | vnpy_ctabacktester/ui/widget.py:237-246 | the full symbol is the symbol followed by a dot and an exchange |
| ExchangeGuess.FullSymbolExchangePart | vnpy_ctabacktester/ui/widget.py:237-246 | the exchange after the dot is the contract file's entry for the symbol when it is present and non-empty, the guess otherwise; no other entry of the file changes the result |
| CtaBacktester.IntervalTablesAgree | vnpy_ctabacktester/engine.py:198-212 | tick mode exactly for "tick"; the bars read from a CSV file carry the interval the engine runs with, except "w", run as minutes while its bars say weekly; hourly exactly for 1h/4h, daily exactly for d |
| CtaBacktester.CsvSuffix | vnpy_ctabacktester/engine.py:76-84 | the file-name suffix of every interval is the interval's own name (every mapping entry is the identity, unknown names fall back to themselves) |
| CtaBacktester.ExchangeOfSpec | vnpy_ctabacktester/engine.py:438-477 | the bar's exchange is always an exchange member or SHFE; an entry in the contract file decides whenever it names an exchange (an unknown one gives SHFE), the vt_symbol suffix only without such an entry |
| CtaBacktester.ReadCells | vnpy_ctabacktester/engine.py:395-408 | the numeric cells read in evaluation order: all of them on success, a failure is a missing or unparsable cell |
| CtaBacktester.Results | vnpy_ctabacktester/engine.py:367-414 | one outcome per CSV row, in file order, each decided by that row alone |
| CtaBacktester.KeptMembers | vnpy_ctabacktester/engine.py:367-414 | a bar is collected exactly when some row yields it |
| CtaBacktester.ReadRowKeep | vnpy_ctabacktester/engine.py:370-408 | a collected row's bar lies in [start, end] and carries the request's exchange and interval |
| CtaBacktester.HistorySpec | vnpy_ctabacktester/engine.py:347-423 | the loaded history is sorted by datetime, empty once a row fails outside ValueError/KeyError, and otherwise a permutation of the bars of the rows that parsed and lie in range |
| CtaBacktester.LoadHistoryFromCsv | vnpy_ctabacktester/engine.py:358-419 | the row loop followed by the sort computes exactly that history |
| CtaBacktester.KeyStampInjective | vnpy_ctabacktester/engine.py:294 | different valid date-times give different `%Y%m%d_%H%M%S` stamps |
| CtaBacktester.CacheKeyParts | vnpy_ctabacktester/engine.py:294 | a cache key is `symbol_interval` followed by the two 15-character stamps |
| CtaBacktester.CacheKeyInjective | vnpy_ctabacktester/engine.py:291-301 | for symbols without '_', equal cache keys mean the same symbol, interval, start and end (the exchange is not part of the key), so a hit serves the bars loaded for that symbol, interval and range |
| CtaBacktester.LoadSpec | vnpy_ctabacktester/engine.py:289-345 | a load keeps every cached entry, adds at most the request's key, caches only non-empty lists, succeeds exactly when it hands bars over, and leaves the cache alone on failure |
| CtaBacktester.LoadThenHit | vnpy_ctabacktester/engine.py:297-301 | after a successful load the same request is a hit with the same bars, whatever the files hold by then |
| CtaBacktester.LoadedBarsInRange | vnpy_ctabacktester/engine.py:318-339 | freshly loaded bars are sorted and inside the requested range |
| CtaBacktester.TotalRecordsRemove | vnpy_ctabacktester/engine.py:495 | the record total is the same whichever key is taken first |
| CtaBacktester.RecordsAtLeastKeys | vnpy_ctabacktester/engine.py:495-498 | with no empty list cached there are at least as many records as keys |
| CtaBacktester.PreloadFailureBlocksGuard | vnpy_ctabacktester/engine.py:661-665 | as written, the failed CSV preload is the one exit the code writes that leaves the worker thread set, as an uncaught exception after the try block also does; so every later start_* is refused until stop_optimization clears it |
| CtaBacktester.CorrectedExitsClearThread | vnpy_ctabacktester/engine.py:657-721 | with the preload exit corrected, only an uncaught exception (after line 677) leaves the worker thread set, and the corrected exits differ from the written ones on the thread exactly at the failed preload |
| CtaBacktester.MaxWorkersSpec | vnpy_ctabacktester/engine.py:679-696 | the worker policy never raises a positive request, keeps 0 between 1 and 4, none at most min(2, cpus), at most 2 for over 1000 settings, 1 above 85% memory, and otherwise uses a positive request as given |
| CtaBacktester.BacktestingEngine.constructor | vnpy_ctabacktester/engine.py:195-196 | the backtesting engine starts with no history |
| CtaBacktester.BacktesterEngine.constructor | vnpy_ctabacktester/engine.py:72-87 | the engine starts with an empty cache, no worker thread and no optimisation running |
| CtaBacktester.BacktesterEngine.LoadCsvData | vnpy_ctabacktester/engine.py:275-345 | the cache and the backtesting engine's history after a load are the pure load's, and the success flag is its |
| CtaBacktester.BacktesterEngine.ClearCsvCache | vnpy_ctabacktester/engine.py:479-486 | the cache is empty afterwards |
| CtaBacktester.BacktesterEngine.CsvCacheInfo | vnpy_ctabacktester/engine.py:488-500 | the key count, the record total over all cached lists and the key set, the total at least the key count |
| CtaBacktester.BacktesterEngine.StartTask | vnpy_ctabacktester/engine.py:557-580 | a run starts exactly when no worker thread is set, and one is set afterwards |
| CtaBacktester.BacktesterEngine.StartOptimization | vnpy_ctabacktester/engine.py:744-770 | the same guard, raising optimization_running when it starts |
| CtaBacktester.BacktesterEngine.FinishTask | vnpy_ctabacktester/engine.py:220-261 | every written exit of run_backtesting and run_downloading clears the worker thread; an uncaught exception (strategy lookup, load_data, the result statistics) leaves it as it was |
| CtaBacktester.BacktesterEngine.FinishOptimization | vnpy_ctabacktester/engine.py:657-721 | the end of run_optimization: every written exit clears the worker thread (the failed preload as corrected); the load-failure and completed exits also clear optimization_running, the preload and empty-history exits leave it as it was; an uncaught exception from generate_settings or the optimiser leaves both flags as they were |
| CtaBacktester.BacktesterEngine.FinishThenStartTask | vnpy_ctabacktester/engine.py:543-580 | after run_optimization ends (as corrected), the next start_backtesting or start_downloading starts exactly unless it ended by an uncaught exception while a worker thread was set; a thread is set afterwards either way |
| CtaBacktester.BacktesterEngine.FinishThenStartOptimization | vnpy_ctabacktester/engine.py:728-770 | the same for the next start_optimization, which raises optimization_running when it starts and otherwise leaves it as the exit left it |
| CtaBacktester.BacktesterEngine.StopOptimization | vnpy_ctabacktester/engine.py:502-537 | stops exactly when a worker thread and an optimisation are set; then the thread is cleared, and optimization_running is cleared when the thread was still alive; otherwise nothing changes |
| CtaBacktester.BacktesterEngine.StopThenStart | vnpy_ctabacktester/engine.py:502-580 | from the state the failed preload leaves (thread and optimisation set), stop_optimization stops and the next start_backtesting then starts |
| CtaBacktester.BacktesterEngine.RaisedTaskBlocksStarts | vnpy_ctabacktester/engine.py:502-580 | a backtest or download that ends by an uncaught exception with no optimisation flagged leaves the worker thread set for good: stop_optimization stops nothing, and start_backtesting, start_downloading and start_optimization are all refused |
| McData.CheckPerpetualSpec | vnpy_mcdata/mcdata_datafeed.py:355-366 | check_perpetual gives "" exactly when the symbol ends with none of HOT, HOT/Q, HOT/H, 000000, and otherwise one of them that it ends with |
| McData.PerpetualOf | vnpy_mcdata/mcdata_datafeed.py:357-364 | a symbol ending with a perpetual suffix gets exactly that suffix back, the four suffixes never competing |
| McData.FirstSuffixSpec | vnpy_mcdata/mcdata_datafeed.py:357-366 | the first-match scan returns "" exactly when no suffix matches, otherwise a listed suffix the symbol ends with |
| McData.FirstSuffixAt | vnpy_mcdata/mcdata_datafeed.py:357-364 | the first suffix in list order that matches is the one returned |
| McData.Product | vnpy_mcdata/mcdata_datafeed.py:343-352 | get_product is a prefix of the symbol without digits that stops at the first digit or the end |
| McData.ProductUnique | vnpy_mcdata/mcdata_datafeed.py:343-352 | those three properties determine the product |
| McData.GetProduct | vnpy_mcdata/mcdata_datafeed.py:343-352 | the character loop computes that product |
| McData.FixYear | vnpy_mcdata/mcdata_datafeed.py:288-292 | a one-digit CZCE year gains one leading digit; any other year is kept |
| McData.Layout | vnpy_mcdata/mcdata_datafeed.py:302-321 | the option layout's date end lies inside the rest of the symbol |
| McData.FutureSymbol | vnpy_mcdata/mcdata_datafeed.py:269-294 | a short futures symbol translates to a `TC.F.` name |
| McData.OptionSymbol | vnpy_mcdata/mcdata_datafeed.py:296-338 | a long futures-exchange symbol translates to a `TC.O.` name |
| McData.OptionCode | vnpy_mcdata/mcdata_datafeed.py:320-338 | an option's pieces give a `TC.O.` name |
| McData.TranslateFuture | vnpy_mcdata/mcdata_datafeed.py:269-270 | on a futures exchange, a symbol of at most eight characters is read as a future |
| McData.TranslateOption | vnpy_mcdata/mcdata_datafeed.py:296-298 | on a futures exchange, a longer symbol is read as an option |
| McData.UnsupportedExchange | vnpy_mcdata/mcdata_datafeed.py:261-340 | the translation is "" exactly for exchanges outside CFFEX, SHFE, CZCE, DCE, INE, GFEX |
| McData.ContinuousContract | vnpy_mcdata/mcdata_datafeed.py:270-277 | `<product><suffix>` becomes `TC.F.<ex>.<product>.<suffix>` |
| McData.DatedCodeYear | vnpy_mcdata/mcdata_datafeed.py:283-292 | the corrected year extraction reads the year of a three- or four-digit contract code |
| McData.DatedCodeYearAsWritten | vnpy_mcdata/mcdata_datafeed.py:285-287 | as written the year comes out empty exactly when a four-digit code's year equals its month |
| McData.DatedFuture | vnpy_mcdata/mcdata_datafeed.py:279-294 | a dated future `<product><code>` becomes `TC.F.<ex>.<product>.20<yy><mm>` |
| McData.DatedFutureAsWritten | vnpy_mcdata/mcdata_datafeed.py:279-294 | as written the result is the same except when year equals month, where the year is dropped (`rb1212` gives `TC.F.SHFE.rb.2012`) |
| McData.CzcePivot | vnpy_mcdata/mcdata_datafeed.py:288-292 | a one-digit CZCE year up to 6 is read as 202x and above 6 as 201x |
| McData.DashOption | vnpy_mcdata/mcdata_datafeed.py:298-338 | a CFFEX/DCE/GFEX option `<product><code>-<C or P>-<strike>` becomes `TC.O.<ex>.<product>.20<yy><mm>.<C or P>.<strike>` |
| McData.BareOption | vnpy_mcdata/mcdata_datafeed.py:310-338 | a SHFE/INE/CZCE option `<product><code>[MS]<C or P><strike>` becomes the same form, a weekly option's `MS` moving onto the product as `_MS` |
| McData.McInterval | vnpy_mcdata/mcdata_datafeed.py:15-19 | only minute, hour and daily bars are supported, and only daily uses day bars |
| McData.PrevDay | vnpy_mcdata/mcdata_datafeed.py:22-26 | the day before is a valid date whose next day is the given one |
| McData.StartOfSpec | vnpy_mcdata/mcdata_datafeed.py:147-153 | a quote's bar starts exactly one minute or one hour earlier; a daily bar keeps its date and second with hour and minute zero |
| McData.Bars | vnpy_mcdata/mcdata_datafeed.py:147-168 | one bar per quote, in quote order |
| McData.DeduplicatedSpec | vnpy_mcdata/mcdata_datafeed.py:170-173 | the converted bars are strictly increasing in start time and are exactly the last bar built for each start time |
| McData.DeduplicatedSource | vnpy_mcdata/mcdata_datafeed.py:170-173 | each converted bar is the last one built with its start time |
| McData.DeduplicatedKeeps | vnpy_mcdata/mcdata_datafeed.py:170-173 | the last bar with a start time is converted |
| McData.CollectBars | vnpy_mcdata/mcdata_datafeed.py:145-170 | the conversion loop builds the last-wins dictionary and its key order |
| McData.PickBars | vnpy_mcdata/mcdata_datafeed.py:173 | the list comprehension looks every sorted key up |
| McData.ConvertQuotes | vnpy_mcdata/mcdata_datafeed.py:145-175 | the conversion yields exactly the deduplicated bars |
| McData.Weekdays | vnpy_mcdata/mcdata_datafeed.py:118-134 | every queried day has a following day to end its query |
| McData.WeekdaysMembers | vnpy_mcdata/mcdata_datafeed.py:118-134 | a day is queried exactly when it lies between start and end and is Monday to Friday |
| McData.DayQuotes | vnpy_mcdata/mcdata_datafeed.py:121-131 | the day loop collects only quotes the API returned |
| McData.AllQuotes | vnpy_mcdata/mcdata_datafeed.py:100-134 | the daily query or the day loop collects only quotes the API returned |
| McData.BarHistoryEmpty | vnpy_mcdata/mcdata_datafeed.py:78-88 | a query raises exactly when the symbol translation does, and returns [] for an unsupported contract or interval |
| McData.BarHistorySpec | vnpy_mcdata/mcdata_datafeed.py:71-175 | for a supported request the bars carry the request's symbol, exchange and interval, are strictly increasing in time, and are exactly the last bar built for each start time |
| McData.QueryBarHistory | vnpy_mcdata/mcdata_datafeed.py:71-175 | query_bar_history computes that history |
| McData.QueryQuotes | vnpy_mcdata/mcdata_datafeed.py:100-134 | the query step collects the planned quotes |
| McData.QueryDays | vnpy_mcdata/mcdata_datafeed.py:114-134 | the day loop runs one query per weekday from start to end |
| CtaCommon.ClampInt | vnpy_ctastrategy/strategies/breakout_strategy.py:60-64 | `max(lo, min(x, hi))` lies in [lo, hi], keeps a value already in range and moves the others to the nearest bound |
| CtaCommon.ClampReal | vnpy_ctastrategy/strategies/breakout_strategy.py:62-63 | the same for the percentage parameters |
| CtaCommon.AtLeastOne | vnpy_ctastrategy/strategies/breakout_strategy.py:65 | the order size is at least 1 and a size of at least 1 is kept |
| CtaCommon.MaxOf | vnpy_ctastrategy/strategies/breakout_strategy.py:155 | `max(...)` bounds every element and is one of them |
| CtaCommon.MinOf | vnpy_ctastrategy/strategies/breakout_strategy.py:156 | `min(...)` is bounded by every element and is one of them |
| CtaCommon.ConfigTable | vnpy_ctastrategy/strategies/breakout_strategy.py:67-112 | daily bars exactly at 1440 minutes, N-hour bars exactly from 60 to 1439 minutes with an array of 25 and 100 to 176 days, and minute bars below 60 always with 100 and 100 (the inner 240/120/60 cases are dead) |
| Breakout.Clamped | vnpy_ctastrategy/strategies/breakout_strategy.py:59-65 | the clamped parameters lie in their ranges |
| Breakout.ClampedSpec | vnpy_ctastrategy/strategies/breakout_strategy.py:59-65 | clamping leaves exactly the in-range parameters unchanged and moves the others to the nearest bound |
| Breakout.ReferenceWindow | vnpy_ctastrategy/strategies/breakout_strategy.py:152-156 | with N+1 bars the breakout reference bounds the N previous highs (lows) and is one of them, the current bar excluded |
| Breakout.ExitOrder | vnpy_ctastrategy/strategies/breakout_strategy.py:227-273 | an exit closes the whole position, selling a long and covering a short |
| Breakout.ExitRules | vnpy_ctastrategy/strategies/breakout_strategy.py:208-275 | the profit flag never falls back; the bar that first reaches the target has no protection exit; protection fires exactly on a reached target and a close back at cost; the stop exactly when protection does not fire and the stop price is hit; no exit exactly when none of the three applies |
| Breakout.BarStepSpec | vnpy_ctastrategy/strategies/breakout_strategy.py:140-206 | nothing before the array manager is ready; in a position the bar count grows by one and only a full close is ordered; flat, only a buy or short of fixed_size, a buy only above every previous high and a short only below every previous low, resetting entry price and bar count |
| Breakout.BreakoutStrategy.constructor | vnpy_ctastrategy/strategies/breakout_strategy.py:22-34 | the parameters are the settings and the variables their class defaults |
| Breakout.BreakoutStrategy.OnInit | vnpy_ctastrategy/strategies/breakout_strategy.py:53-112 | the parameters are clamped, the bar configuration is the table's, variables unchanged |
| Breakout.BreakoutStrategy.OnXminBar | vnpy_ctastrategy/strategies/breakout_strategy.py:140-175 | the new variables and the order are the bar step's |
| Breakout.BreakoutStrategy.CheckEntrySignals | vnpy_ctastrategy/strategies/breakout_strategy.py:177-206 | the entry order and the entry price and count reset exactly when an entry fires |
| Breakout.BreakoutStrategy.CheckExitSignals | vnpy_ctastrategy/strategies/breakout_strategy.py:208-279 | the exit order and the new profit flag are the exit rules', nothing else changes |
| Breakout.BreakoutStrategy.OnTrade | vnpy_ctastrategy/strategies/breakout_strategy.py:287-298 | an opening fill resets entry price, bar count and profit flag; other fills change nothing |
| Ma21Macd.Clamped | vnpy_ctastrategy/strategies/ma21_macd_strategy.py:72-80 | the clamped parameters lie in their ranges |
| Ma21Macd.ClampedSpec | vnpy_ctastrategy/strategies/ma21_macd_strategy.py:72-80 | clamping leaves exactly the in-range parameters unchanged; the 5% stop and 8% trailing defaults are cut to 2% and 5% |
| Ma21Macd.SumBounds | vnpy_ctastrategy/strategies/ma21_macd_strategy.py:134-136 | a sum of n volumes lies between n times their lower and upper bounds |
| Ma21Macd.VolumeMaBounds | vnpy_ctastrategy/strategies/ma21_macd_strategy.py:133-138 | the volume average lies between the smallest and the largest volume of its window |
| Ma21Macd.FirstCross | vnpy_ctastrategy/strategies/ma21_macd_strategy.py:198-211 | the first search loop finds the first cross among the five values, or reports none |
| Ma21Macd.CrossSince | vnpy_ctastrategy/strategies/ma21_macd_strategy.py:213-220 | the second loop reports exactly whether an opposite cross occurs after the first one |
| Ma21Macd.ExitSpec | vnpy_ctastrategy/strategies/ma21_macd_strategy.py:271-307 | a long exits exactly when the low reaches the higher of the fixed and trailing stops, as a fixed-stop exit exactly when the fixed stop is reached; a short mirrors this with highs |
| Ma21Macd.BarStepSpec | vnpy_ctastrategy/strategies/ma21_macd_strategy.py:116-269 | at most one order; the averages are the bar's; in a position the intra-trade high and low are running extremes and only a full close is ordered; flat, a buy or short of fixed_size only when its entry conditions hold on the last five MACD values, resetting entry price and intra-trade range |
| Ma21Macd.Ma21MacdStrategy.constructor | vnpy_ctastrategy/strategies/ma21_macd_strategy.py:21-40 | the parameters are the settings and the variables their class defaults |
| Ma21Macd.Ma21MacdStrategy.OnInit | vnpy_ctastrategy/strategies/ma21_macd_strategy.py:65-87 | the parameters are clamped, variables unchanged |
| Ma21Macd.Ma21MacdStrategy.OnXminBar | vnpy_ctastrategy/strategies/ma21_macd_strategy.py:116-158 | the new variables and orders are the bar step's |
| Ma21Macd.Ma21MacdStrategy.UpdateIndicators | vnpy_ctastrategy/strategies/ma21_macd_strategy.py:128-146 | the indicator and intra-trade updates |
| Ma21Macd.Ma21MacdStrategy.CheckEntrySignals | vnpy_ctastrategy/strategies/ma21_macd_strategy.py:160-185 | the entry check on the last five MACD and signal values |
| Ma21Macd.Ma21MacdStrategy.CheckCrossEntry | vnpy_ctastrategy/strategies/ma21_macd_strategy.py:187-269 | an order of fixed_size 10 beyond the close, and the entry resets, exactly when the entry signal fires |
| Ma21Macd.Ma21MacdStrategy.CheckExitSignals | vnpy_ctastrategy/strategies/ma21_macd_strategy.py:271-307 | the exit order is the exit rule's |
| Ma21Macd.Ma21MacdStrategy.OnTrade | vnpy_ctastrategy/strategies/ma21_macd_strategy.py:315-328 | an opening fill resets entry price and intra-trade range; other fills change nothing |
| DailyMaBreakout.Clamped | vnpy_ctastrategy/strategies/daily_ma_breakout_strategy.py:60-64 | the clamped parameters lie in their ranges |
| DailyMaBreakout.ClampedSpec | vnpy_ctastrategy/strategies/daily_ma_breakout_strategy.py:60-64 | clamping leaves exactly the in-range parameters unchanged and never touches the two stop switches |
| DailyMaBreakout.CrossExclusive | vnpy_ctastrategy/strategies/daily_ma_breakout_strategy.py:190-210 | a bar never crosses the average both ways |
| DailyMaBreakout.ExitPriority | vnpy_ctastrategy/strategies/daily_ma_breakout_strategy.py:229-293 | an opposite cross exits exactly as a reverse-cross exit; a fixed-stop exit needs its switch; with both switches off only the cross exits; the trailing stop exactly when neither cross nor fixed stop applies and it is hit |
| DailyMaBreakout.BarStepSpec | vnpy_ctastrategy/strategies/daily_ma_breakout_strategy.py:146-227 | at most one order and none below N closes; flat, an order exactly on a cross, a buy exactly on an upward cross, of fixed_size, resetting entry price and range; in a position only a full close |
| DailyMaBreakout.EntryReversesAsWritten | vnpy_ctastrategy/strategies/daily_ma_breakout_strategy.py:194-202 | the entry check run against a short would first cover it, then buy |
| DailyMaBreakout.DailyMaBreakoutStrategy.constructor | vnpy_ctastrategy/strategies/daily_ma_breakout_strategy.py:22-34 | the parameters are the settings and the variables their class defaults |
| DailyMaBreakout.DailyMaBreakoutStrategy.OnInit | vnpy_ctastrategy/strategies/daily_ma_breakout_strategy.py:53-117 | the parameters are clamped, the bar configuration is the table's, variables unchanged |
| DailyMaBreakout.DailyMaBreakoutStrategy.OnXminBar | vnpy_ctastrategy/strategies/daily_ma_breakout_strategy.py:146-179 | the new variables and orders are the bar step's |
| DailyMaBreakout.DailyMaBreakoutStrategy.CheckEntrySignals | vnpy_ctastrategy/strategies/daily_ma_breakout_strategy.py:181-227 | the entry check's variables and orders |
| DailyMaBreakout.DailyMaBreakoutStrategy.CheckExitSignals | vnpy_ctastrategy/strategies/daily_ma_breakout_strategy.py:229-293 | the exit order is the exit rule's |
| DailyMaBreakout.DailyMaBreakoutStrategy.OnTrade | vnpy_ctastrategy/strategies/daily_ma_breakout_strategy.py:301-314 | an opening fill resets entry price and intra-trade range; other fills change nothing |
| CsvSignal.Stripped | vnpy_ctastrategy/strategies/csv_signal_strategy.py:181 | each line stripped, one per line |
| CsvSignal.Kept | vnpy_ctastrategy/strategies/csv_signal_strategy.py:166 | the kept lines are non-empty, at most one per line |
| CsvSignal.NonBlankAppend | vnpy_ctastrategy/strategies/csv_signal_strategy.py:166 | appending lines keeps a file's non-blank lines as a prefix of the new ones |
| CsvSignal.LineSignal | vnpy_ctastrategy/strategies/csv_signal_strategy.py:194-211 | a line is a signal exactly when it has at least eight fields whose symbol and strategy name match, and then its fields are its comma split |
| CsvSignal.Classified | vnpy_ctastrategy/strategies/csv_signal_strategy.py:180-211 | the verdict of every non-blank line, in order |
| CsvSignal.Scan | vnpy_ctastrategy/strategies/csv_signal_strategy.py:180-211 | the signals of a range: in range, never a processed line, in strictly increasing line order |
| CsvSignal.ScanSound | vnpy_ctastrategy/strategies/csv_signal_strategy.py:194-210 | every returned signal carries its own line's fields |
| CsvSignal.ScanComplete | vnpy_ctastrategy/strategies/csv_signal_strategy.py:180-211 | the returned lines are exactly the unprocessed signal lines of the range |
| CsvSignal.ScanSplit | vnpy_ctastrategy/strategies/csv_signal_strategy.py:180 | consecutive ranges scan to the concatenation of their signals |
| CsvSignal.ScanPrefix | vnpy_ctastrategy/strategies/csv_signal_strategy.py:180 | lines appended after a range do not change its signals |
| CsvSignal.ScanIgnoresBelow | vnpy_ctastrategy/strategies/csv_signal_strategy.py:188-190 | lines processed below a range do not change its signals |
| CsvSignal.RawClassified | vnpy_ctastrategy/strategies/csv_signal_strategy.py:180-186 | as the loop reads them, a blank raw line is never a signal |
| CsvSignal.BlankLineLosesSignal | vnpy_ctastrategy/strategies/csv_signal_strategy.py:166-225 | as written, with a blank line before a new signal the loop reads the blank raw line instead and moves the count on, so further looks at that file return nothing; the corrected scan returns the signal at once |
| CsvSignal.BlankLineDelaysSignal | vnpy_ctastrategy/strategies/csv_signal_strategy.py:166-186 | as written, once one more non-blank line is appended after that blank line, the next look reads raw line 2 and delivers the held-back signal one look late, storing the count 3 |
| CsvSignal.NewSignalsSpec | vnpy_ctastrategy/strategies/csv_signal_strategy.py:152-232 | without growth nothing is returned and nothing changes; otherwise the count becomes the file's non-blank count, the returned signals are unprocessed matching lines with their own fields, and they join the processed set, which stays below the count |
| CsvSignal.DeliveredOnce | vnpy_ctastrategy/strategies/csv_signal_strategy.py:152-232 | two looks at a growing file return the matching lines from the starting count to the end, each exactly once and in order |
| CsvSignal.Clean | vnpy_ctastrategy/strategies/csv_signal_strategy.py:250-255 | a cleaned field has no full-width space and no surrounding whitespace |
| CsvSignal.CloseVolume | vnpy_ctastrategy/strategies/csv_signal_strategy.py:273-289 | a closing volume never exceeds the signal's volume or the position, and is one of them |
| CsvSignal.ReadFields | vnpy_ctastrategy/strategies/csv_signal_strategy.py:249-258 | the fields are read exactly when there are six and the price and the volume convert |
| CsvSignal.DispatchSpec | vnpy_ctastrategy/strategies/csv_signal_strategy.py:263-296 | 买开 buys at the ask, 卖开 shorts at the bid, 买平 covers at the bid only a short and 卖平 sells at the ask only a long, never more than the position; every other combination orders nothing |
| CsvSignal.SignalOrder | vnpy_ctastrategy/strategies/csv_signal_strategy.py:243-258 | an order needs a last tick and readable fields |
| CsvSignal.Verdicts | vnpy_ctastrategy/strategies/csv_signal_strategy.py:121-122 | one verdict per signal |
| CsvSignal.SignalOrders | vnpy_ctastrategy/strategies/csv_signal_strategy.py:119-122 | at most one order per signal |
| CsvSignal.CloseTwiceInOneTick | vnpy_ctastrategy/strategies/csv_signal_strategy.py:286-291 | the position is not re-read between the signals of one tick, so two full 卖平 signals sell the whole position twice |
| CsvSignal.ScanVerdicts | vnpy_ctastrategy/strategies/csv_signal_strategy.py:180-211 | the scanning loop returns the range's signals and adds exactly their lines to the processed set |
| CsvSignal.ProcessSignals | vnpy_ctastrategy/strategies/csv_signal_strategy.py:121-122 | the signal loop orders what each signal's verdict says, in turn |
| CsvSignal.CsvSignalStrategy.constructor | vnpy_ctastrategy/strategies/csv_signal_strategy.py:40-50 | parameters from the settings, variables at their class defaults |
| CsvSignal.CsvSignalStrategy.OnInit | vnpy_ctastrategy/strategies/csv_signal_strategy.py:55-94 | the processed set is emptied; with a path and a symbol, an empty user strategy name becomes the instance name and an existing file's non-blank lines are counted; nothing else changes |
| CsvSignal.CsvSignalStrategy.CheckNewSignals | vnpy_ctastrategy/strategies/csv_signal_strategy.py:152-232 | the returned signals, the new count and the new processed set are the corrected scan's |
| CsvSignal.CsvSignalStrategy.OnTick | vnpy_ctastrategy/strategies/csv_signal_strategy.py:108-126 | the tick and its ask are remembered and counted, and the orders are those of the new signals at the current position |
| DataReader.DbInterval | vnpy_chartwizard/data_reader.py:96-111 | a stored interval exactly for the nine known timeframes |
| DataReader.IntervalTable | vnpy_chartwizard/data_reader.py:96-152 | a known timeframe is returned unresampled exactly when it is 1m or hourly; minute timeframes read 1-minute bars and resampled ones read 1-minute, daily or weekly bars |
| DataReader.StartBound | vnpy_chartwizard/data_reader.py:114-117 | the lower bound always has a time, extends a given start, and keeps a start that has one |
| DataReader.EndBound | vnpy_chartwizard/data_reader.py:119-122 | the upper bound always has a time, extends a non-empty end, and keeps an end that has one |
| DataReader.BoundsSpec | vnpy_chartwizard/data_reader.py:114-122 | completing a bound twice changes nothing; a bare date gets the start or end of its day; an empty start becomes ` 00:00:00` while an empty end becomes the default end |
| DataReader.Query | vnpy_chartwizard/data_reader.py:52-193 | a query is sent exactly for a known timeframe |
| DataReader.QuerySpec | vnpy_chartwizard/data_reader.py:80-140 | the query's symbol, interval and bounds are the request's, and its exchange is the preprocessor's guess for the symbol, so iron ore and coking coal go to SHFE and bitumen to DCE |
| ChartViewer.SearchTargetSpec | vnpy_chartwizard/backtest_chart_viewer.py:42-47 | `symbol.exchange` gives both parts, anything after a second dot dropped; a bare symbol is on SHFE |
| ChartViewer.MarkerTime | vnpy_chartwizard/backtest_chart_viewer.py:84-89 | the marker time is a prefix of the text of at most 19 characters, the text itself exactly when it is that short |
| ChartViewer.StyleTable | vnpy_chartwizard/backtest_chart_viewer.py:95-117 | green up-arrows exactly for opening buys, red down-arrows exactly for opening sells that are not buys, markers above exactly for sells that are not buys, yellow exactly for trades that are neither, white circles for the closing ones |
| ChartViewer.MarkerOf | vnpy_chartwizard/backtest_chart_viewer.py:84-127 | a marker's time is a short prefix of the trade's time |
| ChartViewer.Markers | vnpy_chartwizard/backtest_chart_viewer.py:80-132 | at most one marker per row |
| ChartViewer.MarkersCount | vnpy_chartwizard/backtest_chart_viewer.py:80-132 | exactly one marker per row that reads |
| ChartViewer.MarkersAllRead | vnpy_chartwizard/backtest_chart_viewer.py:80-128 | when every row reads, marker i is row i's |
| ChartViewer.Missing | vnpy_chartwizard/backtest_chart_viewer.py:74 | the missing columns are exactly the required names the file lacks |
| ChartViewer.LoadMarkersSpec | vnpy_chartwizard/backtest_chart_viewer.py:58-139 | markers exactly when the file exists, has rows and has the four required columns, and then one per row that reads |
| ChartViewer.LoadSigFromTradesCsv | vnpy_chartwizard/backtest_chart_viewer.py:58-135 | the loading loop computes that result |

## Findings

| source | as written | input that shows it | evidently intended | confidence | as-written member | corrected member |
|---|---|---|---|---|---|---|
| vnpy_ctabacktester/engine.py:661-665 | when the CSV preload fails, `run_optimization` returns without clearing `thread` or `optimization_running` | data source "csv" with no file for the symbol: `load_csv_data` is False and the method returns at line 665 | every exit clears the worker thread, as lines 671 and 675-676 do, so a later `start_*` is accepted without a `stop_optimization` first (as written it is refused until then) | not executed | CtaBacktester.PreloadFailureBlocksGuard | CtaBacktester.CorrectedExitsClearThread |
| vnpy_mcdata/mcdata_datafeed.py:285-287 | the year is `symbol.replace(product, "").replace(month, "")`, which also removes a year equal to the month | `rb1212` on SHFE gives `TC.F.SHFE.rb.2012` | `TC.F.SHFE.rb.201212`, the year being the digits before the month | not executed | McData.DatedFutureAsWritten | McData.DatedFuture |
| vnpy_ctastrategy/strategies/csv_signal_strategy.py:166-186 | the new-line range counts non-blank lines but indexes the raw lines, so a blank line shifts it | a file of one line, then a blank line and a matching signal line appended: only raw line 1, the blank one, is read and the count moves to 2, so the signal is held back until another non-blank line is appended, and lost if none is | the range indexes the non-blank lines it counts, so each matching line is delivered once | not executed | CsvSignal.BlankLineLosesSignal | CsvSignal.DeliveredOnce |
| vnpy_chartwizard/preprocess_daily_data.py:208-213 | the resume bound is sent as `start_time.isoformat()` (`T` separator) and compared as text with stored `YYYY-MM-DD HH:MM:SS` rows; the daily call does the same at line 396 | last hourly bar 2024-01-02 10:00:00 and a minute row 2024-01-02 10:05:00: `"2024-01-02 10:05:00" > "2024-01-02T10:00:00"` is false, since `' '` sorts before `'T'`, so no later row of that date is ever aggregated incrementally | every minute row strictly after the last aggregation time is read | not executed | StoreProperties.TextBoundSkipsSameDay | StoreProperties.QueryHas |

The model uses the corrected behaviour in each case:

- `BacktesterEngine.FinishOptimization` reaches `OptimizationExitCorrected`; `OptimizationExitAsWritten` keeps the original.
- `ToMcSymbol` reads the year before the month; `ToMcSymbolAsWritten` keeps the original.
- `CsvSignalStrategy.CheckNewSignals` scans the non-blank lines; `NewSignalsAsWritten` keeps the raw-line indexing.
- `BarStore.Run` resumes strictly after the last stamp, compared as a time; `TextBoundSkipsSameDay` states the text comparison as written.

## Left out

General:

- Files, the SQLite database and JSON files are not modelled. Their contents are inputs (sequences, maps, `Option` for a missing file). Their effects are the new state of the modelled tables and records.
- Qt widgets, charts, logging and printing are left out. They have no effect on the modelled state.
- Threads, `join` timeouts, psutil and `os.cpu_count` are left out. CPU count and memory use are inputs. The thread is a flag. A live thread is a parameter of `StopOptimization`.
- Prices, volumes that the code reads as floats, and percentages are `real`. Floating-point rounding is not modelled, including in `int(50 / (6.5 / N))`, which is modelled as `⌊100·N/13⌋`.
- `strptime` is modelled as strict fixed-width parsing of digits plus calendar validity. Python's acceptance of single-digit fields is not modelled.
- CSV quoting is not modelled: a row is split on commas.
- Case mapping is ASCII only.
- `Strings.IsDigit` and `Strings.IsAlpha` are ASCII only. Python's `str.isdigit` and `str.isalpha`, used in `vnpy_mcdata/mcdata_datafeed.py` (line 348), `vnpy_datamanager/translate_tdx_kline_data.py` (lines 47 and 496) and `vnpy_datamanager/engine.py` (line 426), also accept other Unicode digits and letters; the chart wizard's `[a-zA-Z]` match in `vnpy_ctabacktester/ui/widget.py` is ASCII, as modelled.
- Exchange names are strings. The vn.py `Exchange` enum is a set of names passed in.
- The SQL comparison of the resume bound is text against text. The code writes the bound with `isoformat()`, which has a `T` separator, while stored rows have a space. `Run` filters on timestamps, strictly after the bound, the corrected behaviour; the text comparison is stated on its own (see Findings) and is not threaded through `Run`.
- Dates are proleptic Gregorian from 0001-01-01 to 9999-12-31. An overflow of `timedelta` at the ends of that range is excluded by preconditions, which are stated where they apply.
- Microseconds are not modelled.
- The daily bar of the MultiCharts feed keeps its second, as the code does.

Bar store:

- BarStore.ProcessRun: one `parses` flag says whether the stored last stamp parses, for every interval of the list.
- BarStore.Run: stored minute rows are assumed to parse. The code reads each row with `datetime.fromisoformat` (lines 237 and 422) and `float(...)` (lines 260-271 and 428-436), which raise on text that does not parse or on a NULL cell; `process_symbol` would then catch that and count 0, keeping a forced DELETE. The model's rows are `DateTime` and `real` values, and `Run` folds them even when a date-time is not a valid calendar value.
- StoreProperties.HourlyRerunCollides: holds under the time-stamp resume filter `Run` uses. With the code's text comparison the same-day rows are skipped, so that rerun reads nothing and returns 0 (`TextBoundSkipsSameDay`); `ProcessHourlyRerun` is qualified the same way.
- The unique index on (symbol, exchange, interval, datetime) is compared on the modelled date-time values, not on the stored text.
- Sorting.SortByKey: the contract states sorted and a permutation of the input. The stability of Python's `sorted` is not stated.

Data manager and converters:

- `struct.unpack` of TDX records, the float price fields and the amount scaling are left out. Records enter as decoded integers and prices.
- `conver_all` is left out. It references an undefined `log_callback`.
- Directory walking is left out. The file lists are inputs.
- The text of a converted TDX line is not modelled: the `'{:.2f}'` price and `'{:.1f}'` volume formatting and the epoch column `str(n_date_time.timestamp())` (`translate_tdx_kline_data.py` lines 119-145), which depends on the machine's local time zone. A line is the decoded date, time and record.

Backtester:

- McData.BarHistory: the preconditions `ValidQuote` (no quote dated 0001-01-01) and `ValidRequest` (an end date with a successor) are required for every interval. Only the minute and hour paths shift a time back or step a day forward, so daily requests at those two extreme dates are not modelled.
- TradePairs.GenerateTradePairs: trade volumes are whole lots (`nat`). vn.py's `TradeData.volume` is a float, and fractional volumes are not modelled.
- The BacktestingEngine's own backtest, its statistics and its optimisation runs are left out. So are the datafeed download calls and `query_tick_history`.
- `_load_contract_attributes` is an input map.
- The trade-record saving is left out.

MultiCharts feed:

- The `TCoreAPI` call is the `fetch` parameter.
- `datetime.now` is the `now` parameter.
- The `lru_cache` on `to_mc_symbol` is not modelled. The translation is a pure function, so caching does not change it.

Strategies:

- `ArrayManager` and `BarGenerator` are left out. The indicator values and arrays are parameters.
- `cancel_all`, `put_event`, `write_log` and `load_bar` are left out.
- An order call is a returned `Order`.
- CsvSignal.ReadFields: `float` and `int` parsing are parameters (`parseFloat`, `parseInt`). The price is parsed only to be checked, as in the code.
- CsvSignal.SignalOrders: the position is read once per tick, as in the code. `CloseTwiceInOneTick` shows the resulting double close; the model does not correct it.
- Breakout.BreakoutStrategy.CheckExitSignals: with an entry price of 0 the profit division raises and is caught. This case is modelled as "no change".

Chart viewer:

- The pandas resampling of the data reader (lines 152-177) is left out.
- The data reader's database-path check is left out.
- A `start_date` that is neither None nor a string leaves `start_date_str` unbound. That error path is not modelled; the start is an optional string.
- The chart calls are left out. The marker's `text` field is always empty and is not kept.

=== FILE: aggregation.dfy ===
/**
 * The two streaming folds of the bar preprocessor: ordered one-minute rows
 * become hourly bars (one per maximal run of rows in the same clock hour)
 * and daily bars (one per trading session, closed by the 14:59:00 minute).
 *
 * Each fold is specified by a pure partition of the input (`Runs`,
 * `Segments`) and a per-part bar (`HourBar`, `DailyBar`); the imperative
 * folds `AggregateHourly` and `AggregateDaily` keep the source's running
 * accumulators and are proved equal to those specifications.
 */
module Aggregation {
  import opened Calendar
  import opened Wrappers

  /** One row of the one-minute bar table, with its datetime already parsed. */
  datatype MinuteRow = MinuteRow(time: DateTime, open: real, high: real, low: real, close: real, volume: real)

  /** An aggregated bar as inserted into the bar table (turnover and open interest are always 0). */
  datatype Bar = Bar(time: DateTime, open: real, high: real, low: real, close: real, volume: real,
                     turnover: real, openInterest: real)

  /** A non-empty run of rows: an hour group or a trading session. */
  type Group = g: seq<MinuteRow> | g != [] witness [MinuteRow(DateTime(Date(2000, 1, 1), 0, 0, 0), 0.0, 0.0, 0.0, 0.0, 0.0)]

  /** The initial value of the daily low accumulator. */
  const SeedLow: real := 999999999999999.0

  function Max(a: real, b: real): real { if a >= b then a else b }
  function Min(a: real, b: real): real { if a <= b then a else b }

  function Last<T>(s: seq<T>): T
    requires s != []
  { s[|s| - 1] }

  function Flatten<T>(ss: seq<seq<T>>): seq<T>
  {
    if ss == [] then [] else Flatten(ss[..|ss| - 1]) + Last(ss)
  }

  // ---------------------------------------------------------------------
  // Folds over a group of rows
  // ---------------------------------------------------------------------

  /** Highest high of a non-empty group. */
  function MaxHigh(g: seq<MinuteRow>): real
    requires g != []
  {
    if |g| == 1 then g[0].high else Max(Last(g).high, MaxHigh(g[..|g| - 1]))
  }

  /** Lowest low of a non-empty group. */
  function MinLow(g: seq<MinuteRow>): real
    requires g != []
  {
    if |g| == 1 then g[0].low else Min(Last(g).low, MinLow(g[..|g| - 1]))
  }

  /** The daily high accumulator: a running maximum seeded with 0. */
  function SeededHigh(g: seq<MinuteRow>): real
  {
    if g == [] then 0.0 else Max(Last(g).high, SeededHigh(g[..|g| - 1]))
  }

  /** The daily low accumulator: a running minimum seeded with `SeedLow`. */
  function SeededLow(g: seq<MinuteRow>): real
  {
    if g == [] then SeedLow else Min(Last(g).low, SeededLow(g[..|g| - 1]))
  }

  function SumVolume(g: seq<MinuteRow>): real
  {
    if g == [] then 0.0 else SumVolume(g[..|g| - 1]) + Last(g).volume
  }

  lemma {:induction false} MaxHighIsMaximum(g: seq<MinuteRow>)
    requires g != []
    ensures forall j :: 0 <= j < |g| ==> g[j].high <= MaxHigh(g)
    ensures exists j :: 0 <= j < |g| && g[j].high == MaxHigh(g)
  {
    if |g| > 1 {
      var p := g[..|g| - 1];
      MaxHighIsMaximum(p);
      var j :| 0 <= j < |p| && p[j].high == MaxHigh(p);
      if MaxHigh(g) == Last(g).high {
        assert g[|g| - 1].high == MaxHigh(g);
      } else {
        assert g[j] == p[j];
      }
    } else {
      assert g[0].high == MaxHigh(g);
    }
  }

  lemma {:induction false} MinLowIsMinimum(g: seq<MinuteRow>)
    requires g != []
    ensures forall j :: 0 <= j < |g| ==> MinLow(g) <= g[j].low
    ensures exists j :: 0 <= j < |g| && g[j].low == MinLow(g)
  {
    if |g| > 1 {
      var p := g[..|g| - 1];
      MinLowIsMinimum(p);
      var j :| 0 <= j < |p| && p[j].low == MinLow(p);
      if MinLow(g) == Last(g).low {
        assert g[|g| - 1].low == MinLow(g);
      } else {
        assert g[j] == p[j];
      }
    } else {
      assert g[0].low == MinLow(g);
    }
  }

  /** With the 0 seed, the daily high is the group's highest high unless every high is negative. */
  lemma {:induction false} SeededHighIsMaximum(g: seq<MinuteRow>)
    requires g != []
    ensures SeededHigh(g) == Max(MaxHigh(g), 0.0)
  {
    if |g| > 1 { SeededHighIsMaximum(g[..|g| - 1]); }
  }

  /** With the `SeedLow` seed, the daily low is the group's lowest low unless every low exceeds the seed. */
  lemma {:induction false} SeededLowIsMinimum(g: seq<MinuteRow>)
    requires g != []
    ensures SeededLow(g) == Min(MinLow(g), SeedLow)
  {
    if |g| > 1 { SeededLowIsMinimum(g[..|g| - 1]); }
  }

  /** How each accumulator absorbs one more row. */
  lemma GroupSnoc(g: seq<MinuteRow>, x: MinuteRow)
    ensures g != [] ==> MaxHigh(g + [x]) == Max(x.high, MaxHigh(g)) && MinLow(g + [x]) == Min(x.low, MinLow(g))
    ensures SeededHigh(g + [x]) == Max(x.high, SeededHigh(g)) && SeededLow(g + [x]) == Min(x.low, SeededLow(g))
    ensures SumVolume(g + [x]) == SumVolume(g) + x.volume
    ensures (g + [x])[0] == (if g == [] then x else g[0]) && Last(g + [x]) == x
  {
    assert (g + [x])[..|g|] == g;
  }

  lemma FlattenSnoc<T>(ss: seq<seq<T>>, g: seq<T>)
    ensures Flatten(ss + [g]) == Flatten(ss) + g
  {
    assert (ss + [g])[..|ss|] == ss;
  }

  // ---------------------------------------------------------------------
  // Hourly bars
  // ---------------------------------------------------------------------

  /** The hour a timestamp falls in, as the `YYYY-MM-DD HH:00:00` stamp of its `%Y%m%d %H` key. */
  function HourOf(t: DateTime): (h: DateTime)
    ensures h.date == t.date && h.hour == t.hour && h.minute == 0 && h.second == 0
  { DateTime(t.date, t.hour, 0, 0) }

  predicate SameHour(g: seq<MinuteRow>)
  {
    forall j :: 0 <= j < |g| ==> HourOf(g[j].time) == HourOf(g[0].time)
  }

  /**
   * The maximal runs of consecutive rows sharing an hour key, left to right.
   * A row extends the last run when its hour equals that run's hour.
   */
  function Runs(rows: seq<MinuteRow>): (r: seq<Group>)
    ensures rows == [] <==> r == []
    ensures rows != [] ==> Last(Last(r)) == Last(rows)
  {
    if rows == [] then []
    else
      var p := Runs(rows[..|rows| - 1]);
      var x := Last(rows);
      if p != [] && HourOf(Last(Last(p)).time) == HourOf(x.time) then
        p[..|p| - 1] + [Last(p) + [x]]
      else
        p + [[x]]
  }

  /** Appending one row either extends the last run (same hour) or starts a new one. */
  lemma RunsSnoc(q: seq<MinuteRow>, x: MinuteRow)
    ensures var p := Runs(q);
      Runs(q + [x]) == if p != [] && HourOf(Last(Last(p)).time) == HourOf(x.time)
        then p[..|p| - 1] + [Last(p) + [x]] else p + [[x]]
  {
    assert (q + [x])[..|q|] == q;
  }

  lemma SameHourSnoc(g: seq<MinuteRow>, x: MinuteRow)
    requires g != [] && SameHour(g) && HourOf(Last(g).time) == HourOf(x.time)
    ensures SameHour(g + [x])
  {
    var h := g + [x];
    forall j | 0 <= j < |h| ensures HourOf(h[j].time) == HourOf(h[0].time) {
      if j < |g| { assert h[j] == g[j]; }
    }
  }

  /** Every run lies within one hour. */
  lemma {:induction false} RunsSameHour(rows: seq<MinuteRow>)
    ensures forall k :: 0 <= k < |Runs(rows)| ==> SameHour(Runs(rows)[k])
  {
    if rows != [] {
      var q := rows[..|rows| - 1];
      var x := Last(rows);
      assert rows == q + [x];
      RunsSameHour(q);
      RunsSnoc(q, x);
      var p := Runs(q);
      var r := Runs(rows);
      forall k | 0 <= k < |r| ensures SameHour(r[k]) {
        if k < |p| - 1 {
          assert r[k] == p[k];
        } else if p != [] && HourOf(Last(Last(p)).time) == HourOf(x.time) {
          assert r[k] == Last(p) + [x];
          SameHourSnoc(p[|p| - 1], x);
        } else if k < |p| {
          assert r[k] == p[k];
        } else {
          assert r[k] == [x];
        }
      }
    }
  }

  /** The last run's hour is the hour of the last row. */
  lemma LastRunHour(q: seq<MinuteRow>)
    requires q != []
    ensures HourOf(Last(Runs(q))[0].time) == HourOf(Last(q).time)
  {
    RunsSameHour(q);
    var p := Runs(q);
    var lp := Last(p);
    assert lp == p[|p| - 1];
    assert SameHour(lp);
    assert lp[|lp| - 1] == Last(q);
  }

  /** The bar of one hour group: first open, highest high, lowest low, last close, summed volume. */
  function HourBar(g: seq<MinuteRow>): Bar
    requires g != []
  {
    Bar(HourOf(g[0].time), g[0].open, MaxHigh(g), MinLow(g), Last(g).close, SumVolume(g), 0.0, 0.0)
  }

  function HourBars(runs: seq<Group>): (bars: seq<Bar>)
    ensures |bars| == |runs|
  {
    if runs == [] then [] else HourBars(runs[..|runs| - 1]) + [HourBar(Last(runs))]
  }

  lemma HourBarsSnoc(runs: seq<Group>, g: seq<MinuteRow>)
    requires g != []
    ensures HourBars(runs + [g]) == HourBars(runs) + [HourBar(g)]
  {
    assert (runs + [g])[..|runs|] == runs;
  }

  /** The hourly bars of an ordered minute stream. */
  function HourlyBars(rows: seq<MinuteRow>): (bars: seq<Bar>)
  {
    HourBars(Runs(rows))
  }

  lemma {:induction false} HourBarsAt(runs: seq<Group>, k: nat)
    requires k < |runs|
    ensures HourBars(runs)[k] == HourBar(runs[k])
  {
    if k < |runs| - 1 { HourBarsAt(runs[..|runs| - 1], k); }
  }

  /** The runs partition the rows: concatenated in order they give the input back. */
  lemma {:induction false} RunsPartition(rows: seq<MinuteRow>)
    ensures Flatten(Runs(rows)) == rows
  {
    if rows != [] {
      var q := rows[..|rows| - 1];
      var x := Last(rows);
      assert rows == q + [x];
      var p := Runs(q);
      assert Flatten(p) == q by { RunsPartition(q); }
      if p != [] && HourOf(Last(Last(p)).time) == HourOf(x.time) {
        var init := p[..|p| - 1];
        var g := Last(p);
        assert Runs(rows) == init + [g + [x]] by { RunsSnoc(q, x); }
        assert Flatten(p) == Flatten(init) + g by {
          assert p == init + [g];
          FlattenSnoc(init, g);
        }
        FlattenSnoc(init, g + [x]);
        assert Flatten(init) + (g + [x]) == (Flatten(init) + g) + [x];
      } else {
        assert Runs(rows) == p + [[x]] by { RunsSnoc(q, x); }
        FlattenSnoc(p, [x]);
      }
    }
  }

  /** Neighbouring groups start in different hours. */
  predicate HoursChange(r: seq<Group>)
  {
    forall k :: 0 < k < |r| ==> HourOf(r[k - 1][0].time) != HourOf(r[k][0].time)
  }

  lemma HoursChangeExtend(init: seq<Group>, g: seq<MinuteRow>, x: MinuteRow)
    requires g != [] && HoursChange(init + [g])
    ensures HoursChange(init + [g + [x]])
  {
    var a := init + [g];
    var b := init + [g + [x]];
    assert forall k :: 0 <= k < |b| ==> b[k][0] == a[k][0];
  }

  lemma HoursChangeAppend(p: seq<Group>, x: MinuteRow)
    requires HoursChange(p)
    requires p != [] ==> HourOf(Last(p)[0].time) != HourOf(x.time)
    ensures HoursChange(p + [[x]])
  {
    var b := p + [[x]];
    assert forall k :: 0 <= k < |p| ==> b[k] == p[k];
  }

  /** Runs are maximal: two neighbouring runs never share an hour. */
  lemma {:induction false} RunsMaximal(rows: seq<MinuteRow>)
    ensures HoursChange(Runs(rows))
  {
    if rows != [] {
      var q := rows[..|rows| - 1];
      var x := Last(rows);
      assert rows == q + [x];
      var p := Runs(q);
      RunsMaximal(q);
      RunsSnoc(q, x);
      if p != [] && HourOf(Last(Last(p)).time) == HourOf(x.time) {
        assert p == p[..|p| - 1] + [Last(p)];
        HoursChangeExtend(p[..|p| - 1], Last(p), x);
      } else {
        if p != [] {
          LastRunHour(q);
        }
        HoursChangeAppend(p, x);
      }
    }
  }

  /** The effect of one more row on the runs, as the hourly fold sees it. */
  lemma HourlyStep(q: seq<MinuteRow>, x: MinuteRow)
    requires q != []
    ensures var p := Runs(q); var r := Runs(q + [x]); var b := HourBar(Last(p));
      HourBars(p) == HourBars(p[..|p| - 1]) + [b]
      && b.time == HourOf(Last(q).time)
      && if HourOf(Last(q).time) == HourOf(x.time) then
           r[..|r| - 1] == p[..|p| - 1]
           && HourBar(Last(r)) == b.(high := Max(x.high, b.high), low := Min(x.low, b.low),
                                     close := x.close, volume := b.volume + x.volume)
         else
           r[..|r| - 1] == p && Last(r) == [x]
  {
    var p := Runs(q);
    var r := Runs(q + [x]);
    var lp := Last(p);
    RunsSnoc(q, x);
    assert p == p[..|p| - 1] + [lp];
    HourBarsSnoc(p[..|p| - 1], lp);
    LastRunHour(q);
    if HourOf(Last(q).time) == HourOf(x.time) {
      assert r == p[..|p| - 1] + [lp + [x]];
      GroupSnoc(lp, x);
    } else {
      assert r == p + [[x]];
    }
  }

  /** The hourly fold's variables: the bars emitted so far, the open group's hour key, its accumulators and row count. */
  datatype HourAcc = HourAcc(bars: seq<Bar>, current: Option<DateTime>,
                             open: real, high: real, low: real, close: real, volume: real, index: int)

  /** The variables before the first row. */
  const HourStart := HourAcc([], None, 0.0, 0.0, SeedLow, 0.0, 0.0, 0)

  /**
   * One pass of the hourly loop body: a row with a new hour key flushes the open group (if it
   * has rows) and starts its own; a row with the same key extends high, low, close and volume.
   */
  function HourFeed(a: HourAcc, x: MinuteRow): HourAcc
    requires a.index > 0 ==> a.current.Some?
  {
    var key := HourOf(x.time);
    if a.current != Some(key) then
      HourAcc(if a.index > 0 then a.bars + [Bar(a.current.value, a.open, a.high, a.low, a.close, a.volume, 0.0, 0.0)] else a.bars,
              Some(key), x.open, x.high, x.low, x.close, x.volume, 1)
    else
      a.(high := Max(x.high, a.high), low := Min(x.low, a.low), close := x.close,
         volume := a.volume + x.volume, index := a.index + 1)
  }

  /** The hourly loop's variables after the rows q. */
  function HourFold(q: seq<MinuteRow>): (a: HourAcc)
    ensures a.index > 0 ==> a.current.Some?
  {
    if q == [] then HourStart else HourFeed(HourFold(q[..|q| - 1]), Last(q))
  }

  /** The loop variables in terms of the runs: one bar per closed run, accumulators over the last one. */
  predicate HourState(q: seq<MinuteRow>, a: HourAcc)
  {
    if q == [] then a.bars == [] && a.index == 0 && a.current == None
    else
      var r := Runs(q);
      a.index == |Last(r)| && a.current == Some(HourOf(Last(q).time))
      && a.bars == HourBars(r[..|r| - 1])
      && Bar(a.current.value, a.open, a.high, a.low, a.close, a.volume, 0.0, 0.0) == HourBar(Last(r))
  }

  lemma HourFeedStep(q: seq<MinuteRow>, x: MinuteRow, a: HourAcc)
    requires HourState(q, a)
    ensures a.index > 0 ==> a.current.Some?
    ensures HourState(q + [x], HourFeed(a, x))
  {
    GroupSnoc([], x);
    assert [] + [x] == [x];
    if q == [] {
      RunsSnoc([], x);
    } else {
      HourlyStep(q, x);
      RunsSnoc(q, x);
      var p := Runs(q);
      var r := Runs(q + [x]);
      if a.current == Some(HourOf(x.time)) {
        assert |Last(r)| == |Last(p)| + 1;
      }
    }
  }

  lemma {:induction false} HourFoldState(q: seq<MinuteRow>)
    ensures HourState(q, HourFold(q))
  {
    if q != [] {
      var p := q[..|q| - 1];
      HourFoldState(p);
      HourFeedStep(p, Last(q), HourFold(p));
      assert q == p + [Last(q)];
    }
  }

  /** After the last row, flushing the open group (if it has rows) completes the hourly bars. */
  lemma HourFoldFinal(rows: seq<MinuteRow>)
    ensures var a := HourFold(rows);
      (a.index > 0 ==> a.bars + [Bar(a.current.value, a.open, a.high, a.low, a.close, a.volume, 0.0, 0.0)] == HourlyBars(rows))
      && (a.index <= 0 ==> a.bars == HourlyBars(rows))
  {
    HourFoldState(rows);
    if rows != [] {
      var r := Runs(rows);
      assert r == r[..|r| - 1] + [Last(r)];
      HourBarsSnoc(r[..|r| - 1], Last(r));
    }
  }

  /** The hourly fold as the source writes it: running accumulators, flushed when the hour key changes. */
  method AggregateHourly(rows: seq<MinuteRow>) returns (bars: seq<Bar>)
    ensures bars == HourlyBars(rows)
  {
    bars := [];
    var current: Option<DateTime> := None;
    var open, high, low, close, volume := 0.0, 0.0, SeedLow, 0.0, 0.0;
    var index := 0;
    var i := 0;
    while i < |rows|
      invariant 0 <= i <= |rows|
      invariant HourAcc(bars, current, open, high, low, close, volume, index) == HourFold(rows[..i])
    {
      var row := rows[i];
      var key := HourOf(row.time);
      assert rows[..i + 1][..i] == rows[..i];
      if current != Some(key) {
        if index > 0 {
          bars := bars + [Bar(current.value, open, high, low, close, volume, 0.0, 0.0)];
        }
        current := Some(key);
        open, high, low, close, volume := row.open, row.high, row.low, row.close, row.volume;
        index := 1;
      } else {
        high := Max(row.high, high);
        low := Min(row.low, low);
        close := row.close;
        volume := volume + row.volume;
        index := index + 1;
      }
      i := i + 1;
    }
    assert rows[..i] == rows;
    HourFoldFinal(rows);
    if index > 0 && current.Some? {
      bars := bars + [Bar(current.value, open, high, low, close, volume, 0.0, 0.0)];
    }
  }

  /** Each hourly bar summarises exactly one hour group of the rows. */
  lemma HourlyBarOfRun(rows: seq<MinuteRow>, k: nat)
    requires k < |Runs(rows)|
    ensures var g := Runs(rows)[k]; var b := HourlyBars(rows)[k];
      b.time == HourOf(g[0].time) && b.time.minute == 0 && b.time.second == 0
      && b.open == g[0].open && b.close == Last(g).close && b.volume == SumVolume(g)
      && (forall j :: 0 <= j < |g| ==> b.low <= g[j].low && g[j].high <= b.high)
      && (exists j :: 0 <= j < |g| && g[j].high == b.high)
      && (exists j :: 0 <= j < |g| && g[j].low == b.low)
      && b.turnover == 0.0 && b.openInterest == 0.0
  {
    var g := Runs(rows)[k];
    HourBarsAt(Runs(rows), k);
    MaxHighIsMaximum(g);
    MinLowIsMinimum(g);
  }

  predicate ValidRows(rows: seq<MinuteRow>)
  {
    forall i :: 0 <= i < |rows| ==> ValidDateTime(rows[i].time)
  }

  lemma HourOfMonotone(a: DateTime, b: DateTime)
    requires ValidDateTime(a) && ValidDateTime(b) && Before(a, b)
    ensures AtOrBefore(HourOf(a), HourOf(b))
  {
    var ca := Rank(HourOf(a));
    var cb := Rank(HourOf(b));
    assert Rank(a) == ca + a.minute * 60 + a.second;
    assert Rank(b) == cb + b.minute * 60 + b.second;
    var ha := ((a.date.year * 13 + a.date.month) * 32 + a.date.day) * 24 + a.hour;
    var hb := ((b.date.year * 13 + b.date.month) * 32 + b.date.day) * 24 + b.hour;
    assert ca == ha * 3600 && cb == hb * 3600;
    StepBound(hb, ha, 3600);
  }

  /** A single row makes a single hourly bar. */
  lemma HourlyOne(r: MinuteRow)
    ensures HourlyBars([r]) == [HourBar([r])]
  {
    assert [r][..0] == [];
    assert Runs([r]) == [[r]];
  }

  /** The bar stamps after one more row: the last bar is replaced in the same hour, one new bar is added otherwise. */
  lemma HourlyStamps(q: seq<MinuteRow>, x: MinuteRow)
    requires q != []
    ensures var bp := HourlyBars(q); var b := HourlyBars(q + [x]);
      bp != [] && Last(bp).time == HourOf(Last(q).time)
      && (HourOf(Last(q).time) == HourOf(x.time) ==>
            |b| == |bp| && b[..|b| - 1] == bp[..|bp| - 1] && Last(b).time == Last(bp).time)
      && (HourOf(Last(q).time) != HourOf(x.time) ==> b == bp + [HourBar([x])])
  {
    var p := Runs(q);
    var r := Runs(q + [x]);
    HourlyStep(q, x);
    assert r == r[..|r| - 1] + [Last(r)];
    HourBarsSnoc(r[..|r| - 1], Last(r));
  }

  /**
   * Over a stream in `ORDER BY datetime` order (ties allowed) the hourly bars come out
   * strictly ascending in time, so no two bars of one run of the fold share a timestamp.
   */
  lemma HourlyBarsAscending(rows: seq<MinuteRow>)
    requires ValidRows(rows) && Ascending(rows)
    ensures var b := HourlyBars(rows);
      forall k :: 0 < k < |b| ==> Before(b[k - 1].time, b[k].time)
  {
    if rows != [] {
      assert forall i :: 0 < i < |rows| ==> AtOrBefore(rows[i - 1].time, rows[i].time);
      HourlyAscendingUpTo(rows, |rows|);
      assert rows[..|rows|] == rows;
    }
  }

  lemma {:induction false} HourlyAscendingUpTo(rows: seq<MinuteRow>, n: nat)
    requires 0 < n <= |rows| && ValidRows(rows)
    requires forall i :: 0 < i < |rows| ==> AtOrBefore(rows[i - 1].time, rows[i].time)
    ensures var b := HourlyBars(rows[..n]);
      forall k :: 0 < k < |b| ==> Before(b[k - 1].time, b[k].time)
  {
    if n > 1 {
      var q := rows[..n - 1];
      var x := rows[n - 1];
      var y := rows[n - 2];
      assert rows[..n] == q + [x];
      assert Last(q) == y;
      HourlyAscendingUpTo(rows, n - 1);
      HourlyStamps(q, x);
      var bp := HourlyBars(q);
      var b := HourlyBars(rows[..n]);
      if HourOf(y.time) != HourOf(x.time) {
        if !Before(y.time, x.time) {
          RankInjective(y.time, x.time);
        }
        HourKeysAdvance(y.time, x.time);
        assert b[..|bp|] == bp && Last(b).time == HourOf(x.time);
      }
      AscendingStep(bp, b);
    } else {
      assert rows[..1] == [rows[0]];
      HourlyOne(rows[0]);
    }
  }

  /** Across two different hour keys, time order carries over to the keys. */
  lemma HourKeysAdvance(a: DateTime, b: DateTime)
    requires ValidDateTime(a) && ValidDateTime(b) && Before(a, b) && HourOf(a) != HourOf(b)
    ensures Before(HourOf(a), HourOf(b))
  {
    HourOfMonotone(a, b);
    RankInjective(HourOf(a), HourOf(b));
  }

  /** The order step of `HourlyBarsAscending`: the last bar is replaced by one with the same stamp, or a later one is added. */
  lemma AscendingStep(bp: seq<Bar>, b: seq<Bar>)
    requires forall k :: 0 < k < |bp| ==> Before(bp[k - 1].time, bp[k].time)
    requires bp != []
    requires (|b| == |bp| && b[..|b| - 1] == bp[..|bp| - 1] && Last(b).time == Last(bp).time)
          || (|b| == |bp| + 1 && b[..|bp|] == bp && Before(Last(bp).time, Last(b).time))
    ensures forall k :: 0 < k < |b| ==> Before(b[k - 1].time, b[k].time)
  {
    forall k | 0 < k < |b| ensures Before(b[k - 1].time, b[k].time) {
      if k < |b| - 1 {
        assert b[k - 1] == b[..|b| - 1][k - 1] == bp[k - 1];
        assert b[k] == b[..|b| - 1][k] == bp[k];
      } else if |b| == |bp| {
        assert b[k - 1] == b[..|b| - 1][k - 1] == bp[k - 1];
      } else {
        assert b[k - 1] == b[..|bp|][k - 1] == Last(bp);
      }
    }
  }

  /** A time past the top of its hour comes strictly after its hour key. */
  lemma HourStartBefore(t: DateTime)
    requires ValidDateTime(t) && (t.minute != 0 || t.second != 0)
    ensures Before(HourOf(t), t)
  {
    assert Rank(t) == Rank(HourOf(t)) + t.minute * 60 + t.second;
  }

  /** Rows in `ORDER BY datetime` order, ties allowed. */
  predicate Ascending(rows: seq<MinuteRow>)
  {
    forall i, j :: 0 <= i < j < |rows| ==> Rank(rows[i].time) <= Rank(rows[j].time)
  }

  /** On valid values, a later-or-equal time has a later-or-equal hour key. */
  lemma HourOfAtOrBefore(a: DateTime, b: DateTime)
    requires ValidDateTime(a) && ValidDateTime(b) && AtOrBefore(a, b)
    ensures AtOrBefore(HourOf(a), HourOf(b))
  {
    if Before(a, b) {
      HourOfMonotone(a, b);
    } else {
      RankInjective(a, b);
    }
  }

  /**
   * Over an ordered stream the last hourly bar is stamped with the last row's hour key and no
   * bar is stamped later: this is the timestamp an incremental hourly run resumes from.
   */
  lemma HourlyLastStamp(rows: seq<MinuteRow>)
    requires rows != [] && ValidRows(rows) && Ascending(rows)
    ensures var b := HourlyBars(rows);
      b != [] && Last(b).time == HourOf(Last(rows).time)
      && forall k :: 0 <= k < |b| ==> AtOrBefore(b[k].time, HourOf(Last(rows).time))
  {
    assert forall i :: 0 < i < |rows| ==> AtOrBefore(rows[i - 1].time, rows[i].time);
    HourlyLastStampUpTo(rows, |rows|);
    assert rows[..|rows|] == rows;
  }

  lemma {:induction false} HourlyLastStampUpTo(rows: seq<MinuteRow>, n: nat)
    requires 0 < n <= |rows| && ValidRows(rows)
    requires forall i :: 0 < i < |rows| ==> AtOrBefore(rows[i - 1].time, rows[i].time)
    ensures var b := HourlyBars(rows[..n]);
      b != [] && Last(b).time == HourOf(rows[n - 1].time)
      && forall k :: 0 <= k < |b| ==> AtOrBefore(b[k].time, HourOf(rows[n - 1].time))
  {
    if n == 1 {
      assert rows[..1] == [rows[0]];
      HourlyOne(rows[0]);
    } else {
      var q := rows[..n - 1];
      var x := rows[n - 1];
      assert rows[..n] == q + [x];
      assert Last(q) == rows[n - 2];
      HourlyLastStampUpTo(rows, n - 1);
      HourlyStamps(q, x);
      HourOfAtOrBefore(rows[n - 2].time, x.time);
      StampsBounded(HourlyBars(q), HourlyBars(rows[..n]), HourOf(rows[n - 2].time), HourOf(x.time));
    }
  }

  /** The bound step of `HourlyLastStamp`: keeping a prefix of bounded bars and ending at the new bound. */
  lemma StampsBounded(bp: seq<Bar>, b: seq<Bar>, hy: DateTime, hx: DateTime)
    requires forall k :: 0 <= k < |bp| ==> AtOrBefore(bp[k].time, hy)
    requires AtOrBefore(hy, hx) && b != [] && |b| - 1 <= |bp| && b[..|b| - 1] == bp[..|b| - 1] && Last(b).time == hx
    ensures forall k :: 0 <= k < |b| ==> AtOrBefore(b[k].time, hx)
  {
    forall k | 0 <= k < |b| ensures AtOrBefore(b[k].time, hx) {
      if k < |b| - 1 {
        assert b[k] == b[..|b| - 1][k] == bp[k];
      }
    }
  }

  // ---------------------------------------------------------------------
  // Daily bars
  // ---------------------------------------------------------------------

  /** The session-closing minute: time of day exactly 14:59:00. */
  predicate IsClose(row: MinuteRow) { row.time.hour == 14 && row.time.minute == 59 && row.time.second == 0 }

  /**
   * Trading sessions: the rows split after every 14:59:00 row. A row extends the
   * last segment unless that segment already ends with a closing row.
   */
  function Segments(rows: seq<MinuteRow>): (r: seq<Group>)
    ensures rows == [] <==> r == []
    ensures rows != [] ==> Last(Last(r)) == Last(rows)
  {
    if rows == [] then []
    else
      var p := Segments(rows[..|rows| - 1]);
      var x := Last(rows);
      if p != [] && !IsClose(Last(Last(p))) then
        p[..|p| - 1] + [Last(p) + [x]]
      else
        p + [[x]]
  }

  /** Appending one row either extends the open session or starts a new one after a 14:59:00 row. */
  lemma SegmentsSnoc(q: seq<MinuteRow>, x: MinuteRow)
    ensures var p := Segments(q);
      Segments(q + [x]) == if p != [] && !IsClose(Last(Last(p)))
        then p[..|p| - 1] + [Last(p) + [x]] else p + [[x]]
  {
    assert (q + [x])[..|q|] == q;
  }

  /**
   * The bar of one session. A session closed by 14:59:00 is stamped 15:00:00 of
   * that row's date; the unfinished last session is stamped with its last row's own time.
   */
  function DailyBar(g: seq<MinuteRow>): Bar
    requires g != []
  {
    var stamp := if IsClose(Last(g)) then DateTime(Last(g).time.date, 15, 0, 0) else Last(g).time;
    Bar(stamp, g[0].open, SeededHigh(g), SeededLow(g), Last(g).close, SumVolume(g), 0.0, 0.0)
  }

  function DayBars(segs: seq<Group>): (bars: seq<Bar>)
    ensures |bars| == |segs|
  {
    if segs == [] then [] else DayBars(segs[..|segs| - 1]) + [DailyBar(Last(segs))]
  }

  lemma DayBarsSnoc(segs: seq<Group>, g: seq<MinuteRow>)
    requires g != []
    ensures DayBars(segs + [g]) == DayBars(segs) + [DailyBar(g)]
  {
    assert (segs + [g])[..|segs|] == segs;
  }

  /** The daily bars of an ordered minute stream. */
  function DailyBars(rows: seq<MinuteRow>): seq<Bar>
  {
    DayBars(Segments(rows))
  }

  lemma {:induction false} DayBarsAt(segs: seq<Group>, k: nat)
    requires k < |segs|
    ensures DayBars(segs)[k] == DailyBar(segs[k])
  {
    if k < |segs| - 1 { DayBarsAt(segs[..|segs| - 1], k); }
  }

  /** Segments that the fold has already flushed: all of them unless the last is still open. */
  function Closed(segs: seq<Group>): seq<Group>
  {
    if segs != [] && !IsClose(Last(Last(segs))) then segs[..|segs| - 1] else segs
  }

  /** The rows the daily accumulators currently hold: the open last segment, or nothing. */
  function Pending(segs: seq<Group>): seq<MinuteRow>
  {
    if segs != [] && !IsClose(Last(Last(segs))) then Last(segs) else []
  }

  /** The daily accumulators hold exactly the pending rows g. */
  predicate Holds(g: seq<MinuteRow>, index: int, open: real, high: real, low: real, close: real, volume: real)
  {
    index == |g| && high == SeededHigh(g) && low == SeededLow(g) && volume == SumVolume(g)
    && (g != [] ==> open == g[0].open && close == Last(g).close)
  }

  /** The daily fold's variables: the bars emitted so far and the running accumulators. */
  datatype DayAcc = DayAcc(bars: seq<Bar>, index: int, open: real, high: real, low: real, close: real, volume: real)

  /** The variables before the first row. */
  const DayStart := DayAcc([], 0, 0.0, 0.0, SeedLow, 0.0, 0.0)

  /**
   * One pass of the daily loop body: the row joins the accumulators; the 14:59:00 row then
   * flushes them as a bar stamped 15:00:00 of its date and resets high, low, volume and index.
   */
  function DayFeed(a: DayAcc, x: MinuteRow): DayAcc
  {
    var open := if a.index == 0 then x.open else a.open;
    var high := Max(x.high, a.high);
    var low := Min(x.low, a.low);
    var volume := a.volume + x.volume;
    if IsClose(x) then
      DayAcc(a.bars + [Bar(DateTime(x.time.date, 15, 0, 0), open, high, low, x.close, volume, 0.0, 0.0)],
             0, open, 0.0, SeedLow, x.close, 0.0)
    else DayAcc(a.bars, a.index + 1, open, high, low, x.close, volume)
  }

  /** The daily loop's variables after the rows q. */
  function DayFold(q: seq<MinuteRow>): DayAcc
  {
    if q == [] then DayStart else DayFeed(DayFold(q[..|q| - 1]), Last(q))
  }

  /** The loop variables in terms of the sessions: one bar per flushed session, accumulators over the open one. */
  predicate DayState(q: seq<MinuteRow>, a: DayAcc)
  {
    var s := Segments(q);
    a.bars == DayBars(Closed(s)) && Holds(Pending(s), a.index, a.open, a.high, a.low, a.close, a.volume)
  }

  /** The accumulators absorb one more row of the pending session. */
  lemma HoldsSnoc(g: seq<MinuteRow>, x: MinuteRow, a: DayAcc)
    requires Holds(g, a.index, a.open, a.high, a.low, a.close, a.volume)
    ensures Holds(g + [x], a.index + 1, if a.index == 0 then x.open else a.open,
                  Max(x.high, a.high), Min(x.low, a.low), x.close, a.volume + x.volume)
  {
    GroupSnoc(g, x);
  }

  /** The bar a 14:59:00 row flushes is the daily bar of its session. */
  lemma FlushBar(g: seq<MinuteRow>, x: MinuteRow, a: DayAcc)
    requires Holds(g, a.index, a.open, a.high, a.low, a.close, a.volume) && IsClose(x)
    ensures DayFeed(a, x).bars == a.bars + [DailyBar(g + [x])]
  {
    GroupSnoc(g, x);
  }

  /** One row after an open session: it joins that session, and a 14:59:00 row closes it. */
  lemma DayFeedOpen(q: seq<MinuteRow>, x: MinuteRow, a: DayAcc)
    requires DayState(q, a)
    requires var p := Segments(q); p != [] && !IsClose(Last(Last(p)))
    ensures DayState(q + [x], DayFeed(a, x))
  {
    var p := Segments(q);
    var g := Last(p);
    var init := p[..|p| - 1];
    SegmentsSnoc(q, x);
    var s := Segments(q + [x]);
    assert s == init + [g + [x]];
    assert Pending(p) == g && Closed(p) == init;
    HoldsSnoc(g, x, a);
    if IsClose(x) {
      assert Closed(s) == init + [g + [x]] && Pending(s) == [];
      FlushBar(g, x, a);
      DayBarsSnoc(init, g + [x]);
    } else {
      assert Closed(s) == init && Pending(s) == g + [x];
    }
  }

  /** One row after a closed session (or at the start): it opens a new session. */
  lemma DayFeedFresh(q: seq<MinuteRow>, x: MinuteRow, a: DayAcc)
    requires DayState(q, a)
    requires var p := Segments(q); !(p != [] && !IsClose(Last(Last(p))))
    ensures DayState(q + [x], DayFeed(a, x))
  {
    var p := Segments(q);
    SegmentsSnoc(q, x);
    var s := Segments(q + [x]);
    assert s == p + [[x]];
    assert Pending(p) == [] && Closed(p) == p;
    HoldsSnoc([], x, a);
    assert [] + [x] == [x];
    if IsClose(x) {
      assert Closed(s) == p + [[x]] && Pending(s) == [];
      FlushBar([], x, a);
      DayBarsSnoc(p, [x]);
    } else {
      assert Closed(s) == p && Pending(s) == [x];
    }
  }

  lemma DayFeedStep(q: seq<MinuteRow>, x: MinuteRow, a: DayAcc)
    requires DayState(q, a)
    ensures DayState(q + [x], DayFeed(a, x))
  {
    var p := Segments(q);
    if p != [] && !IsClose(Last(Last(p))) {
      DayFeedOpen(q, x, a);
    } else {
      DayFeedFresh(q, x, a);
    }
  }

  lemma {:induction false} DayFoldState(q: seq<MinuteRow>)
    ensures DayState(q, DayFold(q))
  {
    if q != [] {
      var p := q[..|q| - 1];
      DayFoldState(p);
      DayFeedStep(p, Last(q), DayFold(p));
      assert q == p + [Last(q)];
    }
  }

  /**
   * At the end of the stream the accumulators are non-empty exactly when the last row is
   * not 14:59:00; flushing them, stamped with that row's own time, completes the bars.
   */
  lemma DayFoldFinal(rows: seq<MinuteRow>)
    ensures var a := DayFold(rows);
      (a.index != 0 ==>
        rows != [] && !IsClose(Last(rows))
        && a.bars + [Bar(Last(rows).time, a.open, a.high, a.low, a.close, a.volume, 0.0, 0.0)] == DailyBars(rows))
      && (a.index == 0 ==> a.bars == DailyBars(rows))
  {
    DayFoldState(rows);
    var s := Segments(rows);
    if s != [] && !IsClose(Last(Last(s))) {
      assert s == s[..|s| - 1] + [Last(s)];
      DayBarsSnoc(s[..|s| - 1], Last(s));
    }
  }

  /** The daily fold as the source writes it: flush on the 14:59:00 row, and once more at the end of the stream. */
  method AggregateDaily(rows: seq<MinuteRow>) returns (bars: seq<Bar>)
    ensures bars == DailyBars(rows)
  {
    bars := [];
    var open, high, low, close, volume := 0.0, 0.0, SeedLow, 0.0, 0.0;
    var index := 0;
    var last: Option<MinuteRow> := None;
    var i := 0;
    while i < |rows|
      invariant 0 <= i <= |rows|
      invariant last == (if i == 0 then None else Some(rows[i - 1]))
      invariant DayAcc(bars, index, open, high, low, close, volume) == DayFold(rows[..i])
    {
      var row := rows[i];
      assert rows[..i + 1][..i] == rows[..i];
      if index == 0 {
        open := row.open;
      }
      high := Max(row.high, high);
      low := Min(row.low, low);
      close := row.close;
      volume := volume + row.volume;
      index := index + 1;
      if IsClose(row) {
        bars := bars + [Bar(DateTime(row.time.date, 15, 0, 0), open, high, low, close, volume, 0.0, 0.0)];
        high, low, volume := 0.0, SeedLow, 0.0;
        index := 0;
      }
      last := Some(row);
      i := i + 1;
    }
    assert rows[..i] == rows;
    DayFoldFinal(rows);
    if index != 0 && (last.None? || !IsClose(last.value)) {
      bars := bars + [Bar(last.value.time, open, high, low, close, volume, 0.0, 0.0)];
    }
  }

  /** Every session but the last ends with a 14:59:00 row. */
  lemma {:induction false} SegmentsClosed(rows: seq<MinuteRow>)
    ensures var s := Segments(rows); forall k :: 0 <= k < |s| - 1 ==> IsClose(Last(s[k]))
  {
    if rows != [] {
      var q := rows[..|rows| - 1];
      var x := Last(rows);
      assert rows == q + [x];
      var p := Segments(q);
      SegmentsClosed(q);
      SegmentsSnoc(q, x);
      var s := Segments(rows);
      if p != [] && !IsClose(Last(Last(p))) {
        assert s[..|s| - 1] == p[..|p| - 1];
        forall k | 0 <= k < |s| - 1 ensures IsClose(Last(s[k])) {
          assert s[k] == p[k];
        }
      } else {
        assert s[..|s| - 1] == p;
        forall k | 0 <= k < |s| - 1 ensures IsClose(Last(s[k])) {
          assert s[k] == p[k];
        }
      }
    }
  }

  /** A 14:59:00 row can only be the last row of its session. */
  lemma {:induction false} SegmentsOpenInside(rows: seq<MinuteRow>)
    ensures var s := Segments(rows); forall k, j :: 0 <= k < |s| && 0 <= j < |s[k]| - 1 ==> !IsClose(s[k][j])
  {
    if rows != [] {
      var q := rows[..|rows| - 1];
      var x := Last(rows);
      assert rows == q + [x];
      var p := Segments(q);
      SegmentsOpenInside(q);
      SegmentsSnoc(q, x);
      var s := Segments(rows);
      forall k, j | 0 <= k < |s| && 0 <= j < |s[k]| - 1 ensures !IsClose(s[k][j]) {
        if k < |p| - 1 {
          assert s[k] == p[k];
        } else if p != [] && !IsClose(Last(Last(p))) {
          var lp := p[|p| - 1];
          assert s[k] == lp + [x];
          if j < |lp| - 1 {
            assert s[k][j] == lp[j];
          } else {
            assert s[k][j] == Last(lp);
          }
        } else if k == |p| - 1 {
          assert s[k] == p[k];
        }
      }
    }
  }

  /** Shape of the sessions: a 14:59:00 row can only end a segment, and every segment but the last ends with one. */
  lemma SegmentsShape(rows: seq<MinuteRow>)
    ensures var s := Segments(rows);
      (forall k :: 0 <= k < |s| - 1 ==> IsClose(Last(s[k])))
      && (forall k, j :: 0 <= k < |s| && 0 <= j < |s[k]| - 1 ==> !IsClose(s[k][j]))
  {
    SegmentsClosed(rows);
    SegmentsOpenInside(rows);
  }

  /** The sessions partition the rows: concatenated in order they give the input back. */
  lemma {:induction false} SegmentsPartition(rows: seq<MinuteRow>)
    ensures Flatten(Segments(rows)) == rows
  {
    if rows != [] {
      var q := rows[..|rows| - 1];
      var x := Last(rows);
      assert rows == q + [x];
      var p := Segments(q);
      assert Flatten(p) == q by { SegmentsPartition(q); }
      if p != [] && !IsClose(Last(Last(p))) {
        var init := p[..|p| - 1];
        var g := Last(p);
        assert Segments(rows) == init + [g + [x]] by { SegmentsSnoc(q, x); }
        assert Flatten(p) == Flatten(init) + g by {
          assert p == init + [g];
          FlattenSnoc(init, g);
        }
        FlattenSnoc(init, g + [x]);
        assert Flatten(init) + (g + [x]) == (Flatten(init) + g) + [x];
      } else {
        assert Segments(rows) == p + [[x]] by { SegmentsSnoc(q, x); }
        FlattenSnoc(p, [x]);
      }
    }
  }

  function CountClose(rows: seq<MinuteRow>): nat
  {
    if rows == [] then 0 else CountClose(rows[..|rows| - 1]) + (if IsClose(Last(rows)) then 1 else 0)
  }

  /**
   * One daily bar per 14:59:00 row, plus exactly one extra bar when the stream
   * does not end on 14:59:00 (and none when it does).
   */
  lemma {:induction false} DailyBarCount(rows: seq<MinuteRow>)
    ensures |DailyBars(rows)| == CountClose(rows) + (if rows != [] && !IsClose(Last(rows)) then 1 else 0)
  {
    if rows != [] {
      var q := rows[..|rows| - 1];
      var x := Last(rows);
      assert rows == q + [x];
      DailyBarCount(q);
      SegmentsSnoc(q, x);
      var p := Segments(q);
      if p != [] && !IsClose(Last(Last(p))) {
        assert Last(q) == Last(Last(p));
      }
    }
  }

  /** Every bar of a session closed at 14:59:00 is stamped 15:00:00 of that day and closes at that row's price. */
  lemma DailyBarOfSegment(rows: seq<MinuteRow>, k: nat)
    requires k < |Segments(rows)|
    ensures var g := Segments(rows)[k]; var b := DailyBars(rows)[k];
      b.open == g[0].open && b.close == Last(g).close && b.volume == SumVolume(g)
      && b.high == Max(MaxHigh(g), 0.0) && b.low == Min(MinLow(g), SeedLow)
      && (forall j :: 0 <= j < |g| ==> b.low <= g[j].low && g[j].high <= b.high)
      && (IsClose(Last(g)) ==> b.time == DateTime(Last(g).time.date, 15, 0, 0))
      && (!IsClose(Last(g)) ==> b.time == Last(g).time && k == |Segments(rows)| - 1)
  {
    var g := Segments(rows)[k];
    DayBarsAt(Segments(rows), k);
    SegmentsShape(rows);
    SeededHighIsMaximum(g);
    SeededLowIsMinimum(g);
    MaxHighIsMaximum(g);
    MinLowIsMinimum(g);
  }

  /** The last daily bar is stamped no earlier than the last row it covers. */
  lemma DailyLastStamp(rows: seq<MinuteRow>)
    requires rows != []
    ensures DailyBars(rows) != []
    ensures Rank(Last(rows).time) <= Rank(Last(DailyBars(rows)).time)
  {
    var segs := Segments(rows);
    DayBarsAt(segs, |segs| - 1);
    var x := Last(rows);
    if IsClose(x) {
      assert Rank(DateTime(x.time.date, 15, 0, 0)) == Rank(x.time) + 60;
    }
  }
}

=== FILE: backtester_engine.dfy ===
/**
 * The CSV side of the CTA backtester engine: the interval tables, the
 * cache of bars loaded from `symbol_exchange_interval.csv` files, the
 * reading of one such file into bars (range filter, skipped rows, sort by
 * datetime), the exchange fallback chain, the single-worker guard on the
 * `start_*` calls and the worker-count policy of the optimiser.
 *
 * The files, the contract attribute file and vnpy's `Exchange` enum are
 * parameters: a directory is a map from file name to its rows, and a row is
 * what `csv.DictReader` yields, a map from column name to the cell, `None`
 * where the row was shorter than the header.
 */
module CtaBacktester {
  import opened Wrappers
  import opened Strings
  import opened Calendar
  import opened Sorting
  import opened VnpyCsv

  // ---------------------------------------------------------------------------
  // Interval tables
  // ---------------------------------------------------------------------------

  /** vnpy's `Interval` members this engine produces. */
  datatype Interval = Minute | Hour | Daily | Weekly | Tick

  /** `Interval.value`. */
  function IntervalValue(i: Interval): String
  {
    match i
    case Minute => "1m"
    case Hour => "1h"
    case Daily => "d"
    case Weekly => "w"
    case Tick => "tick"
  }

  datatype Mode = BarMode | TickMode

  /**
   * The mode and interval `start_backtesting` and `run_optimization` hand to
   * the engine for a UI interval: tick data in tick mode, every other name
   * in bar mode with unknown names read as minutes.
   */
  function EngineInterval(interval: String): (Mode, Interval)
  {
    if interval == IntervalValue(Tick) then (TickMode, Tick)
    else if interval in ["1m", "5m", "15m", "30m"] then (BarMode, Minute)
    else if interval in ["1h", "4h"] then (BarMode, Hour)
    else if interval == "d" then (BarMode, Daily)
    else (BarMode, Minute)
  }

  /** The interval `_load_history_from_csv` stamps on each bar. */
  function CsvBarInterval(interval: String): Interval
  {
    if interval in ["1m", "5m", "15m", "30m"] then Minute
    else if interval in ["1h", "4h"] then Hour
    else if interval == "d" then Daily
    else if interval == "w" then Weekly
    else if interval == "tick" then Tick
    else Minute
  }

  /**
   * Tick mode is chosen exactly for "tick", and the bars read from CSV carry
   * the interval the engine runs with, except for "w": the engine runs a
   * weekly request as minutes while the bars say weekly.
   */
  lemma IntervalTablesAgree(interval: String)
    ensures (EngineInterval(interval).0 == TickMode) <==> interval == "tick"
    ensures interval != "w" ==> CsvBarInterval(interval) == EngineInterval(interval).1
    ensures interval == "w" ==> CsvBarInterval(interval) == Weekly && EngineInterval(interval).1 == Minute
    ensures EngineInterval(interval).1 == Hour <==> interval == "1h" || interval == "4h"
    ensures EngineInterval(interval).1 == Daily <==> interval == "d"
  {
  }

  /** `csv_interval_mapping`: UI interval to file-name suffix. */
  const CsvIntervalMapping: map<String, String> :=
    map["1m" := "1m", "5m" := "5m", "15m" := "15m", "30m" := "30m", "1h" := "1h", "4h" := "4h", "d" := "d"]

  /** `csv_interval_mapping.get(interval, interval)`: every entry maps a name to itself. */
  function CsvSuffix(interval: String): (r: String)
    ensures r == interval
  {
    if interval in CsvIntervalMapping then CsvIntervalMapping[interval] else interval
  }

  // ---------------------------------------------------------------------------
  // Bars and the reading of one CSV file
  // ---------------------------------------------------------------------------

  datatype Bar = Bar(symbol: String, exchange: String, datetime: DateTime, interval: Interval,
                     volume: real, turnover: real, openInterest: real,
                     open: real, high: real, low: real, close: real)

  /** One `csv.DictReader` row: `None` is the filler for cells missing from a short row. */
  type CsvRecord = map<String, Option<String>>

  /** What the engine reads besides the bar file itself. */
  datatype CsvSource = CsvSource(
    files: map<String, seq<CsvRecord>>,        // the CSV directory: file name to rows
    attributes: map<String, Option<String>>,   // contract_attribute.json: symbol to its `exchange` entry
    exchanges: set<String>,                    // the member names of vnpy's `Exchange`
    parseFloat: String -> Option<real>)        // `float(text)`, None where it raises ValueError

  /** The text before the first '.', or all of it. */
  function SymbolPart(vtSymbol: String): String
  {
    if '.' in vtSymbol then Split(vtSymbol, '.')[0] else vtSymbol
  }

  /**
   * `_get_exchange_from_contract_attributes`: the contract file's exchange
   * for the symbol if it names one, else the `vt_symbol` suffix; a name
   * that is not an `Exchange` member gives SHFE, and so does having neither.
   */
  function ExchangeOf(vtSymbol: String, src: CsvSource): String
  {
    var symbol := SymbolPart(vtSymbol);
    if symbol in src.attributes && src.attributes[symbol].Some? && src.attributes[symbol].value != [] then
      var name := src.attributes[symbol].value;
      if name in src.exchanges then name else "SHFE"
    else if '.' in vtSymbol then
      var name := SuffixPart(vtSymbol);
      if name in src.exchanges then name else "SHFE"
    else "SHFE"
  }

  /** `vt_symbol.split('.')[1]`, which exists once the text holds a '.'. */
  function SuffixPart(vtSymbol: String): String
    requires '.' in vtSymbol
  {
    SplitAtSeparator(vtSymbol, '.');
    Split(vtSymbol, '.')[1]
  }

  /**
   * The exchange is always an `Exchange` member or SHFE. The contract file
   * decides whenever it has an entry for the symbol, even one that is not a
   * member (which then gives SHFE although the suffix may be valid); the
   * suffix is consulted only without such an entry.
   */
  lemma ExchangeOfSpec(vtSymbol: String, src: CsvSource)
    ensures ExchangeOf(vtSymbol, src) in src.exchanges || ExchangeOf(vtSymbol, src) == "SHFE"
    ensures var symbol := SymbolPart(vtSymbol);
      symbol in src.attributes && src.attributes[symbol].Some? && src.attributes[symbol].value != [] ==>
        ExchangeOf(vtSymbol, src) == (if src.attributes[symbol].value in src.exchanges then src.attributes[symbol].value else "SHFE")
    ensures var symbol := SymbolPart(vtSymbol);
      !(symbol in src.attributes && src.attributes[symbol].Some? && src.attributes[symbol].value != []) ==>
        ExchangeOf(vtSymbol, src) == (if '.' in vtSymbol && SuffixPart(vtSymbol) in src.exchanges then SuffixPart(vtSymbol) else "SHFE")
  {
  }

  /** A string holding the separator splits into at least two parts. */
  lemma {:induction false} SplitAtSeparator(s: String, sep: char)
    requires sep in s
    ensures |Split(s, sep)| >= 2
    decreases |s|
  {
    if s[0] != sep {
      assert sep in s[1..] by {
        var i :| 0 <= i < |s| && s[i] == sep;
        assert s[1..][i - 1] == sep;
      }
      SplitAtSeparator(s[1..], sep);
    }
  }

  /** A cell read as a number: its value, a skipped row, or a whole-file failure. */
  datatype Cell = Value(v: real) | Skipped | Fatal

  /**
   * `float(row[name])`, or `float(row.get(name, d))` when the column has
   * the default d: a missing column raises KeyError (the row is skipped),
   * a `None` filler raises TypeError (which ends the whole file), and text
   * that is not a number raises ValueError (the row is skipped).
   */
  function ReadCell(row: CsvRecord, name: String, default: Option<real>, parseFloat: String -> Option<real>): Cell
  {
    if name !in row then (if default.Some? then Value(default.value) else Skipped)
    else if row[name].None? then Fatal
    else match parseFloat(row[name].value)
      case Some(v) => Value(v)
      case None => Skipped
  }

  /** The numeric cells in the order `BarData(...)` evaluates them; the first failure decides. */
  function ReadCells(row: CsvRecord, names: seq<(String, Option<real>)>, parseFloat: String -> Option<real>): (r: Result<seq<real>, Cell>)
    ensures r.Ok? ==> |r.value| == |names|
    ensures r.Err? ==> !r.error.Value?
  {
    if names == [] then Ok([])
    else match ReadCell(row, names[0].0, names[0].1, parseFloat)
      case Value(v) =>
        (match ReadCells(row, names[1..], parseFloat)
         case Ok(vs) => Ok([v] + vs)
         case Err(e) => Err(e))
      case e => Err(e)
  }

  const NumericColumns: seq<(String, Option<real>)> :=
    [("volume", None), ("turnover", Some(0.0)), ("open_interest", Some(0.0)),
     ("open", None), ("high", None), ("low", None), ("close", None)]

  /** What one row contributes: a bar, nothing, or the end of the file. */
  datatype RowResult = Keep(bar: Bar) | Skip | Abort

  /**
   * The body of the row loop: the `datetime` cell parsed with
   * `%Y-%m-%d %H:%M:%S`, rows outside [start, end] passed over, then the
   * numeric cells.
   */
  function ReadRow(row: CsvRecord, vtSymbol: String, interval: String, start: DateTime, end: DateTime, src: CsvSource): RowResult
  {
    if "datetime" !in row then Skip
    else if row["datetime"].None? then Abort
    else match ParseDash(row["datetime"].value)
      case None => Skip
      case Some(dt) =>
        if Before(dt, start) || Before(end, dt) then Skip
        else match ReadCells(row, NumericColumns, src.parseFloat)
          case Err(e) => if e == Fatal then Abort else Skip
          case Ok(v) =>
            Keep(Bar(Split(vtSymbol, '.')[0], ExchangeOf(vtSymbol, src), dt, CsvBarInterval(interval),
                     v[0], v[1], v[2], v[3], v[4], v[5], v[6]))
  }

  /** The outcome of each row, in file order. */
  function Results(rows: seq<CsvRecord>, vtSymbol: String, interval: String, start: DateTime, end: DateTime, src: CsvSource): (r: seq<RowResult>)
    ensures |r| == |rows|
    ensures forall i :: 0 <= i < |rows| ==> r[i] == ReadRow(rows[i], vtSymbol, interval, start, end, src)
  {
    seq(|rows|, i requires 0 <= i < |rows| => ReadRow(rows[i], vtSymbol, interval, start, end, src))
  }

  /** The bars of the kept rows, in file order. */
  function Kept(results: seq<RowResult>): seq<Bar>
  {
    if results == [] then []
    else
      var r := results[|results| - 1];
      Kept(results[..|results| - 1]) + (if r.Keep? then [r.bar] else [])
  }

  function BarRank(b: Bar): int { Rank(b.datetime) }

  /** `_load_history_from_csv` as a value: [] once any row fails fatally, else the kept bars sorted by datetime. */
  function History(rows: seq<CsvRecord>, vtSymbol: String, interval: String, start: DateTime, end: DateTime, src: CsvSource): seq<Bar>
  {
    var results := Results(rows, vtSymbol, interval, start, end, src);
    if Abort in results then [] else SortByKey(Kept(results), BarRank)
  }

  /** A bar is kept exactly when some row yields it. */
  lemma {:induction false} KeptMembers(results: seq<RowResult>, b: Bar)
    ensures b in Kept(results) <==> Keep(b) in results
  {
    if results != [] {
      var init := results[..|results| - 1];
      KeptMembers(init, b);
      assert results == init + [results[|results| - 1]];
    }
  }

  /** A kept row's bar lies in [start, end] and has the symbol, exchange and interval of the request. */
  lemma ReadRowKeep(row: CsvRecord, vtSymbol: String, interval: String, start: DateTime, end: DateTime, src: CsvSource)
    requires ReadRow(row, vtSymbol, interval, start, end, src).Keep?
    ensures var b := ReadRow(row, vtSymbol, interval, start, end, src).bar;
      AtOrBefore(start, b.datetime) && AtOrBefore(b.datetime, end) && ValidDateTime(b.datetime)
      && b.exchange == ExchangeOf(vtSymbol, src) && b.interval == CsvBarInterval(interval)
  {
  }

  /**
   * The loaded history is sorted by datetime and is empty once a row fails
   * fatally; otherwise it holds exactly the bars of the rows that parsed and
   * lie in [start, end], each as often as its row occurs.
   */
  lemma HistorySpec(rows: seq<CsvRecord>, vtSymbol: String, interval: String, start: DateTime, end: DateTime, src: CsvSource, b: Bar)
    ensures var h := History(rows, vtSymbol, interval, start, end, src);
      var results := Results(rows, vtSymbol, interval, start, end, src);
      && SortedByKey(h, BarRank)
      && (Abort in results ==> h == [])
      && (Abort !in results ==> multiset(h) == multiset(Kept(results)))
      && (b in h <==> (Abort !in results && Keep(b) in results))
      && (b in h ==> AtOrBefore(start, b.datetime) && AtOrBefore(b.datetime, end) && b.exchange == ExchangeOf(vtSymbol, src))
  {
    var results := Results(rows, vtSymbol, interval, start, end, src);
    KeptMembers(results, b);
    var k := Kept(results);
    assert b in SortByKey(k, BarRank) <==> b in multiset(SortByKey(k, BarRank));
    assert b in k <==> b in multiset(k);
    if b in History(rows, vtSymbol, interval, start, end, src) {
      var i :| 0 <= i < |results| && results[i] == Keep(b);
      ReadRowKeep(rows[i], vtSymbol, interval, start, end, src);
    }
  }

  /** The row loop of `_load_history_from_csv` followed by the sort. */
  method LoadHistoryFromCsv(rows: seq<CsvRecord>, vtSymbol: String, interval: String, start: DateTime, end: DateTime, src: CsvSource)
    returns (historyData: seq<Bar>)
    ensures historyData == History(rows, vtSymbol, interval, start, end, src)
  {
    ghost var results := Results(rows, vtSymbol, interval, start, end, src);
    historyData := [];
    for k := 0 to |rows|
      invariant historyData == Kept(results[..k])
      invariant Abort !in results[..k]
    {
      assert results[..k + 1] == results[..k] + [results[k]];
      var r := ReadRow(rows[k], vtSymbol, interval, start, end, src);
      if r == Abort {
        return [];
      }
      if r.Keep? {
        historyData := historyData + [r.bar];
      }
    }
    assert results[..|rows|] == results;
    historyData := SortByKey(historyData, BarRank);
  }

  // ---------------------------------------------------------------------------
  // The cache
  // ---------------------------------------------------------------------------

  /** `%Y%m%d_%H%M%S`. */
  function KeyStamp(t: DateTime): (s: String)
    requires ValidDateTime(t)
    ensures |s| == 15
  {
    CompactDate(t.date) + "_" + Pad(t.hour, 2) + Pad(t.minute, 2) + Pad(t.second, 2)
  }

  /** `f"{symbol}_{interval}_{start:%Y%m%d_%H%M%S}_{end:%Y%m%d_%H%M%S}"`. */
  function CacheKey(symbol: String, interval: String, start: DateTime, end: DateTime): String
    requires ValidDateTime(start) && ValidDateTime(end)
  {
    symbol + "_" + interval + "_" + KeyStamp(start) + "_" + KeyStamp(end)
  }

  /** Different date-times have different stamps. */
  lemma KeyStampInjective(a: DateTime, b: DateTime)
    requires ValidDateTime(a) && ValidDateTime(b) && KeyStamp(a) == KeyStamp(b)
    ensures a == b
  {
    var s, t := KeyStamp(a), KeyStamp(b);
    assert s[..8] == CompactDate(a.date) && t[..8] == CompactDate(b.date);
    CompactDateInjective(a.date, b.date);
    assert s[9..11] == Pad(a.hour, 2) && t[9..11] == Pad(b.hour, 2);
    assert s[11..13] == Pad(a.minute, 2) && t[11..13] == Pad(b.minute, 2);
    assert s[13..] == Pad(a.second, 2) && t[13..] == Pad(b.second, 2);
    PadInjective(a.hour, b.hour, 2);
    PadInjective(a.minute, b.minute, 2);
    PadInjective(a.second, b.second, 2);
  }

  lemma PadInjective(m: nat, n: nat, w: nat)
    requires m < Power10(w) && n < Power10(w) && Pad(m, w) == Pad(n, w)
    ensures m == n
  {
    NumPad(m, w);
    NumPad(n, w);
  }

  lemma CompactDateInjective(d: Date, e: Date)
    requires ValidDate(d) && ValidDate(e) && CompactDate(d) == CompactDate(e)
    ensures d == e
  {
    CompactDateRead(d);
    CompactDateRead(e);
  }

  /** Two strings without the separator, each followed by it, split apart uniquely. */
  lemma SeparatedPrefix(a: String, c: String, b: String, d: String, sep: char)
    requires sep !in a && sep !in b && a + [sep] + c == b + [sep] + d
    ensures a == b && c == d
  {
    var x, y := a + [sep] + c, b + [sep] + d;
    if |a| < |b| {
      SeparatorAt(a, sep, c);
      assert false;
    } else if |b| < |a| {
      SeparatorAt(b, sep, d);
      assert false;
    }
    assert a == x[..|a|] && b == y[..|b|];
    assert c == x[|a| + 1..] && d == y[|b| + 1..];
  }

  lemma SeparatorAt(a: String, sep: char, c: String)
    ensures (a + [sep] + c)[|a|] == sep
  {
  }

  /** A key ends in the two fixed-width stamps. */
  lemma CacheKeyParts(symbol: String, interval: String, start: DateTime, end: DateTime)
    requires ValidDateTime(start) && ValidDateTime(end)
    ensures var k := CacheKey(symbol, interval, start, end);
      |k| >= 32 && k[..|k| - 32] == symbol + "_" + interval
      && k[|k| - 31..|k| - 16] == KeyStamp(start) && k[|k| - 15..] == KeyStamp(end)
  {
    StampedParts(symbol + "_" + interval, KeyStamp(start), KeyStamp(end));
  }

  /** A prefix followed by two separated 15-character stamps splits back into them. */
  lemma StampedParts(p: String, sa: String, sb: String)
    requires |sa| == 15 && |sb| == 15
    ensures var k := p + "_" + sa + "_" + sb;
      |k| >= 32 && k[..|k| - 32] == p && k[|k| - 31..|k| - 16] == sa && k[|k| - 15..] == sb
  {
    var k := p + "_" + sa + "_" + sb;
    assert k == p + ("_" + sa + "_" + sb);
    assert |k| == |p| + 32;
    assert k[..|p|] == p;
    assert k[|p| + 1..|p| + 16] == sa;
    assert k[|p| + 17..] == sb;
  }

  /**
   * For symbols without '_', a cache key names one request: a hit is
   * served the bars of the same symbol, interval and range. (A symbol
   * holding '_' can collide: "a_b" with "c" and "a" with "b_c".)
   */
  lemma CacheKeyInjective(s1: String, i1: String, a1: DateTime, b1: DateTime, s2: String, i2: String, a2: DateTime, b2: DateTime)
    requires ValidDateTime(a1) && ValidDateTime(b1) && ValidDateTime(a2) && ValidDateTime(b2)
    requires '_' !in s1 && '_' !in s2
    requires CacheKey(s1, i1, a1, b1) == CacheKey(s2, i2, a2, b2)
    ensures s1 == s2 && i1 == i2 && a1 == a2 && b1 == b2
  {
    CacheKeyParts(s1, i1, a1, b1);
    CacheKeyParts(s2, i2, a2, b2);
    KeyStampInjective(a1, a2);
    KeyStampInjective(b1, b2);
    SeparatedPrefix(s1, i1, s2, i2, '_');
  }

  /** The file a request reads: `f"{symbol}_{exchange}_{csv_interval}.csv"`. */
  function CsvFileName(vtSymbol: String, interval: String): String
  {
    var exchange := if '.' in vtSymbol then (var parts := Split(vtSymbol, '.'); if |parts| >= 2 then parts[1] else "") else "";
    SymbolPart(vtSymbol) + "_" + exchange + "_" + CsvSuffix(interval) + ".csv"
  }

  /** No cached list is empty. */
  predicate NoEmptyEntry(cache: map<String, seq<Bar>>)
  {
    forall k :: k in cache ==> cache[k] != []
  }

  /** The outcome of `load_csv_data`: its answer, the new cache, and the bars handed to the engine (None: untouched). */
  datatype Loaded = Loaded(success: bool, cache: map<String, seq<Bar>>, data: Option<seq<Bar>>)

  /**
   * `load_csv_data` as a value: a cached key answers at once; otherwise a
   * missing file or an empty history fails and leaves everything as it
   * was, and a non-empty history is cached and handed over.
   */
  function Load(cache: map<String, seq<Bar>>, vtSymbol: String, interval: String, start: DateTime, end: DateTime, src: CsvSource): Loaded
    requires ValidDateTime(start) && ValidDateTime(end)
  {
    var key := CacheKey(SymbolPart(vtSymbol), interval, start, end);
    if key in cache then Loaded(true, cache, Some(cache[key]))
    else
      var name := CsvFileName(vtSymbol, interval);
      if name !in src.files then Loaded(false, cache, None)
      else
        var h := History(src.files[name], vtSymbol, interval, start, end, src);
        if h == [] then Loaded(false, cache, None) else Loaded(true, cache[key := h], Some(h))
  }

  /**
   * A load keeps every cached entry, adds at most the request's key, caches
   * only non-empty lists, and succeeds exactly when it hands non-empty bars
   * over (given a cache without empty lists); a failure changes nothing.
   */
  lemma LoadSpec(cache: map<String, seq<Bar>>, vtSymbol: String, interval: String, start: DateTime, end: DateTime, src: CsvSource)
    requires ValidDateTime(start) && ValidDateTime(end)
    requires NoEmptyEntry(cache)
    ensures var l := Load(cache, vtSymbol, interval, start, end, src);
      var key := CacheKey(SymbolPart(vtSymbol), interval, start, end);
      && NoEmptyEntry(l.cache)
      && (forall k :: k in cache ==> k in l.cache && l.cache[k] == cache[k])
      && l.cache.Keys <= cache.Keys + {key}
      && (l.success <==> l.data.Some?)
      && (l.success ==> key in l.cache && l.data == Some(l.cache[key]) && l.data.value != [])
      && (!l.success ==> l.cache == cache)
  {
  }

  /** After a successful load, the same request is a cache hit giving the same bars, whatever the files hold by then. */
  lemma LoadThenHit(cache: map<String, seq<Bar>>, vtSymbol: String, interval: String, start: DateTime, end: DateTime, src: CsvSource, later: CsvSource)
    requires ValidDateTime(start) && ValidDateTime(end)
    requires Load(cache, vtSymbol, interval, start, end, src).success
    ensures var l := Load(cache, vtSymbol, interval, start, end, src);
      Load(l.cache, vtSymbol, interval, start, end, later) == l
  {
  }

  /** The data of a fresh load is the file's history: sorted and within the requested range. */
  lemma LoadedBarsInRange(vtSymbol: String, interval: String, start: DateTime, end: DateTime, src: CsvSource, b: Bar)
    requires ValidDateTime(start) && ValidDateTime(end)
    ensures var l := Load(map[], vtSymbol, interval, start, end, src);
      l.data.Some? ==> SortedByKey(l.data.value, BarRank) && (b in l.data.value ==> AtOrBefore(start, b.datetime) && AtOrBefore(b.datetime, end))
  {
    var name := CsvFileName(vtSymbol, interval);
    if name in src.files {
      HistorySpec(src.files[name], vtSymbol, interval, start, end, src, b);
    }
  }

  /** `sum(len(data) for data in cache.values())`. */
  ghost function TotalRecords(cache: map<String, seq<Bar>>): nat
    decreases |cache|
  {
    if cache == map[] then 0
    else
      var k :| k in cache;
      assert (cache - {k}).Keys == cache.Keys - {k};
      |cache[k]| + TotalRecords(cache - {k})
  }

  /** The total does not depend on the order in which keys are taken. */
  lemma {:induction false} TotalRecordsRemove(cache: map<String, seq<Bar>>, k: String)
    requires k in cache
    ensures TotalRecords(cache) == |cache[k]| + TotalRecords(cache - {k})
    decreases |cache|
  {
    var j :| j in cache && TotalRecords(cache) == |cache[j]| + TotalRecords(cache - {j});
    if j != k {
      var rest := cache - {j};
      assert rest.Keys == cache.Keys - {j};
      TotalRecordsRemove(rest, k);
      assert (rest - {k}) == (cache - {k}) - {j};
      assert (cache - {k}).Keys == cache.Keys - {k};
      TotalRecordsRemove(cache - {k}, j);
    }
  }

  /** With no empty list cached, there are at least as many records as keys. */
  lemma {:induction false} RecordsAtLeastKeys(cache: map<String, seq<Bar>>)
    requires NoEmptyEntry(cache)
    ensures TotalRecords(cache) >= |cache|
    decreases |cache|
  {
    if cache != map[] {
      var k :| k in cache;
      TotalRecordsRemove(cache, k);
      assert (cache - {k}).Keys == cache.Keys - {k};
      RecordsAtLeastKeys(cache - {k});
    }
  }

  function Restrict(cache: map<String, seq<Bar>>, keys: set<String>): map<String, seq<Bar>>
  {
    map k | k in cache && k in keys :: cache[k]
  }

  // ---------------------------------------------------------------------------
  // Worker exits
  // ---------------------------------------------------------------------------

  /**
   * How `run_backtesting` or `run_downloading` ends: through one of its `return`s or its last
   * line, or by an exception nothing catches (strategy lookup, `load_data`, the result
   * statistics, the `Interval(...)` of a download request).
   */
  datatype TaskExit = TaskFinished | TaskRaised

  /**
   * How `run_optimization` ends: the four exits the code writes, or an exception raised after
   * its try block (`generate_settings`, the optimiser run) that nothing catches.
   */
  datatype OptimizationExit = PreloadFailed | HistoryEmpty | LoadRaised | Completed | OptimizerRaised

  /**
   * `thread` and `optimization_running` after `run_optimization` ends, as written, from the
   * values they had: the CSV preload failure returns without touching either, the empty-history
   * exit clears only the thread, the load failure and the completed run clear both, and an
   * uncaught exception leaves both as they were.
   */
  function OptimizationExitAsWritten(e: OptimizationExit, thread: bool, running: bool): (bool, bool)
  {
    match e
    case PreloadFailed => (thread, running)
    case HistoryEmpty => (false, running)
    case LoadRaised => (false, false)
    case Completed => (false, false)
    case OptimizerRaised => (thread, running)
  }

  /**
   * As written, the failed CSV preload is the one exit the code writes that leaves a set worker
   * thread set, like an uncaught exception does; so every later `start_*` is refused until
   * `stop_optimization` clears it.
   */
  lemma PreloadFailureBlocksGuard(running: bool)
    ensures OptimizationExitAsWritten(PreloadFailed, true, running) == (true, running)
    ensures forall e: OptimizationExit, r: bool ::
      OptimizationExitAsWritten(e, true, r).0 <==> e == PreloadFailed || e == OptimizerRaised
  {
  }

  /**
   * The exits with the preload failure corrected to clear the worker thread, as the empty-history
   * exit right after it does.
   */
  function OptimizationExitCorrected(e: OptimizationExit, thread: bool, running: bool): (bool, bool)
  {
    if e == PreloadFailed then (false, running) else OptimizationExitAsWritten(e, thread, running)
  }

  /**
   * Corrected, only an uncaught exception leaves the worker thread set, and only the preload
   * failure differs from the code as written.
   */
  lemma CorrectedExitsClearThread()
    ensures forall e: OptimizationExit, t: bool, r: bool :: OptimizationExitCorrected(e, t, r).0 <==> e == OptimizerRaised && t
    ensures forall e: OptimizationExit, r: bool ::
      OptimizationExitCorrected(e, true, r) == OptimizationExitAsWritten(e, true, r) <==> e != PreloadFailed
  {
  }

  // ---------------------------------------------------------------------------
  // Worker count
  // ---------------------------------------------------------------------------

  function Min(a: int, b: int): int { if a <= b then a else b }

  function Max(a: int, b: int): int { if a >= b then a else b }

  /**
   * The `max_workers` the optimiser runs with: 0 means half the CPUs,
   * between 1 and 4; none given means min(2, cpus); more than 1000 settings
   * cap it at 2; memory use above 85% forces 1 (`memoryPercent` is None
   * when the resource check found nothing).
   */
  function MaxWorkers(requested: Option<int>, cpuCount: nat, settingsCount: nat, memoryPercent: Option<real>): int
  {
    var w0 := if requested == Some(0) then Min(4, Max(1, cpuCount / 2))
              else if requested.None? then Min(2, cpuCount)
              else requested.value;
    var w1 := if settingsCount > 1000 then Min(w0, 2) else w0;
    if memoryPercent.Some? && memoryPercent.value > 85.0 then 1 else w1
  }

  /**
   * The policy never raises a positive request, keeps the "unlimited"
   * choice between 1 and 4, and stays at most 2 for a large search space
   * and at 1 under memory pressure; otherwise a positive request is used
   * as given.
   */
  lemma MaxWorkersSpec(requested: Option<int>, cpuCount: nat, settingsCount: nat, memoryPercent: Option<real>)
    requires cpuCount >= 1
    ensures var w := MaxWorkers(requested, cpuCount, settingsCount, memoryPercent);
      && (requested != Some(0) && requested.Some? && requested.value > 0 ==> w <= requested.value)
      && (requested == Some(0) ==> 1 <= w <= 4)
      && (requested.None? ==> 1 <= w <= 2 && w <= cpuCount)
      && (settingsCount > 1000 ==> w <= 2)
      && (memoryPercent.Some? && memoryPercent.value > 85.0 ==> w == 1)
      && (requested.Some? && requested.value > 0 && settingsCount <= 1000 && !(memoryPercent.Some? && memoryPercent.value > 85.0) ==> w == requested.value)
  {
  }

  // ---------------------------------------------------------------------------
  // The engine
  // ---------------------------------------------------------------------------

  /** The one field of vnpy's `BacktestingEngine` this engine writes. */
  class BacktestingEngine {
    var historyData: seq<Bar>

    constructor()
      ensures historyData == []
    {
      historyData := [];
    }
  }

  class BacktesterEngine {
    var csvDataCache: map<String, seq<Bar>>
    var thread: bool                 // a worker thread is set
    var optimizationRunning: bool

    predicate Valid()
      reads this
    {
      NoEmptyEntry(csvDataCache)
    }

    constructor()
      ensures Valid() && csvDataCache == map[] && !thread && !optimizationRunning
    {
      csvDataCache := map[];
      thread := false;
      optimizationRunning := false;
    }

    /** `load_csv_data`. */
    method LoadCsvData(engine: BacktestingEngine, vtSymbol: String, interval: String, start: DateTime, end: DateTime, src: CsvSource)
      returns (success: bool)
      requires ValidDateTime(start) && ValidDateTime(end)
      requires Valid()
      modifies this`csvDataCache, engine
      ensures Valid()
      ensures var l := Load(old(csvDataCache), vtSymbol, interval, start, end, src);
        && success == l.success && csvDataCache == l.cache
        && engine.historyData == (if l.data.Some? then l.data.value else old(engine.historyData))
    {
      LoadSpec(csvDataCache, vtSymbol, interval, start, end, src);
      var symbol := if '.' in vtSymbol then Split(vtSymbol, '.')[0] else vtSymbol;
      var cacheKey := CacheKey(symbol, interval, start, end);
      if cacheKey in csvDataCache {
        engine.historyData := csvDataCache[cacheKey];
        return true;
      }
      var exchange := "";
      if '.' in vtSymbol {
        var parts := Split(vtSymbol, '.');
        if |parts| >= 2 {
          exchange := parts[1];
        }
      }
      var csvInterval := if interval in CsvIntervalMapping then CsvIntervalMapping[interval] else interval;
      var csvFilename := symbol + "_" + exchange + "_" + csvInterval + ".csv";
      if csvFilename !in src.files {
        return false;
      }
      var historyData := LoadHistoryFromCsv(src.files[csvFilename], vtSymbol, interval, start, end, src);
      if historyData == [] {
        return false;
      }
      csvDataCache := csvDataCache[cacheKey := historyData];
      engine.historyData := historyData;
      return true;
    }

    /** `clear_csv_cache`. */
    method ClearCsvCache()
      modifies this`csvDataCache
      ensures csvDataCache == map[] && Valid()
    {
      csvDataCache := map[];
    }

    /** `get_csv_cache_info`: the key count, the record total and the keys. */
    method CsvCacheInfo() returns (cachedKeys: nat, totalRecords: nat, cacheKeys: set<String>)
      requires Valid()
      ensures cachedKeys == |csvDataCache| && cacheKeys == csvDataCache.Keys
      ensures totalRecords == TotalRecords(csvDataCache) && totalRecords >= cachedKeys
    {
      RecordsAtLeastKeys(csvDataCache);
      totalRecords := 0;
      var keys := csvDataCache.Keys;
      assert Restrict(csvDataCache, keys) == csvDataCache;
      while keys != {}
        invariant keys <= csvDataCache.Keys
        invariant totalRecords + TotalRecords(Restrict(csvDataCache, keys)) == TotalRecords(csvDataCache)
        decreases |keys|
      {
        var k :| k in keys;
        TotalRecordsRemove(Restrict(csvDataCache, keys), k);
        assert Restrict(csvDataCache, keys) - {k} == Restrict(csvDataCache, keys - {k});
        totalRecords := totalRecords + |csvDataCache[k]|;
        keys := keys - {k};
      }
      assert Restrict(csvDataCache, {}) == map[];
      cachedKeys := |csvDataCache|;
      cacheKeys := csvDataCache.Keys;
    }

    /** The guard of `start_backtesting` and `start_downloading`: refuse while a worker thread is set, else set one. */
    method StartTask() returns (started: bool)
      modifies this`thread
      ensures started == !old(thread) && thread
    {
      if thread {
        return false;
      }
      thread := true;
      return true;
    }

    /** `start_optimization`: the same guard, also raising `optimization_running`. */
    method StartOptimization() returns (started: bool)
      modifies this`thread, this`optimizationRunning
      ensures started == !old(thread) && thread
      ensures optimizationRunning == (old(optimizationRunning) || started)
    {
      if thread {
        return false;
      }
      optimizationRunning := true;
      thread := true;
      return true;
    }

    /**
     * The end of `run_backtesting` or `run_downloading`: every written exit clears the worker
     * thread; an uncaught exception leaves it as it was.
     */
    method FinishTask(e: TaskExit)
      modifies this`thread
      ensures thread == (e == TaskRaised && old(thread))
    {
      if e == TaskFinished {
        thread := false;
      }
    }

    /**
     * The end of `run_optimization`, with the preload failure clearing the worker thread like
     * every other written exit; an uncaught exception changes nothing.
     */
    method FinishOptimization(e: OptimizationExit)
      modifies this`thread, this`optimizationRunning
      ensures (thread, optimizationRunning) == OptimizationExitCorrected(e, old(thread), old(optimizationRunning))
    {
      match e
      case PreloadFailed =>
        thread := false;
      case HistoryEmpty =>
        thread := false;
      case LoadRaised =>
        thread, optimizationRunning := false, false;
      case Completed =>
        thread, optimizationRunning := false, false;
      case OptimizerRaised =>
    }

    /**
     * However `run_optimization` ended, except by an uncaught exception while a worker thread
     * was set, the next `start_backtesting` or `start_downloading` starts; after that exception
     * it is refused.
     */
    method FinishThenStartTask(e: OptimizationExit) returns (started: bool)
      modifies this`thread, this`optimizationRunning
      ensures started == !(e == OptimizerRaised && old(thread)) && thread
    {
      FinishOptimization(e);
      started := StartTask();
    }

    /**
     * The same for the next `start_optimization`, which raises `optimization_running` when it
     * starts; refused after the uncaught exception, it leaves the flag as that exit left it.
     */
    method FinishThenStartOptimization(e: OptimizationExit) returns (started: bool)
      modifies this`thread, this`optimizationRunning
      ensures started == !(e == OptimizerRaised && old(thread)) && thread
      ensures optimizationRunning == (started || old(optimizationRunning))
    {
      FinishOptimization(e);
      started := StartOptimization();
    }

    /**
     * `stop_optimization`: nothing to stop without a worker thread or a running
     * optimisation; otherwise a live thread is asked to stop, and the thread
     * is cleared.
     */
    method StopOptimization(alive: bool) returns (stopped: bool)
      modifies this`thread, this`optimizationRunning
      ensures stopped == (old(thread) && old(optimizationRunning))
      ensures stopped ==> !thread && optimizationRunning == (old(optimizationRunning) && !alive)
      ensures !stopped ==> thread == old(thread) && optimizationRunning == old(optimizationRunning)
    {
      if !thread || !optimizationRunning {
        return false;
      }
      if alive {
        optimizationRunning := false;
      }
      thread := false;
      return true;
    }

    /**
     * Out of the state the preload failure leaves as written (worker thread and
     * `optimization_running` both set), `stop_optimization` succeeds whether or not the thread
     * is still alive, and the next `start_backtesting` or `start_downloading` starts.
     */
    method StopThenStart(alive: bool) returns (stopped: bool, started: bool)
      requires thread && optimizationRunning
      modifies this`thread, this`optimizationRunning
      ensures stopped && started && thread
    {
      stopped := StopOptimization(alive);
      started := StartTask();
    }
  
    /**
     * A backtest or download that ends by an uncaught exception, with no optimisation flagged,
     * leaves its worker thread set for good: `stop_optimization` finds no optimisation to stop,
     * and every `start_*` after it is refused.
     */
    method RaisedTaskBlocksStarts(alive: bool) returns (stopped: bool, started: bool, startedOptimization: bool)
      requires thread && !optimizationRunning
      modifies this`thread, this`optimizationRunning
      ensures !stopped && !started && !startedOptimization && thread && !optimizationRunning
    {
      FinishTask(TaskRaised);
      stopped := StopOptimization(alive);
      started := StartTask();
      startedOptimization := StartOptimization();
    }
  }
}

=== FILE: backtester_widget.dfy ===
/**
 * The data-handling parts of the backtester window: the symbol list built
 * from CSV file names for one interval, the product code derived from a
 * `vt_symbol`, and the split of daily net PnL into the profit and loss bars
 * of the result chart.
 */
module BacktesterWidget {
  import opened Wrappers
  import opened Strings
  import opened Sorting

  // ---------------------------------------------------------------------------
  // get_csv_symbols_for_interval
  // ---------------------------------------------------------------------------

  /**
   * The `sym.exch` a file name contributes: a `.csv` name not starting with
   * `contract_attribute`, split on `_` without its extension into at least
   * three parts whose third is the interval.
   */
  function CsvEntry(filename: String, interval: String): (r: Option<String>)
  {
    if EndsWith(filename, ".csv") && !StartsWith(filename, "contract_attribute") then
      var parts := Split(filename[..|filename| - 4], '_');
      if |parts| >= 3 && parts[2] == interval then Some(parts[0] + "." + parts[1]) else None
    else None
  }

  /** The symbols of a listing in first-seen order, each once. */
  function Listed(listing: seq<String>, interval: String): (r: seq<String>)
  {
    if listing == [] then []
    else
      var before := Listed(listing[..|listing| - 1], interval);
      var e := CsvEntry(listing[|listing| - 1], interval);
      if e.Some? && e.value !in before then before + [e.value] else before
  }

  /** The listed symbols have no repeats and are exactly the entries of the listing's files. */
  lemma {:induction false} ListedSpec(listing: seq<String>, interval: String, x: String)
    ensures Distinct(Listed(listing, interval))
    ensures x in Listed(listing, interval) <==> exists i :: 0 <= i < |listing| && CsvEntry(listing[i], interval) == Some(x)
  {
    if listing != [] {
      var init := listing[..|listing| - 1];
      ListedSpec(init, interval, x);
      if exists i :: 0 <= i < |listing| && CsvEntry(listing[i], interval) == Some(x) {
        var i :| 0 <= i < |listing| && CsvEntry(listing[i], interval) == Some(x);
        if i < |init| {
          assert init[i] == listing[i];
        }
      }
      if x in Listed(init, interval) {
        var i :| 0 <= i < |init| && CsvEntry(init[i], interval) == Some(x);
        assert listing[i] == init[i];
      }
      var e := CsvEntry(listing[|listing| - 1], interval);
      if e.Some? && e.value == x {
        assert CsvEntry(listing[|listing| - 1], interval) == Some(x);
      }
    }
  }

  /**
   * `get_csv_symbols_for_interval`: [] when the CSV path is empty or
   * missing, otherwise the listed symbols, sorted.
   */
  method CsvSymbolsForInterval(pathExists: bool, listing: seq<String>, interval: String) returns (symbols: seq<String>)
    ensures symbols == (if pathExists then SortStrings(Listed(listing, interval)) else [])
  {
    symbols := [];
    if !pathExists {
      return;
    }
    for k := 0 to |listing|
      invariant symbols == Listed(listing[..k], interval)
    {
      assert listing[..k + 1][..k] == listing[..k];
      var filename := listing[k];
      if EndsWith(filename, ".csv") && !StartsWith(filename, "contract_attribute") {
        var parts := Split(filename[..|filename| - 4], '_');
        if |parts| >= 3 && parts[2] == interval {
          var fullSymbol := parts[0] + "." + parts[1];
          if fullSymbol !in symbols {
            symbols := symbols + [fullSymbol];
          }
        }
      }
    }
    assert listing[..|listing|] == listing;
    symbols := SortStrings(symbols);
  }

  /** The symbol list is sorted, has no repeats, and holds exactly what the matching files name. */
  lemma CsvSymbolsSpec(listing: seq<String>, interval: String, x: String)
    ensures var r := SortStrings(Listed(listing, interval));
      && SortedStrings(r) && Distinct(r)
      && (x in r <==> exists i :: 0 <= i < |listing| && CsvEntry(listing[i], interval) == Some(x))
  {
    var l := Listed(listing, interval);
    ListedSpec(listing, interval, x);
    SortKeepsDistinct(l);
    assert x in SortStrings(l) <==> x in multiset(SortStrings(l));
    assert x in l <==> x in multiset(l);
  }

  // ---------------------------------------------------------------------------
  // update_contract_attributes: the product code
  // ---------------------------------------------------------------------------

  /** Codes the window writes in upper case: the index and treasury futures. */
  const UpperCodes: seq<String> := ["if", "ih", "ic", "im", "t", "tf", "tl", "ts"]

  /**
   * The product code of a `vt_symbol`: "" without a '.', otherwise the
   * code of the leading ASCII letters of the part before the first '.'.
   */
  function SymbolCode(vtSymbol: String): String
  {
    var vt := Strip(vtSymbol);
    if '.' !in vt then "" else CodeOf(LeadingLetters(Split(vt, '.')[0]))
  }

  /**
   * For `vt_symbol = letters + rest + "." + exchange` with no surrounding
   * whitespace, `rest` not starting with a letter and no '.' before the
   * exchange, the code is the code of `letters`.
   */
  lemma SymbolCodeOfParts(letters: String, rest: String, exchange: String)
    requires forall i :: 0 <= i < |letters| ==> IsAlpha(letters[i])
    requires rest == [] || !IsAlpha(rest[0])
    requires NoChar(letters + rest, '.')
    requires var vt := letters + rest + "." + exchange; !IsSpace(vt[0]) && !IsSpace(vt[|vt| - 1])
    ensures SymbolCode(letters + rest + "." + exchange) == CodeOf(letters)
  {
    var base := letters + rest;
    var vt := base + "." + exchange;
    assert StripLeft(vt) == vt;
    assert StripRight(vt) == vt;
    assert vt[|base|] == '.';
    SplitFirstPiece(base, '.', exchange);
    LeadingLettersOf(letters, rest);
  }

  /** `^([a-zA-Z]+)` on letters followed by something that does not start with a letter. */
  lemma {:induction false} LeadingLettersOf(letters: String, rest: String)
    requires forall i :: 0 <= i < |letters| ==> IsAlpha(letters[i])
    requires rest == [] || !IsAlpha(rest[0])
    ensures LeadingLetters(letters + rest) == letters
  {
    if letters == [] {
      assert letters + rest == rest;
    } else {
      assert (letters + rest)[0] == letters[0];
      assert (letters + rest)[1..] == letters[1..] + rest;
      LeadingLettersOf(letters[1..], rest);
    }
  }

  /** The first example of the window's own comment: `rb8888.SHFE` gives `rb`. */
  lemma SymbolCodeRebar()
    ensures SymbolCode("rb8888.SHFE") == "rb"
  {
    SymbolCodeOfParts("rb", "8888", "SHFE");
    assert "rb" + "8888" + "." + "SHFE" == "rb8888.SHFE";
    assert Lower("rb") == "rb" && "rb" !in UpperCodes;
  }

  /** The index future of the same comment: `IF8888.CFFEX` gives `IF`, upper case again. */
  lemma SymbolCodeIndex()
    ensures SymbolCode("IF8888.CFFEX") == "IF"
  {
    SymbolCodeOfParts("IF", "8888", "CFFEX");
    assert "IF" + "8888" + "." + "CFFEX" == "IF8888.CFFEX";
    assert Lower("IF") == "if" == UpperCodes[0];
    assert Upper("if") == "IF";
  }

  /** Without a '.' there is no code. */
  lemma SymbolCodeNoDot(vtSymbol: String)
    requires NoChar(vtSymbol, '.')
    ensures SymbolCode(vtSymbol) == ""
  {
    StripNoChar(vtSymbol, '.');
  }

  /** `match.group(1).lower()`, upper-cased again for the index and treasury futures. */
  function CodeOf(letters: String): String
  {
    if letters == [] then ""
    else
      var code := Lower(letters);
      if code in UpperCodes then Upper(code) else code
  }

  lemma LowerUpperLower(c: char)
    requires IsAlpha(c)
    ensures LowerChar(UpperChar(LowerChar(c))) == LowerChar(c)
  {
  }

  /**
   * The code spells the leading letters without regard to case: all lower
   * case, or all upper case for one of the listed codes; it is "" exactly
   * when there are no letters.
   */
  lemma CodeOfSpec(letters: String)
    requires forall i :: 0 <= i < |letters| ==> IsAlpha(letters[i])
    ensures var code := CodeOf(letters);
      && |code| == |letters|
      && (forall i :: 0 <= i < |code| ==> LowerChar(code[i]) == LowerChar(letters[i]))
      && (Lower(letters) in UpperCodes ==> forall i :: 0 <= i < |code| ==> IsUpper(code[i]))
      && (Lower(letters) !in UpperCodes ==> forall i :: 0 <= i < |code| ==> IsLower(code[i]))
  {
    if letters != [] {
      var code := Lower(letters);
      forall i | 0 <= i < |letters| ensures LowerChar(Upper(code)[i]) == LowerChar(letters[i]) {
        LowerUpperLower(letters[i]);
      }
    }
  }

  // ---------------------------------------------------------------------------
  // BacktesterChart.set_data: the daily PnL bars
  // ---------------------------------------------------------------------------

  /** The day indices whose net PnL is non-negative (profit) or negative (loss), in order. */
  function Days(pnl: seq<real>, profit: bool): (r: seq<nat>)
    ensures forall i :: 0 <= i < |r| ==> r[i] < |pnl|
  {
    if pnl == [] then []
    else Days(pnl[..|pnl| - 1], profit) + (if (pnl[|pnl| - 1] >= 0.0) == profit then [|pnl| - 1] else [])
  }

  /**
   * The day indices are increasing, a day is a profit bar exactly when its
   * PnL is at least 0 and a loss bar exactly when it is below 0, so every
   * day is drawn once.
   */
  lemma {:induction false} DaysSpec(pnl: seq<real>, profit: bool)
    ensures var d := Days(pnl, profit);
      && (forall i :: 0 <= i < |d| ==> d[i] < |pnl| && (pnl[d[i]] >= 0.0) == profit)
      && (forall i, j :: 0 <= i < j < |d| ==> d[i] < d[j])
      && (forall k :: 0 <= k < |pnl| ==> (k in d <==> (pnl[k] >= 0.0) == profit))
  {
    if pnl != [] {
      var init := pnl[..|pnl| - 1];
      DaysSpec(init, profit);
      var d := Days(pnl, profit);
      var di := Days(init, profit);
      assert forall i :: 0 <= i < |d| ==> d[i] == (if i < |di| then di[i] else |pnl| - 1);
      assert forall k :: 0 <= k < |init| ==> init[k] == pnl[k];
    }
  }

  /** Together the two bar series cover all days. */
  lemma {:induction false} DaysCount(pnl: seq<real>)
    ensures |Days(pnl, true)| + |Days(pnl, false)| == |pnl|
  {
    if pnl != [] {
      DaysCount(pnl[..|pnl| - 1]);
    }
  }

  /** The loop filling the profit and loss bar lists. */
  method PnlBars(pnl: seq<real>) returns (profitX: seq<nat>, profitHeight: seq<real>, lossX: seq<nat>, lossHeight: seq<real>)
    ensures profitX == Days(pnl, true) && lossX == Days(pnl, false)
    ensures |profitHeight| == |profitX| && forall i :: 0 <= i < |profitX| ==> profitHeight[i] == pnl[profitX[i]]
    ensures |lossHeight| == |lossX| && forall i :: 0 <= i < |lossX| ==> lossHeight[i] == pnl[lossX[i]]
  {
    profitX, profitHeight, lossX, lossHeight := [], [], [], [];
    for count := 0 to |pnl|
      invariant profitX == Days(pnl[..count], true) && lossX == Days(pnl[..count], false)
      invariant |profitHeight| == |profitX| && forall i :: 0 <= i < |profitX| ==> profitHeight[i] == pnl[profitX[i]]
      invariant |lossHeight| == |lossX| && forall i :: 0 <= i < |lossX| ==> lossHeight[i] == pnl[lossX[i]]
    {
      assert pnl[..count + 1][..count] == pnl[..count];
      if pnl[count] >= 0.0 {
        profitHeight := profitHeight + [pnl[count]];
        profitX := profitX + [count];
      } else {
        lossHeight := lossHeight + [pnl[count]];
        lossX := lossX + [count];
      }
    }
    assert pnl[..|pnl|] == pnl;
  }
}

=== FILE: bar_store.dfy ===
/**
 * The bar preprocessor's use of its SQLite store: the bar table and the
 * overview table as in-memory sequences, the choice between a fresh, a
 * forced and an incremental aggregation, the insert of the folded bars and
 * the overview upsert, and `process_symbol`, which runs the hourly and daily
 * aggregations named in its interval list.
 *
 * `Run` is the pure specification of one aggregation call, which either
 * returns the number of rows it inserted or raises when the insert breaks
 * the bar table's unique index; `ProcessRun` catches such an exception,
 * counts 0 for that interval and goes on. The class `BarDatabase` performs
 * the same steps in place and is proved to end in the state `Run` describes.
 */
module BarStore {
  import opened Strings
  import opened Calendar
  import opened Wrappers
  import opened Sorting
  import opened Aggregation

  /** The `interval` column values the preprocessor reads and writes: '1m', '1h' and 'd'. */
  datatype Interval = Minute | Hour | Day

  /** A row of the bar table. */
  datatype StoredBar = StoredBar(symbol: String, exchange: String, interval: Interval, bar: Bar)

  /** A row of the overview table. */
  datatype Overview = Overview(symbol: String, exchange: String, interval: Interval, count: nat,
                               start: DateTime, end: DateTime)

  /** Both tables together. */
  datatype Tables = Tables(bars: seq<StoredBar>, overviews: seq<Overview>)

  predicate OfKey(b: StoredBar, symbol: String, exchange: String, iv: Interval)
  {
    b.symbol == symbol && b.exchange == exchange && b.interval == iv
  }

  /** `SELECT … WHERE symbol = ? AND exchange = ? AND interval = ?`, in table order. */
  function Select(t: seq<StoredBar>, symbol: String, exchange: String, iv: Interval): (r: seq<StoredBar>)
  {
    if t == [] then []
    else Select(t[..|t| - 1], symbol, exchange, iv)
         + (if OfKey(Last(t), symbol, exchange, iv) then [Last(t)] else [])
  }

  /** `DELETE FROM dbbardata WHERE symbol = ? AND exchange = ? AND interval = ?`. */
  function Delete(t: seq<StoredBar>, symbol: String, exchange: String, iv: Interval): (r: seq<StoredBar>)
  {
    if t == [] then []
    else Delete(t[..|t| - 1], symbol, exchange, iv)
         + (if OfKey(Last(t), symbol, exchange, iv) then [] else [Last(t)])
  }

  /** `MAX(datetime)` over some rows (None when there are none). */
  function Latest(t: seq<StoredBar>): (r: Option<DateTime>)
    ensures r.None? <==> t == []
  {
    if t == [] then None
    else
      var m := Latest(t[..|t| - 1]);
      if m.None? || Rank(m.value) <= Rank(Last(t).bar.time) then Some(Last(t).bar.time) else m
  }

  /** `MIN(datetime)` over some rows (None when there are none). */
  function Earliest(t: seq<StoredBar>): (r: Option<DateTime>)
    ensures r.None? <==> t == []
  {
    if t == [] then None
    else
      var m := Earliest(t[..|t| - 1]);
      if m.None? || Rank(Last(t).bar.time) < Rank(m.value) then Some(Last(t).bar.time) else m
  }

  function RowOf(b: StoredBar): MinuteRow
  {
    MinuteRow(b.bar.time, b.bar.open, b.bar.high, b.bar.low, b.bar.close, b.bar.volume)
  }

  function RowsOf(t: seq<StoredBar>): (r: seq<MinuteRow>)
  {
    if t == [] then [] else RowsOf(t[..|t| - 1]) + [RowOf(Last(t))]
  }

  /** The rows strictly after `since` (all rows when there is no bound). */
  function After(t: seq<StoredBar>, since: Option<DateTime>): (r: seq<StoredBar>)
  {
    if t == [] then []
    else After(t[..|t| - 1], since)
         + (if since.None? || Before(since.value, Last(t).bar.time) then [Last(t)] else [])
  }

  function TimeKey(r: MinuteRow): int { Rank(r.time) }

  /**
   * The minute query of both aggregators: the '1m' rows of the contract, strictly after
   * `since` when a resume point is given, `ORDER BY datetime`.
   */
  function QueryMinutes(t: seq<StoredBar>, symbol: String, exchange: String, since: Option<DateTime>): seq<MinuteRow>
  {
    SortByKey(RowsOf(After(Select(t, symbol, exchange, Minute), since)), TimeKey)
  }

  lemma {:induction false} SelectMembers(t: seq<StoredBar>, symbol: String, exchange: String, iv: Interval)
    ensures forall b :: b in Select(t, symbol, exchange, iv) <==> b in t && OfKey(b, symbol, exchange, iv)
  {
    if t != [] {
      SelectMembers(t[..|t| - 1], symbol, exchange, iv);
      assert t == t[..|t| - 1] + [Last(t)];
    }
  }

  lemma {:induction false} DeleteMembers(t: seq<StoredBar>, symbol: String, exchange: String, iv: Interval)
    ensures forall b :: b in Delete(t, symbol, exchange, iv) <==> b in t && !OfKey(b, symbol, exchange, iv)
  {
    if t != [] {
      DeleteMembers(t[..|t| - 1], symbol, exchange, iv);
      assert t == t[..|t| - 1] + [Last(t)];
    }
  }

  lemma {:induction false} AfterMembers(t: seq<StoredBar>, since: Option<DateTime>)
    ensures forall b :: b in After(t, since) <==> b in t && (since.None? || Before(since.value, b.bar.time))
  {
    if t != [] {
      AfterMembers(t[..|t| - 1], since);
      assert t == t[..|t| - 1] + [Last(t)];
    }
  }

  /** `MAX(datetime)` is attained by a row and bounds every row. */
  lemma {:induction false} LatestIsMax(t: seq<StoredBar>)
    requires t != []
    ensures exists b :: b in t && b.bar.time == Latest(t).value
    ensures forall b :: b in t ==> Rank(b.bar.time) <= Rank(Latest(t).value)
  {
    var p := t[..|t| - 1];
    assert t == p + [Last(t)];
    if p != [] {
      LatestIsMax(p);
    }
    forall b | b in t
      ensures Rank(b.bar.time) <= Rank(Latest(t).value)
    {
      if b !in p { assert b == Last(t); }
    }
  }

  /** `MIN(datetime)` is attained by a row and is below every row. */
  lemma {:induction false} EarliestIsMin(t: seq<StoredBar>)
    requires t != []
    ensures exists b :: b in t && b.bar.time == Earliest(t).value
    ensures forall b :: b in t ==> Rank(Earliest(t).value) <= Rank(b.bar.time)
  {
    var p := t[..|t| - 1];
    assert t == p + [Last(t)];
    if p != [] {
      EarliestIsMin(p);
    }
    forall b | b in t
      ensures Rank(Earliest(t).value) <= Rank(b.bar.time)
    {
      if b !in p { assert b == Last(t); }
    }
  }

  lemma {:induction false} RowsOfAt(t: seq<StoredBar>, k: nat)
    requires k < |t|
    ensures |RowsOf(t)| == |t| && RowsOf(t)[k] == RowOf(t[k])
  {
    if k < |t| - 1 { RowsOfAt(t[..|t| - 1], k); }
    RowsOfLength(t);
  }

  lemma {:induction false} RowsOfLength(t: seq<StoredBar>)
    ensures |RowsOf(t)| == |t|
  {
    if t != [] { RowsOfLength(t[..|t| - 1]); }
  }

  lemma {:induction false} TagAt(out: seq<Bar>, symbol: String, exchange: String, iv: Interval, k: nat)
    requires k < |out|
    ensures Tag(out, symbol, exchange, iv)[k] == StoredBar(symbol, exchange, iv, out[k])
  {
    if k < |out| - 1 { TagAt(out[..|out| - 1], symbol, exchange, iv, k); }
  }

  /** Two bar rows with the same (symbol, exchange, interval, datetime), the key of the bar table's unique index. */
  predicate SameSlot(a: StoredBar, b: StoredBar)
  {
    a.symbol == b.symbol && a.exchange == b.exchange && a.interval == b.interval && a.bar.time == b.bar.time
  }

  /**
   * An INSERT of `rows` into `t` breaks the unique index: a new row has the key of a stored row
   * or of an earlier new row.
   */
  predicate Collides(t: seq<StoredBar>, rows: seq<StoredBar>)
  {
    (exists i, j :: 0 <= i < |t| && 0 <= j < |rows| && SameSlot(t[i], rows[j]))
    || (exists i, j :: 0 <= i < j < |rows| && SameSlot(rows[i], rows[j]))
  }

  /**
   * `get_last_aggregation_time`: `MAX(datetime)` of the key's rows read back with `fromisoformat`;
   * None when the key has no rows or when the stored text does not parse, which `parses` says.
   */
  function LastAggregationTime(t: seq<StoredBar>, symbol: String, exchange: String, iv: Interval, parses: bool): (r: Option<DateTime>)
    ensures r.Some? <==> parses && Select(t, symbol, exchange, iv) != []
  {
    if parses then Latest(Select(t, symbol, exchange, iv)) else None
  }

  /** How an aggregation call treats existing target rows. */
  datatype Plan = ReadAll | DeleteThenReadAll | ReadAfter(since: DateTime)

  /**
   * The policy at the head of both aggregators, given the number of existing target rows and the
   * last aggregated timestamp (None when it is missing or cannot be parsed).
   */
  function ChoosePlan(existing: nat, force: bool, incremental: bool, last: Option<DateTime>): (p: Plan)
    ensures p.DeleteThenReadAll? <==> existing > 0 && force
    ensures p.ReadAfter? <==> existing > 0 && !force && incremental && last.Some?
    ensures p.ReadAfter? ==> p.since == last.value
    ensures existing == 0 ==> p == ReadAll
  {
    if existing > 0 && !force && incremental then
      (if last.Some? then ReadAfter(last.value) else ReadAll)
    else if existing > 0 && force then DeleteThenReadAll
    else ReadAll
  }

  /** The fold an interval uses. */
  function Fold(iv: Interval, rows: seq<MinuteRow>): seq<Bar>
  {
    if iv == Hour then HourlyBars(rows) else DailyBars(rows)
  }

  function Tag(out: seq<Bar>, symbol: String, exchange: String, iv: Interval): (r: seq<StoredBar>)
    ensures |r| == |out|
  {
    if out == [] then [] else Tag(out[..|out| - 1], symbol, exchange, iv) + [StoredBar(symbol, exchange, iv, Last(out))]
  }

  predicate SameKey(o: Overview, symbol: String, exchange: String, iv: Interval)
  {
    o.symbol == symbol && o.exchange == exchange && o.interval == iv
  }

  /** UPDATE every overview row of the key, or INSERT one when there is none. */
  function Upsert(ovs: seq<Overview>, o: Overview): (r: seq<Overview>)
  {
    if exists k :: 0 <= k < |ovs| && SameKey(ovs[k], o.symbol, o.exchange, o.interval) then
      UpdateAll(ovs, o)
    else
      ovs + [o]
  }

  function UpdateAll(ovs: seq<Overview>, o: Overview): (r: seq<Overview>)
    ensures |r| == |ovs|
    ensures forall k :: 0 <= k < |ovs| ==>
      r[k] == if SameKey(ovs[k], o.symbol, o.exchange, o.interval) then o else ovs[k]
  {
    if ovs == [] then []
    else UpdateAll(ovs[..|ovs| - 1], o)
         + [if SameKey(Last(ovs), o.symbol, o.exchange, o.interval) then o else Last(ovs)]
  }

  /** The overview table holds at most one row per (symbol, exchange, interval). */
  predicate UniqueOverviews(ovs: seq<Overview>)
  {
    forall i, j :: 0 <= i < j < |ovs| ==> !SameKey(ovs[j], ovs[i].symbol, ovs[i].exchange, ovs[i].interval)
  }

  /** The overview row the bar table implies for a key that has rows. */
  function OverviewOf(t: seq<StoredBar>, symbol: String, exchange: String, iv: Interval): Overview
    requires Select(t, symbol, exchange, iv) != []
  {
    var s := Select(t, symbol, exchange, iv);
    Overview(symbol, exchange, iv, |s|, Earliest(s).value, Latest(s).value)
  }

  /**
   * How one aggregation call ends: it returns the number of rows it inserted, or it raises,
   * leaving the tables as its last commit left them.
   */
  datatype Outcome = Returned(tables: Tables, written: nat) | Raised(tables: Tables)

  /** What `process_symbol` adds to its total for one call: the count returned, or 0 when the call raised. */
  function Counted(o: Outcome): nat
  {
    if o.Returned? then o.written else 0
  }

  /** What `process_symbol` leaves: the tables and the total it returns. */
  datatype Processed = Processed(tables: Tables, total: nat)

  lemma StoredKeyHasRows(t: seq<StoredBar>, out: seq<Bar>, symbol: String, exchange: String, iv: Interval)
    requires out != []
    ensures Select(t + Tag(out, symbol, exchange, iv), symbol, exchange, iv) != []
  {
    TagAt(out, symbol, exchange, iv, 0);
    assert Tag(out, symbol, exchange, iv)[0] in t + Tag(out, symbol, exchange, iv);
    SelectMembers(t + Tag(out, symbol, exchange, iv), symbol, exchange, iv);
  }

  /**
   * The tail of both aggregators: INSERT the folded bars under the key and commit, then, when there
   * were any, set the key's overview row to COUNT/MIN/MAX of its bars; the count is the rows
   * inserted. An insert that breaks the unique index raises before its commit, so neither table
   * changes and the uncommitted rows are dropped with the connection.
   */
  function Store(t: seq<StoredBar>, ovs: seq<Overview>, out: seq<Bar>, symbol: String, exchange: String, iv: Interval): Outcome
  {
    var tag := Tag(out, symbol, exchange, iv);
    if Collides(t, tag) then Raised(Tables(t, ovs))
    else
      var t2 := t + tag;
      if out == [] then Returned(Tables(t2, ovs), 0)
      else
        StoredKeyHasRows(t, out, symbol, exchange, iv);
        Returned(Tables(t2, Upsert(ovs, OverviewOf(t2, symbol, exchange, iv))), |out|)
  }

  /**
   * One call of `aggregate_hourly_data` (iv = Hour) or `aggregate_daily_data` (iv = Day);
   * `parses` says whether the key's stored last timestamp reads back. The forced DELETE is
   * committed before anything can raise.
   */
  function Run(st: Tables, symbol: String, exchange: String, iv: Interval, force: bool, incremental: bool, parses: bool): Outcome
    requires iv != Minute
  {
    var existing := |Select(st.bars, symbol, exchange, iv)|;
    var plan := ChoosePlan(existing, force, incremental, LastAggregationTime(st.bars, symbol, exchange, iv, parses));
    var t1 := if plan.DeleteThenReadAll? then Delete(st.bars, symbol, exchange, iv) else st.bars;
    var rows := QueryMinutes(t1, symbol, exchange, if plan.ReadAfter? then Some(plan.since) else None);
    if rows == [] then Returned(Tables(t1, st.overviews), 0)
    else Store(t1, st.overviews, Fold(iv, rows), symbol, exchange, iv)
  }

  /** The intervals `process_symbol` hands to the hourly aggregator, compared after `lower()`. */
  predicate IsHourlyName(name: String)
  {
    var l := Lower(name);
    l == "1h" || l == "h" || l == "hour" || l == "hourly"
  }

  predicate IsDailyName(name: String)
  {
    var l := Lower(name);
    l == "1d" || l == "d" || l == "day" || l == "daily"
  }

  /**
   * The body of `process_symbol`'s try block for one entry of its interval list: an hourly or a
   * daily name runs that aggregator with incremental = not force; any other name is skipped.
   */
  function RunNamed(st: Tables, symbol: String, exchange: String, name: String, force: bool, parses: bool): Outcome
  {
    if IsHourlyName(name) then Run(st, symbol, exchange, Hour, force, !force, parses)
    else if IsDailyName(name) then Run(st, symbol, exchange, Day, force, !force, parses)
    else Returned(st, 0)
  }

  /**
   * `process_symbol` over a list of interval names: the tables threaded through and the counts
   * summed; an entry that raises is caught, adds nothing and the loop goes on.
   */
  function ProcessRun(st: Tables, symbol: String, exchange: String, names: seq<String>, force: bool, parses: bool): Processed
  {
    if names == [] then Processed(st, 0)
    else Step(ProcessRun(st, symbol, exchange, names[..|names| - 1], force, parses), symbol, exchange, Last(names), force, parses)
  }

  /** One pass of that loop: the call on the tables so far, its count added only when it returns. */
  function Step(before: Processed, symbol: String, exchange: String, name: String, force: bool, parses: bool): Processed
  {
    var o := RunNamed(before.tables, symbol, exchange, name, force, parses);
    Processed(o.tables, before.total + Counted(o))
  }

  lemma ProcessRunSnoc(st: Tables, symbol: String, exchange: String, names: seq<String>, name: String, force: bool, parses: bool)
    ensures var before := ProcessRun(st, symbol, exchange, names, force, parses);
      var o := RunNamed(before.tables, symbol, exchange, name, force, parses);
      ProcessRun(st, symbol, exchange, names + [name], force, parses) == Processed(o.tables, before.total + Counted(o))
  {
    assert (names + [name])[..|names|] == names;
  }

  lemma ProcessRunPrefix(st: Tables, symbol: String, exchange: String, names: seq<String>, i: nat, force: bool, parses: bool)
    requires i < |names|
    ensures ProcessRun(st, symbol, exchange, names[..i + 1], force, parses)
         == Step(ProcessRun(st, symbol, exchange, names[..i], force, parses), symbol, exchange, names[i], force, parses)
  {
    assert names[..i + 1][..i] == names[..i];
  }

  /**
   * An entry whose aggregation raises is caught: the total is the one before it, and the next
   * entry starts from the tables the failed call left (its committed DELETE, if any).
   */
  lemma ProcessRunCatches(st: Tables, symbol: String, exchange: String, names: seq<String>, name: String, force: bool, parses: bool)
    requires RunNamed(ProcessRun(st, symbol, exchange, names, force, parses).tables, symbol, exchange, name, force, parses).Raised?
    ensures ProcessRun(st, symbol, exchange, names + [name], force, parses)
         == Processed(RunNamed(ProcessRun(st, symbol, exchange, names, force, parses).tables, symbol, exchange, name, force, parses).tables,
                      ProcessRun(st, symbol, exchange, names, force, parses).total)
  {
    ProcessRunSnoc(st, symbol, exchange, names, name, force, parses);
  }

  /** The default interval list of `process_symbol`. */
  const DefaultIntervals: seq<String> := ["1h", "1D"]

  function IntervalNames(intervals: Option<seq<String>>): seq<String>
  {
    if intervals.Some? then intervals.value else DefaultIntervals
  }

  class BarDatabase {
    var bars: seq<StoredBar>
    var overviews: seq<Overview>

    constructor (bars0: seq<StoredBar>, overviews0: seq<Overview>)
      ensures bars == bars0 && overviews == overviews0
    {
      bars := bars0;
      overviews := overviews0;
    }

    /** The tables after a call that returned `written`, or raised when `raised` is set. */
    function Ended(written: nat, raised: bool): Outcome
      reads this
    {
      if raised then Raised(Tables(bars, overviews)) else Returned(Tables(bars, overviews), written)
    }

    /** The steps shared by both aggregators, in the order the source performs them. */
    method AggregateInterval(symbol: String, exchange: String, iv: Interval, force: bool, incremental: bool, parses: bool)
      returns (written: nat, raised: bool)
      requires iv != Minute
      modifies this
      ensures raised ==> written == 0
      ensures Ended(written, raised) == Run(old(Tables(bars, overviews)), symbol, exchange, iv, force, incremental, parses)
    {
      written, raised := 0, false;
      var existing := |Select(bars, symbol, exchange, iv)|;
      var plan := ChoosePlan(existing, force, incremental, LastAggregationTime(bars, symbol, exchange, iv, parses));
      if plan.DeleteThenReadAll? {
        bars := Delete(bars, symbol, exchange, iv);
      }
      var rows := QueryMinutes(bars, symbol, exchange, if plan.ReadAfter? then Some(plan.since) else None);
      if rows == [] {
        return;
      }
      var out;
      if iv == Hour {
        out := AggregateHourly(rows);
      } else {
        out := AggregateDaily(rows);
      }
      var tag := Tag(out, symbol, exchange, iv);
      if Collides(bars, tag) {
        raised := true;
        return;
      }
      if out != [] {
        StoredKeyHasRows(bars, out, symbol, exchange, iv);
      }
      bars := bars + tag;
      if out != [] {
        overviews := Upsert(overviews, OverviewOf(bars, symbol, exchange, iv));
      }
      written := |out|;
    }

    /** `aggregate_hourly_data`. */
    method AggregateHourlyData(symbol: String, exchange: String, force: bool, incremental: bool, parses: bool)
      returns (written: nat, raised: bool)
      modifies this
      ensures raised ==> written == 0
      ensures Ended(written, raised) == Run(old(Tables(bars, overviews)), symbol, exchange, Hour, force, incremental, parses)
    {
      written, raised := AggregateInterval(symbol, exchange, Hour, force, incremental, parses);
    }

    /** `aggregate_daily_data`. */
    method AggregateDailyData(symbol: String, exchange: String, force: bool, incremental: bool, parses: bool)
      returns (written: nat, raised: bool)
      modifies this
      ensures raised ==> written == 0
      ensures Ended(written, raised) == Run(old(Tables(bars, overviews)), symbol, exchange, Day, force, incremental, parses)
    {
      written, raised := AggregateInterval(symbol, exchange, Day, force, incremental, parses);
    }

    /** The try block of `process_symbol` for one interval name. */
    method ProcessInterval(symbol: String, exchange: String, name: String, force: bool, parses: bool)
      returns (written: nat, raised: bool)
      modifies this
      ensures raised ==> written == 0
      ensures Ended(written, raised) == RunNamed(old(Tables(bars, overviews)), symbol, exchange, name, force, parses)
    {
      written, raised := 0, false;
      if IsHourlyName(name) {
        written, raised := AggregateHourlyData(symbol, exchange, force, !force, parses);
      } else if IsDailyName(name) {
        written, raised := AggregateDailyData(symbol, exchange, force, !force, parses);
      }
    }

    /** One pass of `process_symbol`'s loop: the try block, and the `except` that counts 0 and goes on. */
    method ProcessStep(symbol: String, exchange: String, name: String, force: bool, parses: bool, total: nat)
      returns (total': nat)
      modifies this
      ensures Processed(Tables(bars, overviews), total') == Step(Processed(old(Tables(bars, overviews)), total), symbol, exchange, name, force, parses)
    {
      var processed, raised := ProcessInterval(symbol, exchange, name, force, parses);
      total' := total;
      if !raised {
        total' := total + processed;
      }
    }

    /** The loop of `process_symbol` over its interval names, summing the rows each one wrote. */
    method ProcessNames(symbol: String, exchange: String, names: seq<String>, force: bool, parses: bool) returns (total: nat)
      modifies this
      ensures Processed(Tables(bars, overviews), total) == ProcessRun(old(Tables(bars, overviews)), symbol, exchange, names, force, parses)
    {
      ghost var st0 := Tables(bars, overviews);
      total := 0;
      var i := 0;
      while i < |names|
        invariant 0 <= i <= |names|
        invariant Processed(Tables(bars, overviews), total) == ProcessRun(st0, symbol, exchange, names[..i], force, parses)
      {
        ProcessRunPrefix(st0, symbol, exchange, names, i, force, parses);
        total := ProcessStep(symbol, exchange, names[i], force, parses, total);
        i := i + 1;
      }
      assert names[..i] == names;
    }

    /** `process_symbol`: None stands for the default list ['1h', '1D']. */
    method ProcessSymbol(symbol: String, exchange: String, intervals: Option<seq<String>>, force: bool, parses: bool) returns (total: nat)
      modifies this
      ensures Processed(Tables(bars, overviews), total)
           == ProcessRun(old(Tables(bars, overviews)), symbol, exchange, IntervalNames(intervals), force, parses)
    {
      total := ProcessNames(symbol, exchange, IntervalNames(intervals), force, parses);
    }
  }
}

=== FILE: breakout.dfy ===
/**
 * `BreakoutStrategy`: enter when the close breaks the high (low) of the N
 * bars before the current one, then leave by profit protection, a fixed
 * stop or a time exit, checked in that order. The array manager's contents
 * and its `max` / `min` indicators are inputs; order calls are returned.
 */
module Breakout {
  import opened Wrappers
  import opened CtaCommon

  /** The six strategy parameters. */
  datatype Params = Params(timeframe: int, breakoutPeriod: int, stopLossPct: real, profitTakePct: real,
                           timeExitPeriod: int, fixedSize: int)

  /** The strategy variables `on_xmin_bar` and `on_trade` update. */
  datatype State = State(highest: real, lowest: real, entryPrice: real, entryBarCount: int, reached: bool)

  /** The reasons `check_exit_signals` closes a position, in the order it tests them. */
  datatype ExitReason = ProfitProtect | StopLoss | TimeExit

  /** The parameter ranges `on_init` enforces. */
  predicate ValidParams(p: Params)
  {
    && 1 <= p.timeframe <= 1440 && 5 <= p.breakoutPeriod <= 200
    && 0.001 <= p.stopLossPct <= 0.10 && 0.001 <= p.profitTakePct <= 0.20
    && 1 <= p.timeExitPeriod <= 100 && p.fixedSize >= 1
  }

  /** The clamping of `on_init`. */
  function Clamped(p: Params): (r: Params)
    ensures ValidParams(r)
  {
    Params(ClampInt(p.timeframe, 1, 1440), ClampInt(p.breakoutPeriod, 5, 200),
           ClampReal(p.stopLossPct, 0.001, 0.10), ClampReal(p.profitTakePct, 0.001, 0.20),
           ClampInt(p.timeExitPeriod, 1, 100), AtLeastOne(p.fixedSize))
  }

  /** Clamping keeps parameters that are already in range and moves the others to the nearest bound. */
  lemma ClampedSpec(p: Params)
    ensures ValidParams(p) <==> Clamped(p) == p
    ensures p.breakoutPeriod < 5 ==> Clamped(p).breakoutPeriod == 5
    ensures p.breakoutPeriod > 200 ==> Clamped(p).breakoutPeriod == 200
    ensures p.stopLossPct > 0.10 ==> Clamped(p).stopLossPct == 0.10
  {
  }

  // ---------------------------------------------------------------------------
  // The breakout reference
  // ---------------------------------------------------------------------------

  /**
   * `highest_value` (`highest`) or `lowest_value`: with at least N+1 bars,
   * the max (min) of the N bars before the current one; otherwise the array
   * manager's own `max(N)` / `min(N)`, passed in as `fallback`.
   */
  function Reference(values: seq<real>, n: int, fallback: real, highest: bool): real
    requires n >= 1
  {
    if |values| >= n + 1 then
      var window := values[|values| - n - 1..|values| - 1];
      if highest then MaxOf(window) else MinOf(window)
    else fallback
  }

  /**
   * With N+1 bars the reference is one of the N previous values and bounds
   * all of them; the current bar, the last one, is not among them.
   */
  lemma ReferenceWindow(values: seq<real>, n: int, fallback: real, highest: bool)
    requires n >= 1 && |values| >= n + 1
    ensures var r := Reference(values, n, fallback, highest);
      && (forall j :: |values| - n - 1 <= j < |values| - 1 ==> (if highest then values[j] <= r else r <= values[j]))
      && (exists j :: |values| - n - 1 <= j < |values| - 1 && values[j] == r)
  {
    var lo := |values| - n - 1;
    var window := values[lo..|values| - 1];
    var r := Reference(values, n, fallback, highest);
    forall j | lo <= j < |values| - 1 ensures if highest then values[j] <= r else r <= values[j] {
      assert values[j] == window[j - lo];
    }
    var k :| 0 <= k < |window| && window[k] == r;
    assert values[lo + k] == r;
  }

  // ---------------------------------------------------------------------------
  // Entry and exit decisions
  // ---------------------------------------------------------------------------

  /**
   * `check_entry_signals` with `count` bars in the array manager: nothing
   * below N bars; a long above `highest`, else a short below `lowest`.
   */
  function EntryOrder(close: real, highest: real, lowest: real, count: int, p: Params): Option<Order>
  {
    if count < p.breakoutPeriod then None
    else if close > highest then Some(Order(Buy, close + 10.0, p.fixedSize))
    else if close < lowest then Some(Order(Short, close - 10.0, p.fixedSize))
    else None
  }

  /** The fixed stop price of a long (`pos > 0`) or short position. */
  function StopPrice(entryPrice: real, stopLossPct: real, long: bool): real
  {
    if long then entryPrice * (1.0 - stopLossPct) else entryPrice * (1.0 + stopLossPct)
  }

  /** The profit of the position as a fraction of the entry price. */
  function ProfitPct(entryPrice: real, close: real, long: bool): real
    requires entryPrice != 0.0
  {
    if long then (close - entryPrice) / entryPrice else (entryPrice - close) / entryPrice
  }

  /** The price is back within 0.2% of the entry after the target was reached. */
  predicate BackAtCost(entryPrice: real, close: real, long: bool)
  {
    if long then close <= entryPrice * 1.002 else close >= entryPrice * 0.998
  }

  /** The bar touched the fixed stop. */
  predicate Stopped(p: Params, entryPrice: real, bar: Bar, long: bool)
  {
    p.stopLossPct > 0.0
    && (if long then bar.low <= StopPrice(entryPrice, p.stopLossPct, true)
        else bar.high >= StopPrice(entryPrice, p.stopLossPct, false))
  }

  /**
   * `check_exit_signals`: the new `profit_target_reached` and the exit
   * taken, if any. A zero entry price makes the profit division raise, which
   * the method catches: nothing changes.
   */
  function ExitDecision(p: Params, entryPrice: real, barCount: int, reached: bool, bar: Bar, pos: int): (r: (bool, Option<ExitReason>))
  {
    if pos == 0 || entryPrice == 0.0 then (reached, None)
    else
      var long := pos > 0;
      var hitTarget := p.profitTakePct > 0.0 && !reached && ProfitPct(entryPrice, bar.close, long) >= p.profitTakePct;
      var protect := p.profitTakePct > 0.0 && !hitTarget && reached && BackAtCost(entryPrice, bar.close, long);
      var reached' := reached || hitTarget;
      if protect then (reached', Some(ProfitProtect))
      else if Stopped(p, entryPrice, bar, long) then (reached', Some(StopLoss))
      else if barCount >= p.timeExitPeriod then (reached', Some(TimeExit))
      else (reached', None)
  }

  /** The closing order for an exit: the whole position, 10 beyond the close or the stop price. */
  function ExitOrder(p: Params, entryPrice: real, bar: Bar, pos: int, reason: ExitReason): (o: Order)
    requires pos != 0
    ensures o.volume == Abs(pos) && o.side == (if pos > 0 then Sell else Cover)
  {
    var price := if reason == StopLoss then StopPrice(entryPrice, p.stopLossPct, pos > 0) else bar.close;
    if pos > 0 then Order(Sell, price - 10.0, Abs(pos)) else Order(Cover, price + 10.0, Abs(pos))
  }

  /**
   * The exit rules. The target flag never falls back within a position; on
   * the bar it is first reached there is no protection exit; a protection
   * exit needs a target reached on an earlier bar; the stop wins over the
   * time exit; and the time exit fires once M bars have passed and nothing
   * earlier applies.
   */
  lemma ExitRules(p: Params, entryPrice: real, barCount: int, reached: bool, bar: Bar, pos: int)
    requires ValidParams(p) && pos != 0 && entryPrice != 0.0
    ensures var (reached', reason) := ExitDecision(p, entryPrice, barCount, reached, bar, pos);
      && (reached ==> reached')
      && (!reached && reached' ==> reason != Some(ProfitProtect) && ProfitPct(entryPrice, bar.close, pos > 0) >= p.profitTakePct)
      && (reason == Some(ProfitProtect) <==> reached && BackAtCost(entryPrice, bar.close, pos > 0))
      && (reason == Some(StopLoss) <==> !(reached && BackAtCost(entryPrice, bar.close, pos > 0)) && Stopped(p, entryPrice, bar, pos > 0))
      && (reason == None <==>
            !(reached && BackAtCost(entryPrice, bar.close, pos > 0)) && !Stopped(p, entryPrice, bar, pos > 0) && barCount < p.timeExitPeriod)
  {
  }

  /** One `on_xmin_bar` call as a function of the old variables and the array manager's contents. */
  function BarStep(p: Params, s: State, bar: Bar, inited: bool, highs: seq<real>, lows: seq<real>,
                   amMax: real, amMin: real, pos: int): (State, Option<Order>)
    requires ValidParams(p)
  {
    if !inited then (s, None)
    else
      var highest := Reference(highs, p.breakoutPeriod, amMax, true);
      var lowest := Reference(lows, p.breakoutPeriod, amMin, false);
      var count := if pos != 0 then s.entryBarCount + 1 else s.entryBarCount;
      var s1 := s.(highest := highest, lowest := lowest, entryBarCount := count);
      if pos == 0 then
        var o := EntryOrder(bar.close, highest, lowest, |highs|, p);
        (if o.Some? then s1.(entryPrice := bar.close, entryBarCount := 0) else s1, o)
      else
        var (reached, reason) := ExitDecision(p, s.entryPrice, count, s.reached, bar, pos);
        (s1.(reached := reached), if reason.Some? then Some(ExitOrder(p, s.entryPrice, bar, pos, reason.value)) else None)
  }

  /**
   * What one bar does. `entry_bar_count` grows by one on every bar while a
   * position is held and is reset by an entry signal; flat, the only orders
   * are a buy or a short of `fixed_size`, and a long only when the close is
   * above every high of the N previous bars (a short: below every low);
   * holding a position, the only order closes all of it.
   */
  lemma BarStepSpec(p: Params, s: State, bar: Bar, inited: bool, highs: seq<real>, lows: seq<real>,
                    amMax: real, amMin: real, pos: int)
    requires ValidParams(p) && |highs| == |lows|
    ensures var (s', o) := BarStep(p, s, bar, inited, highs, lows, amMax, amMin, pos);
      && (!inited ==> s' == s && o == None)
      && (inited && pos != 0 ==> s'.entryBarCount == s.entryBarCount + 1 && s'.entryPrice == s.entryPrice)
      && (inited && pos == 0 && o.Some? ==> s'.entryBarCount == 0 && s'.entryPrice == bar.close)
      && (inited && pos == 0 && o == None ==> s'.entryBarCount == s.entryBarCount && s'.entryPrice == s.entryPrice)
      && (o.Some? && pos == 0 ==> (o.value.side == Buy || o.value.side == Short) && o.value.volume == p.fixedSize)
      && (o.Some? && pos != 0 ==> o.value.volume == Abs(pos) && o.value.side == (if pos > 0 then Sell else Cover))
      && (o.Some? && pos == 0 && o.value.side == Buy && |highs| >= p.breakoutPeriod + 1 ==>
            forall j :: |highs| - p.breakoutPeriod - 1 <= j < |highs| - 1 ==> bar.close > highs[j])
      && (o.Some? && pos == 0 && o.value.side == Short && |lows| >= p.breakoutPeriod + 1 ==>
            forall j :: |lows| - p.breakoutPeriod - 1 <= j < |lows| - 1 ==> bar.close < lows[j])
  {
    if inited && |highs| >= p.breakoutPeriod + 1 {
      ReferenceWindow(highs, p.breakoutPeriod, amMax, true);
      ReferenceWindow(lows, p.breakoutPeriod, amMin, false);
    }
  }

  // ---------------------------------------------------------------------------
  // The strategy object
  // ---------------------------------------------------------------------------

  class BreakoutStrategy {
    /** The parameters, as set from the strategy's settings and clamped by `on_init`. */
    var params: Params
    /** The generator configuration `on_init` picks; None before it runs. */
    var config: Option<BarConfig>

    var highestValue: real
    var lowestValue: real
    var entryPrice: real
    var entryBarCount: int
    var profitTargetReached: bool

    function Variables(): State
      reads this
    {
      State(highestValue, lowestValue, entryPrice, entryBarCount, profitTargetReached)
    }

    /** A strategy built from a settings dictionary, variables at their class defaults. */
    constructor (setting: Params)
      ensures params == setting && config == None
      ensures Variables() == State(0.0, 0.0, 0.0, 0, false)
    {
      params := setting;
      config := None;
      highestValue, lowestValue, entryPrice, entryBarCount, profitTargetReached := 0.0, 0.0, 0.0, 0, false;
    }

    /** `on_init`: clamp the parameters and choose the generator configuration. */
    method OnInit()
      modifies this
      ensures params == Clamped(old(params)) && ValidParams(params)
      ensures config == Some(ConfigFor(params.timeframe))
      ensures Variables() == old(Variables())
    {
      params := Clamped(params);
      config := Some(ConfigFor(params.timeframe));
    }

    /**
     * `on_xmin_bar` after the bar was added to the array manager: `inited`,
     * its `high_array` / `low_array` and its `max(N)` / `min(N)`.
     */
    method OnXminBar(bar: Bar, inited: bool, highs: seq<real>, lows: seq<real>, amMax: real, amMin: real, pos: int)
      returns (order: Option<Order>)
      requires ValidParams(params)
      modifies this
      ensures params == old(params) && config == old(config)
      ensures (Variables(), order) == BarStep(params, old(Variables()), bar, inited, highs, lows, amMax, amMin, pos)
    {
      order := None;
      if !inited {
        return;
      }
      highestValue := Reference(highs, params.breakoutPeriod, amMax, true);
      lowestValue := Reference(lows, params.breakoutPeriod, amMin, false);
      if pos != 0 {
        entryBarCount := entryBarCount + 1;
      }
      if pos == 0 {
        order := CheckEntrySignals(bar, |highs|);
      } else {
        order := CheckExitSignals(bar, pos);
      }
    }

    /** `check_entry_signals`. */
    method CheckEntrySignals(bar: Bar, count: int) returns (order: Option<Order>)
      modifies this
      ensures order == EntryOrder(bar.close, old(highestValue), old(lowestValue), count, params)
      ensures params == old(params) && config == old(config)
      ensures Variables() == if order.Some? then old(Variables()).(entryPrice := bar.close, entryBarCount := 0) else old(Variables())
    {
      order := None;
      if count < params.breakoutPeriod {
        return;
      }
      if bar.close > highestValue {
        order := Some(Order(Buy, bar.close + 10.0, params.fixedSize));
        entryPrice := bar.close;
        entryBarCount := 0;
        return;
      }
      if bar.close < lowestValue {
        order := Some(Order(Short, bar.close - 10.0, params.fixedSize));
        entryPrice := bar.close;
        entryBarCount := 0;
        return;
      }
    }

    /** `check_exit_signals`. */
    method CheckExitSignals(bar: Bar, pos: int) returns (order: Option<Order>)
      requires pos != 0
      modifies this
      ensures var (reached, reason) := ExitDecision(params, entryPrice, entryBarCount, old(profitTargetReached), bar, pos);
        && profitTargetReached == reached
        && order == if reason.Some? then Some(ExitOrder(params, entryPrice, bar, pos, reason.value)) else None
      ensures params == old(params) && config == old(config)
      ensures Variables() == old(Variables()).(reached := profitTargetReached)
    {
      order := None;
      if entryPrice == 0.0 {
        // the profit division raises and the method catches it
        return;
      }
      var long := pos > 0;
      var volume := Abs(pos);
      var currentProfitPct := ProfitPct(entryPrice, bar.close, long);
      if params.profitTakePct > 0.0 {
        if !profitTargetReached && currentProfitPct >= params.profitTakePct {
          profitTargetReached := true;
        } else if profitTargetReached && BackAtCost(entryPrice, bar.close, long) {
          order := Some(if long then Order(Sell, bar.close - 10.0, volume) else Order(Cover, bar.close + 10.0, volume));
          return;
        }
      }
      if params.stopLossPct > 0.0 {
        var stopLossPrice := StopPrice(entryPrice, params.stopLossPct, long);
        if (long && bar.low <= stopLossPrice) || (!long && bar.high >= stopLossPrice) {
          order := Some(if long then Order(Sell, stopLossPrice - 10.0, volume) else Order(Cover, stopLossPrice + 10.0, volume));
          return;
        }
      }
      if entryBarCount >= params.timeExitPeriod {
        order := Some(if long then Order(Sell, bar.close - 10.0, volume) else Order(Cover, bar.close + 10.0, volume));
        return;
      }
    }

    /** `on_trade`: an opening fill restarts the entry price, the bar count and the target flag. */
    method OnTrade(trade: Trade)
      modifies this
      ensures params == old(params) && config == old(config)
      ensures Variables() == if trade.opening then old(Variables()).(entryPrice := trade.price, entryBarCount := 0, reached := false)
                             else old(Variables())
    {
      if trade.opening {
        entryPrice := trade.price;
        entryBarCount := 0;
        profitTargetReached := false;
      }
    }
  }
}

=== FILE: calendar.dfy ===
/**
 * Proleptic Gregorian calendar values as Python's `datetime` module uses
 * them: dates, the day after a date, ordinals (`date.toordinal`) and the
 * weekday (`date.weekday`, Monday = 0), and date-times with their order.
 */
module Calendar {
  datatype Date = Date(year: int, month: int, day: int)

  datatype DateTime = DateTime(date: Date, hour: int, minute: int, second: int)

  predicate IsLeap(y: int) { y % 4 == 0 && (y % 100 != 0 || y % 400 == 0) }

  function DaysInMonth(y: int, m: int): (r: int)
    requires 1 <= m <= 12
    ensures 28 <= r <= 31
    ensures m == 2 ==> (r == 29 <==> IsLeap(y))
  {
    if m == 2 then (if IsLeap(y) then 29 else 28)
    else if m == 4 || m == 6 || m == 9 || m == 11 then 30
    else 31
  }

  /** The dates `datetime.date` accepts (years 1 to 9999). */
  predicate ValidDate(d: Date)
  {
    1 <= d.year <= 9999 && 1 <= d.month <= 12 && 1 <= d.day <= DaysInMonth(d.year, d.month)
  }

  predicate ValidTime(h: int, mi: int, s: int) { 0 <= h < 24 && 0 <= mi < 60 && 0 <= s < 60 }

  predicate ValidDateTime(t: DateTime) { ValidDate(t.date) && ValidTime(t.hour, t.minute, t.second) }

  /** `d + timedelta(days=1)`; 9999-12-31 has no successor (Python raises OverflowError). */
  function NextDay(d: Date): (r: Date)
    requires ValidDate(d) && d != Date(9999, 12, 31)
    ensures ValidDate(r)
  {
    if d.day < DaysInMonth(d.year, d.month) then Date(d.year, d.month, d.day + 1)
    else if d.month < 12 then Date(d.year, d.month + 1, 1)
    else Date(d.year + 1, 1, 1)
  }

  /** Days in the months of year y before month m. */
  function DaysBeforeMonth(y: int, m: int): (r: int)
    requires 1 <= m <= 12
    decreases m
  {
    if m == 1 then 0 else DaysBeforeMonth(y, m - 1) + DaysInMonth(y, m - 1)
  }

  function DaysBeforeYear(y: int): int
  {
    var p := y - 1;
    p * 365 + p / 4 - p / 100 + p / 400
  }

  /** `date.toordinal()`: 0001-01-01 is day 1. */
  function Ordinal(d: Date): int
    requires ValidDate(d)
  {
    DaysBeforeYear(d.year) + DaysBeforeMonth(d.year, d.month) + d.day
  }

  /** Seconds since 0001-01-01 00:00:00, so that differences are `timedelta` lengths. */
  function Seconds(t: DateTime): int
    requires ValidDateTime(t)
  {
    Ordinal(t.date) * 86400 + t.hour * 3600 + t.minute * 60 + t.second
  }

  /** `date.weekday()`: Monday is 0 and Sunday is 6. */
  function Weekday(d: Date): (r: int)
    requires ValidDate(d)
    ensures 0 <= r < 7
  {
    (Ordinal(d) + 6) % 7
  }

  lemma DaysInYear(y: int)
    ensures DaysBeforeMonth(y, 12) + DaysInMonth(y, 12) == if IsLeap(y) then 366 else 365
  {}

  lemma {:induction false} DaysBeforeNextYear(y: int)
    requires y >= 1
    ensures DaysBeforeYear(y + 1) == DaysBeforeYear(y) + (if IsLeap(y) then 366 else 365)
  {
    var p := y - 1;
    assert y == p + 1;
    // Each of the quotient terms grows by one exactly when y is a multiple of its divisor.
    assert y / 4 == p / 4 + (if y % 4 == 0 then 1 else 0);
    assert y / 100 == p / 100 + (if y % 100 == 0 then 1 else 0);
    assert y / 400 == p / 400 + (if y % 400 == 0 then 1 else 0);
    if y % 400 == 0 { assert y % 100 == 0 && y % 4 == 0; }
    else if y % 100 == 0 { assert y % 4 == 0; }
  }

  /** Stepping one day forward advances the ordinal by exactly one. */
  lemma {:induction false} OrdinalNextDay(d: Date)
    requires ValidDate(d) && d != Date(9999, 12, 31)
    ensures Ordinal(NextDay(d)) == Ordinal(d) + 1
  {
    if d.day < DaysInMonth(d.year, d.month) {
    } else if d.month < 12 {
    } else {
      DaysInYear(d.year);
      DaysBeforeNextYear(d.year);
    }
  }

  /** Seconds-resolution rank of a date-time: the order of `datetime` comparisons. */
  function Rank(t: DateTime): int
  {
    ((((t.date.year * 13 + t.date.month) * 32 + t.date.day) * 24 + t.hour) * 60 + t.minute) * 60 + t.second
  }

  predicate Before(a: DateTime, b: DateTime) { Rank(a) < Rank(b) }

  predicate AtOrBefore(a: DateTime, b: DateTime) { Rank(a) <= Rank(b) }

  /** On valid values, rank equality is equality: `Before` is a strict total order. */
  lemma RankInjective(a: DateTime, b: DateTime)
    requires ValidDateTime(a) && ValidDateTime(b)
    ensures Rank(a) == Rank(b) ==> a == b
  {
    var ad := (a.date.year * 13 + a.date.month) * 32 + a.date.day;
    var bd := (b.date.year * 13 + b.date.month) * 32 + b.date.day;
    assert Rank(a) == ((ad * 24 + a.hour) * 60 + a.minute) * 60 + a.second;
    assert Rank(b) == ((bd * 24 + b.hour) * 60 + b.minute) * 60 + b.second;
    if Rank(a) == Rank(b) {
      MixedRadix((ad * 24 + a.hour) * 60 + a.minute, a.second, (bd * 24 + b.hour) * 60 + b.minute, b.second, 60);
      MixedRadix(ad * 24 + a.hour, a.minute, bd * 24 + b.hour, b.minute, 60);
      MixedRadix(ad, a.hour, bd, b.hour, 24);
      MixedRadix(a.date.year * 13 + a.date.month, a.date.day, b.date.year * 13 + b.date.month, b.date.day, 32);
      MixedRadix(a.date.year, a.date.month, b.date.year, b.date.month, 13);
    }
  }

  lemma MixedRadix(x: int, dx: int, y: int, dy: int, base: int)
    requires base > 0 && 0 <= dx < base && 0 <= dy < base
    requires x * base + dx == y * base + dy
    ensures x == y && dx == dy
  {
    StepBound(x, y, base);
    StepBound(y, x, base);
  }

  lemma StepBound(x: int, y: int, base: int)
    requires base > 0
    ensures x < y ==> (x + 1) * base <= y * base
  {
    if x < y {
      assert y * base - (x + 1) * base == (y - x - 1) * base;
    }
  }
}

=== FILE: chart_viewer.dfy ===
/**
 * The two pieces of logic in the backtest chart viewer: reading the search
 * box (`on_search`) and turning a backtest's trades file into chart markers
 * (`load_sig_from_trades_csv`). The file is an input: None when it does not
 * exist, otherwise its column names and its rows, each row either the text
 * of its cells or None when reading it raises.
 */
module ChartViewer {
  import opened Wrappers
  import opened Strings

  // ---------------------------------------------------------------------------
  // The search box
  // ---------------------------------------------------------------------------

  /**
   * `on_search`: a text with a dot gives the pieces before the first dot
   * and between the first and the second; a text without one is a symbol
   * on the default exchange SHFE.
   */
  function SearchTarget(text: String): (String, String)
  {
    if '.' in text then
      SplitAtLeastTwo(text, '.');
      var parts := Split(text, '.');
      (parts[0], parts[1])
    else (text, "SHFE")
  }

  /**
   * Reading the search box: `symbol.exchange` gives back both parts (and
   * anything after a second dot is dropped), a bare symbol is on SHFE.
   */
  lemma SearchTargetSpec(symbol: String, exchange: String, rest: String)
    requires NoChar(symbol, '.') && NoChar(exchange, '.')
    ensures SearchTarget(symbol + "." + exchange) == (symbol, exchange)
    ensures SearchTarget(symbol + "." + exchange + "." + rest) == (symbol, exchange)
    ensures SearchTarget(symbol) == (symbol, "SHFE")
  {
    var two := symbol + "." + exchange;
    assert two[|symbol|] == '.';
    SplitFirstPiece(symbol, '.', exchange);
    SplitNoSep(exchange, '.');
    var three := symbol + "." + exchange + "." + rest;
    assert three == symbol + ['.'] + (exchange + ['.'] + rest);
    assert three[|symbol|] == '.';
    SplitFirstPiece(symbol, '.', exchange + ['.'] + rest);
    SplitFirstPiece(exchange, '.', rest);
  }

  // ---------------------------------------------------------------------------
  // Markers from the trades file
  // ---------------------------------------------------------------------------

  /** The cells of one row as text: `str(row[...])`; `offset` is empty when the file has no such column. */
  datatype TradeRow = TradeRow(dt: String, direction: String, offset: String, price: String, volume: String)

  /** A trades file as read: its columns and its rows. */
  datatype TradesFile = TradesFile(columns: seq<String>, rows: seq<Option<TradeRow>>)

  datatype Shape = ArrowUp | ArrowDown | Circle

  datatype Place = Above | Below

  /** One chart marker; its `text` is always empty and is not kept. */
  datatype Marker = Marker(time: String, place: Place, shape: Shape, color: String, sig: String)

  /** The columns a trades file must have. */
  const RequiredColumns: seq<String> := ["dt", "direction", "price", "volume"]

  /** A date-time text without its microseconds: at most its first 19 characters. */
  function MarkerTime(dt: String): (r: String)
    ensures |r| <= 19 && StartsWith(dt, r)
    ensures |dt| <= 19 <==> r == dt
  {
    if |dt| > 19 then dt[..19] else dt
  }

  /** An upper-cased direction naming a buy. */
  predicate Buying(direction: String)
  {
    Contains(direction, "买") || Contains(direction, "BUY") || Contains(direction, "LONG")
  }

  /** An upper-cased direction naming a sell. */
  predicate Selling(direction: String)
  {
    Contains(direction, "卖") || Contains(direction, "SELL") || Contains(direction, "SHORT")
  }

  /** An upper-cased offset naming an opening trade. */
  predicate Opening(offset: String)
  {
    Contains(offset, "开") || Contains(offset, "OPEN")
  }

  /** The style of a trade's marker: where it sits, its shape and its colour. */
  datatype Style = Style(place: Place, shape: Shape, color: String)

  /** The style table, a buy checked before a sell, the offset inside each. */
  function StyleOf(direction: String, offset: String): Style
  {
    if Buying(direction) then
      if Opening(offset) then Style(Below, ArrowUp, "#00ff00") else Style(Below, Circle, "#ffffff")
    else if Selling(direction) then
      if Opening(offset) then Style(Above, ArrowDown, "#ff0000") else Style(Above, Circle, "#ffffff")
    else Style(Below, Circle, "#ffff00")
  }

  /**
   * The style table both ways: green up-arrows are exactly the opening
   * buys, red down-arrows exactly the opening sells that are not buys,
   * markers above exactly the sells that are not buys, yellow exactly the
   * trades that are neither; everything else is a white circle.
   */
  lemma StyleTable(direction: String, offset: String)
    ensures var s := StyleOf(direction, offset);
      && (s.shape == ArrowUp <==> Buying(direction) && Opening(offset))
      && (s.shape == ArrowDown <==> !Buying(direction) && Selling(direction) && Opening(offset))
      && (s.place == Above <==> !Buying(direction) && Selling(direction))
      && (s.color == "#00ff00" <==> s.shape == ArrowUp)
      && (s.color == "#ff0000" <==> s.shape == ArrowDown)
      && (s.color == "#ffff00" <==> !Buying(direction) && !Selling(direction))
      && (s.color == "#ffffff" <==> (Buying(direction) || Selling(direction)) && !Opening(offset))
      && (s.shape == Circle <==> !(s.shape == ArrowUp || s.shape == ArrowDown))
  {
  }

  /** The marker of one row that reads without raising. */
  function MarkerOf(row: TradeRow): (m: Marker)
    ensures |m.time| <= 19 && StartsWith(row.dt, m.time)
  {
    var direction := Upper(row.direction);
    var offset := Upper(row.offset);
    var style := StyleOf(direction, offset);
    Marker(MarkerTime(row.dt), style.place, style.shape, style.color,
           direction + offset + " " + row.volume + "手 @ " + row.price)
  }

  /** The markers of some rows: one per row that reads, in order; rows that raise are skipped. */
  function Markers(rows: seq<Option<TradeRow>>): (r: seq<Marker>)
    ensures |r| <= |rows|
    decreases |rows|
  {
    if rows == [] then []
    else
      var row := rows[|rows| - 1];
      Markers(rows[..|rows| - 1]) + (if row.Some? then [MarkerOf(row.value)] else [])
  }

  /** The number of rows that read without raising. */
  function ReadCount(rows: seq<Option<TradeRow>>): nat
  {
    |set i | 0 <= i < |rows| && rows[i].Some?|
  }

  /** Every row that reads gives exactly one marker. */
  lemma {:induction false} MarkersCount(rows: seq<Option<TradeRow>>)
    ensures |Markers(rows)| == ReadCount(rows)
    decreases |rows|
  {
    if rows != [] {
      var n := |rows| - 1;
      MarkersCount(rows[..n]);
      ReadCountStep(rows);
    }
  }

  /** The last row adds one to the count exactly when it reads. */
  lemma ReadCountStep(rows: seq<Option<TradeRow>>)
    requires rows != []
    ensures ReadCount(rows) == ReadCount(rows[..|rows| - 1]) + (if rows[|rows| - 1].Some? then 1 else 0)
  {
    var n := |rows| - 1;
    var init := rows[..n];
    var before := set i | 0 <= i < n && init[i].Some?;
    var all := set i | 0 <= i < |rows| && rows[i].Some?;
    assert forall i :: 0 <= i < n ==> init[i] == rows[i];
    if rows[n].Some? {
      assert all == before + {n};
      assert n !in before;
    } else {
      assert all == before;
    }
  }

  /** When every row reads, marker i is the marker of row i. */
  lemma {:induction false} MarkersAllRead(rows: seq<Option<TradeRow>>)
    requires forall i :: 0 <= i < |rows| ==> rows[i].Some?
    ensures |Markers(rows)| == |rows|
    ensures forall i :: 0 <= i < |rows| ==> Markers(rows)[i] == MarkerOf(rows[i].value)
    decreases |rows|
  {
    if rows != [] {
      var n := |rows| - 1;
      var init := rows[..n];
      MarkersAllRead(init);
      var all := Markers(init) + [MarkerOf(rows[n].value)];
      assert Markers(rows) == all;
      forall i | 0 <= i < |rows|
        ensures all[i] == MarkerOf(rows[i].value)
      {
        if i < n {
          assert init[i] == rows[i];
        }
      }
    }
  }

  /** `[col for col in names if col not in columns]`: the listed names a file lacks, in order. */
  function Missing(names: seq<String>, columns: seq<String>): (r: seq<String>)
    ensures forall k :: 0 <= k < |r| ==> r[k] in names && r[k] !in columns
    ensures forall c :: c in names && c !in columns ==> c in r
    decreases |names|
  {
    if names == [] then []
    else (if names[0] in columns then [] else [names[0]]) + Missing(names[1..], columns)
  }

  /**
   * `load_sig_from_trades_csv`: None for a missing file, a file without
   * rows or one that lacks a required column; the markers of its rows
   * otherwise.
   */
  function LoadMarkers(file: Option<TradesFile>): Option<seq<Marker>>
  {
    if file.None? || file.value.rows == [] || Missing(RequiredColumns, file.value.columns) != [] then None
    else Some(Markers(file.value.rows))
  }

  /**
   * The outcome of loading: markers exactly when the file exists, has
   * rows and has all four required columns, and then one marker per row
   * that reads.
   */
  lemma LoadMarkersSpec(file: Option<TradesFile>)
    ensures LoadMarkers(file).Some? <==>
      (file.Some? && file.value.rows != [] && forall c :: c in RequiredColumns ==> c in file.value.columns)
    ensures LoadMarkers(file).Some? ==> |LoadMarkers(file).value| == ReadCount(file.value.rows)
  {
    if file.Some? {
      var missing := Missing(RequiredColumns, file.value.columns);
      if missing != [] {
        assert missing[0] in RequiredColumns && missing[0] !in file.value.columns;
      }
      MarkersCount(file.value.rows);
    }
  }

  /** The loop of `load_sig_from_trades_csv`, proved to build `LoadMarkers`. */
  method LoadSigFromTradesCsv(file: Option<TradesFile>) returns (markers: Option<seq<Marker>>)
    ensures markers == LoadMarkers(file)
  {
    if file.None? {
      return None;
    }
    var rows := file.value.rows;
    if rows == [] {
      return None;
    }
    var missing := Missing(RequiredColumns, file.value.columns);
    if missing != [] {
      return None;
    }
    var list: seq<Marker> := [];
    var i := 0;
    while i < |rows|
      invariant 0 <= i <= |rows|
      invariant list == Markers(rows[..i])
    {
      assert rows[..i + 1][..i] == rows[..i];
      var row := rows[i];
      if row.Some? {
        list := list + [MarkerOf(row.value)];
      }
      i := i + 1;
    }
    assert rows[..|rows|] == rows;
    markers := Some(list);
  }
}

=== FILE: csv_convert.dfy ===
/**
 * Turning the converted TDX minute CSV (date, time, timestamp, open, high,
 * low, close, volume, open interest) into the file vnpy's data manager
 * imports (datetime, open, high, low, close, volume, turnover,
 * open_interest). Both `convert_to_vnpy_csv.convert` and
 * `translate_tdx_kline_data.convert_to_vnpy_format` run the row loop
 * modelled here; they differ only in how a raw line is cleaned.
 */
module VnpyCsv {
  import opened Wrappers
  import opened Strings
  import opened Calendar

  // ---------------------------------------------------------------------------
  // Fixed-width numbers
  // ---------------------------------------------------------------------------

  predicate AllDigits(s: String) { forall i :: 0 <= i < |s| ==> IsDigit(s[i]) }

  /** `int(s)` for a string of ASCII digits. */
  function Num(s: String): (n: nat)
    requires AllDigits(s)
    ensures n < Power10(|s|)
  {
    if s == [] then 0 else Num(s[..|s| - 1]) * 10 + (s[|s| - 1] as int - '0' as int)
  }

  function Power10(k: nat): (p: nat)
    ensures p >= 1
  {
    if k == 0 then 1 else 10 * Power10(k - 1)
  }

  /** `'{:0w}'.format(n)`: n in exactly w digits, zero-padded on the left. */
  function Pad(n: nat, w: nat): (s: String)
    requires n < Power10(w)
    ensures |s| == w && AllDigits(s)
  {
    if w == 0 then [] else Pad(n / 10, w - 1) + [('0' as int + n % 10) as char]
  }

  /** Digits read back give the string they were read from. */
  lemma {:induction false} PadNum(s: String)
    requires AllDigits(s)
    ensures Pad(Num(s), |s|) == s
  {
    if s != [] {
      var p := s[..|s| - 1];
      assert AllDigits(p);
      var d := s[|s| - 1] as int - '0' as int;
      assert (Num(p) * 10 + d) / 10 == Num(p) && (Num(p) * 10 + d) % 10 == d;
      PadNum(p);
      assert s == p + [s[|s| - 1]];
    }
  }

  /** A padded number reads back as itself. */
  lemma {:induction false} NumPad(n: nat, w: nat)
    requires n < Power10(w)
    ensures Num(Pad(n, w)) == n
  {
    if w > 0 {
      var s := Pad(n, w);
      NumPad(n / 10, w - 1);
      assert s[..|s| - 1] == Pad(n / 10, w - 1);
    }
  }

  // ---------------------------------------------------------------------------
  // Date-times
  // ---------------------------------------------------------------------------

  /** `HH:MM:SS` with two ASCII digits in each field. */
  predicate ClockShape(c: String)
  {
    |c| == 8 && AllDigits(c[..2]) && c[2] == ':' && AllDigits(c[3..5]) && c[5] == ':' && AllDigits(c[6..])
  }

  /**
   * `datetime.strptime(s, "%Y%m%d%H:%M:%S")` on the fixed-width form
   * `YYYYMMDDHH:MM:SS`: the fields must be digits and name a real date and
   * time of day.
   */
  function ParseCompact(s: String): (t: Option<DateTime>)
    ensures t.Some? ==> ValidDateTime(t.value) && |s| == 16
  {
    if |s| != 16 then None
    else
      var d, c := s[..8], s[8..];
      if !AllDigits(d) || !ClockShape(c) then None
      else
        assert AllDigits(d[..4]) && AllDigits(d[4..6]) && AllDigits(d[6..]);
        var t := DateTime(Date(Num(d[..4]), Num(d[4..6]), Num(d[6..])), Num(c[..2]), Num(c[3..5]), Num(c[6..]));
        if ValidDateTime(t) then Some(t) else None
  }

  /** `%Y-%m-%d`. */
  function DashDate(d: Date): (s: String)
    requires 0 <= d.year < 10000 && 0 <= d.month < 100 && 0 <= d.day < 100
  {
    Pad(d.year, 4) + "-" + Pad(d.month, 2) + "-" + Pad(d.day, 2)
  }

  /** `%Y%m%d`. */
  function CompactDate(d: Date): (s: String)
    requires 0 <= d.year < 10000 && 0 <= d.month < 100 && 0 <= d.day < 100
    ensures |s| == 8
  {
    Pad(d.year, 4) + Pad(d.month, 2) + Pad(d.day, 2)
  }

  /** `%H:%M:%S`. */
  function ClockText(h: nat, m: nat, sec: nat): (s: String)
    requires h < 100 && m < 100 && sec < 100
    ensures |s| == 8
  {
    Pad(h, 2) + ":" + Pad(m, 2) + ":" + Pad(sec, 2)
  }

  /** `t.strftime("%Y-%m-%d %H:%M:%S")`. */
  function FormatDash(t: DateTime): (s: String)
    requires ValidDateTime(t)
    ensures |s| == 19
  {
    DashDate(t.date) + " " + ClockText(t.hour, t.minute, t.second)
  }

  /** `t.strftime("%Y%m%d%H:%M:%S")`, the form `ParseCompact` reads. */
  function FormatCompact(t: DateTime): (s: String)
    requires ValidDateTime(t)
  {
    CompactDate(t.date) + ClockText(t.hour, t.minute, t.second)
  }

  lemma DateDigitsRead(d: String)
    requires |d| == 8 && AllDigits(d)
    ensures AllDigits(d[..4]) && AllDigits(d[4..6]) && AllDigits(d[6..])
    ensures DashDate(Date(Num(d[..4]), Num(d[4..6]), Num(d[6..]))) == d[..4] + "-" + d[4..6] + "-" + d[6..]
  {
    assert AllDigits(d[..4]) && AllDigits(d[4..6]) && AllDigits(d[6..]);
    PadNum(d[..4]);
    PadNum(d[4..6]);
    PadNum(d[6..]);
  }

  lemma ClockDigitsRead(c: String)
    requires ClockShape(c)
    ensures ClockText(Num(c[..2]), Num(c[3..5]), Num(c[6..])) == c
  {
    PadNum(c[..2]);
    PadNum(c[3..5]);
    PadNum(c[6..]);
    assert c == c[..2] + [':'] + c[3..5] + [':'] + c[6..];
  }

  /** The re-emitted datetime is the input's digits with the separators moved. */
  lemma ReformatKeepsDigits(s: String)
    requires ParseCompact(s).Some?
    ensures FormatDash(ParseCompact(s).value) == s[..4] + "-" + s[4..6] + "-" + s[6..8] + " " + s[8..]
  {
    var d, c := s[..8], s[8..];
    DateDigitsRead(d);
    ClockDigitsRead(c);
    assert d[..4] == s[..4] && d[4..6] == s[4..6] && d[6..] == s[6..8];
  }

  lemma CompactDateRead(d: Date)
    requires ValidDate(d)
    ensures var s := CompactDate(d);
      AllDigits(s) && Num(s[..4]) == d.year && Num(s[4..6]) == d.month && Num(s[6..]) == d.day
  {
    var s := CompactDate(d);
    assert s[..4] == Pad(d.year, 4) && s[4..6] == Pad(d.month, 2) && s[6..] == Pad(d.day, 2);
    NumPad(d.year, 4);
    NumPad(d.month, 2);
    NumPad(d.day, 2);
  }

  lemma ClockTextRead(h: nat, m: nat, sec: nat)
    requires h < 100 && m < 100 && sec < 100
    ensures var c := ClockText(h, m, sec);
      ClockShape(c) && Num(c[..2]) == h && Num(c[3..5]) == m && Num(c[6..]) == sec
  {
    var c := ClockText(h, m, sec);
    assert c[..2] == Pad(h, 2) && c[3..5] == Pad(m, 2) && c[6..] == Pad(sec, 2);
    NumPad(h, 2);
    NumPad(m, 2);
    NumPad(sec, 2);
  }

  /** Every date-time written in the compact form parses back to itself. */
  lemma ParseFormatCompact(t: DateTime)
    requires ValidDateTime(t)
    ensures ParseCompact(FormatCompact(t)) == Some(t)
  {
    var s := FormatCompact(t);
    CompactDateRead(t.date);
    ClockTextRead(t.hour, t.minute, t.second);
    assert s[..8] == CompactDate(t.date) && s[8..] == ClockText(t.hour, t.minute, t.second);
  }

  /**
   * `datetime.strptime(s, "%Y-%m-%d %H:%M:%S")` on the fixed-width form:
   * the separators in place and the remaining digits as `ParseCompact`
   * reads them.
   */
  function ParseDash(s: String): (t: Option<DateTime>)
    ensures t.Some? ==> ValidDateTime(t.value)
  {
    if |s| != 19 || s[4] != '-' || s[7] != '-' || s[10] != ' ' then None
    else ParseCompact(s[..4] + s[5..7] + s[8..10] + s[11..])
  }

  /** Every date-time written in the dashed form parses back to itself. */
  lemma ParseFormatDash(t: DateTime)
    requires ValidDateTime(t)
    ensures ParseDash(FormatDash(t)) == Some(t)
  {
    var s := FormatDash(t);
    var d := t.date;
    assert s[..4] == Pad(d.year, 4) && s[5..7] == Pad(d.month, 2) && s[8..10] == Pad(d.day, 2);
    assert s[11..] == ClockText(t.hour, t.minute, t.second);
    assert s[..4] + s[5..7] + s[8..10] + s[11..] == FormatCompact(t);
    ParseFormatCompact(t);
  }

  // ---------------------------------------------------------------------------
  // Rows
  // ---------------------------------------------------------------------------

  /** One row of the import file, in the header's column order. */
  datatype VnpyRow = VnpyRow(datetime: String, open: String, high: String, low: String, close: String,
                             volume: String, turnover: String, openInterest: String)

  /** The row with its trailing blank fields removed. */
  function TrimEmpty(row: seq<String>): (r: seq<String>)
    ensures |r| <= |row| && r == row[..|r|]
    ensures r == [] || !AllSpace(r[|r| - 1])
    ensures forall i :: |r| <= i < |row| ==> AllSpace(row[i])
  {
    if row != [] && AllSpace(row[|row| - 1]) then TrimEmpty(row[..|row| - 1]) else row
  }

  /** The `while len(row) > 0 and str(row[-1]).strip() == "": row.pop()` loop. */
  method PopEmpty(fields: seq<String>) returns (row: seq<String>)
    ensures row == TrimEmpty(fields)
  {
    row := fields;
    while |row| > 0 && Strip(row[|row| - 1]) == []
      invariant |row| <= |fields| && row == fields[..|row|]
      invariant TrimEmpty(row) == TrimEmpty(fields)
    {
      StripEmpty(row[|row| - 1]);
      row := row[..|row| - 1];
    }
    if |row| > 0 {
      StripEmpty(row[|row| - 1]);
    }
  }

  /**
   * One parsed CSV row: None (a bad line) when fewer than 9 fields remain
   * after trimming or fields 0 and 1 do not form a date-time, otherwise the
   * output row from fields 3 to 8 with turnover "0".
   */
  function ConvertRow(fields: seq<String>): (r: Option<VnpyRow>)
  {
    var row := TrimEmpty(fields);
    if |row| < 9 then None
    else
      match ParseCompact(Strip(row[0]) + Strip(row[1]))
      case None => None
      case Some(t) =>
        Some(VnpyRow(FormatDash(t), Strip(row[3]), Strip(row[4]), Strip(row[5]), Strip(row[6]),
                     Strip(row[7]), "0", Strip(row[8])))
  }

  /**
   * A row is bad exactly when fewer than 9 fields survive trimming or its
   * date and time fields do not parse; a good row carries the reformatted
   * date-time, turnover "0" and fields 3 to 8 of the input.
   */
  lemma ConvertRowSpec(fields: seq<String>)
    ensures ConvertRow(fields).Some? <==> (|TrimEmpty(fields)| >= 9
              && ParseCompact(Strip(fields[0]) + Strip(fields[1])).Some?)
    ensures ConvertRow(fields).Some? ==>
              var t := ParseCompact(Strip(fields[0]) + Strip(fields[1])).value;
              ConvertRow(fields).value
                == VnpyRow(FormatDash(t), Strip(fields[3]), Strip(fields[4]), Strip(fields[5]),
                           Strip(fields[6]), Strip(fields[7]), "0", Strip(fields[8]))
  {
    var row := TrimEmpty(fields);
    if |row| >= 9 {
      assert row[..9] == fields[..9];
    }
  }

  /** The rows written for a list of cleaned, non-empty lines (`csv.reader` with ','). */
  function Converted(lines: seq<String>): (r: seq<VnpyRow>)
    ensures |r| <= |lines|
  {
    if lines == [] then []
    else
      var last := ConvertRow(Split(lines[|lines| - 1], ','));
      Converted(lines[..|lines| - 1]) + (if last.Some? then [last.value] else [])
  }

  /** The number of bad lines among the given ones. */
  function BadCount(lines: seq<String>): (n: nat)
    ensures n <= |lines|
  {
    if lines == [] then 0
    else BadCount(lines[..|lines| - 1]) + (if ConvertRow(Split(lines[|lines| - 1], ',')).None? then 1 else 0)
  }

  /** Every line is either written or counted bad. */
  lemma {:induction false} ConvertedOrBad(lines: seq<String>)
    ensures |Converted(lines)| + BadCount(lines) == |lines|
  {
    if lines != [] {
      ConvertedOrBad(lines[..|lines| - 1]);
    }
  }

  /** How the rows and the bad count grow by one line. */
  lemma ConvertStep(lines: seq<String>, k: nat)
    requires k < |lines|
    ensures var r := ConvertRow(Split(lines[k], ','));
      && Converted(lines[..k + 1]) == Converted(lines[..k]) + (if r.Some? then [r.value] else [])
      && BadCount(lines[..k + 1]) == BadCount(lines[..k]) + (if r.None? then 1 else 0)
  {
    assert lines[..k + 1][..k] == lines[..k];
  }

  /** One pass of the loop body on one line: pop the trailing blanks, check the width, parse the date-time. */
  method ConvertLine(line: String) returns (r: Option<VnpyRow>)
    ensures r == ConvertRow(Split(line, ','))
  {
    var row := PopEmpty(Split(line, ','));
    if |row| < 9 {
      return None;
    }
    var dt := ParseCompact(Strip(row[0]) + Strip(row[1]));
    if dt.None? {
      return None;
    }
    return Some(VnpyRow(FormatDash(dt.value), Strip(row[3]), Strip(row[4]), Strip(row[5]),
                        Strip(row[6]), Strip(row[7]), "0", Strip(row[8])));
  }

  /** The loop body for line k: convert it, then either append the row or count the line bad. */
  method ConvertNext(rawLines: seq<String>, k: nat, rows: seq<VnpyRow>, totalOut: nat, badLines: nat)
    returns (rows': seq<VnpyRow>, totalOut': nat, badLines': nat)
    requires k < |rawLines|
    requires rows == Converted(rawLines[..k]) && badLines == BadCount(rawLines[..k])
    requires totalOut == |rows|
    ensures rows' == Converted(rawLines[..k + 1]) && badLines' == BadCount(rawLines[..k + 1])
    ensures totalOut' == |rows'| && totalOut' + badLines' == totalOut + badLines + 1
  {
    ConvertStep(rawLines, k);
    var outRow := ConvertLine(rawLines[k]);
    if outRow.None? {
      return rows, totalOut, badLines + 1;
    }
    return rows + [outRow.value], totalOut + 1, badLines;
  }

  /** The row loop with its counters. */
  method ConvertRows(rawLines: seq<String>) returns (rows: seq<VnpyRow>, totalIn: nat, totalOut: nat, badLines: nat)
    ensures rows == Converted(rawLines) && badLines == BadCount(rawLines)
    ensures totalIn == |rawLines| && totalOut == |rows|
    ensures totalIn == totalOut + badLines
  {
    rows, totalIn, totalOut, badLines := [], 0, 0, 0;
    for k := 0 to |rawLines|
      invariant rows == Converted(rawLines[..k]) && badLines == BadCount(rawLines[..k])
      invariant totalIn == k && totalOut == |rows| && totalIn == totalOut + badLines
    {
      totalIn := totalIn + 1;
      rows, totalOut, badLines := ConvertNext(rawLines, k, rows, totalOut, badLines);
    }
    assert rawLines[..|rawLines|] == rawLines;
  }

  // ---------------------------------------------------------------------------
  // convert_to_vnpy_csv.py
  // ---------------------------------------------------------------------------

  const FullWidthComma: char := '\U{FF0C}'

  /** `normalize_line`: None becomes "", otherwise strip and turn every full-width comma into ','. */
  function NormalizeLine(line: Option<String>): (r: String)
    ensures line.None? ==> r == []
    ensures line.Some? ==> |r| == |Strip(line.value)|
    ensures line.Some? ==> forall i :: 0 <= i < |r| ==>
              r[i] == (if Strip(line.value)[i] == FullWidthComma then ',' else Strip(line.value)[i])
  {
    if line.None? then [] else
      ReplaceCharSpec(Strip(line.value), FullWidthComma, ',');
      ReplaceAll(Strip(line.value), [FullWidthComma], [','])
  }

  /** Replacing a one-character pattern by one character maps the string character by character. */
  lemma {:induction false} ReplaceCharSpec(s: String, c: char, d: char)
    ensures |ReplaceAll(s, [c], [d])| == |s|
    ensures forall i :: 0 <= i < |s| ==> ReplaceAll(s, [c], [d])[i] == (if s[i] == c then d else s[i])
    decreases |s|
  {
    if |s| >= 1 {
      ReplaceCharSpec(s[1..], c, d);
      assert s[..1] == [s[0]];
    }
  }

  /** The cleaned, non-empty lines, in file order. */
  function NonBlankLines(fileLines: seq<String>, clean: String -> String): (r: seq<String>)
    ensures |r| <= |fileLines|
    ensures forall i :: 0 <= i < |r| ==> r[i] != []
  {
    if fileLines == [] then []
    else
      var line := clean(fileLines[|fileLines| - 1]);
      NonBlankLines(fileLines[..|fileLines| - 1], clean) + (if line == [] then [] else [line])
  }

  /** The line-collecting loop shared by both converters. */
  method CollectLines(fileLines: seq<String>, clean: String -> String) returns (rawLines: seq<String>)
    ensures rawLines == NonBlankLines(fileLines, clean)
  {
    rawLines := [];
    for k := 0 to |fileLines|
      invariant rawLines == NonBlankLines(fileLines[..k], clean)
    {
      assert fileLines[..k + 1][..k] == fileLines[..k];
      var line2 := clean(fileLines[k]);
      if line2 == [] {
        continue;
      }
      rawLines := rawLines + [line2];
    }
    assert fileLines[..|fileLines|] == fileLines;
  }

  function Normalize(line: String): String { NormalizeLine(Some(line)) }

  /**
   * `convert`: lines empty after `normalize_line` are dropped before
   * parsing and are not counted; every other line is counted in and ends
   * up written or bad.
   */
  method Convert(fileLines: seq<String>) returns (rows: seq<VnpyRow>, totalIn: nat, totalOut: nat, badLines: nat)
    ensures rows == Converted(NonBlankLines(fileLines, Normalize))
    ensures totalIn == |NonBlankLines(fileLines, Normalize)|
    ensures totalOut == |rows| && totalIn == totalOut + badLines
  {
    var rawLines := CollectLines(fileLines, Normalize);
    rows, totalIn, totalOut, badLines := ConvertRows(rawLines);
  }

  /** A line is counted exactly when it is not blank after cleaning. */
  lemma {:induction false} CountedLines(fileLines: seq<String>, clean: String -> String)
    ensures |NonBlankLines(fileLines, clean)| == |fileLines| - BlankCount(fileLines, clean)
  {
    if fileLines != [] {
      CountedLines(fileLines[..|fileLines| - 1], clean);
    }
  }

  function BlankCount(fileLines: seq<String>, clean: String -> String): nat
  {
    if fileLines == [] then 0
    else BlankCount(fileLines[..|fileLines| - 1], clean) + (if clean(fileLines[|fileLines| - 1]) == [] then 1 else 0)
  }
}

=== FILE: csv_signal.dfy ===
/**
 * `CsvSignalStrategy`: on every tick, re-read a CSV signal file, pick the
 * lines added since the last look that name this strategy's symbol and
 * strategy, and turn each into one market-priced order. The file's content
 * at each look (its lines, or None when it does not exist) is an input, and
 * so are the `float()` / `int()` conversions of the price and volume texts.
 */
module CsvSignal {
  import opened Wrappers
  import opened Strings
  import opened CtaCommon

  /** The part of a `TickData` the strategy reads: best bid and best ask. */
  datatype Tick = Tick(bid: real, ask: real)

  /** One returned signal: the line's number and its comma fields. */
  datatype Signal = Signal(line: int, parts: seq<String>)

  /** Every line of a file, stripped (`line.strip()`). */
  function Stripped(lines: seq<String>): (r: seq<String>)
    ensures |r| == |lines| && forall i :: 0 <= i < |lines| ==> r[i] == Strip(lines[i])
  {
    seq(|lines|, i requires 0 <= i < |lines| => Strip(lines[i]))
  }

  lemma StrippedAppend(a: seq<String>, b: seq<String>)
    ensures Stripped(a + b) == Stripped(a) + Stripped(b)
  {
  }

  /** The non-empty lines of a sequence of stripped lines, in order. */
  function Kept(stripped: seq<String>): (r: seq<String>)
    ensures |r| <= |stripped|
    ensures forall k :: 0 <= k < |r| ==> r[k] != []
    decreases |stripped|
  {
    if stripped == [] then []
    else
      var line := stripped[|stripped| - 1];
      Kept(stripped[..|stripped| - 1]) + (if line == [] then [] else [line])
  }

  lemma {:induction false} KeptAppend(a: seq<String>, b: seq<String>)
    ensures Kept(a + b) == Kept(a) + Kept(b)
    decreases |b|
  {
    if b == [] {
      assert a + b == a;
    } else {
      var b' := b[..|b| - 1];
      assert (a + b)[..|a + b| - 1] == a + b';
      assert (a + b)[|a + b| - 1] == b[|b| - 1];
      KeptAppend(a, b');
    }
  }

  /** The stripped non-blank lines of a file, in order; their number is what `on_init` counts. */
  function NonBlank(lines: seq<String>): (r: seq<String>)
    ensures |r| <= |lines|
  {
    Kept(Stripped(lines))
  }

  /** Appending lines to a file keeps its non-blank lines as a prefix. */
  lemma NonBlankAppend(a: seq<String>, b: seq<String>)
    ensures NonBlank(a + b) == NonBlank(a) + NonBlank(b)
  {
    StrippedAppend(a, b);
    KeptAppend(Stripped(a), Stripped(b));
  }

  /** `vt_symbol.split('.')[0]`: the symbol a matching line must carry. */
  function ExpectedSymbol(vtSymbol: String): String
  {
    Split(vtSymbol, '.')[0]
  }

  /** At least 8 fields, field 1 is the symbol and field 7 the strategy name, both stripped. */
  predicate Matches(parts: seq<String>, expected: String, name: String)
  {
    |parts| >= 8 && Strip(parts[1]) == expected && Strip(parts[7]) == name
  }

  /** A stripped line's comma fields when it is a signal for this symbol and strategy. */
  function LineSignal(line: String, expected: String, name: String): (r: Option<seq<String>>)
    ensures r.Some? <==> Matches(Split(line, ','), expected, name)
    ensures r.Some? ==> r.value == Split(line, ',')
  {
    var parts := Split(line, ',');
    if Matches(parts, expected, name) then Some(parts) else None
  }

  /** The verdict on every line of a sequence of stripped, non-blank lines. */
  function Classified(nb: seq<String>, expected: String, name: String): (r: seq<Option<seq<String>>>)
    ensures |r| == |nb| && forall i :: 0 <= i < |nb| ==> r[i] == LineSignal(nb[i], expected, name)
  {
    seq(|nb|, i requires 0 <= i < |nb| => LineSignal(nb[i], expected, name))
  }

  lemma ClassifiedAppend(a: seq<String>, b: seq<String>, expected: String, name: String)
    ensures Classified(a + b, expected, name) == Classified(a, expected, name) + Classified(b, expected, name)
  {
  }

  /** The line numbers of a list of signals. */
  function Lines(signals: seq<Signal>): set<int>
  {
    set k | 0 <= k < |signals| :: signals[k].line
  }

  /** Appending a signal adds its line number. */
  lemma LinesAppend(signals: seq<Signal>, s: Signal)
    ensures Lines(signals + [s]) == Lines(signals) + {s.line}
  {
    var r := signals + [s];
    assert forall k :: 0 <= k < |signals| ==> r[k] == signals[k];
    assert r[|signals|] == s;
  }

  /** Signals all below a line number do not carry it. */
  lemma LinesBelow(signals: seq<Signal>, j: int)
    requires forall k :: 0 <= k < |signals| ==> signals[k].line < j
    ensures j !in Lines(signals)
  {
  }

  /** Every processed line lies below the count of lines already looked at. */
  predicate ProcessedBelow(processed: set<int>, last: int)
  {
    forall j :: j in processed ==> j < last
  }

  // ---------------------------------------------------------------------------
  // The scan over a sequence of line verdicts
  // ---------------------------------------------------------------------------

  /**
   * The signals among the verdicts `from` to `upto - 1`: exactly the lines
   * that are signals and were not processed before, in line order.
   */
  function Scan(c: seq<Option<seq<String>>>, from: nat, upto: nat, processed: set<int>): (r: seq<Signal>)
    requires upto <= |c|
    ensures forall k :: 0 <= k < |r| ==> from <= r[k].line < upto && r[k].line !in processed
    ensures forall j, k :: 0 <= j < k < |r| ==> r[j].line < r[k].line
    decreases upto
  {
    if upto <= from then []
    else
      var rest := Scan(c, from, upto - 1, processed);
      if upto - 1 !in processed && c[upto - 1].Some? then rest + [Signal(upto - 1, c[upto - 1].value)] else rest
  }

  /** Every returned signal carries its line's fields. */
  lemma {:induction false} ScanSound(c: seq<Option<seq<String>>>, from: nat, upto: nat, processed: set<int>)
    decreases upto
    requires upto <= |c|
    ensures forall k :: 0 <= k < |Scan(c, from, upto, processed)| ==>
      c[Scan(c, from, upto, processed)[k].line] == Some(Scan(c, from, upto, processed)[k].parts)
  {
    if upto > from {
      ScanSound(c, from, upto - 1, processed);
      var rest := Scan(c, from, upto - 1, processed);
      assert forall k :: 0 <= k < |rest| ==> c[rest[k].line] == Some(rest[k].parts);
    }
  }

  /** One more verdict at the end of the range adds its signal, if any. */
  lemma ScanStep(c: seq<Option<seq<String>>>, from: nat, i: nat, processed: set<int>)
    requires from <= i < |c|
    ensures Scan(c, from, i + 1, processed)
      == Scan(c, from, i, processed) + (if i !in processed && c[i].Some? then [Signal(i, c[i].value)] else [])
  {
  }

  /** No signal line in range that was not processed before is missed. */
  lemma {:induction false} ScanComplete(c: seq<Option<seq<String>>>, from: nat, upto: nat, processed: set<int>)
    decreases upto
    requires upto <= |c|
    ensures Lines(Scan(c, from, upto, processed)) == set i | from <= i < upto && i !in processed && c[i].Some?
  {
    if upto > from {
      ScanComplete(c, from, upto - 1, processed);
      var rest := Scan(c, from, upto - 1, processed);
      if upto - 1 !in processed && c[upto - 1].Some? {
        LinesAppend(rest, Signal(upto - 1, c[upto - 1].value));
      }
    }
  }

  /** Consecutive ranges scan to the concatenation of their signals. */
  lemma {:induction false} ScanSplit(c: seq<Option<seq<String>>>, from: nat, mid: nat, upto: nat, processed: set<int>)
    decreases upto
    requires from <= mid <= upto <= |c|
    ensures Scan(c, from, upto, processed) == Scan(c, from, mid, processed) + Scan(c, mid, upto, processed)
  {
    if upto > mid {
      ScanSplit(c, from, mid, upto - 1, processed);
    }
  }

  /** Verdicts appended after the range do not change its signals. */
  lemma {:induction false} ScanPrefix(c: seq<Option<seq<String>>>, more: seq<Option<seq<String>>>, from: nat, upto: nat, processed: set<int>)
    decreases upto
    requires upto <= |c|
    ensures Scan(c + more, from, upto, processed) == Scan(c, from, upto, processed)
  {
    if upto > from {
      ScanPrefix(c, more, from, upto - 1, processed);
      assert (c + more)[upto - 1] == c[upto - 1];
    }
  }

  /** Processed lines below the range do not change its signals. */
  lemma {:induction false} ScanIgnoresBelow(c: seq<Option<seq<String>>>, from: nat, upto: nat, processed: set<int>, extra: set<int>)
    decreases upto
    requires upto <= |c|
    requires forall j :: j in extra ==> j < from
    ensures Scan(c, from, upto, processed + extra) == Scan(c, from, upto, processed)
  {
    if upto > from {
      ScanIgnoresBelow(c, from, upto - 1, processed, extra);
    }
  }

  // ---------------------------------------------------------------------------
  // `_check_new_signals` as written: raw line numbers bounded by a non-blank count
  // ---------------------------------------------------------------------------

  /** The verdict on every raw line of a file as the loop sees it: a blank line is never a signal. */
  function RawClassified(lines: seq<String>, expected: String, name: String): (r: seq<Option<seq<String>>>)
    ensures |r| == |lines|
    ensures forall i :: 0 <= i < |lines| ==>
      r[i] == if Strip(lines[i]) == [] then None else LineSignal(Strip(lines[i]), expected, name)
  {
    seq(|lines|, i requires 0 <= i < |lines| =>
      var line := Strip(lines[i]);
      if line == [] then None else LineSignal(line, expected, name))
  }

  /**
   * `_check_new_signals` as written: the RAW lines from `last_line_count` up
   * to the count of NON-BLANK lines are scanned, and that count is stored.
   * Returns the signals, the new count and the new processed set.
   */
  function NewSignalsAsWritten(file: Option<seq<String>>, last: nat, processed: set<int>, expected: String, name: String): (seq<Signal>, nat, set<int>)
  {
    if file.None? then ([], last, processed)
    else
      var current := |NonBlank(file.value)|;
      if current <= last then ([], last, processed)
      else
        var signals := Scan(RawClassified(file.value, expected, name), last, current, processed);
        (signals, current, processed + Lines(signals))
  }

  /**
   * `_check_new_signals` with the line numbers corrected: the non-blank
   * lines from `last_line_count` to their count are scanned, and the count
   * is stored. With no file, or no growth, nothing changes.
   */
  function NewSignals(file: Option<seq<String>>, last: nat, processed: set<int>, expected: String, name: String): (seq<Signal>, nat, set<int>)
  {
    if file.None? then ([], last, processed)
    else
      var nb := NonBlank(file.value);
      if |nb| <= last then ([], last, processed)
      else
        var signals := Scan(Classified(nb, expected, name), last, |nb|, processed);
        (signals, |nb|, processed + Lines(signals))
  }

  /**
   * A blank line holds a signal back. The strategy starts on a file of
   * one line (so the count is 1); then a blank line and a matching line are
   * appended. The count is now 2, so only raw line 1, the blank one, is
   * looked at, and the count moves to 2; every later look at the same file
   * finds no growth, so the signal is lost unless more lines are appended
   * (`BlankLineDelaysSignal`). The corrected scan returns the matching line at once.
   */
  lemma BlankLineLosesSignal(first: String, signal: String, vtSymbol: String, name: String)
    requires Strip(first) != [] && Strip(signal) != []
    requires Matches(Split(Strip(signal), ','), ExpectedSymbol(vtSymbol), name)
    ensures var file := Some([first, "", signal]);
      var last := |NonBlank([first])|;
      var (signals, last', processed') := NewSignalsAsWritten(file, last, {}, ExpectedSymbol(vtSymbol), name);
      && last == 1 && signals == [] && last' == 2
      && NewSignalsAsWritten(file, last', processed', ExpectedSymbol(vtSymbol), name).0 == []
      && NewSignals(file, last, {}, ExpectedSymbol(vtSymbol), name).0 == [Signal(1, Split(Strip(signal), ','))]
  {
    var lines := [first, "", signal];
    NonBlankOf(first, signal);
    var expected := ExpectedSymbol(vtSymbol);
    var raw := RawClassified(lines, expected, name);
    assert raw[1] == None by {
      StripEmpty("");
    }
    assert Scan(raw, 1, 1, {}) == [];
    assert Scan(raw, 1, 2, {}) == [];
    assert Lines([]) == {};
    var c := Classified(NonBlank(lines), expected, name);
    assert c[1] == Some(Split(Strip(signal), ','));
    assert Scan(c, 1, 1, {}) == [];
    assert Scan(c, 1, 2, {}) == [Signal(1, Split(Strip(signal), ','))];
  }

  /**
   * The signal held back in `BlankLineLosesSignal` is delivered one look late
   * once one more non-blank line is appended: the count grows to 3, so raw
   * line 2, the signal, is scanned, while the appended line waits for the next growth.
   */
  lemma BlankLineDelaysSignal(first: String, signal: String, next: String, vtSymbol: String, name: String)
    requires Strip(first) != [] && Strip(signal) != [] && Strip(next) != []
    requires Matches(Split(Strip(signal), ','), ExpectedSymbol(vtSymbol), name)
    ensures var r := NewSignalsAsWritten(Some([first, "", signal, next]), 2, {}, ExpectedSymbol(vtSymbol), name);
      r.0 == [Signal(2, Split(Strip(signal), ','))] && r.1 == 3 && r.2 == {2}
  {
    NonBlankOfGrown(first, signal, next);
    ScanGrown(first, signal, next, ExpectedSymbol(vtSymbol), name);
    AsWrittenGrows([first, "", signal, next], 2, {}, ExpectedSymbol(vtSymbol), name);
  }

  /** A look at a file whose non-blank count has passed `last`, as written. */
  lemma AsWrittenGrows(lines: seq<String>, last: nat, processed: set<int>, expected: String, name: String)
    requires last < |NonBlank(lines)|
    ensures var signals := Scan(RawClassified(lines, expected, name), last, |NonBlank(lines)|, processed);
      NewSignalsAsWritten(Some(lines), last, processed, expected, name) == (signals, |NonBlank(lines)|, processed + Lines(signals))
  {
  }

  /** The scan of raw lines 2..3 of the grown file in `BlankLineDelaysSignal`. */
  lemma ScanGrown(first: String, signal: String, next: String, expected: String, name: String)
    requires Strip(signal) != []
    requires Matches(Split(Strip(signal), ','), expected, name)
    ensures Scan(RawClassified([first, "", signal, next], expected, name), 2, 3, {}) == [Signal(2, Split(Strip(signal), ','))]
    ensures Lines([Signal(2, Split(Strip(signal), ','))]) == {2}
  {
    var raw := RawClassified([first, "", signal, next], expected, name);
    assert raw[2] == Some(Split(Strip(signal), ','));
    assert Scan(raw, 2, 2, {}) == [];
    var found := [Signal(2, Split(Strip(signal), ','))];
    assert found[0].line == 2;
  }

  /** The non-blank lines of the grown file in `BlankLineDelaysSignal`. */
  lemma NonBlankOfGrown(first: String, signal: String, next: String)
    requires Strip(first) != [] && Strip(signal) != [] && Strip(next) != []
    ensures NonBlank([first, "", signal, next]) == [Strip(first), Strip(signal), Strip(next)]
  {
    NonBlankOf(first, signal);
    assert [first, "", signal, next] == [first, "", signal] + [next];
    NonBlankSnoc([first, "", signal], next);
  }

  /** A one-line file has its stripped line as its non-blank lines, unless that is empty. */
  lemma NonBlankSingle(line: String)
    ensures NonBlank([line]) == if Strip(line) == [] then [] else [Strip(line)]
  {
    var st := Stripped([line]);
    assert st == [Strip(line)] && st[..0] == [];
  }

  /** The non-blank lines of the files in `BlankLineLosesSignal`. */
  lemma NonBlankOf(first: String, signal: String)
    requires Strip(first) != [] && Strip(signal) != []
    ensures NonBlank([first]) == [Strip(first)]
    ensures NonBlank([first, "", signal]) == [Strip(first), Strip(signal)]
  {
    StripEmpty("");
    NonBlankSingle(first);
    var two := [first, ""];
    assert two == [first] + [""];
    NonBlankSnoc([first], "");
    assert [first, "", signal] == two + [signal];
    NonBlankSnoc(two, signal);
  }

  /** One more line adds its stripped text to the non-blank lines, unless that is empty. */
  lemma NonBlankSnoc(lines: seq<String>, line: String)
    ensures NonBlank(lines + [line]) == NonBlank(lines) + if Strip(line) == [] then [] else [Strip(line)]
  {
    NonBlankAppend(lines, [line]);
    NonBlankSingle(line);
  }

  /**
   * One look at the file. Without growth nothing is returned and nothing
   * changes; otherwise the count becomes the file's non-blank count, the
   * returned lines join the processed set, and that set stays below the count.
   */
  lemma NewSignalsSpec(file: Option<seq<String>>, last: nat, processed: set<int>, expected: String, name: String)
    requires ProcessedBelow(processed, last)
    ensures var (signals, last', processed') := NewSignals(file, last, processed, expected, name);
      && ((file.None? || |NonBlank(file.value)| <= last) ==> signals == [] && last' == last && processed' == processed)
      && (file.Some? && |NonBlank(file.value)| > last ==> last' == |NonBlank(file.value)|)
      && processed' == processed + Lines(signals)
      && ProcessedBelow(processed', last')
      && (forall k :: 0 <= k < |signals| ==>
            (&& signals[k].line !in processed
             && Matches(signals[k].parts, expected, name)
             && signals[k].parts == Split(NonBlank(file.value)[signals[k].line], ',')))
  {
    if file.Some? {
      var nb := NonBlank(file.value);
      if |nb| > last {
        var c := Classified(nb, expected, name);
        ScanSound(c, last, |nb|, processed);
        var signals := Scan(c, last, |nb|, processed);
        assert forall j :: j in Lines(signals) ==> j < |nb|;
      }
    }
  }

  /**
   * Every signal is delivered exactly once. Starting from a count `last` at
   * most the first file's non-blank count, a look at a file and a later look
   * at the same file with lines appended together return the matching lines
   * from `last` to the end of the second file, each once, in order.
   */
  lemma DeliveredOnce(first: seq<String>, appended: seq<String>, last: nat, processed: set<int>, expected: String, name: String)
    requires ProcessedBelow(processed, last) && last <= |NonBlank(first)|
    ensures var (s1, last1, p1) := NewSignals(Some(first), last, processed, expected, name);
      var (s2, _, _) := NewSignals(Some(first + appended), last1, p1, expected, name);
      var nb := NonBlank(first + appended);
      s1 + s2 == Scan(Classified(nb, expected, name), last, |nb|, processed)
  {
    var nb1 := NonBlank(first);
    NonBlankAppend(first, appended);
    var more := NonBlank(appended);
    var nb2 := NonBlank(first + appended);
    assert nb2 == nb1 + more;
    var c1, c2 := Classified(nb1, expected, name), Classified(nb2, expected, name);
    ClassifiedAppend(nb1, more, expected, name);
    assert c2 == c1 + Classified(more, expected, name);
    ScanPrefix(c1, Classified(more, expected, name), last, |nb1|, processed);
    var s1 := Scan(c2, last, |nb1|, processed);
    assert s1 == Scan(c1, last, |nb1|, processed);
    if |nb1| == last {
      assert s1 == [] && Lines(s1) == {};
      assert processed + Lines(s1) == processed;
    }
    assert NewSignals(Some(first), last, processed, expected, name) == (s1, |nb1|, processed + Lines(s1));
    var p1 := processed + Lines(s1);
    assert NewSignals(Some(first + appended), |nb1|, p1, expected, name).0 == Scan(c2, |nb1|, |nb2|, p1);
    ScanResumed(c2, last, |nb1|, |nb2|, processed);
  }

  /**
   * Scanning a range in two looks, the second one skipping what the first
   * returned, gives the scan of the whole range.
   */
  lemma ScanResumed(c: seq<Option<seq<String>>>, from: nat, mid: nat, upto: nat, processed: set<int>)
    requires from <= mid <= upto <= |c|
    ensures var s1 := Scan(c, from, mid, processed);
      s1 + Scan(c, mid, upto, processed + Lines(s1)) == Scan(c, from, upto, processed)
  {
    var s1 := Scan(c, from, mid, processed);
    ScanSplit(c, from, mid, upto, processed);
    assert forall j :: j in Lines(s1) ==> j < mid;
    ScanIgnoresBelow(c, mid, upto, processed, Lines(s1));
  }

  // ---------------------------------------------------------------------------
  // From a signal to an order
  // ---------------------------------------------------------------------------

  /** A direction or action field: stripped, full-width spaces removed, stripped again. */
  function Clean(s: String): (r: String)
    ensures forall i :: 0 <= i < |r| ==> r[i] != '　'
    ensures r == [] || (!IsSpace(r[0]) && !IsSpace(r[|r| - 1]))
  {
    var t := RemoveChar(Strip(s), '　');
    StripNoChar(t, '　');
    Strip(t)
  }

  /** A closing order never asks for more than the position: `min(volume, abs(pos))`. */
  function CloseVolume(volume: int, pos: int): (r: int)
    ensures r <= volume && r <= Abs(pos) && (r == volume || r == Abs(pos))
  {
    if volume <= Abs(pos) then volume else Abs(pos)
  }

  /** What `_process_signal` reads from the fields: cleaned direction and action, converted volume. */
  datatype Fields = Fields(direction: String, action: String, volume: int)

  /**
   * Reading fields 2 to 5: fewer than six fields, or a price or volume text
   * that does not convert, raises and is caught, so nothing is read.
   */
  function ReadFields(parts: seq<String>, parseFloat: String -> Option<real>, parseInt: String -> Option<int>): (r: Option<Fields>)
    ensures r.Some? <==> |parts| >= 6 && parseFloat(Strip(parts[4])).Some? && parseInt(Strip(parts[5])).Some?
    ensures r.Some? ==> r.value == Fields(Clean(parts[2]), Clean(parts[3]), parseInt(Strip(parts[5])).value)
  {
    if |parts| < 6 then None
    else
      var price := parseFloat(Strip(parts[4]));
      var volume := parseInt(Strip(parts[5]));
      if price.None? || volume.None? then None
      else Some(Fields(Clean(parts[2]), Clean(parts[3]), volume.value))
  }

  /**
   * The dispatch of `_process_signal`: 买开 buys at the ask, 卖开 shorts at
   * the bid; 买平 covers at the bid only from a short position, 卖平 sells
   * at the ask only from a long one; anything else sends nothing.
   */
  function Dispatch(tick: Tick, f: Fields, pos: int): Option<Order>
  {
    if f.direction == "买" then
      if f.action == "开" then Some(Order(Buy, tick.ask, f.volume))
      else if f.action == "平" && pos < 0 then Some(Order(Cover, tick.bid, CloseVolume(f.volume, pos)))
      else None
    else if f.direction == "卖" then
      if f.action == "开" then Some(Order(Short, tick.bid, f.volume))
      else if f.action == "平" && pos > 0 then Some(Order(Sell, tick.ask, CloseVolume(f.volume, pos)))
      else None
    else None
  }

  /**
   * The dispatch table, each row both ways: which fields give which order
   * side, at which side of the book and for which volume; a cover needs a
   * short position and a sell a long one, and neither exceeds the position.
   */
  lemma DispatchSpec(tick: Tick, f: Fields, pos: int)
    ensures var r := Dispatch(tick, f, pos);
      && (r == Some(Order(Buy, tick.ask, f.volume)) <==> f.direction == "买" && f.action == "开")
      && (r == Some(Order(Short, tick.bid, f.volume)) <==> f.direction == "卖" && f.action == "开")
      && ((r.Some? && r.value.side == Cover) <==> f.direction == "买" && f.action == "平" && pos < 0)
      && ((r.Some? && r.value.side == Sell) <==> f.direction == "卖" && f.action == "平" && pos > 0)
      && (r.Some? && r.value.side == Cover ==> r.value == Order(Cover, tick.bid, CloseVolume(f.volume, pos)))
      && (r.Some? && r.value.side == Sell ==> r.value == Order(Sell, tick.ask, CloseVolume(f.volume, pos)))
      && (r.Some? && (r.value.side == Cover || r.value.side == Sell) ==> r.value.volume <= Abs(pos))
      && (r.None? <==> !(f.action == "开" || (f.action == "平" && pos != 0)) || !(f.direction == "买" || f.direction == "卖")
                       || (f.action == "平" && (if f.direction == "买" then pos >= 0 else pos <= 0)))
  {
  }

  /** `_process_signal`: nothing without a last tick or when the fields cannot be read. */
  function SignalOrder(tick: Option<Tick>, parts: seq<String>, pos: int,
                       parseFloat: String -> Option<real>, parseInt: String -> Option<int>): (r: Option<Order>)
    ensures r.Some? ==> tick.Some? && ReadFields(parts, parseFloat, parseInt).Some?
  {
    if tick.None? then None
    else
      var f := ReadFields(parts, parseFloat, parseInt);
      if f.None? then None else Dispatch(tick.value, f.value, pos)
  }

  /** `_process_signal`'s verdict on each of a list of signals, at one position. */
  function Verdicts(tick: Option<Tick>, signals: seq<Signal>, pos: int,
                    parseFloat: String -> Option<real>, parseInt: String -> Option<int>): (r: seq<Option<Order>>)
    ensures |r| == |signals|
    ensures forall i :: 0 <= i < |signals| ==> r[i] == SignalOrder(tick, signals[i].parts, pos, parseFloat, parseInt)
  {
    seq(|signals|, i requires 0 <= i < |signals| => SignalOrder(tick, signals[i].parts, pos, parseFloat, parseInt))
  }

  /** The orders present among some verdicts, in order. */
  function Present(verdicts: seq<Option<Order>>): (r: seq<Order>)
    ensures |r| <= |verdicts|
    decreases |verdicts|
  {
    if verdicts == [] then []
    else
      var o := verdicts[|verdicts| - 1];
      Present(verdicts[..|verdicts| - 1]) + (if o.Some? then [o.value] else [])
  }

  /** One more verdict adds its order, if any. */
  lemma PresentStep(verdicts: seq<Option<Order>>, k: nat)
    requires k < |verdicts|
    ensures Present(verdicts[..k + 1])
      == Present(verdicts[..k]) + (if verdicts[k].Some? then [verdicts[k].value] else [])
  {
    assert verdicts[..k + 1][..k] == verdicts[..k];
  }

  /** The orders of a list of signals, one look at the position for all of them. */
  function SignalOrders(tick: Option<Tick>, signals: seq<Signal>, pos: int,
                        parseFloat: String -> Option<real>, parseInt: String -> Option<int>): (r: seq<Order>)
    ensures |r| <= |signals|
  {
    Present(Verdicts(tick, signals, pos, parseFloat, parseInt))
  }

  /** Fields that read give the dispatch of those fields. */
  lemma SignalOrderOf(tick: Tick, parts: seq<String>, pos: int,
                      parseFloat: String -> Option<real>, parseInt: String -> Option<int>, f: Fields)
    requires ReadFields(parts, parseFloat, parseInt) == Some(f)
    ensures SignalOrder(Some(tick), parts, pos, parseFloat, parseInt) == Dispatch(tick, f, pos)
  {
  }

  /** 卖平 for the whole of a long position sells all of it at the ask. */
  lemma SellWhole(tick: Tick, pos: int)
    requires pos > 0
    ensures Dispatch(tick, Fields("卖", "平", pos), pos) == Some(Order(Sell, tick.ask, pos))
  {
    assert CloseVolume(pos, pos) == pos;
  }

  /**
   * The position is not updated between the signals of one tick, so each
   * closing order is bounded by the whole position: two 卖平 signals for the
   * whole position in one tick sell it twice.
   */
  lemma CloseTwiceInOneTick(tick: Tick, parts: seq<String>, pos: int,
                            parseFloat: String -> Option<real>, parseInt: String -> Option<int>)
    requires pos > 0 && ReadFields(parts, parseFloat, parseInt) == Some(Fields("卖", "平", pos))
    ensures SignalOrders(Some(tick), [Signal(0, parts), Signal(1, parts)], pos, parseFloat, parseInt)
      == [Order(Sell, tick.ask, pos), Order(Sell, tick.ask, pos)]
  {
    var o := Order(Sell, tick.ask, pos);
    SellWhole(tick, pos);
    SignalOrderOf(tick, parts, pos, parseFloat, parseInt, Fields("卖", "平", pos));
    var verdicts := Verdicts(Some(tick), [Signal(0, parts), Signal(1, parts)], pos, parseFloat, parseInt);
    assert verdicts[0] == Some(o) && verdicts[1] == Some(o);
    assert verdicts[..0] == [] && verdicts[..2] == verdicts;
    PresentStep(verdicts, 0);
    PresentStep(verdicts, 1);
  }

  /**
   * The loop of `_check_new_signals` over the verdicts `from` to `upto - 1`:
   * skip processed lines, keep the signals, and add their numbers to the
   * processed set.
   */
  method ScanVerdicts(c: seq<Option<seq<String>>>, from: nat, upto: nat, processed: set<int>)
    returns (signals: seq<Signal>, processed': set<int>)
    requires from <= upto <= |c|
    ensures signals == Scan(c, from, upto, processed)
    ensures processed' == processed + Lines(signals)
  {
    signals, processed' := [], processed;
    var i := from;
    while i < upto
      invariant from <= i <= upto
      invariant signals == Scan(c, from, i, processed)
      invariant processed' == processed + Lines(signals)
    {
      signals, processed' := ScanLine(c, from, i, processed, signals, processed');
      i := i + 1;
    }
  }

  /** One turn of that loop: line `i` is skipped when processed, otherwise kept when it is a signal. */
  method ScanLine(c: seq<Option<seq<String>>>, from: nat, i: nat, processed: set<int>,
                  signals: seq<Signal>, seen: set<int>)
    returns (signals': seq<Signal>, seen': set<int>)
    requires from <= i < |c|
    requires signals == Scan(c, from, i, processed) && seen == processed + Lines(signals)
    ensures signals' == Scan(c, from, i + 1, processed)
    ensures seen' == processed + Lines(signals')
  {
    ScanStep(c, from, i, processed);
    signals', seen' := signals, seen;
    if i in seen {
      LinesBelow(signals, i);
    } else if c[i].Some? {
      LinesAppend(signals, Signal(i, c[i].value));
      signals' := signals + [Signal(i, c[i].value)];
      seen' := seen + {i};
    }
  }

  /** The loop of `on_tick`: `_process_signal` on each signal in turn, at one position. */
  method ProcessSignals(tick: Option<Tick>, signals: seq<Signal>, pos: int,
                        parseFloat: String -> Option<real>, parseInt: String -> Option<int>)
    returns (orders: seq<Order>)
    ensures orders == SignalOrders(tick, signals, pos, parseFloat, parseInt)
  {
    orders := [];
    ghost var verdicts := Verdicts(tick, signals, pos, parseFloat, parseInt);
    var k := 0;
    while k < |signals|
      invariant 0 <= k <= |signals|
      invariant orders == Present(verdicts[..k])
    {
      var o := SignalOrder(tick, signals[k].parts, pos, parseFloat, parseInt);
      assert o == verdicts[k];
      PresentStep(verdicts, k);
      if o.Some? {
        orders := orders + [o.value];
      }
      k := k + 1;
    }
    assert verdicts[..|signals|] == verdicts;
  }

  // ---------------------------------------------------------------------------
  // The strategy object
  // ---------------------------------------------------------------------------

  class CsvSignalStrategy {
    /** The instance name the strategy was added under. */
    const strategyName: String
    /** The parameters. */
    var csvFilePath: String
    var vtSymbol: String
    var userStrategyName: String
    /** The variables. */
    var lastLineCount: nat
    var processedLines: set<int>
    var lastTick: Option<Tick>
    var lastTickPrice: real
    var tickCount: int

    /** The state invariant: processed lines lie below the count. */
    predicate Valid()
      reads this
    {
      ProcessedBelow(processedLines, lastLineCount)
    }

    /** A strategy from its instance name, symbol and settings; variables at their class defaults. */
    constructor (name: String, symbol: String, path: String, userName: String)
      ensures strategyName == name && vtSymbol == symbol && csvFilePath == path && userStrategyName == userName
      ensures lastLineCount == 0 && processedLines == {} && lastTick == None && lastTickPrice == 0.0 && tickCount == 0
      ensures Valid()
    {
      strategyName := name;
      vtSymbol, csvFilePath, userStrategyName := symbol, path, userName;
      lastLineCount, processedLines, lastTick, lastTickPrice, tickCount := 0, {}, None, 0.0, 0;
    }

    /**
     * `on_init`, given the file's content (None when it does not exist):
     * forget the processed lines; with no path or no symbol stop there;
     * default an empty strategy name to the instance name; count the
     * file's non-blank lines when it exists.
     */
    method OnInit(file: Option<seq<String>>)
      modifies this
      ensures processedLines == {} && Valid()
      ensures userStrategyName ==
        if csvFilePath != [] && vtSymbol != [] && old(userStrategyName) == [] then strategyName else old(userStrategyName)
      ensures lastLineCount ==
        if csvFilePath != [] && vtSymbol != [] && file.Some? then |NonBlank(file.value)| else old(lastLineCount)
      ensures csvFilePath == old(csvFilePath) && vtSymbol == old(vtSymbol)
      ensures lastTick == old(lastTick) && lastTickPrice == old(lastTickPrice) && tickCount == old(tickCount)
    {
      processedLines := {};
      if csvFilePath == [] {
        return;
      }
      if vtSymbol == [] {
        return;
      }
      if userStrategyName == [] {
        userStrategyName := strategyName;
      }
      if file.None? {
        return;
      }
      lastLineCount := |NonBlank(file.value)|;
    }

    /** `_check_new_signals` with the corrected line numbers. */
    method CheckNewSignals(file: Option<seq<String>>) returns (signals: seq<Signal>)
      requires Valid()
      modifies this
      ensures Valid()
      ensures (signals, lastLineCount, processedLines)
        == NewSignals(file, old(lastLineCount), old(processedLines), ExpectedSymbol(vtSymbol), userStrategyName)
      ensures csvFilePath == old(csvFilePath) && vtSymbol == old(vtSymbol) && userStrategyName == old(userStrategyName)
      ensures lastTick == old(lastTick) && lastTickPrice == old(lastTickPrice) && tickCount == old(tickCount)
    {
      signals := [];
      if file.None? {
        return;
      }
      var nb := NonBlank(file.value);
      var current := |nb|;
      if current <= lastLineCount {
        return;
      }
      var verdicts := Classified(nb, ExpectedSymbol(vtSymbol), userStrategyName);
      signals, processedLines := ScanVerdicts(verdicts, lastLineCount, current, processedLines);
      lastLineCount := current;
    }

    /**
     * `on_tick`: remember the tick and its ask, count it, look at the file
     * and process each new signal in order.
     */
    method OnTick(tick: Tick, file: Option<seq<String>>, pos: int,
                  parseFloat: String -> Option<real>, parseInt: String -> Option<int>)
      returns (orders: seq<Order>)
      requires Valid()
      modifies this
      ensures Valid()
      ensures lastTick == Some(tick) && lastTickPrice == tick.ask && tickCount == old(tickCount) + 1
      ensures var (signals, last', processed') :=
          NewSignals(file, old(lastLineCount), old(processedLines), ExpectedSymbol(vtSymbol), userStrategyName);
        && lastLineCount == last' && processedLines == processed'
        && orders == SignalOrders(Some(tick), signals, pos, parseFloat, parseInt)
      ensures csvFilePath == old(csvFilePath) && vtSymbol == old(vtSymbol) && userStrategyName == old(userStrategyName)
    {
      lastTick := Some(tick);
      lastTickPrice := tick.ask;
      tickCount := tickCount + 1;
      var signals := CheckNewSignals(file);
      orders := ProcessSignals(lastTick, signals, pos, parseFloat, parseInt);
    }
  }
}

=== FILE: cta_common.dfy ===
/**
 * What the sample CTA strategies share: the bar they see, the orders they
 * emit (the template's `buy` / `sell` / `short` / `cover` calls become
 * values), the fills they are told about, the `max(lo, min(x, hi))`
 * parameter clamp and the bar-generator table of the two breakout
 * strategies. Prices and percentages are `real`; rounding is not modelled.
 */
module CtaCommon {

  /** The part of a `BarData` the strategies read. */
  datatype Bar = Bar(open: real, high: real, low: real, close: real, volume: real)

  /** The four order calls of the strategy template. */
  datatype Side = Buy | Sell | Short | Cover

  /** One order call: side, limit price and volume. */
  datatype Order = Order(side: Side, price: real, volume: int)

  /** The part of a `TradeData` the strategies read: direction LONG or SHORT, offset OPEN or not, price. */
  datatype Trade = Trade(long: bool, opening: bool, price: real)

  function Abs(x: int): (r: nat)
    ensures r == x || r == -x
  { if x < 0 then -x else x }

  /** `max(lo, min(x, hi))` on integers. */
  function ClampInt(x: int, lo: int, hi: int): (r: int)
    requires lo <= hi
    ensures lo <= r <= hi
    ensures lo <= x <= hi ==> r == x
    ensures x < lo ==> r == lo
    ensures hi < x ==> r == hi
  {
    var m := if x < hi then x else hi;
    if lo < m then m else lo
  }

  /** `max(lo, min(x, hi))` on floats. */
  function ClampReal(x: real, lo: real, hi: real): (r: real)
    requires lo <= hi
    ensures lo <= r <= hi
    ensures lo <= x <= hi ==> r == x
    ensures x < lo ==> r == lo
    ensures hi < x ==> r == hi
  {
    var m := if x < hi then x else hi;
    if lo < m then m else lo
  }

  /** `max(1, x)`: the order size floor. */
  function AtLeastOne(x: int): (r: int)
    ensures r >= 1 && (x >= 1 ==> r == x)
  { if x < 1 then 1 else x }

  /** The largest element of a non-empty sequence (`max(...)`). */
  function MaxOf(s: seq<real>): (r: real)
    requires s != []
    ensures (forall i :: 0 <= i < |s| ==> s[i] <= r) && exists i :: 0 <= i < |s| && s[i] == r
  {
    if |s| == 1 then s[0]
    else
      var m := MaxOf(s[1..]);
      assert forall i :: 1 <= i < |s| ==> s[i] == s[1..][i - 1];
      if s[0] >= m then s[0] else m
  }

  /** The smallest element of a non-empty sequence (`min(...)`). */
  function MinOf(s: seq<real>): (r: real)
    requires s != []
    ensures (forall i :: 0 <= i < |s| ==> r <= s[i]) && exists i :: 0 <= i < |s| && s[i] == r
  {
    if |s| == 1 then s[0]
    else
      var m := MinOf(s[1..]);
      assert forall i :: 1 <= i < |s| ==> s[i] == s[1..][i - 1];
      if s[0] <= m then s[0] else m
  }

  // ---------------------------------------------------------------------------
  // Bar generator / array manager / history table of the breakout strategies
  // ---------------------------------------------------------------------------

  /** How the `BarGenerator` builds the strategy's bars from 1-minute bars. */
  datatype Generator = Daily | Hourly(hours: int) | Minutes(minutes: int)

  /** The generator, the `ArrayManager` size and the `load_bar` day count chosen in `on_init`. */
  datatype BarConfig = BarConfig(generator: Generator, arraySize: nat, loadDays: nat)

  /**
   * The configuration table: daily bars closing at 14:59 from 1440 minutes,
   * N-hour bars from 60 minutes (`load_days = max(int(50 / (6.5 / N)), 100)`,
   * that is `max(⌊100·N/13⌋, 100)`), minute bars below.
   */
  function ConfigFor(timeframe: int): BarConfig
  {
    if timeframe >= 1440 then BarConfig(Daily, 50, 200)
    else if timeframe >= 60 then
      var hours := timeframe / 60;
      var days := (100 * hours) / 13;
      BarConfig(Hourly(hours), 25, if days > 100 then days else 100)
    else MinuteConfig(timeframe)
  }

  /** The minute branch as written, with its inner tests for 240, 120 and 60 minutes. */
  function MinuteConfig(timeframe: int): BarConfig
  {
    if timeframe >= 240 then BarConfig(Minutes(timeframe), 20, if 200 > timeframe * 3 then 200 else timeframe * 3)
    else if timeframe >= 120 then BarConfig(Minutes(timeframe), 25, if 150 > timeframe * 2 then 150 else timeframe * 2)
    else if timeframe >= 60 then BarConfig(Minutes(timeframe), 30, if 120 > timeframe * 2 then 120 else timeframe * 2)
    else BarConfig(Minutes(timeframe), 100, 100)
  }

  /**
   * Which generator each clamped timeframe gets. The minute branch is only
   * taken below 60 minutes, so its 240/120/60 cases are dead and minute bars
   * always use an array of 100 and 100 days; hourly bars load between 100
   * and 176 days.
   */
  lemma ConfigTable(timeframe: int)
    requires 1 <= timeframe <= 1440
    ensures var c := ConfigFor(timeframe);
      && (timeframe == 1440 <==> c.generator == Daily)
      && (60 <= timeframe < 1440 <==> c.generator.Hourly?)
      && (timeframe < 60 <==> c.generator.Minutes?)
      && (c.generator.Hourly? ==>
            (c.generator.hours == timeframe / 60 && 1 <= c.generator.hours <= 23 && c.arraySize == 25 && 100 <= c.loadDays <= 176))
      && (c.generator.Minutes? ==> c == BarConfig(Minutes(timeframe), 100, 100))
  {
    if 60 <= timeframe < 1440 {
      var hours := timeframe / 60;
      assert 1 <= hours <= 23;
      assert (100 * hours) / 13 <= 176;
    }
  }
}

=== FILE: daily_ma_breakout.dfy ===
/**
 * `DailyMaBreakoutStrategy`: go long when the close crosses above the
 * moving average and short when it crosses below; leave on the opposite
 * cross, then on an optional fixed stop, then on an optional trailing stop.
 * The moving average, its previous value and the close array of the array
 * manager are inputs; order calls are returned.
 */
module DailyMaBreakout {
  import opened Wrappers
  import opened CtaCommon

  /** The seven strategy parameters. */
  datatype Params = Params(timeframe: int, maWindow: int, stopLossPct: real, trailingPct: real,
                           useFixedStop: bool, useTrailingStop: bool, fixedSize: int)

  /** The strategy variables. */
  datatype State = State(maValue: real, intraTradeHigh: real, intraTradeLow: real, entryPrice: real)

  /** The parameter ranges `on_init` enforces. */
  predicate ValidParams(p: Params)
  {
    && 1 <= p.timeframe <= 1440 && 5 <= p.maWindow <= 200
    && 0.001 <= p.stopLossPct <= 0.10 && 0.001 <= p.trailingPct <= 0.20 && p.fixedSize >= 1
  }

  /** The clamping of `on_init`; the two switches are left as set. */
  function Clamped(p: Params): (r: Params)
    ensures ValidParams(r)
  {
    Params(ClampInt(p.timeframe, 1, 1440), ClampInt(p.maWindow, 5, 200), ClampReal(p.stopLossPct, 0.001, 0.10),
           ClampReal(p.trailingPct, 0.001, 0.20), p.useFixedStop, p.useTrailingStop, AtLeastOne(p.fixedSize))
  }

  /** Clamping keeps parameters that are already in range and never touches the stop switches. */
  lemma ClampedSpec(p: Params)
    ensures ValidParams(p) <==> Clamped(p) == p
    ensures Clamped(p).useFixedStop == p.useFixedStop && Clamped(p).useTrailingStop == p.useTrailingStop
    ensures p.maWindow > 200 ==> Clamped(p).maWindow == 200
  {
  }

  // ---------------------------------------------------------------------------
  // Crosses of the moving average
  // ---------------------------------------------------------------------------

  /** `prev_close`: the close before the current one, or the current close when there is none. */
  function PrevClose(closes: seq<real>, bar: Bar): real
  {
    if |closes| >= 2 then closes[|closes| - 2] else bar.close
  }

  /** `prev_ma`: the average's previous value with at least N+1 closes, else the current average. */
  function PrevMa(closes: seq<real>, maWindow: int, prevSma: real, ma: real): real
  {
    if |closes| >= maWindow + 1 then prevSma else ma
  }

  /** The close moves from at or below the average to above it (`up`), or from at or above to below. */
  predicate Cross(prevClose: real, prevMa: real, close: real, ma: real, up: bool)
  {
    if up then prevClose <= prevMa && close > ma else prevClose >= prevMa && close < ma
  }

  /** The cross of the current bar, from the array manager's closes and averages. */
  predicate BarCross(p: Params, s: State, bar: Bar, closes: seq<real>, prevSma: real, up: bool)
  {
    Cross(PrevClose(closes, bar), PrevMa(closes, p.maWindow, prevSma, s.maValue), bar.close, s.maValue, up)
  }

  /** A bar cannot cross both ways. */
  lemma CrossExclusive(p: Params, s: State, bar: Bar, closes: seq<real>, prevSma: real)
    ensures !(BarCross(p, s, bar, closes, prevSma, true) && BarCross(p, s, bar, closes, prevSma, false))
  {
  }

  // ---------------------------------------------------------------------------
  // Entry and exit decisions
  // ---------------------------------------------------------------------------

  /** The state after an entry at the bar's close. */
  function Entered(s: State, bar: Bar): State
  {
    s.(entryPrice := bar.close, intraTradeHigh := bar.high, intraTradeLow := bar.low)
  }

  /**
   * `check_entry_signals` as written for any position: nothing below N
   * closes; on an upward cross, first cover a short position, then buy; on
   * a downward cross, first sell a long position, then short.
   */
  function Entry(p: Params, s: State, bar: Bar, closes: seq<real>, prevSma: real, pos: int): (State, seq<Order>)
  {
    if |closes| < p.maWindow then (s, [])
    else if BarCross(p, s, bar, closes, prevSma, true) then
      (Entered(s, bar), (if pos < 0 then [Order(Cover, bar.close + 10.0, Abs(pos))] else []) + [Order(Buy, bar.close + 10.0, p.fixedSize)])
    else if BarCross(p, s, bar, closes, prevSma, false) then
      (Entered(s, bar), (if pos > 0 then [Order(Sell, bar.close - 10.0, Abs(pos))] else []) + [Order(Short, bar.close - 10.0, p.fixedSize)])
    else (s, [])
  }

  /** The reasons `check_exit_signals` closes a position, in the order it tests them. */
  datatype ExitReason = ReverseCross | FixedStop | TrailingStop

  /** The fixed stop from the entry price. */
  function FixedStopPrice(p: Params, s: State, long: bool): real
  {
    if long then s.entryPrice * (1.0 - p.stopLossPct) else s.entryPrice * (1.0 + p.stopLossPct)
  }

  /** The trailing stop from the best price since entry. */
  function TrailingStopPrice(p: Params, s: State, long: bool): real
  {
    if long then s.intraTradeHigh * (1.0 - p.trailingPct) else s.intraTradeLow * (1.0 + p.trailingPct)
  }

  /** The bar's low (long) or high (short) reaches a stop price. */
  predicate Reaches(bar: Bar, price: real, long: bool)
  {
    if long then bar.low <= price else bar.high >= price
  }

  /** The fixed stop is enabled and reached. */
  predicate FixedStopHit(p: Params, s: State, bar: Bar, long: bool)
  {
    p.useFixedStop && p.stopLossPct > 0.0 && Reaches(bar, FixedStopPrice(p, s, long), long)
  }

  /** The trailing stop is enabled and reached. */
  predicate TrailingStopHit(p: Params, s: State, bar: Bar, long: bool)
  {
    p.useTrailingStop && p.trailingPct > 0.0 && Reaches(bar, TrailingStopPrice(p, s, long), long)
  }

  /** `check_exit_signals`: nothing below N closes; then the opposite cross, the fixed stop, the trailing stop. */
  function ExitDecision(p: Params, s: State, bar: Bar, closes: seq<real>, prevSma: real, pos: int): Option<ExitReason>
  {
    if |closes| < p.maWindow || pos == 0 then None
    else
      var long := pos > 0;
      if BarCross(p, s, bar, closes, prevSma, !long) then Some(ReverseCross)
      else if FixedStopHit(p, s, bar, long) then Some(FixedStop)
      else if TrailingStopHit(p, s, bar, long) then Some(TrailingStop)
      else None
  }

  /** The closing order of an exit, 10 beyond the close or the stop that fired, for the whole position. */
  function ExitOrder(p: Params, s: State, bar: Bar, pos: int, reason: ExitReason): Order
    requires pos != 0
  {
    var long := pos > 0;
    var price := match reason
      case ReverseCross => bar.close
      case FixedStop => FixedStopPrice(p, s, long)
      case TrailingStop => TrailingStopPrice(p, s, long);
    if long then Order(Sell, price - 10.0, Abs(pos)) else Order(Cover, price + 10.0, Abs(pos))
  }

  /**
   * The exit priority. An opposite cross closes the position whatever the
   * stops say; a fixed-stop exit needs the switch on; with both switches off
   * only the cross exits; the trailing stop is used only when neither the
   * cross nor the fixed stop applies.
   */
  lemma ExitPriority(p: Params, s: State, bar: Bar, closes: seq<real>, prevSma: real, pos: int)
    requires pos != 0 && |closes| >= p.maWindow
    ensures var r := ExitDecision(p, s, bar, closes, prevSma, pos);
      && (BarCross(p, s, bar, closes, prevSma, pos < 0) <==> r == Some(ReverseCross))
      && (r == Some(FixedStop) ==> p.useFixedStop && FixedStopHit(p, s, bar, pos > 0))
      && (!p.useFixedStop && !p.useTrailingStop ==> r.Some? ==> r == Some(ReverseCross))
      && (r == Some(TrailingStop) <==>
            !BarCross(p, s, bar, closes, prevSma, pos < 0) && !FixedStopHit(p, s, bar, pos > 0) && TrailingStopHit(p, s, bar, pos > 0))
  {
  }

  /** The indicator and intra-trade updates at the head of `on_xmin_bar`. */
  function Indicators(s: State, bar: Bar, sma: real, pos: int): State
  {
    var s1 := s.(maValue := sma);
    if pos != 0 then
      s1.(intraTradeHigh := if s1.intraTradeHigh >= bar.high then s1.intraTradeHigh else bar.high,
          intraTradeLow := if s1.intraTradeLow <= bar.low then s1.intraTradeLow else bar.low)
    else s1
  }

  /** One `on_xmin_bar` call: the indicators, then entry when flat or exit otherwise. */
  function BarStep(p: Params, s: State, bar: Bar, inited: bool, sma: real, closes: seq<real>, prevSma: real, pos: int): (State, seq<Order>)
  {
    if !inited then (s, [])
    else
      var s1 := Indicators(s, bar, sma, pos);
      if pos == 0 then Entry(p, s1, bar, closes, prevSma, pos)
      else
        var r := ExitDecision(p, s1, bar, closes, prevSma, pos);
        (s1, if r.Some? then [ExitOrder(p, s1, bar, pos, r.value)] else [])
  }

  /**
   * What one bar does. Entry is only reached flat, so the reverse-close
   * orders of the entry check never appear and a bar emits at most one
   * order; nothing is ordered below N closes; flat, the order is a buy on an
   * upward cross or a short on a downward cross; in a position the only
   * order closes all of it.
   */
  lemma BarStepSpec(p: Params, s: State, bar: Bar, inited: bool, sma: real, closes: seq<real>, prevSma: real, pos: int)
    ensures var (s', orders) := BarStep(p, s, bar, inited, sma, closes, prevSma, pos);
      && |orders| <= 1
      && (!inited ==> s' == s && orders == [])
      && (|closes| < p.maWindow ==> orders == [])
      && (inited && pos == 0 ==>
            (&& (orders != [] <==> |closes| >= p.maWindow && (BarCross(p, s.(maValue := sma), bar, closes, prevSma, true)
                                                            || BarCross(p, s.(maValue := sma), bar, closes, prevSma, false)))
             && (orders != [] ==>
                   (&& orders[0].volume == p.fixedSize
                    && (orders[0].side == Buy <==> BarCross(p, s.(maValue := sma), bar, closes, prevSma, true))
                    && (orders[0].side == Buy || orders[0].side == Short)
                    && s'.entryPrice == bar.close && s'.intraTradeHigh == bar.high && s'.intraTradeLow == bar.low))))
      && (orders != [] && pos != 0 ==> orders[0].volume == Abs(pos) && orders[0].side == (if pos > 0 then Sell else Cover))
  {
    if inited && pos == 0 {
      CrossExclusive(p, s.(maValue := sma), bar, closes, prevSma);
    }
  }

  /** Were the entry check run in a position, an opposite position would first be closed: [cover, buy]. */
  lemma EntryReversesAsWritten(p: Params, s: State, bar: Bar, closes: seq<real>, prevSma: real, pos: int)
    requires pos < 0 && |closes| >= p.maWindow && BarCross(p, s, bar, closes, prevSma, true)
    ensures Entry(p, s, bar, closes, prevSma, pos).1
      == [Order(Cover, bar.close + 10.0, -pos), Order(Buy, bar.close + 10.0, p.fixedSize)]
  {
  }

  // ---------------------------------------------------------------------------
  // The strategy object
  // ---------------------------------------------------------------------------

  class DailyMaBreakoutStrategy {
    /** The parameters, as set from the strategy's settings and clamped by `on_init`. */
    var params: Params
    /** The generator configuration `on_init` picks; None before it runs. */
    var config: Option<BarConfig>

    var maValue: real
    var intraTradeHigh: real
    var intraTradeLow: real
    var entryPrice: real

    function Variables(): State
      reads this
    {
      State(maValue, intraTradeHigh, intraTradeLow, entryPrice)
    }

    /** A strategy built from a settings dictionary, variables at their class defaults. */
    constructor (setting: Params)
      ensures params == setting && config == None
      ensures Variables() == State(0.0, 0.0, 0.0, 0.0)
    {
      params := setting;
      config := None;
      maValue, intraTradeHigh, intraTradeLow, entryPrice := 0.0, 0.0, 0.0, 0.0;
    }

    /** `on_init`: clamp the parameters and choose the generator configuration. */
    method OnInit()
      modifies this
      ensures params == Clamped(old(params)) && ValidParams(params)
      ensures config == Some(ConfigFor(params.timeframe))
      ensures Variables() == old(Variables())
    {
      params := Clamped(params);
      config := Some(ConfigFor(params.timeframe));
    }

    /**
     * `on_xmin_bar` after the bar was added to the array manager: `inited`,
     * `sma(ma_window)`, the close array and the previous average
     * (`sma(ma_window, array=True)[-2]`).
     */
    method OnXminBar(bar: Bar, inited: bool, sma: real, closes: seq<real>, prevSma: real, pos: int)
      returns (orders: seq<Order>)
      modifies this
      ensures params == old(params) && config == old(config)
      ensures (Variables(), orders) == BarStep(params, old(Variables()), bar, inited, sma, closes, prevSma, pos)
    {
      orders := [];
      if !inited {
        return;
      }
      maValue := sma;
      if pos != 0 {
        intraTradeHigh := if intraTradeHigh >= bar.high then intraTradeHigh else bar.high;
        intraTradeLow := if intraTradeLow <= bar.low then intraTradeLow else bar.low;
      }
      if pos == 0 {
        orders := CheckEntrySignals(bar, closes, prevSma, pos);
      } else {
        orders := CheckExitSignals(bar, closes, prevSma, pos);
      }
    }

    /** `check_entry_signals`. */
    method CheckEntrySignals(bar: Bar, closes: seq<real>, prevSma: real, pos: int) returns (orders: seq<Order>)
      modifies this
      ensures params == old(params) && config == old(config)
      ensures (Variables(), orders) == Entry(params, old(Variables()), bar, closes, prevSma, pos)
    {
      orders := [];
      if |closes| < params.maWindow {
        return;
      }
      var prevClose := if |closes| >= 2 then closes[|closes| - 2] else bar.close;
      var prevMa := if |closes| >= params.maWindow + 1 then prevSma else maValue;
      if prevClose <= prevMa && bar.close > maValue {
        if pos < 0 {
          orders := [Order(Cover, bar.close + 10.0, Abs(pos))];
        }
        orders := orders + [Order(Buy, bar.close + 10.0, params.fixedSize)];
        entryPrice, intraTradeHigh, intraTradeLow := bar.close, bar.high, bar.low;
        return;
      }
      if prevClose >= prevMa && bar.close < maValue {
        if pos > 0 {
          orders := [Order(Sell, bar.close - 10.0, Abs(pos))];
        }
        orders := orders + [Order(Short, bar.close - 10.0, params.fixedSize)];
        entryPrice, intraTradeHigh, intraTradeLow := bar.close, bar.high, bar.low;
        return;
      }
    }

    /** `check_exit_signals`. */
    method CheckExitSignals(bar: Bar, closes: seq<real>, prevSma: real, pos: int) returns (orders: seq<Order>)
      requires pos != 0
      ensures var r := ExitDecision(params, Variables(), bar, closes, prevSma, pos);
        orders == if r.Some? then [ExitOrder(params, Variables(), bar, pos, r.value)] else []
    {
      if |closes| < params.maWindow {
        return [];
      }
      var long := pos > 0;
      var prevClose := if |closes| >= 2 then closes[|closes| - 2] else bar.close;
      var prevMa := if |closes| >= params.maWindow + 1 then prevSma else maValue;
      if Cross(prevClose, prevMa, bar.close, maValue, !long) {
        return [if long then Order(Sell, bar.close - 10.0, Abs(pos)) else Order(Cover, bar.close + 10.0, Abs(pos))];
      }
      if params.useFixedStop && params.stopLossPct > 0.0 {
        var stopLossPrice := FixedStopPrice(params, Variables(), long);
        if Reaches(bar, stopLossPrice, long) {
          return [if long then Order(Sell, stopLossPrice - 10.0, Abs(pos)) else Order(Cover, stopLossPrice + 10.0, Abs(pos))];
        }
      }
      if params.useTrailingStop && params.trailingPct > 0.0 {
        var trailingStopPrice := TrailingStopPrice(params, Variables(), long);
        if Reaches(bar, trailingStopPrice, long) {
          return [if long then Order(Sell, trailingStopPrice - 10.0, Abs(pos)) else Order(Cover, trailingStopPrice + 10.0, Abs(pos))];
        }
      }
      return [];
    }

    /** `on_trade`: an opening fill, long or short, restarts the entry price and the intra-trade range. */
    method OnTrade(trade: Trade)
      modifies this
      ensures params == old(params) && config == old(config)
      ensures Variables() == if trade.opening
        then old(Variables()).(entryPrice := trade.price, intraTradeHigh := trade.price, intraTradeLow := trade.price)
        else old(Variables())
    {
      if trade.opening {
        entryPrice, intraTradeHigh, intraTradeLow := trade.price, trade.price, trade.price;
      }
    }
  }
}

=== FILE: data_reader.dfy ===
/**
 * The query that `load_vnpy_data` of the chart data reader sends to the bar
 * table: the exchange guessed from the symbol's prefix, the stored interval
 * for the requested timeframe, and the date bounds completed to date-times.
 * The database itself, the resampling of the answer and the printing are
 * outside the model.
 */
module DataReader {
  import opened Wrappers
  import opened Strings
  import opened ExchangeGuess

  /** The timeframes `interval_map` knows. */
  const Timeframes: set<String> := {"1m", "5m", "15m", "30m", "60m", "1h", "1H", "1D", "1W"}

  /**
   * `interval_map[timeframe]`: minute timeframes are read from 1-minute
   * bars, hourly ones from the stored hourly bars, `1D` and `1W` from the
   * daily and weekly ones. An unknown timeframe raises, which the caller
   * turns into an empty result.
   */
  function DbInterval(timeframe: String): (r: Option<String>)
    ensures r.Some? <==> timeframe in Timeframes
  {
    if timeframe in {"1m", "5m", "15m", "30m", "60m"} then Some("1m")
    else if timeframe in {"1h", "1H"} then Some("1h")
    else if timeframe == "1D" then Some("d")
    else if timeframe == "1W" then Some("w")
    else None
  }

  /** The timeframes whose answer is resampled before it is returned. */
  predicate Resampled(timeframe: String)
  {
    timeframe in {"5m", "15m", "30m", "60m", "1D", "1W"}
  }

  /**
   * The interval table read against the resampling list: a known timeframe
   * is returned as stored exactly when it is `1m` or hourly, and every
   * resampled timeframe is built from 1-minute, daily or weekly bars.
   */
  lemma IntervalTable(timeframe: String)
    requires timeframe in Timeframes
    ensures var i := DbInterval(timeframe).value;
      && (!Resampled(timeframe) <==> timeframe in {"1m", "1h", "1H"})
      && (!Resampled(timeframe) ==> i == (if timeframe == "1m" then "1m" else "1h"))
      && (Resampled(timeframe) ==> i in {"1m", "d", "w"})
      && (i == "1m" <==> timeframe in {"1m", "5m", "15m", "30m", "60m"})
  {
  }

  /** The text of a bound that is completed to a date-time. */
  predicate HasTime(bound: String) { ' ' in bound }

  /**
   * The lower bound: `2020-01-01 00:00:00` when no start is given; a start
   * without a space gets ` 00:00:00` appended, one with a space is used as
   * it is. An empty start is completed too.
   */
  function StartBound(start: Option<String>): (r: String)
    ensures HasTime(r)
    ensures start.Some? ==> StartsWith(r, start.value)
    ensures start.Some? && HasTime(start.value) ==> r == start.value
  {
    if start.None? then "2020-01-01 00:00:00"
    else if !HasTime(start.value) then start.value + " 00:00:00"
    else start.value
  }

  /**
   * The upper bound: `2099-12-31 23:59:59` when no end or an empty end is
   * given; an end without a space gets ` 23:59:59` appended, one with a
   * space is used as it is.
   */
  function EndBound(end: Option<String>): (r: String)
    ensures HasTime(r)
    ensures end.Some? && end.value != [] ==> StartsWith(r, end.value)
    ensures end.Some? && HasTime(end.value) ==> r == end.value
  {
    if end.None? || end.value == [] then "2099-12-31 23:59:59"
    else if !HasTime(end.value) then end.value + " 23:59:59"
    else end.value
  }

  /**
   * Completing a bound twice changes nothing, a bare date gets exactly the
   * start or the end of its day, and the two bounds treat an empty text
   * differently: an empty start becomes ` 00:00:00`, an empty end the
   * default end.
   */
  lemma BoundsSpec(date: String)
    ensures StartBound(Some(StartBound(Some(date)))) == StartBound(Some(date))
    ensures EndBound(Some(EndBound(Some(date)))) == EndBound(Some(date))
    ensures StartBound(Some(StartBound(None))) == StartBound(None)
    ensures EndBound(Some(EndBound(None))) == EndBound(None)
    ensures !HasTime(date) ==> StartBound(Some(date)) == date + " 00:00:00"
    ensures !HasTime(date) && date != [] ==> EndBound(Some(date)) == date + " 23:59:59"
    ensures StartBound(Some([])) == " 00:00:00" && EndBound(Some([])) == EndBound(None)
  {
    assert HasTime("2020-01-01 00:00:00") by {
      assert "2020-01-01 00:00:00"[10] == ' ';
    }
    assert HasTime("2099-12-31 23:59:59") by {
      assert "2099-12-31 23:59:59"[10] == ' ';
    }
  }

  /** What the `SELECT` asks for: symbol, exchange, stored interval and the two bounds. */
  datatype BarQuery = BarQuery(symbol: String, exchange: String, interval: String, start: String, end: String)

  /** The query of `load_vnpy_data`; None when the timeframe is unknown and the empty result is returned. */
  function Query(symbol: String, timeframe: String, start: Option<String>, end: Option<String>): (r: Option<BarQuery>)
    ensures r.Some? <==> timeframe in Timeframes
  {
    var interval := DbInterval(timeframe);
    if interval.None? then None
    else Some(BarQuery(symbol, SymbolExchange(symbol), interval.value, StartBound(start), EndBound(end)))
  }

  /**
   * The query's exchange is the preprocessor's guess for the same symbol,
   * so iron ore and coking coal are looked up under SHFE and bitumen under
   * DCE; every other field is the symbol, the table entry or a bound.
   */
  lemma QuerySpec(symbol: String, timeframe: String, start: Option<String>, end: Option<String>)
    requires timeframe in Timeframes
    ensures var q := Query(symbol, timeframe, start, end).value;
      && q.symbol == symbol && q.interval == DbInterval(timeframe).value
      && q.start == StartBound(start) && q.end == EndBound(end)
      && q.exchange == SymbolExchange(symbol)
      && (StartsWith(symbol, "i") || StartsWith(symbol, "j") ==> q.exchange == "SHFE")
      && (StartsWith(symbol, "bu") ==> q.exchange == "DCE")
  {
    if StartsWith(symbol, "i") || StartsWith(symbol, "j") {
      SymbolExchangeIronOre(symbol);
    }
    if StartsWith(symbol, "bu") {
      SymbolExchangeBitumen(symbol);
    }
  }
}

=== FILE: exchange_guess.dfy ===
/**
 * The prefix cascades that guess a futures exchange from a symbol. Each is
 * a chain of `symbol.startswith((...))` tests in which the first group that
 * matches wins, so a short prefix listed early hides longer ones listed
 * later (`T` catches `TA`, `b` catches `bu`).
 */
module ExchangeGuess {
  import opened Wrappers
  import opened Strings

  /** `symbol.startswith(prefixes)` for a tuple of prefixes. */
  predicate StartsWithAny(symbol: String, prefixes: seq<String>)
  {
    exists i :: 0 <= i < |prefixes| && StartsWith(symbol, prefixes[i])
  }

  /**
   * `_get_exchange_from_symbol` of the preprocessor; the chart data reader
   * repeats the same cascade inline. Unknown symbols default to CZCE.
   */
  function SymbolExchange(symbol: String): (r: String)
    ensures r in {"SHFE", "CZCE", "DCE", "INE"}
  {
    if StartsWithAny(symbol, ["rb", "hc", "i", "j", "jm"]) then "SHFE"
    else if StartsWithAny(symbol, ["OI", "RM", "WH", "PM", "CF", "SR", "TA", "MA", "FG", "ZC"]) then "CZCE"
    else if StartsWithAny(symbol, ["cu", "al", "zn", "pb", "ni", "sn", "au", "ag"]) then "SHFE"
    else if StartsWithAny(symbol, ["a", "b", "m", "y", "p", "c", "cs", "jd", "bb", "fb", "l", "v", "pp", "j", "jm"]) then "DCE"
    else if StartsWithAny(symbol, ["sc", "fu", "bu", "ru", "nr", "sp", "ss", "wr", "bc"]) then "INE"
    else "CZCE"
  }

  /** Iron ore (`i`) and coking coal (`j`, `jm`) are DCE products, but the first group sends them to SHFE. */
  lemma SymbolExchangeIronOre(symbol: String)
    requires StartsWith(symbol, "i") || StartsWith(symbol, "j")
    ensures SymbolExchange(symbol) == "SHFE"
  {
    var first := ["rb", "hc", "i", "j", "jm"];
    if StartsWith(symbol, "i") {
      assert StartsWith(symbol, first[2]);
    } else {
      assert StartsWith(symbol, first[3]);
    }
  }

  /** Bitumen (`bu`) is listed under INE, but the DCE group's `b` matches first. */
  lemma SymbolExchangeBitumen(symbol: String)
    requires StartsWith(symbol, "bu")
    ensures SymbolExchange(symbol) == "DCE"
  {
    assert symbol[0] == 'b' && symbol[1] == 'u';
    var dce := ["a", "b", "m", "y", "p", "c", "cs", "jd", "bb", "fb", "l", "v", "pp", "j", "jm"];
    assert StartsWith(symbol, dce[1]);
    var first := ["rb", "hc", "i", "j", "jm"];
    assert !StartsWithAny(symbol, first) by {
      forall i | 0 <= i < |first| ensures !StartsWith(symbol, first[i]) {
        assert first[i][0] != 'b';
      }
    }
    var czce := ["OI", "RM", "WH", "PM", "CF", "SR", "TA", "MA", "FG", "ZC"];
    assert !StartsWithAny(symbol, czce) by {
      forall i | 0 <= i < |czce| ensures !StartsWith(symbol, czce[i]) {
        assert czce[i][0] != 'b';
      }
    }
    var shfe := ["cu", "al", "zn", "pb", "ni", "sn", "au", "ag"];
    assert !StartsWithAny(symbol, shfe) by {
      forall i | 0 <= i < |shfe| ensures !StartsWith(symbol, shfe[i]) {
        assert shfe[i][0] != 'b';
      }
    }
  }

  /** A symbol matching no group gets the CZCE default. */
  lemma SymbolExchangeDefault(symbol: String)
    requires symbol == [] || !(IsLower(symbol[0]) || symbol[0] in "ORWPCSTMFZ")
    ensures SymbolExchange(symbol) == "CZCE"
  {
    var groups := [["rb", "hc", "i", "j", "jm"], ["OI", "RM", "WH", "PM", "CF", "SR", "TA", "MA", "FG", "ZC"],
                   ["cu", "al", "zn", "pb", "ni", "sn", "au", "ag"],
                   ["a", "b", "m", "y", "p", "c", "cs", "jd", "bb", "fb", "l", "v", "pp", "j", "jm"],
                   ["sc", "fu", "bu", "ru", "nr", "sp", "ss", "wr", "bc"]];
    forall g, i | 0 <= g < |groups| && 0 <= i < |groups[g]| ensures !StartsWith(symbol, groups[g][i]) {
      assert groups[g][i] != [] && (IsLower(groups[g][i][0]) || groups[g][i][0] in "ORWPCSTMFZ");
    }
    assert !StartsWithAny(symbol, groups[0]) && !StartsWithAny(symbol, groups[1]) && !StartsWithAny(symbol, groups[2]);
    assert !StartsWithAny(symbol, groups[3]) && !StartsWithAny(symbol, groups[4]);
  }

  /**
   * `_guess_exchange_for_symbol` of the backtester window: `symbol.EXCH`
   * from the first matching group, SHFE when none matches.
   */
  function GuessExchange(symbol: String): (r: String)
    ensures exists e :: e in {"CFFEX", "SHFE", "DCE", "CZCE", "GFEX", "INE"} && r == symbol + "." + e
  {
    symbol + "." + GuessedExchange(symbol)
  }

  /** The exchange part of `_guess_exchange_for_symbol`. */
  function GuessedExchange(symbol: String): (e: String)
    ensures e in {"CFFEX", "SHFE", "DCE", "CZCE", "GFEX", "INE"}
  {
    if StartsWithAny(symbol, ["IF", "IH", "IC", "IM", "T", "TF", "TL", "TS"]) then "CFFEX"
    else if StartsWithAny(symbol, ["cu", "al", "zn", "pb", "ni", "sn", "au", "ag"]) then "SHFE"
    else if StartsWithAny(symbol, ["rb", "hc", "sp", "wr", "fu", "bu", "ao"]) then "SHFE"
    else if StartsWithAny(symbol, ["c", "cs", "a", "b", "m", "y", "p", "fb", "bb", "jd", "lh", "v", "pp", "l", "i", "j", "jm"]) then "DCE"
    else if StartsWithAny(symbol, ["SR", "OI", "RM", "TA", "FG", "MA", "CF", "CY", "PF", "PK", "PR", "PX", "SH", "SF", "SM", "RS", "OI", "UR", "SA", "CJ", "AP"]) then "CZCE"
    else if StartsWithAny(symbol, ["pt", "pd", "lc", "ps", "si"]) then "GFEX"
    else if StartsWithAny(symbol, ["sc", "nr", "lu", "ec", "bc"]) then "INE"
    else "SHFE"
  }

  /** The characters that begin some prefix of the backtester window's groups. */
  const GuessInitials: String := "ITSORFMCPUAcazpnsrhwfbmyjlvie"

  /** A symbol whose first character begins none of the prefixes matches none of them. */
  lemma MissesGroup(symbol: String, prefixes: seq<String>)
    requires symbol == [] || symbol[0] !in GuessInitials
    requires forall i :: 0 <= i < |prefixes| ==> prefixes[i] != [] && prefixes[i][0] in GuessInitials
    ensures !StartsWithAny(symbol, prefixes)
  {
    forall i | 0 <= i < |prefixes| ensures !StartsWith(symbol, prefixes[i]) {
      if symbol != [] {
        assert symbol[0] != prefixes[i][0];
      }
    }
  }

  /**
   * A symbol whose first character begins no prefix of the seven groups
   * gets the SHFE default (thermal coal `ZC…`, for one, is in no group).
   */
  lemma GuessExchangeDefault(symbol: String)
    requires symbol == [] || symbol[0] !in GuessInitials
    ensures GuessExchange(symbol) == symbol + ".SHFE"
  {
    MissesGroup(symbol, ["IF", "IH", "IC", "IM", "T", "TF", "TL", "TS"]);
    MissesGroup(symbol, ["cu", "al", "zn", "pb", "ni", "sn", "au", "ag"]);
    MissesGroup(symbol, ["rb", "hc", "sp", "wr", "fu", "bu", "ao"]);
    MissesGroup(symbol, ["c", "cs", "a", "b", "m", "y", "p", "fb", "bb", "jd", "lh", "v", "pp", "l", "i", "j", "jm"]);
    MissesGroup(symbol, ["SR", "OI", "RM", "TA", "FG", "MA", "CF", "CY", "PF", "PK", "PR", "PX", "SH", "SF", "SM", "RS", "OI", "UR", "SA", "CJ", "AP"]);
    MissesGroup(symbol, ["pt", "pd", "lc", "ps", "si"]);
    MissesGroup(symbol, ["sc", "nr", "lu", "ec", "bc"]);
  }

  /** PTA (`TA`) is listed under CZCE, but the CFFEX group's `T` matches first. */
  lemma GuessPta(symbol: String)
    requires StartsWith(symbol, "TA")
    ensures GuessExchange(symbol) == symbol + ".CFFEX"
  {
    var cffex := ["IF", "IH", "IC", "IM", "T", "TF", "TL", "TS"];
    assert symbol[0] == 'T';
    assert StartsWith(symbol, cffex[4]);
  }

  /** The GFEX products `lc` and `pt` are caught by the DCE group's `l` and `p`. */
  lemma GuessGfexShadowed(symbol: String)
    requires StartsWith(symbol, "lc") || StartsWith(symbol, "pt")
    ensures GuessExchange(symbol) == symbol + ".DCE"
  {
    var c0, c1 := symbol[0], symbol[1];
    assert (c0 == 'l' && c1 == 'c') || (c0 == 'p' && c1 == 't');
    var groups := [["IF", "IH", "IC", "IM", "T", "TF", "TL", "TS"], ["cu", "al", "zn", "pb", "ni", "sn", "au", "ag"],
                   ["rb", "hc", "sp", "wr", "fu", "bu", "ao"]];
    forall g, i | 0 <= g < |groups| && 0 <= i < |groups[g]| ensures !StartsWith(symbol, groups[g][i]) {
      assert groups[g][i][0] != c0 || groups[g][i][1] != c1;
    }
    assert !StartsWithAny(symbol, groups[0]) && !StartsWithAny(symbol, groups[1]) && !StartsWithAny(symbol, groups[2]);
    var dce := ["c", "cs", "a", "b", "m", "y", "p", "fb", "bb", "jd", "lh", "v", "pp", "l", "i", "j", "jm"];
    if c0 == 'l' {
      assert StartsWith(symbol, dce[13]);
    } else {
      assert StartsWith(symbol, dce[6]);
    }
  }

  /**
   * `_get_full_symbol_with_exchange`: the contract file's non-empty
   * `exchange` entry first, the guess otherwise.
   */
  function FullSymbolWithExchange(symbol: String, attributes: map<String, Option<String>>): (r: String)
    ensures StartsWith(r, symbol + ".")
  {
    if symbol in attributes && attributes[symbol].Some? && attributes[symbol].value != [] then
      symbol + "." + attributes[symbol].value
    else GuessExchange(symbol)
  }

  /**
   * Where the exchange of the full symbol comes from: the contract file's
   * entry for the symbol when it is present and non-empty, the guess
   * otherwise; no other entry of the file matters.
   */
  lemma FullSymbolExchangePart(symbol: String, attributes: map<String, Option<String>>)
    ensures var r := FullSymbolWithExchange(symbol, attributes);
      && |r| > |symbol|
      && (symbol in attributes && attributes[symbol].Some? && attributes[symbol].value != [] ==>
            r[|symbol| + 1..] == attributes[symbol].value)
      && (symbol !in attributes || attributes[symbol] == None || attributes[symbol] == Some([]) ==>
            r[|symbol| + 1..] == GuessedExchange(symbol))
    ensures forall other: String :: other != symbol ==>
      FullSymbolWithExchange(symbol, attributes) == FullSymbolWithExchange(symbol, attributes - {other})
  {
    var r := FullSymbolWithExchange(symbol, attributes);
    if symbol in attributes && attributes[symbol].Some? && attributes[symbol].value != [] {
      assert r == symbol + "." + attributes[symbol].value;
      assert (symbol + "." + attributes[symbol].value)[|symbol| + 1..] == attributes[symbol].value;
    } else {
      assert r == symbol + "." + GuessedExchange(symbol);
      assert (symbol + "." + GuessedExchange(symbol))[|symbol| + 1..] == GuessedExchange(symbol);
    }
  }
}

=== FILE: ma21_macd.dfy ===
/**
 * `Ma21MacdStrategy`: enter on a volume-confirmed break of the moving
 * average when the last five MACD values show a recent cross in the same
 * direction and no opposite cross since; leave on a fixed stop, else on a
 * trailing stop from the best price since entry. The moving average, the
 * MACD triple and the arrays of the array manager are inputs.
 */
module Ma21Macd {
  import opened Wrappers
  import opened CtaCommon

  /** The nine strategy parameters. */
  datatype Params = Params(timeframe: int, maWindow: int, macdFast: int, macdSlow: int, macdSignal: int,
                           volumeRatio: real, stopLossPct: real, trailingPct: real, fixedSize: int)

  /** The strategy variables. */
  datatype State = State(maValue: real, macdValue: real, macdSignalValue: real, macdHist: real, volumeMa: real,
                         intraTradeHigh: real, intraTradeLow: real, entryPrice: real)

  /** The parameter ranges `on_init` enforces. */
  predicate ValidParams(p: Params)
  {
    && 1 <= p.timeframe <= 1440 && 5 <= p.maWindow <= 200 && 5 <= p.macdFast <= 50 && 10 <= p.macdSlow <= 100
    && 5 <= p.macdSignal <= 50 && 1.1 <= p.volumeRatio <= 5.0 && 0.01 <= p.stopLossPct <= 0.02
    && 0.01 <= p.trailingPct <= 0.05 && p.fixedSize >= 1
  }

  /** The clamping of `on_init`. */
  function Clamped(p: Params): (r: Params)
    ensures ValidParams(r)
  {
    Params(ClampInt(p.timeframe, 1, 1440), ClampInt(p.maWindow, 5, 200), ClampInt(p.macdFast, 5, 50),
           ClampInt(p.macdSlow, 10, 100), ClampInt(p.macdSignal, 5, 50), ClampReal(p.volumeRatio, 1.1, 5.0),
           ClampReal(p.stopLossPct, 0.01, 0.02), ClampReal(p.trailingPct, 0.01, 0.05), AtLeastOne(p.fixedSize))
  }

  /**
   * Clamping keeps parameters that are in range. The stop-loss range is
   * 1%..2% and the trailing range 1%..5%, narrower than the 20% and 30% the
   * source's comments mention, so the 5% and 8% defaults are cut to 2% and 5%.
   */
  lemma ClampedSpec(p: Params)
    ensures ValidParams(p) <==> Clamped(p) == p
    ensures p.stopLossPct == 0.05 ==> Clamped(p).stopLossPct == 0.02
    ensures p.trailingPct == 0.08 ==> Clamped(p).trailingPct == 0.05
  {
  }

  // ---------------------------------------------------------------------------
  // Volume average
  // ---------------------------------------------------------------------------

  function Sum(s: seq<real>): real
  {
    if s == [] then 0.0 else Sum(s[..|s| - 1]) + s[|s| - 1]
  }

  /** `volume_ma`: the mean of the last `window` volumes when there are that many, else the bar's volume. */
  function VolumeMa(volumes: seq<real>, window: int, current: real): real
    requires window >= 1
  {
    if |volumes| >= window then Sum(volumes[|volumes| - window..]) / (window as real) else current
  }

  /** A sum of n terms lies between n times their lower and upper bounds. */
  lemma {:induction false} SumBounds(s: seq<real>, lo: real, hi: real)
    requires forall i :: 0 <= i < |s| ==> lo <= s[i] <= hi
    ensures (|s| as real) * lo <= Sum(s) <= (|s| as real) * hi
  {
    if s != [] {
      var init := s[..|s| - 1];
      assert forall i :: 0 <= i < |init| ==> init[i] == s[i];
      SumBounds(init, lo, hi);
      assert (|s| as real) * lo == (|init| as real) * lo + lo;
      assert (|s| as real) * hi == (|init| as real) * hi + hi;
    }
  }

  /** Dividing by a positive n keeps bounds on n times a value. */
  lemma DivBounds(a: real, n: real, lo: real, hi: real)
    requires n > 0.0 && n * lo <= a <= n * hi
    ensures lo <= a / n <= hi
  {
    var q := a / n;
    assert a == n * q;
  }

  /** The volume average lies between the smallest and the largest volume it averages. */
  lemma VolumeMaBounds(volumes: seq<real>, window: int, current: real)
    requires 1 <= window <= |volumes|
    ensures var w := volumes[|volumes| - window..];
      MinOf(w) <= VolumeMa(volumes, window, current) <= MaxOf(w)
  {
    var w := volumes[|volumes| - window..];
    MeanBounds(w, MinOf(w), MaxOf(w));
    assert |w| == window;
  }

  /** The mean of a non-empty sequence lies between bounds on its elements. */
  lemma MeanBounds(s: seq<real>, lo: real, hi: real)
    requires s != [] && forall i :: 0 <= i < |s| ==> lo <= s[i] <= hi
    ensures lo <= Sum(s) / (|s| as real) <= hi
  {
    SumBounds(s, lo, hi);
    DivBounds(Sum(s), |s| as real, lo, hi);
  }

  // ---------------------------------------------------------------------------
  // MACD crosses over the last five values
  // ---------------------------------------------------------------------------

  /**
   * A golden (`golden`) or death cross between positions i and i+1: MACD
   * below (above) the signal at i and above (below) it at i+1.
   */
  predicate CrossAt(macd: seq<real>, signal: seq<real>, i: int, golden: bool)
    requires 0 <= i && i + 1 < |macd| && i + 1 < |signal|
  {
    if golden then macd[i] < signal[i] && macd[i + 1] > signal[i + 1]
    else macd[i] > signal[i] && macd[i + 1] < signal[i + 1]
  }

  /** No golden (`golden`) or death cross starts at a position in [from, to). */
  predicate NoCrossIn(macd: seq<real>, signal: seq<real>, from: int, to: int, golden: bool)
    requires |macd| == 5 && |signal| == 5 && 0 <= from && to <= 4
  {
    forall k :: from <= k < to ==> !CrossAt(macd, signal, k, golden)
  }

  /**
   * The cross condition of `check_long_entry` (golden) and
   * `check_short_entry` (death): the first such cross among the first four
   * transitions is followed by no opposite cross up to the last value.
   */
  predicate Confirmed(macd: seq<real>, signal: seq<real>, golden: bool)
    requires |macd| == 5 && |signal| == 5
  {
    exists i :: 0 <= i < 4 && CrossAt(macd, signal, i, golden)
      && NoCrossIn(macd, signal, 0, i, golden) && NoCrossIn(macd, signal, i + 1, 4, !golden)
  }

  /** The first search loop: the first cross, reported as the index after it (-1 when none). */
  method FirstCross(macd: seq<real>, signal: seq<real>, golden: bool) returns (found: bool, index: int)
    requires |macd| == 5 && |signal| == 5
    ensures found ==> (1 <= index <= 4 && CrossAt(macd, signal, index - 1, golden) && NoCrossIn(macd, signal, 0, index - 1, golden))
    ensures !found ==> index == -1 && NoCrossIn(macd, signal, 0, 4, golden)
  {
    found, index := false, -1;
    var i := 0;
    while i < 4 && !found
      invariant 0 <= i <= 4
      invariant !found ==> index == -1 && NoCrossIn(macd, signal, 0, i, golden)
      invariant found ==> (1 <= index <= 4 && CrossAt(macd, signal, index - 1, golden) && NoCrossIn(macd, signal, 0, index - 1, golden))
    {
      if i + 1 < |macd| && i + 1 < |signal| && CrossAt(macd, signal, i, golden) {
        found := true;
        index := i + 1;
      }
      i := i + 1;
    }
  }

  /** The second search loop: a cross between `index` and the last value. */
  method CrossSince(macd: seq<real>, signal: seq<real>, index: int, golden: bool) returns (has: bool)
    requires |macd| == 5 && |signal| == 5 && 1 <= index <= 4
    ensures has <==> !NoCrossIn(macd, signal, index, 4, golden)
  {
    has := false;
    var i := index + 1;
    while i < 5 && !has
      invariant index + 1 <= i <= 5
      invariant !has ==> NoCrossIn(macd, signal, index, i - 1, golden)
      invariant has ==> !NoCrossIn(macd, signal, index, 4, golden)
    {
      if CrossAt(macd, signal, i - 1, golden) {
        has := true;
      }
      i := i + 1;
    }
  }

  // ---------------------------------------------------------------------------
  // Entry and exit decisions
  // ---------------------------------------------------------------------------

  /** The bar's volume exceeds the volume average by the ratio. */
  predicate VolumeBreakout(bar: Bar, volumeMa: real, ratio: real)
  {
    bar.volume > volumeMa * ratio
  }

  /** The bar crosses the moving average upwards (`long`) or downwards. */
  predicate PriceBreakout(bar: Bar, ma: real, long: bool)
  {
    if long then bar.close > ma && bar.open <= ma else bar.close < ma && bar.open >= ma
  }

  /** `check_long_entry` (`long`) or `check_short_entry` on the last five MACD and signal values. */
  predicate EntrySignal(s: State, ratio: real, bar: Bar, macd: seq<real>, signal: seq<real>, long: bool)
    requires |macd| == 5 && |signal| == 5
  {
    VolumeBreakout(bar, s.volumeMa, ratio) && PriceBreakout(bar, s.maValue, long) && Confirmed(macd, signal, long)
  }

  /** The state after an entry at the bar's close. */
  function Entered(s: State, bar: Bar): State
  {
    s.(entryPrice := bar.close, intraTradeHigh := bar.high, intraTradeLow := bar.low)
  }

  /**
   * `check_entry_signals` on the full MACD and signal arrays: nothing with
   * fewer than five values, otherwise the long check and then the short
   * check on the last five.
   */
  function Entry(p: Params, s: State, bar: Bar, macdArray: seq<real>, signalArray: seq<real>): (State, seq<Order>)
  {
    if |macdArray| < 5 || |signalArray| < 5 then (s, [])
    else
      var macd := macdArray[|macdArray| - 5..];
      var signal := signalArray[|signalArray| - 5..];
      var long := EntrySignal(s, p.volumeRatio, bar, macd, signal, true);
      var s1 := if long then Entered(s, bar) else s;
      var short := EntrySignal(s1, p.volumeRatio, bar, macd, signal, false);
      (if short then Entered(s1, bar) else s1,
       (if long then [Order(Buy, bar.close + 10.0, p.fixedSize)] else [])
       + (if short then [Order(Short, bar.close - 10.0, p.fixedSize)] else []))
  }

  /** The reasons `check_exit_signals` closes a position, in the order it tests them. */
  datatype ExitReason = FixedStop | TrailingStop

  /** The fixed stop from the entry price. */
  function FixedStopPrice(p: Params, s: State, long: bool): real
  {
    if long then s.entryPrice * (1.0 - p.stopLossPct) else s.entryPrice * (1.0 + p.stopLossPct)
  }

  /** The trailing stop from the best price since entry. */
  function TrailingStopPrice(p: Params, s: State, long: bool): real
  {
    if long then s.intraTradeHigh * (1.0 - p.trailingPct) else s.intraTradeLow * (1.0 + p.trailingPct)
  }

  /** `check_exit_signals`: the fixed stop is checked before the trailing stop. */
  function ExitDecision(p: Params, s: State, bar: Bar, pos: int): Option<ExitReason>
  {
    if pos > 0 then
      if bar.low <= FixedStopPrice(p, s, true) then Some(FixedStop)
      else if bar.low <= TrailingStopPrice(p, s, true) then Some(TrailingStop)
      else None
    else if pos < 0 then
      if bar.high >= FixedStopPrice(p, s, false) then Some(FixedStop)
      else if bar.high >= TrailingStopPrice(p, s, false) then Some(TrailingStop)
      else None
    else None
  }

  /** The closing order of an exit, 10 beyond the stop that fired, for the whole position. */
  function ExitOrder(p: Params, s: State, pos: int, reason: ExitReason): Order
    requires pos != 0
  {
    var price := if reason == FixedStop then FixedStopPrice(p, s, pos > 0) else TrailingStopPrice(p, s, pos > 0);
    if pos > 0 then Order(Sell, price - 10.0, Abs(pos)) else Order(Cover, price + 10.0, Abs(pos))
  }

  /**
   * A long exits exactly when the bar's low reaches the higher of the two
   * stops, and it is a fixed-stop exit whenever the fixed stop is reached
   * (a short: the high reaches the lower of the two stops).
   */
  lemma ExitSpec(p: Params, s: State, bar: Bar, pos: int)
    requires pos != 0
    ensures var r := ExitDecision(p, s, bar, pos);
      var fixed := FixedStopPrice(p, s, pos > 0);
      var trailing := TrailingStopPrice(p, s, pos > 0);
      && (pos > 0 ==> (r.Some? <==> bar.low <= (if fixed > trailing then fixed else trailing))
                      && (r == Some(FixedStop) <==> bar.low <= fixed))
      && (pos < 0 ==> (r.Some? <==> bar.high >= (if fixed < trailing then fixed else trailing))
                      && (r == Some(FixedStop) <==> bar.high >= fixed))
  {
  }

  /** The first part of `on_xmin_bar`: the indicator values, the volume average and the intra-trade range. */
  function Indicators(p: Params, s: State, bar: Bar, sma: real, macdTriple: (real, real, real), volumes: seq<real>, pos: int): State
    requires ValidParams(p)
  {
    var s1 := s.(maValue := sma, macdValue := macdTriple.0, macdSignalValue := macdTriple.1, macdHist := macdTriple.2,
                 volumeMa := VolumeMa(volumes, p.maWindow, bar.volume));
    if pos != 0 then
      s1.(intraTradeHigh := if s1.intraTradeHigh >= bar.high then s1.intraTradeHigh else bar.high,
          intraTradeLow := if s1.intraTradeLow <= bar.low then s1.intraTradeLow else bar.low)
    else s1
  }

  /** One `on_xmin_bar` call: the indicators, then entry when flat or exit otherwise. */
  function BarStep(p: Params, s: State, bar: Bar, inited: bool, sma: real, macdTriple: (real, real, real),
                   macdArray: seq<real>, signalArray: seq<real>, volumes: seq<real>, pos: int): (State, seq<Order>)
    requires ValidParams(p)
  {
    if !inited then (s, [])
    else
      var s2 := Indicators(p, s, bar, sma, macdTriple, volumes, pos);
      if pos == 0 then Entry(p, s2, bar, macdArray, signalArray)
      else
        var r := ExitDecision(p, s2, bar, pos);
        (s2, if r.Some? then [ExitOrder(p, s2, pos, r.value)] else [])
  }

  /**
   * What one bar does: at most one order. Flat, the order is a buy or a
   * short of `fixed_size` at an entry whose conditions hold on the last five
   * MACD values, and the entry resets the entry price and the intra-trade
   * range to the bar; in a position the intra-trade high and low are running
   * extremes and the only order closes the whole position.
   */
  lemma BarStepSpec(p: Params, s: State, bar: Bar, inited: bool, sma: real, macdTriple: (real, real, real),
                    macdArray: seq<real>, signalArray: seq<real>, volumes: seq<real>, pos: int)
    requires ValidParams(p)
    ensures var (s', orders) := BarStep(p, s, bar, inited, sma, macdTriple, macdArray, signalArray, volumes, pos);
      && |orders| <= 1
      && (!inited ==> s' == s && orders == [])
      && (inited ==> s'.maValue == sma && s'.volumeMa == VolumeMa(volumes, p.maWindow, bar.volume))
      && (inited && pos != 0 ==>
            (&& s'.intraTradeHigh >= s.intraTradeHigh && s'.intraTradeHigh >= bar.high
             && (s'.intraTradeHigh == s.intraTradeHigh || s'.intraTradeHigh == bar.high)
             && s'.intraTradeLow <= s.intraTradeLow && s'.intraTradeLow <= bar.low
             && (s'.intraTradeLow == s.intraTradeLow || s'.intraTradeLow == bar.low)
             && s'.entryPrice == s.entryPrice))
      && (orders != [] && pos != 0 ==> orders[0].volume == Abs(pos) && orders[0].side == (if pos > 0 then Sell else Cover))
      && (orders != [] && pos == 0 ==>
            && |macdArray| >= 5 && |signalArray| >= 5 && orders[0].volume == p.fixedSize
            && s'.entryPrice == bar.close && s'.intraTradeHigh == bar.high && s'.intraTradeLow == bar.low
            && (orders[0].side == Buy || orders[0].side == Short)
            && EntrySignal(s', p.volumeRatio, bar, macdArray[|macdArray| - 5..], signalArray[|signalArray| - 5..], orders[0].side == Buy))
  {
    if inited && pos == 0 && |macdArray| >= 5 && |signalArray| >= 5 {
      var s1 := Indicators(p, s, bar, sma, macdTriple, volumes, pos);
      var macd := macdArray[|macdArray| - 5..];
      var signal := signalArray[|signalArray| - 5..];
      if EntrySignal(s1, p.volumeRatio, bar, macd, signal, true) {
        // the long entry needs close > ma, the short entry close < ma
        assert !EntrySignal(Entered(s1, bar), p.volumeRatio, bar, macd, signal, false);
      }
    }
  }

  // ---------------------------------------------------------------------------
  // The strategy object
  // ---------------------------------------------------------------------------

  class Ma21MacdStrategy {
    /** The parameters, as set from the strategy's settings and clamped by `on_init`. */
    var params: Params
    /** `load_bar(50)` has been asked for by `on_init`. */
    var initialised: bool

    var maValue: real
    var macdValue: real
    var macdSignalValue: real
    var macdHist: real
    var volumeMa: real
    var intraTradeHigh: real
    var intraTradeLow: real
    var entryPrice: real

    function Variables(): State
      reads this
    {
      State(maValue, macdValue, macdSignalValue, macdHist, volumeMa, intraTradeHigh, intraTradeLow, entryPrice)
    }

    /** A strategy built from a settings dictionary, variables at their class defaults. */
    constructor (setting: Params)
      ensures params == setting && !initialised
      ensures Variables() == State(0.0, 0.0, 0.0, 0.0, 0.0, 0.0, 0.0, 0.0)
    {
      params := setting;
      initialised := false;
      maValue, macdValue, macdSignalValue, macdHist, volumeMa := 0.0, 0.0, 0.0, 0.0, 0.0;
      intraTradeHigh, intraTradeLow, entryPrice := 0.0, 0.0, 0.0;
    }

    /** `on_init`: clamp the parameters; the generator always builds `timeframe`-minute bars. */
    method OnInit()
      modifies this
      ensures params == Clamped(old(params)) && ValidParams(params) && initialised
      ensures Variables() == old(Variables())
    {
      params := Clamped(params);
      initialised := true;
    }

    /**
     * `on_xmin_bar` after the bar was added to the array manager: `inited`,
     * `sma(ma_window)`, the MACD triple, the MACD and signal arrays and the
     * volume array.
     */
    method OnXminBar(bar: Bar, inited: bool, sma: real, macdTriple: (real, real, real),
                     macdArray: seq<real>, signalArray: seq<real>, volumes: seq<real>, pos: int)
      returns (orders: seq<Order>)
      requires ValidParams(params)
      modifies this
      ensures params == old(params) && initialised == old(initialised)
      ensures (Variables(), orders) == BarStep(params, old(Variables()), bar, inited, sma, macdTriple, macdArray, signalArray, volumes, pos)
    {
      orders := [];
      if !inited {
        return;
      }
      UpdateIndicators(bar, sma, macdTriple, volumes, pos);
      if pos == 0 {
        orders := CheckEntrySignals(bar, macdArray, signalArray);
      } else {
        orders := CheckExitSignals(bar, pos);
      }
    }

    /** The indicator and intra-trade updates at the head of `on_xmin_bar`. */
    method UpdateIndicators(bar: Bar, sma: real, macdTriple: (real, real, real), volumes: seq<real>, pos: int)
      requires ValidParams(params)
      modifies this
      ensures params == old(params) && initialised == old(initialised)
      ensures Variables() == Indicators(params, old(Variables()), bar, sma, macdTriple, volumes, pos)
    {
      var ma;
      if |volumes| >= params.maWindow {
        ma := Sum(volumes[|volumes| - params.maWindow..]) / (params.maWindow as real);
      } else {
        ma := bar.volume;
      }
      maValue, macdValue, macdSignalValue, macdHist, volumeMa := sma, macdTriple.0, macdTriple.1, macdTriple.2, ma;
      if pos != 0 {
        intraTradeHigh := if intraTradeHigh >= bar.high then intraTradeHigh else bar.high;
        intraTradeLow := if intraTradeLow <= bar.low then intraTradeLow else bar.low;
      }
    }

    /** `check_entry_signals`. */
    method CheckEntrySignals(bar: Bar, macdArray: seq<real>, signalArray: seq<real>) returns (orders: seq<Order>)
      modifies this
      ensures params == old(params) && initialised == old(initialised)
      ensures (Variables(), orders) == Entry(params, old(Variables()), bar, macdArray, signalArray)
    {
      orders := [];
      if |macdArray| < 5 || |signalArray| < 5 {
        return;
      }
      var macd := macdArray[|macdArray| - 5..];
      var signal := signalArray[|signalArray| - 5..];
      var longOrder := CheckCrossEntry(bar, macd, signal, true);
      var shortOrder := CheckCrossEntry(bar, macd, signal, false);
      orders := longOrder + shortOrder;
    }

    /** `check_long_entry` (`long`) and `check_short_entry`. */
    method CheckCrossEntry(bar: Bar, macd: seq<real>, signal: seq<real>, long: bool) returns (orders: seq<Order>)
      requires |macd| == 5 && |signal| == 5
      modifies this
      ensures params == old(params) && initialised == old(initialised)
      ensures var fired := EntrySignal(old(Variables()), params.volumeRatio, bar, macd, signal, long);
        && Variables() == (if fired then Entered(old(Variables()), bar) else old(Variables()))
        && orders == if !fired then [] else if long then [Order(Buy, bar.close + 10.0, params.fixedSize)]
                     else [Order(Short, bar.close - 10.0, params.fixedSize)]
    {
      orders := [];
      if !(VolumeBreakout(bar, volumeMa, params.volumeRatio) && PriceBreakout(bar, maValue, long)) {
        return;
      }
      var found, index := FirstCross(macd, signal, long);
      if !found {
        assert !Confirmed(macd, signal, long);
        return;
      }
      var opposite := CrossSince(macd, signal, index, !long);
      assert Confirmed(macd, signal, long) <==> !opposite by {
        if Confirmed(macd, signal, long) {
          var i :| 0 <= i < 4 && CrossAt(macd, signal, i, long)
            && NoCrossIn(macd, signal, 0, i, long) && NoCrossIn(macd, signal, i + 1, 4, !long);
          assert !(i < index - 1) && !(index - 1 < i);
        }
      }
      if !opposite {
        orders := if long then [Order(Buy, bar.close + 10.0, params.fixedSize)] else [Order(Short, bar.close - 10.0, params.fixedSize)];
        entryPrice := bar.close;
        intraTradeHigh := bar.high;
        intraTradeLow := bar.low;
      }
    }

    /** `check_exit_signals`. */
    method CheckExitSignals(bar: Bar, pos: int) returns (orders: seq<Order>)
      requires pos != 0
      ensures var r := ExitDecision(params, Variables(), bar, pos);
        orders == if r.Some? then [ExitOrder(params, Variables(), pos, r.value)] else []
    {
      var long := pos > 0;
      var stopLossPrice := FixedStopPrice(params, Variables(), long);
      if (long && bar.low <= stopLossPrice) || (!long && bar.high >= stopLossPrice) {
        return [if long then Order(Sell, stopLossPrice - 10.0, Abs(pos)) else Order(Cover, stopLossPrice + 10.0, Abs(pos))];
      }
      var trailingStopPrice := TrailingStopPrice(params, Variables(), long);
      if (long && bar.low <= trailingStopPrice) || (!long && bar.high >= trailingStopPrice) {
        return [if long then Order(Sell, trailingStopPrice - 10.0, Abs(pos)) else Order(Cover, trailingStopPrice + 10.0, Abs(pos))];
      }
      return [];
    }

    /** `on_trade`: an opening fill, long or short, restarts the entry price and the intra-trade range. */
    method OnTrade(trade: Trade)
      modifies this
      ensures params == old(params) && initialised == old(initialised)
      ensures Variables() == if trade.opening
        then old(Variables()).(entryPrice := trade.price, intraTradeHigh := trade.price, intraTradeLow := trade.price)
        else old(Variables())
    {
      if trade.opening {
        entryPrice := trade.price;
        intraTradeHigh := trade.price;
        intraTradeLow := trade.price;
      }
    }
  }
}

=== FILE: mcdata.dfy ===
/**
 * The MultiCharts data feed: translating a vnpy contract into a MultiCharts
 * symbol (`TC.F.<exchange>.<product>.<yyyymm>` for futures,
 * `TC.O.<exchange>.<product>.<yyyymm>.<C|P>.<strike>` for options), the
 * day-by-day query plan for minute and hour bars, and turning the returned
 * quotes into bars stamped at their start, one bar per time, in time order.
 */
module McData {
  import opened Wrappers
  import opened Strings
  import opened Calendar
  import opened Sorting
  import opened VnpyCsv

  // ---------------------------------------------------------------------------
  // String helpers with Python's meaning
  // ---------------------------------------------------------------------------

  /** `s.replace(pat, "")`; an empty pattern leaves s as it is. */
  function Remove(s: String, pat: String): String
  {
    if pat == [] then s else ReplaceAll(s, pat, "")
  }

  /** `s[-2:]`. */
  function Last2(s: String): (r: String)
    ensures EndsWith(s, r) && |r| == if |s| < 2 then |s| else 2
  {
    if |s| < 2 then s else s[|s| - 2..]
  }

  /** `s[k:]` for k >= 0. */
  function From(s: String, k: nat): (r: String)
    ensures k <= |s| ==> r == s[k..]
    ensures k >= |s| ==> r == []
  {
    if k >= |s| then [] else s[k..]
  }

  /** `s.index(c)`: the first position of c. */
  function IndexOf(s: String, c: char): (r: nat)
    requires c in s
    ensures r < |s| && s[r] == c && NoChar(s[..r], c)
  {
    if s[0] == c then 0
    else
      assert c in s[1..] by {
        var i :| 0 <= i < |s| && s[i] == c;
        assert s[1..][i - 1] == c;
      }
      var r := 1 + IndexOf(s[1..], c);
      assert s[..r] == [s[0]] + s[1..][..r - 1];
      r
  }

  lemma ReplacePrefix(p: String, u: String)
    requires p != []
    ensures ReplaceAll(p + u, p, "") == ReplaceAll(u, p, "")
  {
    assert (p + u)[..|p|] == p && (p + u)[|p|..] == u;
  }

  // ---------------------------------------------------------------------------
  // check_perpetual and get_product
  // ---------------------------------------------------------------------------

  /** Main continuous, its forward and backward adjusted series, and the index. */
  const PerpetualSuffixes: seq<String> := ["HOT", "HOT/Q", "HOT/H", "000000"]

  /** The first of `suffixes` that `symbol` ends with, or "". */
  function FirstSuffix(symbol: String, suffixes: seq<String>): String
  {
    if suffixes == [] then ""
    else if EndsWith(symbol, suffixes[0]) then suffixes[0]
    else FirstSuffix(symbol, suffixes[1..])
  }

  /** `check_perpetual`. */
  function CheckPerpetual(symbol: String): String
  {
    FirstSuffix(symbol, PerpetualSuffixes)
  }

  lemma {:induction false} FirstSuffixSpec(symbol: String, suffixes: seq<String>)
    requires forall i :: 0 <= i < |suffixes| ==> suffixes[i] != []
    ensures var r := FirstSuffix(symbol, suffixes);
      && (r == [] <==> forall i :: 0 <= i < |suffixes| ==> !EndsWith(symbol, suffixes[i]))
      && (r != [] ==> r in suffixes && EndsWith(symbol, r))
  {
    if suffixes != [] && !EndsWith(symbol, suffixes[0]) {
      FirstSuffixSpec(symbol, suffixes[1..]);
      assert forall i :: 1 <= i < |suffixes| ==> suffixes[i] == suffixes[1..][i - 1];
    }
  }

  /** The first suffix the symbol ends with is the one `FirstSuffix` picks. */
  lemma {:induction false} FirstSuffixAt(symbol: String, suffixes: seq<String>, k: nat)
    requires k < |suffixes| && EndsWith(symbol, suffixes[k])
    requires forall j :: 0 <= j < k ==> !EndsWith(symbol, suffixes[j])
    ensures FirstSuffix(symbol, suffixes) == suffixes[k]
  {
    if k > 0 {
      FirstSuffixAt(symbol, suffixes[1..], k - 1);
    }
  }

  /**
   * `check_perpetual` returns "" exactly when the symbol ends with none of
   * the perpetual suffixes, and otherwise a suffix the symbol ends with.
   */
  lemma CheckPerpetualSpec(symbol: String)
    ensures var r := CheckPerpetual(symbol);
      && (r == [] <==> forall i :: 0 <= i < |PerpetualSuffixes| ==> !EndsWith(symbol, PerpetualSuffixes[i]))
      && (r != [] ==> r in PerpetualSuffixes && EndsWith(symbol, r))
  {
    FirstSuffixSpec(symbol, PerpetualSuffixes);
  }

  /**
   * `get_product`: the longest prefix without an ASCII digit; it stops at
   * the first digit or at the end.
   */
  function Product(symbol: String): (r: String)
    ensures StartsWith(symbol, r)
    ensures forall i :: 0 <= i < |r| ==> !IsDigit(r[i])
    ensures |r| < |symbol| ==> IsDigit(symbol[|r|])
  {
    if symbol == [] || IsDigit(symbol[0]) then []
    else [symbol[0]] + Product(symbol[1..])
  }

  /** The three properties of `Product` determine it. */
  lemma {:induction false} ProductUnique(symbol: String, p: String)
    requires StartsWith(symbol, p) && (forall i :: 0 <= i < |p| ==> !IsDigit(p[i]))
    requires |p| < |symbol| ==> IsDigit(symbol[|p|])
    ensures p == Product(symbol)
  {
    if p != [] {
      assert symbol[0] == p[0];
      ProductUnique(symbol[1..], p[1..]);
      assert p == [p[0]] + p[1..];
    }
  }

  /** The loop of `get_product`. */
  method GetProduct(symbol: String) returns (product: String)
    ensures product == Product(symbol)
  {
    var buf: String := [];
    var i := 0;
    while i < |symbol| && !IsDigit(symbol[i])
      invariant 0 <= i <= |symbol| && buf == symbol[..i]
      invariant forall k :: 0 <= k < i ==> !IsDigit(symbol[k])
    {
      buf := buf + [symbol[i]];
      i := i + 1;
    }
    product := buf;
    ProductUnique(symbol, product);
  }

  // ---------------------------------------------------------------------------
  // to_mc_symbol
  // ---------------------------------------------------------------------------

  const FuturesExchanges: set<String> := {"CFFEX", "SHFE", "CZCE", "DCE", "INE", "GFEX"}

  /**
   * The year digits: the contract code with its month removed. As written
   * that is `code.replace(month, "")`, which also removes a copy of the
   * month inside the year; the corrected form cuts the month off the end.
   */
  function YearOf(code: String, month: String, asWritten: bool): String
  {
    if asWritten || !EndsWith(code, month) then Remove(code, month) else code[..|code| - |month|]
  }

  /**
   * The CZCE special case: a one-digit year becomes 2x for x up to 6 and 1x
   * above; a non-digit makes `int(year)` raise (None).
   */
  function FixYear(year: String): (r: Option<String>)
    ensures r.Some? && |year| == 1 ==> |r.value| == 2 && r.value[1] == year[0]
    ensures |year| != 1 ==> r == Some(year)
  {
    if |year| != 1 then Some(year)
    else if !IsDigit(year[0]) then None
    else if year[0] <= '6' then Some("2" + year)
    else Some("1" + year)
  }

  /** Where the option code is cut: its type, the end of the date, the start of the strike. */
  datatype OptionLayout = OptionLayout(optionType: Option<String>, timeEnd: int, strikeStart: nat)

  /**
   * The CFFEX, DCE and GFEX form `<date>-C-<strike>` when `left` holds a
   * '-', the SHFE, INE and CZCE form `<date>C<strike>` otherwise. Without
   * a '-' and without 'C' and 'P' the source reads an unbound `time_end`
   * (None); with a '-' but neither `-C-` nor `-P-` the type stays unbound.
   */
  function Layout(left: String): (r: Option<OptionLayout>)
    ensures r.Some? ==> 0 <= r.value.timeEnd + 1 <= |left|
  {
    if '-' in left then
      var timeEnd := IndexOf(left, '-') - 1;
      var optionType := if Contains(left, "-C-") then Some("C") else if Contains(left, "-P-") then Some("P") else None;
      Some(OptionLayout(optionType, timeEnd, timeEnd + 4))
    else if 'C' in left then
      var timeEnd := IndexOf(left, 'C') - 1;
      Some(OptionLayout(Some("C"), timeEnd, timeEnd + 2))
    else if 'P' in left then
      var timeEnd := IndexOf(left, 'P') - 1;
      Some(OptionLayout(Some("P"), timeEnd, timeEnd + 2))
    else None
  }

  /** `TC.F.<exchange>.<product>.<suffix>`: a continuous futures series. */
  function ContinuousName(exchange: String, product: String, suffix: String): (r: String)
    ensures StartsWith(r, "TC.F.")
  {
    "TC.F." + exchange + "." + product + "." + suffix
  }

  /** `TC.F.<exchange>.<product>.20<year><month>`: a dated futures contract. */
  function DatedName(exchange: String, product: String, year: String, month: String): (r: String)
    ensures StartsWith(r, "TC.F.")
  {
    "TC.F." + exchange + "." + product + ".20" + year + month
  }

  /** `TC.O.<exchange>.<product>.20<year><month>.<type>.<strike>`: an option. */
  function OptionName(exchange: String, product: String, year: String, month: String, optionType: String,
                      strike: String): (r: String)
    ensures StartsWith(r, "TC.O.")
  {
    "TC.O." + exchange + "." + product + ".20" + year + month + "." + optionType + "." + strike
  }

  /** A futures contract of at most eight characters: continuous or dated. */
  function FutureSymbol(symbol: String, exchange: String, asWritten: bool): (r: Option<String>)
    ensures r.Some? ==> StartsWith(r.value, "TC.F.")
  {
    var suffix := CheckPerpetual(symbol);
    if suffix != [] then Some(ContinuousName(exchange, Remove(symbol, suffix), suffix))
    else
      var product := Product(symbol);
      var month := Last2(symbol);
      match FixYear(YearOf(Remove(symbol, product), month, asWritten))
      case None => None
      case Some(year) => Some(DatedName(exchange, product, year, month))
  }

  /** An option on a future: a symbol longer than eight characters. */
  function OptionSymbol(symbol: String, exchange: String, asWritten: bool): (r: Option<String>)
    ensures r.Some? ==> StartsWith(r.value, "TC.O.")
  {
    var product := Product(symbol);
    var left := Remove(symbol, product);
    match Layout(left)
    case None => None
    case Some(layout) =>
      OptionCode(product, left[..layout.timeEnd + 1], Contains(symbol, "MS"), layout.optionType,
                 From(left, layout.strikeStart), exchange, asWritten)
  }

  /**
   * The option symbol from its pieces: a weekly option (`MS` anywhere in
   * the symbol) loses `MS` from its date and gains `_MS` on its product;
   * the year is read as for a future; an unset option type raises.
   */
  function OptionCode(product: String, time: String, weekly: bool, optionType: Option<String>, strike: String,
                      exchange: String, asWritten: bool): (r: Option<String>)
    ensures r.Some? ==> StartsWith(r.value, "TC.O.")
  {
    var timeStr := if weekly then Remove(time, "MS") else time;
    var code := if weekly then product + "_MS" else product;
    var month := Last2(timeStr);
    match FixYear(YearOf(timeStr, month, asWritten))
    case None => None
    case Some(year) =>
      if optionType.None? then None
      else Some(OptionName(exchange, code, year, month, optionType.value, strike))
  }

  /**
   * `to_mc_symbol` for the symbol and exchange of a `vt_symbol`: "" for an
   * exchange other than the six futures exchanges, None where the source
   * raises.
   */
  function Translate(symbol: String, exchange: String, asWritten: bool): Option<String>
  {
    if exchange !in FuturesExchanges then Some("")
    else if |symbol| <= 8 then FutureSymbol(symbol, exchange, asWritten)
    else OptionSymbol(symbol, exchange, asWritten)
  }

  /** `to_mc_symbol` as the source computes it. */
  function ToMcSymbolAsWritten(symbol: String, exchange: String): Option<String>
  {
    Translate(symbol, exchange, true)
  }

  /** `to_mc_symbol` with the year taken from in front of the month. */
  function ToMcSymbol(symbol: String, exchange: String): Option<String>
  {
    Translate(symbol, exchange, false)
  }

  /** A futures exchange's symbol of at most eight characters is read as a future. */
  lemma TranslateFuture(symbol: String, exchange: String, asWritten: bool)
    requires exchange in FuturesExchanges && |symbol| <= 8
    ensures Translate(symbol, exchange, asWritten) == FutureSymbol(symbol, exchange, asWritten)
  {
  }

  /** A futures exchange's symbol of more than eight characters is read as an option. */
  lemma TranslateOption(symbol: String, exchange: String, asWritten: bool)
    requires exchange in FuturesExchanges && |symbol| > 8
    ensures Translate(symbol, exchange, asWritten) == OptionSymbol(symbol, exchange, asWritten)
  {
  }

  /** The symbol is "" exactly for the exchanges that are not futures exchanges. */
  lemma UnsupportedExchange(symbol: String, exchange: String, asWritten: bool)
    ensures Translate(symbol, exchange, asWritten) == Some("") <==> exchange !in FuturesExchanges
  {
    if exchange in FuturesExchanges {
      if |symbol| <= 8 {
        TranslateFuture(symbol, exchange, asWritten);
      } else {
        TranslateOption(symbol, exchange, asWritten);
      }
    }
  }

  /** A string ending in a different character than p does not end with p. */
  lemma LastCharDiffers(s: String, p: String)
    requires s != [] && p != [] && s[|s| - 1] != p[|p| - 1]
    ensures !EndsWith(s, p)
  {
  }

  /**
   * The perpetual suffixes end in four different characters, so a symbol
   * ending with one of them ends with no other, and `check_perpetual`
   * returns that one.
   */
  lemma PerpetualOf(symbol: String, k: nat)
    requires k < |PerpetualSuffixes| && EndsWith(symbol, PerpetualSuffixes[k])
    ensures CheckPerpetual(symbol) == PerpetualSuffixes[k]
  {
    var ps := PerpetualSuffixes;
    assert symbol[|symbol| - 1] == ps[k][|ps[k]| - 1];
    forall j | 0 <= j < k ensures !EndsWith(symbol, ps[j]) {
      LastCharDiffers(symbol, ps[j]);
    }
    FirstSuffixAt(symbol, ps, k);
  }

  /**
   * A continuous contract `<product><suffix>`, with a product in which the
   * suffix's first letter does not occur, becomes `TC.F.<ex>.<product>.<suffix>`.
   */
  lemma ContinuousContract(product: String, k: nat, exchange: String, asWritten: bool)
    requires exchange in FuturesExchanges && k < |PerpetualSuffixes|
    requires |product + PerpetualSuffixes[k]| <= 8 && NoChar(product, PerpetualSuffixes[k][0])
    ensures Translate(product + PerpetualSuffixes[k], exchange, asWritten)
      == Some(ContinuousName(exchange, product, PerpetualSuffixes[k]))
  {
    var suffix := PerpetualSuffixes[k];
    var symbol := product + suffix;
    assert symbol[|symbol| - |suffix|..] == suffix;
    PerpetualOf(symbol, k);
    ReplaceSuffix(product, suffix, "");
    assert product + "" == product;
    TranslateFuture(symbol, exchange, asWritten);
  }

  /** The two year digits a dated code names: its first two, or a CZCE digit with its decade. */
  function ContractYear(code: String): (r: String)
    requires |code| == 3 || |code| == 4
  {
    if |code| == 4 then code[..2] else (if code[0] <= '6' then ['2'] else ['1']) + [code[0]]
  }

  /** The corrected year extraction reads the year of a three- or four-digit code. */
  lemma DatedCodeYear(code: String)
    requires AllDigits(code) && (|code| == 3 || |code| == 4)
    ensures FixYear(YearOf(code, Last2(code), false)) == Some(ContractYear(code))
  {
    assert code[..|code| - 2] == if |code| == 4 then code[..2] else [code[0]];
  }

  /**
   * As written the year is lost exactly when a four-digit code's year equals
   * its month: `rb1212` reads year "" instead of "12".
   */
  lemma DatedCodeYearAsWritten(code: String)
    requires AllDigits(code) && (|code| == 3 || |code| == 4)
    ensures FixYear(YearOf(code, Last2(code), true))
      == if |code| == 4 && code[..2] == code[2..] then Some("") else Some(ContractYear(code))
  {
    var m := code[|code| - 2..];
    assert Last2(code) == m;
    ReplaceAt(m, m, "");
    assert "" + ReplaceAll([], m, "") == [];
    ReplaceShort([], m);
    if |code| == 4 {
      if code[..2] == m {
        ReplaceAt(code, m, "");
        assert code[2..] == m;
        assert "" + ReplaceAll(m, m, "") == [];
      } else if code[1..][..2] == m {
        ReplacePast(code, m);
        ReplaceAt(code[1..], m, "");
        assert code[1..][2..] == code[3..];
        assert "" + ReplaceAll(code[3..], m, "") == ReplaceAll(code[3..], m, "");
        ReplaceShort(code[3..], m);
        assert [code[0]] + code[3..] == code[..2];
      } else {
        ReplacePast(code, m);
        ReplacePast(code[1..], m);
        assert code[1..][1..] == m;
        assert [code[0]] + ([code[1]] + []) == code[..2];
      }
    } else {
      if code[..2] == m {
        ReplaceAt(code, m, "");
        ReplaceShort(code[2..], m);
        assert "" + code[2..] == code[2..] == [code[0]];
      } else {
        ReplacePast(code, m);
        assert code[1..] == m;
        assert [code[0]] + [] == [code[0]];
      }
    }
  }

  /** `replace` drops an occurrence at the front. */
  lemma ReplaceAt(s: String, pat: String, rep: String)
    requires pat != [] && |pat| <= |s| && s[..|pat|] == pat
    ensures ReplaceAll(s, pat, rep) == rep + ReplaceAll(s[|pat|..], pat, rep)
  {
  }

  /** `replace` keeps a first character where no occurrence starts. */
  lemma ReplacePast(s: String, pat: String)
    requires pat != [] && |pat| <= |s| && s[..|pat|] != pat
    ensures ReplaceAll(s, pat, "") == [s[0]] + ReplaceAll(s[1..], pat, "")
  {
  }

  /** A string shorter than the pattern is left as it is. */
  lemma ReplaceShort(s: String, pat: String)
    requires pat != [] && |s| < |pat|
    ensures ReplaceAll(s, pat, "") == s
  {
  }

  /** A product code followed by a code that does not contain it is what `replace` leaves after removing it. */
  lemma RemoveLeadingProduct(product: String, rest: String)
    requires product != [] && !Contains(rest, product)
    ensures Remove(product + rest, product) == rest
  {
    ReplacePrefix(product, rest);
    ReplaceAbsent(rest, product, "");
  }

  /** The product of `<letters><digit>...` is the letters. */
  lemma ProductOf(product: String, rest: String)
    requires forall i :: 0 <= i < |product| ==> !IsDigit(product[i])
    requires rest != [] && IsDigit(rest[0])
    ensures Product(product + rest) == product
  {
    ProductUnique(product + rest, product);
  }

  /** A code of digits after a digit-free product never ends a symbol in a perpetual suffix. */
  lemma DatedNotPerpetual(product: String, code: String)
    requires forall i :: 0 <= i < |product| ==> !IsDigit(product[i])
    requires AllDigits(code) && 2 <= |code| <= 4
    ensures CheckPerpetual(product + code) == []
  {
    var s := product + code;
    CheckPerpetualSpec(s);
    forall i | 0 <= i < |PerpetualSuffixes| ensures !EndsWith(s, PerpetualSuffixes[i]) {
      if i < 3 {
        assert IsDigit(s[|s| - 1]);
      } else if |s| >= 6 {
        assert s[|s| - 6] == product[|s| - 6];
        assert s[|s| - 6..][0] != '0';
      }
    }
  }

  /**
   * A dated future `<product><code>`, where the code is the digits of the
   * year and month (`rb2501`) or of the CZCE year digit and month
   * (`TA501`), becomes `TC.F.<ex>.<product>.20<yy><mm>`.
   */
  lemma DatedFuture(product: String, code: String, exchange: String)
    requires exchange in FuturesExchanges && product != [] && |product + code| <= 8
    requires forall i :: 0 <= i < |product| ==> !IsDigit(product[i])
    requires AllDigits(code) && (|code| == 3 || |code| == 4) && !Contains(code, product)
    ensures ToMcSymbol(product + code, exchange) == Some(DatedName(exchange, product, ContractYear(code), Last2(code)))
  {
    DatedFutureParts(product, code);
    DatedCodeYear(code);
  }

  /**
   * As written, the dated future comes out the same except when the year
   * equals the month, where the year is dropped: `rb1212` becomes
   * `TC.F.SHFE.rb.2012` rather than `TC.F.SHFE.rb.201212`.
   */
  lemma DatedFutureAsWritten(product: String, code: String, exchange: String)
    requires exchange in FuturesExchanges && product != [] && |product + code| <= 8
    requires forall i :: 0 <= i < |product| ==> !IsDigit(product[i])
    requires AllDigits(code) && (|code| == 3 || |code| == 4) && !Contains(code, product)
    ensures ToMcSymbolAsWritten(product + code, exchange)
      == if |code| == 4 && code[..2] == code[2..] then Some(DatedName(exchange, product, "", Last2(code)))
         else ToMcSymbol(product + code, exchange)
  {
    var s := product + code;
    DatedFutureParts(product, code);
    DatedCodeYear(code);
    DatedCodeYearAsWritten(code);
    TranslateFuture(s, exchange, true);
    TranslateFuture(s, exchange, false);
  }

  lemma DatedFutureParts(product: String, code: String)
    requires product != [] && (forall i :: 0 <= i < |product| ==> !IsDigit(product[i]))
    requires AllDigits(code) && (|code| == 3 || |code| == 4) && !Contains(code, product)
    ensures var s := product + code;
      && CheckPerpetual(s) == [] && Product(s) == product
      && Remove(s, product) == code && Last2(s) == Last2(code)
  {
    var s := product + code;
    DatedNotPerpetual(product, code);
    ProductOf(product, code);
    RemoveLeadingProduct(product, code);
    assert s[|s| - 2..] == code[|code| - 2..];
  }

  /** The one-digit CZCE year pivots at 6: `TA609` is 2026-09, but `TA709` is read as 2017-09. */
  lemma CzcePivot(product: String, code: String, exchange: String)
    requires exchange in FuturesExchanges && product != [] && |product| <= 5
    requires forall i :: 0 <= i < |product| ==> !IsDigit(product[i])
    requires AllDigits(code) && |code| == 3 && !Contains(code, product)
    ensures ToMcSymbol(product + code, exchange)
      == Some(DatedName(exchange, product, [if code[0] <= '6' then '2' else '1', code[0]], code[1..]))
  {
    DatedFuture(product, code, exchange);
    assert ContractYear(code) == [if code[0] <= '6' then '2' else '1', code[0]];
    assert Last2(code) == code[1..];
  }

  /** The characters an option code after its product is made of: digits, '-', 'M', 'S', 'C', 'P'. */
  predicate OptionChars(s: String, t: char)
  {
    forall i :: 0 <= i < |s| ==> IsDigit(s[i]) || s[i] in {'-', 'M', 'S', t}
  }

  lemma OptionCharsCat(a: String, b: String, t: char)
    requires OptionChars(a, t) && OptionChars(b, t)
    ensures OptionChars(a + b, t)
  {
    forall i | 0 <= i < |a + b| ensures IsDigit((a + b)[i]) || (a + b)[i] in {'-', 'M', 'S', t} {
      if i >= |a| { assert (a + b)[i] == b[i - |a|]; }
    }
  }

  /** A pattern with a character outside a string's alphabet does not occur in it. */
  lemma ForeignChar(s: String, p: String, k: nat, t: char)
    requires OptionChars(s, t) && k < |p| && !IsDigit(p[k]) && p[k] !in {'-', 'M', 'S', t}
    ensures !Contains(s, p)
  {
    if Contains(s, p) {
      ContainsChars(s, p, k);
      assert false;
    }
  }

  /** The dash form: the date ends before the first '-', the strike starts after `-C-` or `-P-`. */
  lemma DashLayout(code: String, t: char, strike: String)
    requires AllDigits(code) && AllDigits(strike) && (t == 'C' || t == 'P')
    ensures Layout(code + "-" + [t] + "-" + strike) == Some(OptionLayout(Some([t]), |code| - 1, |code| + 3))
  {
    var left := code + "-" + [t] + "-" + strike;
    assert OptionChars(left, t) by {
      assert OptionChars(code, t) && OptionChars("-" + [t] + "-", t) && OptionChars(strike, t);
      OptionCharsCat(code, "-" + [t] + "-", t);
      OptionCharsCat(code + "-" + [t] + "-", strike, t);
    }
    assert left[|code|] == '-';
    assert IndexOf(left, '-') == |code|;
    var tag := "-" + [t] + "-";
    assert left[|code|..|code| + 3] == tag;
    ContainsAt(left, tag, |code|);
    if t == 'P' {
      assert tag == "-P-";
      ForeignChar(left, "-C-", 1, t);
    } else {
      assert tag == "-C-";
    }
  }

  /** The bare form: the date ends before the type letter, the strike starts after it. */
  lemma BareLayout(code: String, ms: String, t: char, strike: String)
    requires AllDigits(code) && (ms == "" || ms == "MS") && AllDigits(strike) && (t == 'C' || t == 'P')
    ensures Layout(code + ms + [t] + strike) == Some(OptionLayout(Some([t]), |code + ms| - 1, |code + ms| + 1))
  {
    var left := code + ms + [t] + strike;
    assert OptionChars(left, t) by {
      assert OptionChars(code, t) && OptionChars(ms + [t], t) && OptionChars(strike, t);
      OptionCharsCat(code, ms + [t], t);
      OptionCharsCat(code + ms + [t], strike, t);
    }
    assert '-' !in left;
    if t == 'P' {
      assert 'C' !in left;
    }
    assert left[|code + ms|] == t;
    assert IndexOf(left, t) == |code + ms|;
  }

  /** The pieces of a dated option, with or without the weekly `MS` after the date. */
  lemma DatedOptionCode(product: String, code: String, weekly: bool, t: char, strike: String, exchange: String)
    requires AllDigits(code) && (|code| == 3 || |code| == 4)
    ensures OptionCode(product, code + (if weekly then "MS" else ""), weekly, Some([t]), strike, exchange, false)
      == Some(OptionName(exchange, if weekly then product + "_MS" else product, ContractYear(code), Last2(code), [t], strike))
  {
    DatedCodeYear(code);
    if weekly {
      assert NoChar(code, "MS"[0]);
      ReplaceSuffix(code, "MS", "");
      assert Remove(code + "MS", "MS") == code + "" == code;
    } else {
      assert code + "" == code;
    }
  }

  /** `OptionSymbol` once the product, the rest and its layout are known. */
  lemma OptionSymbolFrom(symbol: String, product: String, left: String, layout: OptionLayout, exchange: String,
                         asWritten: bool)
    requires Product(symbol) == product && Remove(symbol, product) == left && Layout(left) == Some(layout)
    ensures 0 <= layout.timeEnd + 1 <= |left|
    ensures OptionSymbol(symbol, exchange, asWritten)
      == OptionCode(product, left[..layout.timeEnd + 1], Contains(symbol, "MS"), layout.optionType,
                    From(left, layout.strikeStart), exchange, asWritten)
  {
  }

  /** The option reading of a dash-form symbol, once its product and the rest are known. */
  lemma DashOptionSymbol(symbol: String, product: String, left: String, code: String, t: char, strike: String,
                         exchange: String)
    requires Product(symbol) == product && Remove(symbol, product) == left && !Contains(symbol, "MS")
    requires AllDigits(code) && (|code| == 3 || |code| == 4) && AllDigits(strike) && (t == 'C' || t == 'P')
    requires left == code + "-" + [t] + "-" + strike
    ensures OptionSymbol(symbol, exchange, false)
      == Some(OptionName(exchange, product, ContractYear(code), Last2(code), [t], strike))
  {
    DashLayout(code, t, strike);
    OptionSymbolFrom(symbol, product, left, OptionLayout(Some([t]), |code| - 1, |code| + 3), exchange, false);
    assert left[..|code|] == code + "";
    assert From(left, |code| + 3) == strike;
    DatedOptionCode(product, code, false, t, strike, exchange);
  }

  /**
   * A CFFEX, DCE or GFEX option `<product><code>-<C|P>-<strike>` becomes
   * `TC.O.<ex>.<product>.20<yy><mm>.<C|P>.<strike>`.
   */
  lemma DashOption(product: String, code: String, t: char, strike: String, exchange: String)
    requires exchange in FuturesExchanges && product != []
    requires forall i :: 0 <= i < |product| ==> !IsDigit(product[i])
    requires AllDigits(code) && (|code| == 3 || |code| == 4) && AllDigits(strike) && (t == 'C' || t == 'P')
    requires var s := product + code + "-" + [t] + "-" + strike;
      |s| > 8 && !Contains(s[|product|..], product) && !Contains(s, "MS")
    ensures ToMcSymbol(product + code + "-" + [t] + "-" + strike, exchange)
      == Some(OptionName(exchange, product, ContractYear(code), Last2(code), [t], strike))
  {
    var left := code + "-" + [t] + "-" + strike;
    assert product + code + "-" + [t] + "-" + strike == product + left;
    assert (product + left)[|product|..] == left;
    ProductOf(product, left);
    RemoveLeadingProduct(product, left);
    DashOptionSymbol(product + left, product, left, code, t, strike, exchange);
    TranslateOption(product + left, exchange, false);
  }

  /** The option reading of a bare-form symbol, once its product and the rest are known. */
  lemma BareOptionSymbol(symbol: String, product: String, left: String, code: String, ms: String, t: char,
                         strike: String, exchange: String)
    requires Product(symbol) == product && Remove(symbol, product) == left && Contains(symbol, "MS") == (ms == "MS")
    requires AllDigits(code) && (|code| == 3 || |code| == 4) && AllDigits(strike) && (t == 'C' || t == 'P')
    requires (ms == "" || ms == "MS") && left == code + ms + [t] + strike
    ensures OptionSymbol(symbol, exchange, false)
      == Some(OptionName(exchange, if ms == "MS" then product + "_MS" else product, ContractYear(code), Last2(code), [t], strike))
  {
    BareLayout(code, ms, t, strike);
    OptionSymbolFrom(symbol, product, left, OptionLayout(Some([t]), |code + ms| - 1, |code + ms| + 1), exchange, false);
    assert left[..|code + ms|] == code + ms;
    assert From(left, |code + ms| + 1) == strike;
    DatedOptionCode(product, code, ms == "MS", t, strike, exchange);
  }

  /** A weekly bare-form option symbol holds "MS" right after its code. */
  lemma WeeklyContainsMs(product: String, code: String, t: char, strike: String)
    ensures Contains(product + (code + "MS" + [t] + strike), "MS")
  {
    var s := product + (code + "MS" + [t] + strike);
    assert s[|product| + |code|..|product| + |code| + 2] == "MS";
    ContainsAt(s, "MS", |product| + |code|);
  }

  /**
   * A SHFE, INE or CZCE option `<product><code>[MS]<C|P><strike>` becomes
   * `TC.O.<ex>.<product>[_MS].20<yy><mm>.<C|P>.<strike>`; the `MS` of a
   * weekly option moves from the date onto the product.
   */
  lemma BareOption(product: String, code: String, weekly: bool, t: char, strike: String, exchange: String)
    requires exchange in FuturesExchanges && product != []
    requires forall i :: 0 <= i < |product| ==> !IsDigit(product[i])
    requires AllDigits(code) && (|code| == 3 || |code| == 4) && AllDigits(strike) && (t == 'C' || t == 'P')
    requires var s := product + code + (if weekly then "MS" else "") + [t] + strike;
      |s| > 8 && !Contains(s[|product|..], product) && (!weekly ==> !Contains(s, "MS"))
    ensures ToMcSymbol(product + code + (if weekly then "MS" else "") + [t] + strike, exchange)
      == Some(OptionName(exchange, if weekly then product + "_MS" else product, ContractYear(code), Last2(code), [t], strike))
  {
    var ms: String := if weekly then "MS" else "";
    var left := code + ms + [t] + strike;
    assert product + code + ms + [t] + strike == product + left;
    assert (product + left)[|product|..] == left;
    if weekly {
      WeeklyContainsMs(product, code, t, strike);
    }
    ProductOf(product, left);
    RemoveLeadingProduct(product, left);
    BareOptionSymbol(product + left, product, left, code, ms, t, strike, exchange);
    TranslateOption(product + left, exchange, false);
  }

  // ---------------------------------------------------------------------------
  // Intervals and the shift to the bar start
  // ---------------------------------------------------------------------------

  datatype Interval = Minute | Hour | Daily | Weekly | Tick

  /** The MultiCharts bar types used here. */
  datatype BarType = MinuteBars | DayBars

  /** `INTERVAL_VT2MC`: bar type and window; weekly and tick data have no entry. */
  function McInterval(interval: Interval): (r: Option<(BarType, nat)>)
    ensures r.Some? <==> interval in {Minute, Hour, Daily}
    ensures r.Some? ==> (r.value.0 == DayBars <==> interval == Daily)
  {
    match interval
    case Minute => Some((MinuteBars, 1))
    case Hour => Some((MinuteBars, 60))
    case Daily => Some((DayBars, 1))
    case _ => None
  }

  /** `d - timedelta(days=1)`; 0001-01-01 has no predecessor. */
  function PrevDay(d: Date): (r: Date)
    requires ValidDate(d) && d != Date(1, 1, 1)
    ensures ValidDate(r) && r != Date(9999, 12, 31) && NextDay(r) == d
  {
    if d.day > 1 then Date(d.year, d.month, d.day - 1)
    else if d.month > 1 then Date(d.year, d.month - 1, DaysInMonth(d.year, d.month - 1))
    else Date(d.year - 1, 12, 31)
  }

  /**
   * The bar start for a quote stamped at its end: one minute or one hour
   * back (`INTERVAL_ADJUSTMENT_MAP`), and for daily bars no shift but hour
   * and minute set to 0 (the second stays).
   */
  function StartOf(t: DateTime, interval: Interval): (r: DateTime)
    requires ValidDateTime(t) && t.date != Date(1, 1, 1) && McInterval(interval).Some?
    ensures ValidDateTime(r)
  {
    match interval
    case Minute =>
      if t.minute > 0 then t.(minute := t.minute - 1)
      else if t.hour > 0 then t.(hour := t.hour - 1, minute := 59)
      else DateTime(PrevDay(t.date), 23, 59, t.second)
    case Hour =>
      if t.hour > 0 then t.(hour := t.hour - 1)
      else DateTime(PrevDay(t.date), 23, t.minute, t.second)
    case _ => t.(hour := 0, minute := 0)
  }

  /** The shift is exactly the interval's `timedelta`; a daily bar keeps its date and second. */
  lemma StartOfSpec(t: DateTime, interval: Interval)
    requires ValidDateTime(t) && t.date != Date(1, 1, 1) && McInterval(interval).Some?
    ensures var r := StartOf(t, interval);
      && (interval == Minute ==> Seconds(r) == Seconds(t) - 60)
      && (interval == Hour ==> Seconds(r) == Seconds(t) - 3600)
      && (interval == Daily ==> r.date == t.date && r.hour == 0 && r.minute == 0 && r.second == t.second)
  {
    if interval != Daily && t.hour == 0 && (interval == Hour || t.minute == 0) {
      OrdinalNextDay(PrevDay(t.date));
    }
  }

  // ---------------------------------------------------------------------------
  // Quotes to bars
  // ---------------------------------------------------------------------------

  /** One record of `getquotehistory`. */
  datatype Quote = Quote(dateTime: DateTime, open: real, high: real, low: real, close: real, volume: real, openInterest: real)

  datatype Bar = Bar(symbol: String, exchange: String, interval: Interval, datetime: DateTime,
                     open: real, high: real, low: real, close: real, volume: real, openInterest: real,
                     gatewayName: String)

  /** A quote whose date-time Python can shift back. */
  predicate ValidQuote(q: Quote) { ValidDateTime(q.dateTime) && q.dateTime.date != Date(1, 1, 1) }

  function ToBar(q: Quote, symbol: String, exchange: String, interval: Interval): (b: Bar)
    requires ValidQuote(q) && McInterval(interval).Some?
  {
    Bar(symbol, exchange, interval, StartOf(q.dateTime, interval),
        q.open, q.high, q.low, q.close, q.volume, q.openInterest, "MCDATA")
  }

  /** The bar built from each quote, in quote order. */
  function Bars(quotes: seq<Quote>, symbol: String, exchange: String, interval: Interval): (r: seq<Bar>)
    requires McInterval(interval).Some? && forall k :: 0 <= k < |quotes| ==> ValidQuote(quotes[k])
    ensures |r| == |quotes| && forall k :: 0 <= k < |quotes| ==> r[k] == ToBar(quotes[k], symbol, exchange, interval)
  {
    seq(|quotes|, k requires 0 <= k < |quotes| => ToBar(quotes[k], symbol, exchange, interval))
  }

  /** The dict `bars` after the loop: a bar replaces an earlier one with the same start. */
  function LastWins(bars: seq<Bar>): map<DateTime, Bar>
  {
    if bars == [] then map[]
    else LastWins(bars[..|bars| - 1])[bars[|bars| - 1].datetime := bars[|bars| - 1]]
  }

  /** The dict's keys in insertion order: each start time where it first occurs. */
  function FirstSeen(bars: seq<Bar>): seq<DateTime>
  {
    if bars == [] then []
    else
      var keys := FirstSeen(bars[..|bars| - 1]);
      var t := bars[|bars| - 1].datetime;
      if t in keys then keys else keys + [t]
  }

  /** `[bars[dt] for dt in dts]` (a key missing from the dict contributes nothing). */
  function Picked(m: map<DateTime, Bar>, keys: seq<DateTime>): seq<Bar>
  {
    if keys == [] then []
    else Picked(m, keys[..|keys| - 1]) + (if keys[|keys| - 1] in m then [m[keys[|keys| - 1]]] else [])
  }

  /** The bars in order of their start, one per start time. */
  function Deduplicated(bars: seq<Bar>): seq<Bar>
  {
    Picked(LastWins(bars), SortByKey(FirstSeen(bars), Rank))
  }

  /** No later bar has the same start as bar j. */
  predicate LastOf(bars: seq<Bar>, j: int)
    requires 0 <= j < |bars|
  {
    forall k :: j < k < |bars| ==> bars[k].datetime != bars[j].datetime
  }

  /** The dict holds each start time once, under its own key. */
  lemma {:induction false} LastWinsDomain(bars: seq<Bar>, t: DateTime)
    ensures t in LastWins(bars) <==> exists j :: 0 <= j < |bars| && bars[j].datetime == t
    ensures t in LastWins(bars) ==> LastWins(bars)[t].datetime == t
  {
    if bars != [] {
      var init := bars[..|bars| - 1];
      LastWinsDomain(init, t);
      if exists j :: 0 <= j < |bars| && bars[j].datetime == t {
        var j :| 0 <= j < |bars| && bars[j].datetime == t;
        if j < |init| { assert init[j] == bars[j]; }
      }
      if exists j :: 0 <= j < |init| && init[j].datetime == t {
        var j :| 0 <= j < |init| && init[j].datetime == t;
        assert bars[j] == init[j];
      }
    }
  }

  /** The last bar with a start time is the one the dict keeps. */
  lemma {:induction false} LastWinsAt(bars: seq<Bar>, j: int)
    requires 0 <= j < |bars| && LastOf(bars, j)
    ensures bars[j].datetime in LastWins(bars) && LastWins(bars)[bars[j].datetime] == bars[j]
  {
    if j < |bars| - 1 {
      var init := bars[..|bars| - 1];
      assert init[j] == bars[j];
      assert LastOf(init, j) by {
        forall k | j < k < |init| ensures init[k].datetime != init[j].datetime {
          assert init[k] == bars[k];
        }
      }
      LastWinsAt(init, j);
      assert bars[|bars| - 1].datetime != bars[j].datetime;
    }
  }

  /** Whatever the dict keeps under a start time is the last bar with that start. */
  lemma {:induction false} LastWinsFrom(bars: seq<Bar>, t: DateTime) returns (j: int)
    requires t in LastWins(bars)
    ensures 0 <= j < |bars| && LastOf(bars, j) && bars[j] == LastWins(bars)[t] && bars[j].datetime == t
  {
    var last := bars[|bars| - 1];
    if last.datetime == t {
      j := |bars| - 1;
    } else {
      var init := bars[..|bars| - 1];
      j := LastWinsFrom(init, t);
      assert bars[j] == init[j];
      forall k | j < k < |bars| ensures bars[k].datetime != bars[j].datetime {
        if k < |init| { assert bars[k] == init[k]; }
      }
    }
  }

  /** The key order lists each key of the dict once. */
  lemma {:induction false} FirstSeenSpec(bars: seq<Bar>)
    ensures Distinct(FirstSeen(bars))
    ensures forall t :: t in FirstSeen(bars) <==> t in LastWins(bars)
  {
    if bars != [] {
      FirstSeenSpec(bars[..|bars| - 1]);
    }
  }

  /** With every key in the dict, picking is looking each key up. */
  lemma {:induction false} PickedAll(m: map<DateTime, Bar>, keys: seq<DateTime>)
    requires forall i :: 0 <= i < |keys| ==> keys[i] in m
    ensures |Picked(m, keys)| == |keys|
    ensures forall i :: 0 <= i < |keys| ==> Picked(m, keys)[i] == m[keys[i]]
  {
    if keys != [] {
      var init := keys[..|keys| - 1];
      PickedAll(m, init);
      assert forall i :: 0 <= i < |init| ==> init[i] == keys[i];
    }
  }

  /** The sorted keys: each key of the dict once, in increasing order. */
  lemma SortedKeys(bars: seq<Bar>)
    requires forall k :: 0 <= k < |bars| ==> ValidDateTime(bars[k].datetime)
    ensures var keys := SortByKey(FirstSeen(bars), Rank);
      && Distinct(keys) && SortedByKey(keys, Rank)
      && (forall i :: 0 <= i < |keys| ==> keys[i] in LastWins(bars) && LastWins(bars)[keys[i]].datetime == keys[i] && ValidDateTime(keys[i]))
      && (forall t :: t in LastWins(bars) ==> t in keys)
  {
    var seen := FirstSeen(bars);
    var keys := SortByKey(seen, Rank);
    FirstSeenSpec(bars);
    PermutationKeepsDistinct(seen, keys);
    forall i | 0 <= i < |keys| ensures keys[i] in LastWins(bars) && LastWins(bars)[keys[i]].datetime == keys[i] && ValidDateTime(keys[i]) {
      assert keys[i] in multiset(keys);
      LastWinsDomain(bars, keys[i]);
    }
    forall t | t in LastWins(bars) ensures t in keys {
      assert t in multiset(seen);
    }
  }

  /**
   * The converted bars are in strictly increasing order of start time and
   * are exactly the last bar for each start time: a repeated time keeps
   * the later quote.
   */
  lemma DeduplicatedSpec(bars: seq<Bar>)
    requires forall k :: 0 <= k < |bars| ==> ValidDateTime(bars[k].datetime)
    ensures var r := Deduplicated(bars);
      && (forall i, j :: 0 <= i < j < |r| ==> Before(r[i].datetime, r[j].datetime))
      && (forall b :: b in r <==> exists j :: 0 <= j < |bars| && bars[j] == b && LastOf(bars, j))
  {
    var r := Deduplicated(bars);
    DeduplicatedOrder(bars);
    forall b ensures b in r <==> exists j :: 0 <= j < |bars| && bars[j] == b && LastOf(bars, j) {
      if b in r {
        var i :| 0 <= i < |r| && r[i] == b;
        var j := DeduplicatedSource(bars, i);
      }
      if exists j :: 0 <= j < |bars| && bars[j] == b && LastOf(bars, j) {
        var j :| 0 <= j < |bars| && bars[j] == b && LastOf(bars, j);
        DeduplicatedKeeps(bars, j);
      }
    }
  }

  lemma DeduplicatedOrder(bars: seq<Bar>)
    requires forall k :: 0 <= k < |bars| ==> ValidDateTime(bars[k].datetime)
    ensures var r := Deduplicated(bars); forall i, j :: 0 <= i < j < |r| ==> Before(r[i].datetime, r[j].datetime)
  {
    var m := LastWins(bars);
    var keys := SortByKey(FirstSeen(bars), Rank);
    var r := Deduplicated(bars);
    SortedKeys(bars);
    PickedAll(m, keys);
    forall i, j | 0 <= i < j < |r| ensures Before(r[i].datetime, r[j].datetime) {
      RankInjective(keys[i], keys[j]);
    }
  }

  /** Each converted bar is the last bar with its start time. */
  lemma DeduplicatedSource(bars: seq<Bar>, i: int) returns (j: int)
    requires forall k :: 0 <= k < |bars| ==> ValidDateTime(bars[k].datetime)
    requires 0 <= i < |Deduplicated(bars)|
    ensures 0 <= j < |bars| && bars[j] == Deduplicated(bars)[i] && LastOf(bars, j)
  {
    var keys := SortByKey(FirstSeen(bars), Rank);
    SortedKeys(bars);
    PickedAll(LastWins(bars), keys);
    j := LastWinsFrom(bars, keys[i]);
  }

  /** The last bar with a start time is converted. */
  lemma DeduplicatedKeeps(bars: seq<Bar>, j: int)
    requires forall k :: 0 <= k < |bars| ==> ValidDateTime(bars[k].datetime)
    requires 0 <= j < |bars| && LastOf(bars, j)
    ensures bars[j] in Deduplicated(bars)
  {
    var keys := SortByKey(FirstSeen(bars), Rank);
    SortedKeys(bars);
    PickedAll(LastWins(bars), keys);
    LastWinsAt(bars, j);
    var i :| 0 <= i < |keys| && keys[i] == bars[j].datetime;
    assert Deduplicated(bars)[i] == bars[j];
  }

  /** The conversion loop of `query_bar_history`: the dict of bars and its key order. */
  method CollectBars(quotes: seq<Quote>, symbol: String, exchange: String, interval: Interval)
    returns (bars: map<DateTime, Bar>, order: seq<DateTime>)
    requires McInterval(interval).Some? && forall k :: 0 <= k < |quotes| ==> ValidQuote(quotes[k])
    ensures bars == LastWins(Bars(quotes, symbol, exchange, interval))
    ensures order == FirstSeen(Bars(quotes, symbol, exchange, interval))
  {
    ghost var converted := Bars(quotes, symbol, exchange, interval);
    bars, order := map[], [];
    for k := 0 to |quotes|
      invariant bars == LastWins(converted[..k]) && order == FirstSeen(converted[..k])
    {
      var bar := ToBar(quotes[k], symbol, exchange, interval);
      assert converted[..k + 1] == converted[..k] + [bar];
      FirstSeenSpec(converted[..k]);
      if bar.datetime !in bars {
        order := order + [bar.datetime];
      }
      bars := bars[bar.datetime := bar];
    }
    assert converted[..|quotes|] == converted;
  }

  /** `[bars[dt] for dt in dts]` over keys that are all in the dict. */
  method PickBars(bars: map<DateTime, Bar>, dts: seq<DateTime>) returns (result: seq<Bar>)
    requires forall i :: 0 <= i < |dts| ==> dts[i] in bars
    ensures result == Picked(bars, dts)
  {
    result := [];
    for i := 0 to |dts|
      invariant result == Picked(bars, dts[..i])
    {
      assert dts[..i + 1][..i] == dts[..i];
      result := result + [bars[dts[i]]];
    }
    assert dts[..|dts|] == dts;
  }

  /** The bars of `query_bar_history` from its quotes. */
  method ConvertQuotes(quotes: seq<Quote>, symbol: String, exchange: String, interval: Interval) returns (result: seq<Bar>)
    requires McInterval(interval).Some? && forall k :: 0 <= k < |quotes| ==> ValidQuote(quotes[k])
    ensures result == Deduplicated(Bars(quotes, symbol, exchange, interval))
  {
    var bars, order := CollectBars(quotes, symbol, exchange, interval);
    FirstSeenSpec(Bars(quotes, symbol, exchange, interval));
    var dts := SortByKey(order, Rank);
    forall i | 0 <= i < |dts| ensures dts[i] in bars {
      assert dts[i] in multiset(order);
    }
    result := PickBars(bars, dts);
  }

  // ---------------------------------------------------------------------------
  // The query plan
  // ---------------------------------------------------------------------------

  /** The order of `date` comparisons: year, then month, then day. */
  function DayKey(d: Date): int
  {
    (d.year * 13 + d.month) * 32 + d.day
  }

  /** A date that `timedelta(days=1)` can be added to. */
  predicate HasNext(d: Date) { ValidDate(d) && d != Date(9999, 12, 31) }

  lemma NextDayKey(d: Date)
    requires HasNext(d)
    ensures DayKey(NextDay(d)) > DayKey(d)
  {
  }

  /** No valid date lies strictly between a date and the next. */
  lemma NextDayNext(d: Date, x: Date)
    requires HasNext(d) && ValidDate(x) && DayKey(x) > DayKey(d)
    ensures DayKey(x) >= DayKey(NextDay(d))
  {
    KeyOrder(x.year * 13 + x.month, x.day, d.year * 13 + d.month, d.day, 32);
    if x.year * 13 + x.month > d.year * 13 + d.month {
      KeyOrder(x.year, x.month, d.year, d.month, 13);
      StepBound(d.year * 13 + d.month, x.year * 13 + x.month, 32);
    }
  }

  /** Keys in mixed radix compare like their digit pairs. */
  lemma KeyOrder(x: int, dx: int, y: int, dy: int, base: int)
    requires base > 0 && 0 <= dx < base && 0 <= dy < base && x * base + dx > y * base + dy
    ensures x > y || (x == y && dx > dy)
  {
    StepBound(x, y, base);
  }

  lemma DayKeyInjective(a: Date, b: Date)
    requires ValidDate(a) && ValidDate(b) && DayKey(a) == DayKey(b)
    ensures a == b
  {
    MixedRadix(a.year * 13 + a.month, a.day, b.year * 13 + b.month, b.day, 32);
    MixedRadix(a.year, a.month, b.year, b.month, 13);
  }

  /** A date not after a date that has a successor has one too. */
  lemma NotAfterHasNext(d: Date, end: Date)
    requires ValidDate(d) && HasNext(end) && DayKey(d) <= DayKey(end)
    ensures HasNext(d)
  {
  }

  /** The days from d to end that are Monday to Friday, in order. */
  function Weekdays(d: Date, end: Date): (r: seq<Date>)
    requires ValidDate(d) && HasNext(end)
    ensures forall k :: 0 <= k < |r| ==> HasNext(r[k])
    decreases DayKey(end) - DayKey(d)
  {
    if DayKey(d) > DayKey(end) then []
    else
      NotAfterHasNext(d, end);
      NextDayKey(d);
      (if Weekday(d) < 5 then [d] else []) + Weekdays(NextDay(d), end)
  }

  /** One step of the day loop. */
  lemma WeekdaysStep(d: Date, end: Date)
    requires ValidDate(d) && HasNext(end)
    ensures DayKey(d) > DayKey(end) ==> Weekdays(d, end) == []
    ensures DayKey(d) <= DayKey(end) ==>
      (HasNext(d) && DayKey(NextDay(d)) > DayKey(d)
       && Weekdays(d, end) == (if Weekday(d) < 5 then [d] else []) + Weekdays(NextDay(d), end))
  {
    if DayKey(d) <= DayKey(end) {
      NotAfterHasNext(d, end);
      NextDayKey(d);
    }
  }

  /** A date is queried exactly when it lies between start and end and is not a Saturday or Sunday. */
  lemma {:induction false} WeekdaysMembers(d: Date, end: Date, x: Date)
    requires ValidDate(d) && HasNext(end)
    ensures x in Weekdays(d, end) <==> ValidDate(x) && DayKey(d) <= DayKey(x) <= DayKey(end) && Weekday(x) < 5
    decreases DayKey(end) - DayKey(d)
  {
    if DayKey(d) <= DayKey(end) {
      NotAfterHasNext(d, end);
      NextDayKey(d);
      WeekdaysMembers(NextDay(d), end, x);
      if ValidDate(x) && DayKey(d) <= DayKey(x) {
        if DayKey(x) == DayKey(d) {
          DayKeyInjective(x, d);
        } else {
          NextDayNext(d, x);
        }
      }
    }
  }

  /** One query window of the day loop: `%Y%m%d00` of the day and of the next. */
  function DayWindow(d: Date): (String, String)
    requires HasNext(d)
  {
    (CompactDate(d) + "00", CompactDate(NextDay(d)) + "00")
  }

  /** `getquotehistory(bar type, window, symbol, start, end)`, None read as []. */
  type Fetch = (BarType, nat, String, String, String) -> seq<Quote>

  /** Every quote the API can return has a date-time Python can shift. */
  ghost predicate ValidFetch(fetch: Fetch)
  {
    forall bt, w, s, a, b, k :: 0 <= k < |fetch(bt, w, s, a, b)| ==> ValidQuote(fetch(bt, w, s, a, b)[k])
  }

  /** The quotes of the day loop: one query per day, in day order; each is one the API returned. */
  function DayQuotes(fetch: Fetch, barType: BarType, window: nat, mcSymbol: String, days: seq<Date>): (r: seq<Quote>)
    requires ValidFetch(fetch) && forall k :: 0 <= k < |days| ==> HasNext(days[k])
    ensures forall k :: 0 <= k < |r| ==> ValidQuote(r[k])
  {
    if days == [] then []
    else
      var (from, to) := DayWindow(days[0]);
      var a := fetch(barType, window, mcSymbol, from, to);
      var b := DayQuotes(fetch, barType, window, mcSymbol, days[1..]);
      assert forall k :: 0 <= k < |a + b| ==> ValidQuote((a + b)[k]) by {
        forall k | 0 <= k < |a + b| ensures ValidQuote((a + b)[k]) {
          if k < |a| {
            assert (a + b)[k] == a[k];
          } else {
            assert (a + b)[k] == b[k - |a|];
          }
        }
      }
      a + b
  }

  /** The daily query: one `%Y%m%d%H` window over the whole range. */
  function DailyWindow(start: DateTime, end: DateTime): (String, String)
    requires ValidDateTime(start) && ValidDateTime(end)
  {
    (CompactDate(start.date) + Pad(start.hour, 2), CompactDate(end.date) + Pad(end.hour, 2))
  }

  /** `all_quote_history`: the daily query, or the day loop over the weekdays. */
  function AllQuotes(fetch: Fetch, interval: Interval, barType: BarType, window: nat, mcSymbol: String,
                     start: DateTime, end: DateTime): (r: seq<Quote>)
    requires ValidFetch(fetch) && ValidDateTime(start) && ValidDateTime(end) && HasNext(end.date)
    ensures forall k :: 0 <= k < |r| ==> ValidQuote(r[k])
  {
    if interval == Daily then
      var (from, to) := DailyWindow(start, end);
      fetch(barType, window, mcSymbol, from, to)
    else DayQuotes(fetch, barType, window, mcSymbol, Weekdays(start.date, end.date))
  }

  /** The end of the request: `datetime.now()` when none is given. */
  function EndOf(end: Option<DateTime>, now: DateTime): DateTime
  {
    if end.Some? then end.value else now
  }

  /** What the request needs: valid times and an end date with a successor. */
  predicate ValidRequest(start: DateTime, end: Option<DateTime>, now: DateTime)
  {
    ValidDateTime(start) && ValidDateTime(EndOf(end, now)) && HasNext(EndOf(end, now).date)
  }

  /**
   * `query_bar_history`: None where the symbol translation raises, [] for
   * an unsupported contract or interval and when no quote comes back,
   * otherwise the converted bars.
   */
  function BarHistory(symbol: String, exchange: String, interval: Interval, start: DateTime,
                      end: Option<DateTime>, now: DateTime, fetch: Fetch): Option<seq<Bar>>
    requires ValidRequest(start, end, now) && ValidFetch(fetch)
  {
    var mc := ToMcSymbol(symbol, exchange);
    if mc.None? then None
    else if mc.value == [] then Some([])
    else match McInterval(interval)
      case None => Some([])
      case Some(p) =>
        var quotes := AllQuotes(fetch, interval, p.0, p.1, mc.value, start, EndOf(end, now));
        if quotes == [] then Some([]) else Some(Deduplicated(Bars(quotes, symbol, exchange, interval)))
  }

  /**
   * A query raises exactly when the symbol translation does, and answers []
   * for an unsupported contract or interval.
   */
  lemma BarHistoryEmpty(symbol: String, exchange: String, interval: Interval, start: DateTime,
                        end: Option<DateTime>, now: DateTime, fetch: Fetch)
    requires ValidRequest(start, end, now) && ValidFetch(fetch)
    ensures BarHistory(symbol, exchange, interval, start, end, now, fetch).None? <==> ToMcSymbol(symbol, exchange).None?
    ensures ToMcSymbol(symbol, exchange) == Some("") || (ToMcSymbol(symbol, exchange).Some? && McInterval(interval).None?)
      ==> BarHistory(symbol, exchange, interval, start, end, now, fetch) == Some([])
  {
  }

  /**
   * For a supported contract and interval the bars are those built from
   * the quotes the plan fetches, one per start time, the last built for
   * that time, in strictly increasing order of start time; they carry the
   * request's symbol, exchange and interval.
   */
  lemma BarHistorySpec(symbol: String, exchange: String, interval: Interval, start: DateTime,
                       end: Option<DateTime>, now: DateTime, fetch: Fetch)
    requires ValidRequest(start, end, now) && ValidFetch(fetch)
    ensures var mc := ToMcSymbol(symbol, exchange);
      mc.Some? && mc.value != "" && McInterval(interval).Some? ==>
      var p := McInterval(interval).value;
      var bars := Bars(AllQuotes(fetch, interval, p.0, p.1, mc.value, start, EndOf(end, now)), symbol, exchange, interval);
      var r := BarHistory(symbol, exchange, interval, start, end, now, fetch).value;
      && (forall i :: 0 <= i < |r| ==> r[i].symbol == symbol && r[i].exchange == exchange && r[i].interval == interval)
      && (forall i, j :: 0 <= i < j < |r| ==> Before(r[i].datetime, r[j].datetime))
      && (forall b :: b in r <==> exists j :: 0 <= j < |bars| && bars[j] == b && LastOf(bars, j))
  {
    var mc := ToMcSymbol(symbol, exchange);
    if mc.Some? && mc.value != "" && McInterval(interval).Some? {
      var p := McInterval(interval).value;
      var quotes := AllQuotes(fetch, interval, p.0, p.1, mc.value, start, EndOf(end, now));
      var bars := Bars(quotes, symbol, exchange, interval);
      var r := BarHistory(symbol, exchange, interval, start, end, now, fetch).value;
      DeduplicatedSpec(bars);
      if quotes == [] {
        assert r == [] && bars == [];
      } else {
        assert r == Deduplicated(bars);
        forall i | 0 <= i < |r| ensures r[i].symbol == symbol && r[i].exchange == exchange && r[i].interval == interval {
          assert r[i] in r;
        }
      }
    }
  }

  /** `query_bar_history`, with the API call as the `fetch` parameter. */
  method QueryBarHistory(symbol: String, exchange: String, interval: Interval, start: DateTime,
                         end: Option<DateTime>, now: DateTime, fetch: Fetch) returns (result: Option<seq<Bar>>)
    requires ValidRequest(start, end, now) && ValidFetch(fetch)
    ensures result == BarHistory(symbol, exchange, interval, start, end, now, fetch)
  {
    var mcSymbol := ToMcSymbol(symbol, exchange);
    if mcSymbol.None? {
      return None;
    }
    if mcSymbol.value == [] {
      return Some([]);
    }
    var mc := McInterval(interval);
    if mc.None? {
      return Some([]);
    }
    var (barType, window) := mc.value;
    var allQuotes := QueryQuotes(fetch, interval, barType, window, mcSymbol.value, start, EndOf(end, now));
    if allQuotes == [] {
      return Some([]);
    }
    var bars := ConvertQuotes(allQuotes, symbol, exchange, interval);
    return Some(bars);
  }

  /** The queries of `query_bar_history`: one for daily bars, the day loop otherwise. */
  method QueryQuotes(fetch: Fetch, interval: Interval, barType: BarType, window: nat, mcSymbol: String,
                     start: DateTime, end: DateTime) returns (allQuotes: seq<Quote>)
    requires ValidFetch(fetch) && ValidDateTime(start) && ValidDateTime(end) && HasNext(end.date)
    ensures allQuotes == AllQuotes(fetch, interval, barType, window, mcSymbol, start, end)
  {
    if interval == Daily {
      allQuotes := fetch(barType, window, mcSymbol, CompactDate(start.date) + Pad(start.hour, 2), CompactDate(end.date) + Pad(end.hour, 2));
    } else {
      allQuotes := QueryDays(fetch, barType, window, mcSymbol, start.date, end.date);
    }
  }

  /** One step of the day loop, on the quotes it collects. */
  lemma DayQuotesStep(fetch: Fetch, barType: BarType, window: nat, mcSymbol: String, d: Date, end: Date)
    requires ValidFetch(fetch) && ValidDate(d) && HasNext(end) && DayKey(d) <= DayKey(end)
    ensures HasNext(d) && DayKey(NextDay(d)) > DayKey(d)
    ensures DayQuotes(fetch, barType, window, mcSymbol, Weekdays(d, end))
      == (if Weekday(d) < 5 then fetch(barType, window, mcSymbol, DayWindow(d).0, DayWindow(d).1) else [])
         + DayQuotes(fetch, barType, window, mcSymbol, Weekdays(NextDay(d), end))
  {
    WeekdaysStep(d, end);
    var rest := Weekdays(NextDay(d), end);
    if Weekday(d) < 5 {
      assert ([d] + rest)[0] == d && ([d] + rest)[1..] == rest;
    } else {
      assert Weekdays(d, end) == rest;
    }
  }

  /** The invariant of the day loop survives one day: the quotes so far, then those of the days left. */
  lemma DayLoopStep(fetch: Fetch, barType: BarType, window: nat, mcSymbol: String, acc: seq<Quote>, d: Date, end: Date, total: seq<Quote>)
    requires ValidFetch(fetch) && ValidDate(d) && HasNext(end) && DayKey(d) <= DayKey(end)
    requires acc + DayQuotes(fetch, barType, window, mcSymbol, Weekdays(d, end)) == total
    ensures HasNext(d) && DayKey(NextDay(d)) > DayKey(d)
    ensures (if Weekday(d) < 5 then acc + fetch(barType, window, mcSymbol, DayWindow(d).0, DayWindow(d).1) else acc)
      + DayQuotes(fetch, barType, window, mcSymbol, Weekdays(NextDay(d), end)) == total
  {
    DayQuotesStep(fetch, barType, window, mcSymbol, d, end);
    var rest := DayQuotes(fetch, barType, window, mcSymbol, Weekdays(NextDay(d), end));
    if Weekday(d) < 5 {
      var got := fetch(barType, window, mcSymbol, DayWindow(d).0, DayWindow(d).1);
      assert (acc + got) + rest == acc + (got + rest);
    } else {
      assert [] + rest == rest;
    }
  }

  /** The day loop: one query per weekday from start to end. */
  method QueryDays(fetch: Fetch, barType: BarType, window: nat, mcSymbol: String, start: Date, end: Date) returns (allQuotes: seq<Quote>)
    requires ValidFetch(fetch) && ValidDate(start) && HasNext(end)
    ensures allQuotes == DayQuotes(fetch, barType, window, mcSymbol, Weekdays(start, end))
  {
    ghost var total := DayQuotes(fetch, barType, window, mcSymbol, Weekdays(start, end));
    allQuotes := [];
    var d := start;
    assert [] + total == total;
    while DayKey(d) <= DayKey(end)
      invariant ValidDate(d)
      invariant allQuotes + DayQuotes(fetch, barType, window, mcSymbol, Weekdays(d, end)) == total
      decreases DayKey(end) - DayKey(d)
    {
      DayLoopStep(fetch, barType, window, mcSymbol, allQuotes, d, end, total);
      if Weekday(d) < 5 {
        var (from, to) := DayWindow(d);
        var quoteHistory := fetch(barType, window, mcSymbol, from, to);
        allQuotes := allQuotes + quoteHistory;
      }
      d := NextDay(d);
    }
    WeekdaysStep(d, end);
    assert allQuotes + [] == allQuotes;
  }
}

=== FILE: scheduler.dfy ===
/**
 * The data-manager bookkeeping of `vnpy_datamanager/engine.py`: the
 * `DataUpdateScheduler` status record (last update, per-contract update
 * times, processed `.lc1` files), the pending-file scan, and the counters
 * of the update pipeline in `ManagerEngine` (conversion, import with
 * exchange resolution, aggregation, staleness check).
 *
 * The JSON status file is the object's fields: every call of the source
 * reads the file, changes the dictionary and writes it back, which for a
 * single writer is the same as updating fields in place.
 */
module Scheduler {
  import opened Wrappers
  import opened Strings
  import opened Calendar
  import opened Sorting
  import Tdx
  import VnpyCsv

  /**
   * `processed_files` after `update_status(file_path=p)`: p is appended when
   * it is given, non-empty (Python truthiness) and not yet listed.
   */
  function AddProcessed(files: seq<String>, p: Option<String>): (r: seq<String>)
    ensures Distinct(files) ==> Distinct(r)
    ensures files <= r
    ensures forall q :: q in r <==> (q in files || (p.Some? && p.value != [] && q == p.value))
  {
    if p.Some? && p.value != [] && p.value !in files then files + [p.value] else files
  }

  /** Marking a list of files processed one after another. */
  function AddAll(files: seq<String>, ps: seq<String>): (r: seq<String>)
    ensures Distinct(files) ==> Distinct(r)
    ensures files <= r
  {
    if ps == [] then files else AddProcessed(AddAll(files, ps[..|ps| - 1]), Some(ps[|ps| - 1]))
  }

  /** After marking, a file is processed exactly when it was before or is one of the non-empty marked paths. */
  lemma {:induction false} AddAllMembers(files: seq<String>, ps: seq<String>, q: String)
    ensures q in AddAll(files, ps) <==> (q in files || (q != [] && q in ps))
  {
    if ps != [] {
      var init := ps[..|ps| - 1];
      AddAllMembers(files, init, q);
      assert ps == init + [ps[|ps| - 1]];
      assert q in ps <==> (q in init || q == ps[|ps| - 1]);
    }
  }

  /** One file found by `os.walk`: its joined path and its bare name. */
  datatype WalkEntry = WalkEntry(path: String, name: String)

  /** The `.lc1` paths of a walk that are not processed yet, in walk order. */
  function Unprocessed(entries: seq<WalkEntry>, processed: seq<String>): (r: seq<String>)
    ensures |r| <= |entries|
  {
    if entries == [] then []
    else
      var e := entries[|entries| - 1];
      Unprocessed(entries[..|entries| - 1], processed)
        + (if EndsWith(e.name, ".lc1") && e.path !in processed then [e.path] else [])
  }

  /** A path is pending exactly when some walked `.lc1` file has it and it is not processed. */
  lemma {:induction false} UnprocessedMembers(entries: seq<WalkEntry>, processed: seq<String>, x: String)
    ensures x in Unprocessed(entries, processed) <==>
              (x !in processed && exists i :: 0 <= i < |entries| && entries[i].path == x && EndsWith(entries[i].name, ".lc1"))
  {
    if entries != [] {
      var init := entries[..|entries| - 1];
      var e := entries[|entries| - 1];
      UnprocessedMembers(init, processed, x);
      if x !in processed && EndsWith(e.name, ".lc1") && e.path == x {
        assert entries[|entries| - 1].path == x;
      }
      if exists i :: 0 <= i < |entries| && entries[i].path == x && EndsWith(entries[i].name, ".lc1") {
        var i :| 0 <= i < |entries| && entries[i].path == x && EndsWith(entries[i].name, ".lc1");
        if i < |init| {
          assert init[i] == entries[i];
        }
      }
    }
  }

  /** The per-contract record after `update_status(contract=c)` at time `now`. */
  function TouchContract(contracts: map<String, DateTime>, c: Option<String>, now: DateTime): (r: map<String, DateTime>)
    ensures c.Some? && c.value != [] ==> c.value in r && r[c.value] == now
    ensures forall k :: k in contracts ==> k in r
    ensures forall k :: k in r && !(c.Some? && k == c.value) ==> k in contracts && r[k] == contracts[k]
  {
    if c.Some? && c.value != [] then contracts[c.value := now] else contracts
  }

  class DataUpdateScheduler {
    var lastUpdate: Option<DateTime>
    var contracts: map<String, DateTime>
    var processedFiles: seq<String>

    ghost predicate Valid()
      reads this
    {
      Distinct(processedFiles)
    }

    /** `_ensure_status_file` on a missing file: `{last_update: None, contracts: {}, processed_files: []}`. */
    constructor()
      ensures lastUpdate == None && contracts == map[] && processedFiles == []
      ensures Valid()
    {
      lastUpdate := None;
      contracts := map[];
      processedFiles := [];
    }

    /**
     * `update_status`: each argument left as None (or empty) leaves its part
     * of the record alone; a contract gets `now` as its own update time and
     * no other contract changes; a file is appended once.
     */
    method UpdateStatus(contract: Option<String>, filePath: Option<String>, lastUpdateArg: Option<DateTime>, now: DateTime)
      requires Valid()
      modifies this
      ensures Valid()
      ensures lastUpdate == (if lastUpdateArg.Some? then lastUpdateArg else old(lastUpdate))
      ensures contracts == TouchContract(old(contracts), contract, now)
      ensures processedFiles == AddProcessed(old(processedFiles), filePath)
    {
      if lastUpdateArg.Some? {
        lastUpdate := lastUpdateArg;
      }
      if contract.Some? && contract.value != [] {
        contracts := contracts[contract.value := now];
      }
      if filePath.Some? && filePath.value != [] && filePath.value !in processedFiles {
        processedFiles := processedFiles + [filePath.value];
      }
    }

    /** `is_file_processed`. */
    predicate IsFileProcessed(p: String)
      reads this
    {
      p in processedFiles
    }

    /** `get_contract_last_update`: the stored time, or None for an unknown contract. */
    function ContractLastUpdate(c: String): (r: Option<DateTime>)
      reads this
      ensures r.Some? <==> c in contracts
      ensures r.Some? ==> r.value == contracts[c]
    {
      if c in contracts then Some(contracts[c]) else None
    }

    /**
     * `get_pending_files`: [] for a missing directory, otherwise the walked
     * `.lc1` paths not yet processed, sorted.
     */
    method GetPendingFiles(dirExists: bool, entries: seq<WalkEntry>) returns (pending: seq<String>)
      ensures pending == (if dirExists then SortStrings(Unprocessed(entries, processedFiles)) else [])
    {
      if !dirExists {
        return [];
      }
      var allFiles: seq<String> := [];
      for k := 0 to |entries|
        invariant allFiles == Unprocessed(entries[..k], processedFiles)
      {
        assert entries[..k + 1][..k] == entries[..k];
        if EndsWith(entries[k].name, ".lc1") && !IsFileProcessed(entries[k].path) {
          allFiles := allFiles + [entries[k].path];
        }
      }
      assert entries[..|entries|] == entries;
      pending := SortStrings(allFiles);
    }
  }

  /** The pending list is sorted and holds exactly the unprocessed walked `.lc1` paths. */
  lemma PendingSpec(dirExists: bool, entries: seq<WalkEntry>, processed: seq<String>, x: String)
    ensures var pending := if dirExists then SortStrings(Unprocessed(entries, processed)) else [];
      && SortedStrings(pending)
      && (x in pending <==> (dirExists && x !in processed
            && exists i :: 0 <= i < |entries| && entries[i].path == x && EndsWith(entries[i].name, ".lc1")))
  {
    if dirExists {
      var u := Unprocessed(entries, processed);
      UnprocessedMembers(entries, processed, x);
      assert x in SortStrings(u) <==> x in multiset(SortStrings(u));
      assert x in u <==> x in multiset(u);
    }
  }

  /** The pending files that still exist when they are marked, in order. */
  function StillThere(pending: seq<String>, existing: set<String>): (r: seq<String>)
    ensures |r| <= |pending|
  {
    if pending == [] then []
    else StillThere(pending[..|pending| - 1], existing)
           + (if pending[|pending| - 1] in existing then [pending[|pending| - 1]] else [])
  }

  /** The marked files are the pending ones that still exist. */
  lemma {:induction false} StillThereMembers(pending: seq<String>, existing: set<String>, q: String)
    ensures q in StillThere(pending, existing) <==> q in pending && q in existing
  {
    if pending != [] {
      var init := pending[..|pending| - 1];
      StillThereMembers(init, existing, q);
      assert pending == init + [pending[|pending| - 1]];
    }
  }

  /** Marking grows by one file per existing pending file. */
  lemma MarkStep(before: seq<String>, pending: seq<String>, existing: set<String>, k: nat)
    requires k < |pending|
    ensures AddAll(before, StillThere(pending[..k + 1], existing))
            == if pending[k] in existing then AddProcessed(AddAll(before, StillThere(pending[..k], existing)), Some(pending[k]))
               else AddAll(before, StillThere(pending[..k], existing))
  {
    assert pending[..k + 1][..k] == pending[..k];
    var t := StillThere(pending[..k], existing);
    if pending[k] in existing {
      assert StillThere(pending[..k + 1], existing) == t + [pending[k]];
      var u := t + [pending[k]];
      assert u[..|u| - 1] == t && u[|u| - 1] == pending[k];
      assert AddAll(before, u) == AddProcessed(AddAll(before, t), Some(pending[k]));
    } else {
      assert StillThere(pending[..k + 1], existing) == t + [];
      assert t + [] == t;
    }
  }

  /** After `_process_new_files`, every pending file that still exists is processed. */
  lemma MarkedFilesProcessed(before: seq<String>, pending: seq<String>, existing: set<String>, q: String)
    requires q in pending && q in existing && q != []
    ensures q in AddAll(before, StillThere(pending, existing))
  {
    StillThereMembers(pending, existing, q);
    AddAllMembers(before, StillThere(pending, existing), q);
  }

  // ---------------------------------------------------------------------------
  // Importing converted files
  // ---------------------------------------------------------------------------

  const ImportSuffix: String := "_vnpy_import.csv"

  /** `filename.replace('_vnpy_import.csv', '')`. */
  function ImportSymbol(filename: String): String { ReplaceAll(filename, ImportSuffix, "") }

  /** The built-in `commodity_to_exchange` table. */
  function CommodityExchange(code: String): (r: Option<String>)
    ensures r.Some? ==> r.value in {"SHFE", "DCE", "CZCE", "CFFEX"}
  {
    if code in {"cu", "al", "zn", "pb", "ni", "sn", "au", "ag", "rb", "hc", "ss", "bu", "fu", "sp", "wr"} then Some("SHFE")
    else if code in {"m", "y", "p", "l", "v", "c", "a", "b", "j", "jm", "i", "jd", "fb", "bb", "pp", "cs"} then Some("DCE")
    else if code in {"CF", "SR", "TA", "OI", "MA", "FG", "RM", "ZC", "CY", "AP", "UR", "SA", "PF", "PK", "CJ",
                     "RS", "RR", "LR", "WH", "PM", "RI", "JR", "SM", "SF", "LH"} then Some("CZCE")
    else if code in {"IF", "IC", "IH", "IM", "TS", "TF", "T"} then Some("CFFEX")
    else None
  }

  /**
   * The exchange of a product code: the built-in table first, then the
   * `exchange` entry of the contract-attribute file; an empty or missing
   * entry leaves the code unresolved.
   */
  function ResolveExchange(code: String, contractFile: map<String, Option<String>>): (r: Option<String>)
    ensures r.Some? ==> r.value != []
    ensures CommodityExchange(code).Some? ==> r == CommodityExchange(code)
    ensures CommodityExchange(code).None? ==>
              (r.Some? <==> code in contractFile && contractFile[code].Some? && contractFile[code].value != [])
  {
    var builtIn := CommodityExchange(code);
    if builtIn.Some? then builtIn
    else if code in contractFile && contractFile[code].Some? && contractFile[code].value != [] then contractFile[code]
    else None
  }

  /** One contract that was imported: its symbol and exchange name. */
  datatype Imported = Imported(symbol: String, exchange: String)

  /**
   * The import of one file name: the symbol is the name without the
   * suffix, its product code is its letters; files whose exchange is not
   * resolved, not an `Exchange` member, or whose import raised are skipped.
   */
  function ImportOne(filename: String, contractFile: map<String, Option<String>>,
                     isExchange: String -> bool, importOk: (String, String) -> bool): (r: Option<Imported>)
  {
    var symbol := ImportSymbol(filename);
    var exch := ResolveExchange(Letters(symbol), contractFile);
    if exch.Some? && isExchange(exch.value) && importOk(symbol, exch.value) then Some(Imported(symbol, exch.value))
    else None
  }

  /** The imports of a directory listing, in listing order. */
  function Imports(listing: seq<String>, contractFile: map<String, Option<String>>,
                   isExchange: String -> bool, importOk: (String, String) -> bool): (r: seq<Imported>)
    ensures |r| <= |listing|
  {
    if listing == [] then []
    else
      var f := listing[|listing| - 1];
      var one := ImportOne(f, contractFile, isExchange, importOk);
      Imports(listing[..|listing| - 1], contractFile, isExchange, importOk)
        + (if EndsWith(f, ImportSuffix) && one.Some? then [one.value] else [])
  }

  /** Every counted import is of a listed `_vnpy_import.csv` file whose exchange resolved and whose import succeeded. */
  lemma {:induction false} ImportsSound(listing: seq<String>, contractFile: map<String, Option<String>>,
                                        isExchange: String -> bool, importOk: (String, String) -> bool, k: nat)
    requires k < |Imports(listing, contractFile, isExchange, importOk)|
    ensures var im := Imports(listing, contractFile, isExchange, importOk)[k];
      exists i :: 0 <= i < |listing| && EndsWith(listing[i], ImportSuffix) && im.symbol == ImportSymbol(listing[i])
        && ResolveExchange(Letters(im.symbol), contractFile) == Some(im.exchange)
        && isExchange(im.exchange) && importOk(im.symbol, im.exchange)
  {
    var init := listing[..|listing| - 1];
    var rest := Imports(init, contractFile, isExchange, importOk);
    if k < |rest| {
      ImportsSound(init, contractFile, isExchange, importOk, k);
      var im := rest[k];
      var i :| 0 <= i < |init| && EndsWith(init[i], ImportSuffix) && im.symbol == ImportSymbol(init[i])
        && ResolveExchange(Letters(im.symbol), contractFile) == Some(im.exchange)
        && isExchange(im.exchange) && importOk(im.symbol, im.exchange);
      assert listing[i] == init[i];
    } else {
      assert listing[|listing| - 1] == listing[|listing| - 1];
    }
  }

  /** The converter's output name for `<stem>_1min_1.csv` is imported under the symbol `<stem>`. */
  lemma ImportOfConverted(stem: String)
    requires NoChar(stem, '_')
    ensures ImportSymbol(Tdx.VnpyOutputName(stem + "_1min_1.csv", None)) == stem
  {
    Tdx.VnpyOutputOfConverted(stem);
    ImportSymbolOf(stem);
  }

  /**
   * The whole chain for one TDX file `<market>#<code><digits>.lc1`: the
   * converter writes `<stem>_1min_1.csv`, the import file derived from it
   * is `<stem>_vnpy_import.csv`, and the import reads `<stem>` back.
   */
  lemma ImportOfTdxFile(market: String, code: String, digits: String, contracts: map<String, Tdx.Contract>)
    requires NoChar(market, '.')
    requires code != [] && forall i :: 0 <= i < |code| ==> IsAlpha(code[i])
    requires VnpyCsv.AllDigits(digits) && |contracts| > 0
    requires !Contains(code + digits, "L9")
    ensures var converted := Tdx.OutputFileName(market + "#" + code + digits + ".lc1", contracts);
      ImportSymbol(Tdx.VnpyOutputName(converted, None)) + "_1min_1.csv" == converted
  {
    Tdx.OutputFileNameOf(market, code, digits, contracts);
    ImportOfConverted(Tdx.ContractStem(code, digits, contracts));
  }

  /** An import file name gives back the symbol it was written for. */
  lemma ImportSymbolOf(stem: String)
    requires NoChar(stem, '_')
    ensures ImportSymbol(stem + ImportSuffix) == stem
  {
    ReplaceSuffix(stem, ImportSuffix, "");
    assert stem + "" == stem;
  }

  /** The built-in table wins over the contract file: `rb` is SHFE whatever the file says. */
  lemma RebarExchange(contractFile: map<String, Option<String>>)
    ensures ResolveExchange("rb", contractFile) == Some("SHFE")
  {
    assert "rb" in {"cu", "al", "zn", "pb", "ni", "sn", "au", "ag", "rb", "hc", "ss", "bu", "fu", "sp", "wr"};
  }

  /**
   * `_auto_import_converted_data`: 0 for a missing target directory,
   * otherwise the number of `_vnpy_import.csv` files imported without error.
   */
  method AutoImport(targetExists: bool, listing: seq<String>, contractFile: map<String, Option<String>>,
                    isExchange: String -> bool, importOk: (String, String) -> bool)
    returns (importedCount: nat, imported: seq<Imported>)
    ensures imported == (if targetExists then Imports(listing, contractFile, isExchange, importOk) else [])
    ensures importedCount == |imported|
  {
    if !targetExists {
      return 0, [];
    }
    importedCount, imported := 0, [];
    for k := 0 to |listing|
      invariant imported == Imports(listing[..k], contractFile, isExchange, importOk)
      invariant importedCount == |imported|
    {
      assert listing[..k + 1][..k] == listing[..k];
      var filename := listing[k];
      if !EndsWith(filename, ImportSuffix) {
        continue;
      }
      var symbol := ImportSymbol(filename);
      var symbolCode := Letters(symbol);
      var exchangeStr := CommodityExchange(symbolCode);
      if exchangeStr.None? && symbolCode in contractFile {
        exchangeStr := contractFile[symbolCode];
      }
      if exchangeStr.None? || exchangeStr.value == [] {
        continue;
      }
      if !isExchange(exchangeStr.value) || !importOk(symbol, exchangeStr.value) {
        continue;
      }
      imported := imported + [Imported(symbol, exchangeStr.value)];
      importedCount := importedCount + 1;
    }
    assert listing[..|listing|] == listing;
  }

  // ---------------------------------------------------------------------------
  // Aggregation totals
  // ---------------------------------------------------------------------------

  /** How the hourly, daily and status steps for one symbol ended. */
  datatype AggOutcome =
    | HourlyFailed
    | DailyFailed(hourly: nat)
    | StatusFailed(hourly: nat, daily: nat)
    | Done(hourly: nat, daily: nat)

  function HourlyPart(o: AggOutcome): nat { if o.HourlyFailed? then 0 else o.hourly }

  function DailyPart(o: AggOutcome): nat { if o.StatusFailed? || o.Done? then o.daily else 0 }

  /** A symbol with 1-minute data and its exchange, as `get_available_symbols` lists it. */
  datatype Symbol = Symbol(symbol: String, exchange: String)

  function ContractKey(s: Symbol): String { s.symbol + "_" + s.exchange }

  function HourlyTotal(symbols: seq<Symbol>, run: Symbol -> AggOutcome): nat
  {
    if symbols == [] then 0 else HourlyTotal(symbols[..|symbols| - 1], run) + HourlyPart(run(symbols[|symbols| - 1]))
  }

  function DailyTotal(symbols: seq<Symbol>, run: Symbol -> AggOutcome): nat
  {
    if symbols == [] then 0 else DailyTotal(symbols[..|symbols| - 1], run) + DailyPart(run(symbols[|symbols| - 1]))
  }

  /** The contract record after the symbols whose steps all completed were stamped `now`. */
  function MarkDone(contracts: map<String, DateTime>, symbols: seq<Symbol>, run: Symbol -> AggOutcome, now: DateTime)
    : (r: map<String, DateTime>)
  {
    if symbols == [] then contracts
    else
      var s := symbols[|symbols| - 1];
      var before := MarkDone(contracts, symbols[..|symbols| - 1], run, now);
      if run(s).Done? then before[ContractKey(s) := now] else before
  }

  /** A contract is stamped exactly when it was listed before or some symbol with that key completed. */
  lemma {:induction false} MarkDoneKeys(contracts: map<String, DateTime>, symbols: seq<Symbol>,
                                        run: Symbol -> AggOutcome, now: DateTime, key: String)
    ensures key in MarkDone(contracts, symbols, run, now) <==>
              (key in contracts || exists i :: 0 <= i < |symbols| && ContractKey(symbols[i]) == key && run(symbols[i]).Done?)
    ensures key in MarkDone(contracts, symbols, run, now) && key !in contracts ==> MarkDone(contracts, symbols, run, now)[key] == now
  {
    if symbols != [] {
      var init := symbols[..|symbols| - 1];
      var s := symbols[|symbols| - 1];
      MarkDoneKeys(contracts, init, run, now, key);
      if exists i :: 0 <= i < |symbols| && ContractKey(symbols[i]) == key && run(symbols[i]).Done? {
        var i :| 0 <= i < |symbols| && ContractKey(symbols[i]) == key && run(symbols[i]).Done?;
        if i < |init| {
          assert init[i] == symbols[i];
        }
      }
      if ContractKey(s) == key && run(s).Done? {
        assert symbols[|symbols| - 1] == s;
      }
    }
  }

  /**
   * The totals over two stretches of symbols add up: whatever fails in the
   * first stretch, the second one still contributes all it produced.
   */
  lemma {:induction false} TotalsSplit(a: seq<Symbol>, b: seq<Symbol>, run: Symbol -> AggOutcome)
    ensures HourlyTotal(a + b, run) == HourlyTotal(a, run) + HourlyTotal(b, run)
    ensures DailyTotal(a + b, run) == DailyTotal(a, run) + DailyTotal(b, run)
    decreases |b|
  {
    if b == [] {
      assert a + b == a;
    } else {
      var init := b[..|b| - 1];
      TotalsSplit(a, init, run);
      assert (a + b)[..|a + b| - 1] == a + init;
      assert (a + b)[|a + b| - 1] == b[|b| - 1];
    }
  }

  /** A symbol whose hourly step failed adds nothing to either total. */
  lemma {:induction false} AllHourlyFailed(symbols: seq<Symbol>, run: Symbol -> AggOutcome)
    requires forall i :: 0 <= i < |symbols| ==> run(symbols[i]).HourlyFailed?
    ensures HourlyTotal(symbols, run) == 0 && DailyTotal(symbols, run) == 0
  {
    if symbols != [] {
      var init := symbols[..|symbols| - 1];
      assert forall i :: 0 <= i < |init| ==> init[i] == symbols[i];
      AllHourlyFailed(init, run);
    }
  }

  // ---------------------------------------------------------------------------
  // Pipeline statistics and staleness
  // ---------------------------------------------------------------------------

  /** The `stats` dictionary of `run_data_update_pipeline`. */
  datatype Stats = Stats(convertedFiles: nat, importedContracts: nat, aggregatedHourly: nat, aggregatedDaily: nat, errors: nat)

  /** The last 1-minute bar time of one contract; None when the stored text does not parse. */
  datatype LastData = LastData(symbol: String, exchange: String, last: Option<DateTime>)

  /** A contract needs updating when its last bar is more than 24 hours before `now`. */
  predicate Stale(d: LastData, now: DateTime)
    requires ValidDateTime(now)
  {
    d.last.Some? && ValidDateTime(d.last.value) && Seconds(now) - Seconds(d.last.value) > 24 * 3600
  }

  /** The `symbol.exchange` names of the stale contracts, in query order. */
  function StaleContracts(rows: seq<LastData>, now: DateTime): (r: seq<String>)
    requires ValidDateTime(now)
    ensures |r| <= |rows|
  {
    if rows == [] then []
    else
      var d := rows[|rows| - 1];
      StaleContracts(rows[..|rows| - 1], now) + (if Stale(d, now) then [d.symbol + "." + d.exchange] else [])
  }

  /** A name is reported exactly when some stale row has it. */
  lemma {:induction false} StaleMembers(rows: seq<LastData>, now: DateTime, x: String)
    requires ValidDateTime(now)
    ensures x in StaleContracts(rows, now) <==>
              exists i :: 0 <= i < |rows| && Stale(rows[i], now) && rows[i].symbol + "." + rows[i].exchange == x
  {
    if rows != [] {
      var init := rows[..|rows| - 1];
      var d := rows[|rows| - 1];
      StaleMembers(init, now, x);
      if exists i :: 0 <= i < |rows| && Stale(rows[i], now) && rows[i].symbol + "." + rows[i].exchange == x {
        var i :| 0 <= i < |rows| && Stale(rows[i], now) && rows[i].symbol + "." + rows[i].exchange == x;
        if i < |init| {
          assert init[i] == rows[i];
        }
      }
      if Stale(d, now) && d.symbol + "." + d.exchange == x {
        assert rows[|rows| - 1] == d;
      }
    }
  }

  /**
   * `ManagerEngine` as far as the update pipeline goes: its scheduler. The
   * database, the data feed and the log are not part of this model; the
   * results they produce are parameters.
   */
  class ManagerEngine {
    const scheduler: DataUpdateScheduler

    constructor()
      ensures fresh(scheduler)
      ensures scheduler.lastUpdate == None && scheduler.contracts == map[] && scheduler.processedFiles == []
      ensures scheduler.Valid()
    {
      scheduler := new DataUpdateScheduler();
    }

    /**
     * `_process_new_files`: with no pending file, 0 and nothing marked;
     * otherwise the batch conversion's count, after every pending file
     * that still exists has been marked processed.
     */
    method ProcessNewFiles(dirExists: bool, entries: seq<WalkEntry>, converted: nat, existing: set<String>, now: DateTime)
      returns (count: nat)
      requires scheduler.Valid()
      modifies scheduler
      ensures scheduler.Valid()
      ensures var pending := if dirExists then SortStrings(Unprocessed(entries, old(scheduler.processedFiles))) else [];
        && count == (if pending == [] then 0 else converted)
        && scheduler.processedFiles == AddAll(old(scheduler.processedFiles), StillThere(pending, existing))
      ensures scheduler.lastUpdate == old(scheduler.lastUpdate) && scheduler.contracts == old(scheduler.contracts)
    {
      var pending := scheduler.GetPendingFiles(dirExists, entries);
      if pending == [] {
        return 0;
      }
      ghost var before := scheduler.processedFiles;
      for k := 0 to |pending|
        invariant scheduler.Valid()
        invariant scheduler.processedFiles == AddAll(before, StillThere(pending[..k], existing))
        invariant scheduler.lastUpdate == old(scheduler.lastUpdate) && scheduler.contracts == old(scheduler.contracts)
      {
        MarkStep(before, pending, existing, k);
        if pending[k] in existing {
          scheduler.UpdateStatus(None, Some(pending[k]), None, now);
        }
      }
      assert pending[..|pending|] == pending;
      count := converted;
    }

    /**
     * `_auto_aggregate_data`: (0, 0) when the preprocessor is unavailable or
     * no symbol has 1-minute data; otherwise each symbol's completed steps
     * add to the totals, and only a symbol whose steps all completed gets
     * its contract stamped.
     */
    method AutoAggregate(available: bool, symbols: seq<Symbol>, run: Symbol -> AggOutcome, now: DateTime)
      returns (totalHourly: nat, totalDaily: nat)
      requires scheduler.Valid()
      modifies scheduler
      ensures scheduler.Valid()
      ensures available ==> totalHourly == HourlyTotal(symbols, run) && totalDaily == DailyTotal(symbols, run)
      ensures !available ==> totalHourly == 0 && totalDaily == 0
      ensures scheduler.contracts == (if available then MarkDone(old(scheduler.contracts), symbols, run, now)
                                      else old(scheduler.contracts))
      ensures scheduler.lastUpdate == old(scheduler.lastUpdate) && scheduler.processedFiles == old(scheduler.processedFiles)
    {
      if !available || symbols == [] {
        return 0, 0;
      }
      totalHourly, totalDaily := 0, 0;
      for k := 0 to |symbols|
        invariant scheduler.Valid()
        invariant totalHourly == HourlyTotal(symbols[..k], run) && totalDaily == DailyTotal(symbols[..k], run)
        invariant scheduler.contracts == MarkDone(old(scheduler.contracts), symbols[..k], run, now)
        invariant scheduler.lastUpdate == old(scheduler.lastUpdate) && scheduler.processedFiles == old(scheduler.processedFiles)
      {
        assert symbols[..k + 1][..k] == symbols[..k];
        var outcome := run(symbols[k]);
        if outcome.HourlyFailed? {
          continue;
        }
        totalHourly := totalHourly + outcome.hourly;
        if outcome.DailyFailed? {
          continue;
        }
        totalDaily := totalDaily + outcome.daily;
        if outcome.StatusFailed? {
          continue;
        }
        scheduler.UpdateStatus(Some(ContractKey(symbols[k])), None, None, now);
      }
      assert symbols[..|symbols|] == symbols;
    }

    /**
     * `check_for_updates`: the pending files, and the contracts whose last
     * bar is over a day old; a failed query reports no contract.
     */
    method CheckForUpdates(dirExists: bool, entries: seq<WalkEntry>, query: Option<seq<LastData>>, now: DateTime)
      returns (pending: seq<String>, needing: seq<String>)
      requires ValidDateTime(now)
      ensures pending == (if dirExists then SortStrings(Unprocessed(entries, scheduler.processedFiles)) else [])
      ensures needing == (if query.Some? then StaleContracts(query.value, now) else [])
    {
      pending := scheduler.GetPendingFiles(dirExists, entries);
      needing := [];
      if query.None? {
        return;
      }
      var rows := query.value;
      for k := 0 to |rows|
        invariant needing == StaleContracts(rows[..k], now)
      {
        assert rows[..k + 1][..k] == rows[..k];
        if Stale(rows[k], now) {
          needing := needing + [rows[k].symbol + "." + rows[k].exchange];
        }
      }
      assert rows[..|rows|] == rows;
    }
  }

  /**
   * `run_data_update_pipeline`: each step runs when its input is given and
   * writes its count; the first step that raises stops the pipeline with
   * `errors` = 1, keeping the counts already written and 0 for the rest.
   */
  method RunPipeline(sourceGiven: bool, targetExists: bool, autoAggregate: bool,
                     convert: Result<nat, String>, import_: Result<nat, String>, aggregate: Result<(nat, nat), String>)
    returns (stats: Stats)
    ensures stats.errors <= 1
    ensures stats.errors == 1 <==> ((sourceGiven && convert.Err?)
                                   || ((!sourceGiven || convert.Ok?) && targetExists && import_.Err?)
                                   || ((!sourceGiven || convert.Ok?) && (!targetExists || import_.Ok?) && autoAggregate && aggregate.Err?))
    ensures stats.convertedFiles == (if sourceGiven && convert.Ok? then convert.value else 0)
    ensures stats.importedContracts == (if (!sourceGiven || convert.Ok?) && targetExists && import_.Ok? then import_.value else 0)
    ensures stats.aggregatedHourly == (if (!sourceGiven || convert.Ok?) && (!targetExists || import_.Ok?) && autoAggregate && aggregate.Ok?
                                       then aggregate.value.0 else 0)
    ensures stats.aggregatedDaily == (if (!sourceGiven || convert.Ok?) && (!targetExists || import_.Ok?) && autoAggregate && aggregate.Ok?
                                      then aggregate.value.1 else 0)
  {
    stats := Stats(0, 0, 0, 0, 0);
    if sourceGiven {
      if convert.Err? {
        stats := stats.(errors := stats.errors + 1);
        return;
      }
      stats := stats.(convertedFiles := convert.value);
    }
    if targetExists {
      if import_.Err? {
        stats := stats.(errors := stats.errors + 1);
        return;
      }
      stats := stats.(importedContracts := import_.value);
    }
    if autoAggregate {
      if aggregate.Err? {
        stats := stats.(errors := stats.errors + 1);
        return;
      }
      stats := stats.(aggregatedHourly := aggregate.value.0, aggregatedDaily := aggregate.value.1);
    }
  }
}

=== FILE: sorting.dfy ===
/**
 * Python's `sorted` for the two element kinds the modelled code sorts:
 * strings (code-point order) and records ordered by an integer key (the
 * rank of a timestamp). Both are insertion sorts specified by "ordered and
 * a permutation of the input".
 */
module Sorting {
  import opened Strings

  predicate SortedStrings(s: seq<String>)
  {
    forall i, j :: 0 <= i < j < |s| ==> LessEq(s[i], s[j])
  }

  lemma LessEqTransitive(a: String, b: String, c: String)
    requires LessEq(a, b) && LessEq(b, c)
    ensures LessEq(a, c)
  {
    if a != b && b != c { LessTransitive(a, b, c); }
  }

  /** A sorted list stays sorted under a new head that is at most its first element. */
  lemma ConsSorted(a: String, s: seq<String>)
    requires SortedStrings(s) && (s != [] ==> LessEq(a, s[0]))
    ensures SortedStrings([a] + s)
  {
    var r := [a] + s;
    forall i, j | 0 <= i < j < |r| ensures LessEq(r[i], r[j]) {
      if i == 0 && j > 1 {
        LessEqTransitive(a, s[0], s[j - 1]);
      }
    }
  }

  function InsertString(x: String, s: seq<String>): (r: seq<String>)
    requires SortedStrings(s)
    ensures SortedStrings(r)
    ensures multiset(r) == multiset(s) + multiset{x}
    ensures r[0] == x || (s != [] && r[0] == s[0])
  {
    if s == [] then [x]
    else if LessEq(x, s[0]) then
      ConsSorted(x, s);
      [x] + s
    else
      LessTotal(x, s[0]);
      var rest := InsertString(x, s[1..]);
      assert s == [s[0]] + s[1..];
      assert LessEq(s[0], rest[0]) by {
        if rest[0] != x { assert rest[0] == s[1]; }
      }
      ConsSorted(s[0], rest);
      [s[0]] + rest
  }

  /** `sorted(s)` on a list of strings. */
  function SortStrings(s: seq<String>): (r: seq<String>)
    ensures SortedStrings(r)
    ensures multiset(r) == multiset(s)
  {
    if s == [] then []
    else
      assert s == [s[0]] + s[1..];
      InsertString(s[0], SortStrings(s[1..]))
  }

  predicate SortedByKey<T>(s: seq<T>, key: T -> int)
  {
    forall i, j :: 0 <= i < j < |s| ==> key(s[i]) <= key(s[j])
  }

  lemma ConsSortedByKey<T>(a: T, s: seq<T>, key: T -> int)
    requires SortedByKey(s, key) && (s != [] ==> key(a) <= key(s[0]))
    ensures SortedByKey([a] + s, key)
  {
    var r := [a] + s;
    forall i, j | 0 <= i < j < |r| ensures key(r[i]) <= key(r[j]) {
      if i == 0 && j > 1 {
        assert key(s[0]) <= key(s[j - 1]);
      } else if i > 0 {
        assert r[i] == s[i - 1] && r[j] == s[j - 1];
      }
    }
  }

  /** Inserts x before the first element whose key is not smaller. */
  function InsertByKey<T>(x: T, s: seq<T>, key: T -> int): (r: seq<T>)
    requires SortedByKey(s, key)
    ensures SortedByKey(r, key)
    ensures multiset(r) == multiset(s) + multiset{x}
    ensures r[0] == x || (s != [] && r[0] == s[0])
  {
    if s == [] || key(x) <= key(s[0]) then
      ConsSortedByKey(x, s, key);
      [x] + s
    else
      var rest := InsertByKey(x, s[1..], key);
      assert s == [s[0]] + s[1..];
      assert key(s[0]) <= key(rest[0]) by {
        if rest[0] != x { assert rest[0] == s[1]; }
      }
      ConsSortedByKey(s[0], rest, key);
      [s[0]] + rest
  }

  /** `sorted(s, key=key)`: a sort by an integer key. */
  function SortByKey<T>(s: seq<T>, key: T -> int): (r: seq<T>)
    ensures SortedByKey(r, key)
    ensures multiset(r) == multiset(s)
  {
    if s == [] then []
    else
      assert s == [s[0]] + s[1..];
      InsertByKey(s[0], SortByKey(s[1..], key), key)
  }

  /** A list without repeated entries. */
  predicate Distinct<T(==)>(s: seq<T>) { forall i, j :: 0 <= i < j < |s| ==> s[i] != s[j] }

  lemma {:induction false} DistinctCount<T>(s: seq<T>, x: T)
    requires Distinct(s)
    ensures multiset(s)[x] <= 1
  {
    if s != [] {
      assert s == [s[0]] + s[1..];
      assert Distinct(s[1..]) by {
        forall i, j | 0 <= i < j < |s[1..]| ensures s[1..][i] != s[1..][j] {
          assert s[1..][i] == s[i + 1] && s[1..][j] == s[j + 1];
        }
      }
      DistinctCount(s[1..], x);
      if s[0] == x {
        assert x !in s[1..] by {
          forall k | 0 <= k < |s[1..]| ensures s[1..][k] != x {
            assert s[1..][k] == s[k + 1];
          }
        }
      }
    }
  }

  lemma RepeatCount<T>(s: seq<T>, i: nat, j: nat)
    requires i < j < |s| && s[i] == s[j]
    ensures multiset(s)[s[i]] >= 2
  {
    assert s == s[..j] + s[j..];
    assert s[i] in s[..j] && s[j] in s[j..];
  }

  /** A permutation of a list without repeats has none either. */
  lemma PermutationKeepsDistinct<T>(s: seq<T>, r: seq<T>)
    requires Distinct(s) && multiset(r) == multiset(s)
    ensures Distinct(r)
  {
    forall i, j | 0 <= i < j < |r| ensures r[i] != r[j] {
      if r[i] == r[j] {
        RepeatCount(r, i, j);
        DistinctCount(s, r[i]);
      }
    }
  }

  /** Sorting a list without repeats gives a list without repeats. */
  lemma SortKeepsDistinct(s: seq<String>)
    requires Distinct(s)
    ensures Distinct(SortStrings(s))
  {
    PermutationKeepsDistinct(s, SortStrings(s));
  }
}

=== FILE: store_properties.dfy ===
/**
 * Properties of one aggregation call and of `process_symbol` over the
 * in-memory tables: forcing is deleting then aggregating afresh, other
 * keys are never touched, the overview table keeps one row per key equal
 * to COUNT/MIN/MAX of that key's bars, a call raises exactly when its
 * insert breaks the unique index and then keeps only its committed DELETE,
 * a daily rerun adds nothing, and an hourly rerun aggregates its last hour
 * a second time, so its insert collides and the interval counts 0. The
 * runs filter the resume bound on time stamps; the code compares it as
 * text, which skips every row of the bound's own date (`TextBoundSkipsSameDay`),
 * so with the code's comparison that rerun reads nothing and returns 0.
 */
module StoreProperties {
  import opened Strings
  import opened Calendar
  import opened Wrappers
  import opened Sorting
  import opened Aggregation
  import opened BarStore
  import VnpyCsv

  // ---------------------------------------------------------------------
  // Table helpers
  // ---------------------------------------------------------------------

  lemma {:induction false} TagMembers(out: seq<Bar>, symbol: String, exchange: String, iv: Interval)
    ensures forall x :: x in Tag(out, symbol, exchange, iv) ==> OfKey(x, symbol, exchange, iv) && x.bar in out
  {
    if out != [] {
      TagMembers(out[..|out| - 1], symbol, exchange, iv);
      assert out == out[..|out| - 1] + [Last(out)];
    }
  }

  /** A key without rows is left as it is by DELETE. */
  lemma {:induction false} DeleteAbsent(t: seq<StoredBar>, symbol: String, exchange: String, iv: Interval)
    requires Select(t, symbol, exchange, iv) == []
    ensures Delete(t, symbol, exchange, iv) == t
  {
    if t != [] {
      var p := t[..|t| - 1];
      DeleteAbsent(p, symbol, exchange, iv);
      assert t == p + [Last(t)];
    }
  }

  lemma {:induction false} AfterNone(t: seq<StoredBar>, since: Option<DateTime>)
    requires forall b :: b in t ==> since.Some? && !Before(since.value, b.bar.time)
    ensures After(t, since) == []
  {
    if t != [] {
      assert Last(t) in t;
      AfterNone(t[..|t| - 1], since);
    }
  }

  lemma {:induction false} RowsOfMembers(t: seq<StoredBar>)
    ensures forall b :: b in t ==> RowOf(b) in RowsOf(t)
    ensures RowsOf(t) == [] <==> t == []
  {
    if t != [] {
      RowsOfMembers(t[..|t| - 1]);
      assert t == t[..|t| - 1] + [Last(t)];
    }
  }

  /** Every minute row of the contract past the resume point reaches the sorted query result. */
  lemma QueryHas(t: seq<StoredBar>, symbol: String, exchange: String, since: Option<DateTime>, b: StoredBar)
    requires b in t && OfKey(b, symbol, exchange, Minute)
    requires since.None? || Before(since.value, b.bar.time)
    ensures RowOf(b) in QueryMinutes(t, symbol, exchange, since)
  {
    var s := Select(t, symbol, exchange, Minute);
    SelectMembers(t, symbol, exchange, Minute);
    AfterMembers(s, since);
    var a := After(s, since);
    RowsOfMembers(a);
    var rows := RowsOf(a);
    assert RowOf(b) in multiset(rows);
    assert RowOf(b) in multiset(SortByKey(rows, TimeKey));
  }

  /** When no minute row of the contract is past the resume point, the query is empty. */
  lemma QueryEmpty(t: seq<StoredBar>, symbol: String, exchange: String, since: Option<DateTime>)
    requires forall b :: b in t && OfKey(b, symbol, exchange, Minute) ==> since.Some? && !Before(since.value, b.bar.time)
    ensures QueryMinutes(t, symbol, exchange, since) == []
  {
    var s := Select(t, symbol, exchange, Minute);
    SelectMembers(t, symbol, exchange, Minute);
    AfterNone(s, since);
  }

  /** Every row of the query result comes from a minute row of the contract past the resume point. */
  lemma QueryFrom(t: seq<StoredBar>, symbol: String, exchange: String, since: Option<DateTime>, r: MinuteRow)
    requires r in QueryMinutes(t, symbol, exchange, since)
    ensures exists b :: (b in t && OfKey(b, symbol, exchange, Minute) && RowOf(b) == r
                         && (since.None? || Before(since.value, b.bar.time)))
  {
    var s := Select(t, symbol, exchange, Minute);
    var a := After(s, since);
    var rows := RowsOf(a);
    assert r in multiset(SortByKey(rows, TimeKey));
    assert r in rows;
    RowsOfFrom(a, r);
    SelectMembers(t, symbol, exchange, Minute);
    AfterMembers(s, since);
  }

  lemma {:induction false} RowsOfFrom(t: seq<StoredBar>, r: MinuteRow)
    requires r in RowsOf(t)
    ensures exists b :: b in t && RowOf(b) == r
  {
    var p := t[..|t| - 1];
    assert t == p + [Last(t)];
    if r != RowOf(Last(t)) {
      RowsOfFrom(p, r);
    }
  }

  /** The sorted query ends with a latest row. */
  lemma QueryLastIsLatest(rows: seq<MinuteRow>, r: MinuteRow)
    requires SortedByKey(rows, TimeKey) && r in rows
    ensures Rank(r.time) <= Rank(Last(rows).time)
  {
    var k :| 0 <= k < |rows| && rows[k] == r;
    if k < |rows| - 1 {
      assert TimeKey(rows[k]) <= TimeKey(rows[|rows| - 1]);
    }
  }

  lemma {:induction false} SelectAppend(t: seq<StoredBar>, u: seq<StoredBar>, symbol: String, exchange: String, iv: Interval)
    ensures Select(t + u, symbol, exchange, iv) == Select(t, symbol, exchange, iv) + Select(u, symbol, exchange, iv)
  {
    if u != [] {
      var p := u[..|u| - 1];
      SelectAppend(t, p, symbol, exchange, iv);
      assert (t + u)[..|t + u| - 1] == t + p;
      assert Last(t + u) == Last(u);
      var tail := if OfKey(Last(u), symbol, exchange, iv) then [Last(u)] else [];
      assert Select(u, symbol, exchange, iv) == Select(p, symbol, exchange, iv) + tail;
      assert Select(t + u, symbol, exchange, iv) == Select(t + p, symbol, exchange, iv) + tail;
      assert Select(t + p, symbol, exchange, iv) + tail
          == Select(t, symbol, exchange, iv) + (Select(p, symbol, exchange, iv) + tail);
    } else {
      assert t + u == t;
    }
  }

  lemma {:induction false} SelectTagOther(out: seq<Bar>, symbol: String, exchange: String, iv: Interval,
                                          symbol2: String, exchange2: String, iv2: Interval)
    requires !(symbol2 == symbol && exchange2 == exchange && iv2 == iv)
    ensures Select(Tag(out, symbol, exchange, iv), symbol2, exchange2, iv2) == []
  {
    if out != [] {
      SelectTagOther(out[..|out| - 1], symbol, exchange, iv, symbol2, exchange2, iv2);
    }
  }

  lemma {:induction false} SelectDeleteOther(t: seq<StoredBar>, symbol: String, exchange: String, iv: Interval,
                                             symbol2: String, exchange2: String, iv2: Interval)
    requires !(symbol2 == symbol && exchange2 == exchange && iv2 == iv)
    ensures Select(Delete(t, symbol, exchange, iv), symbol2, exchange2, iv2) == Select(t, symbol2, exchange2, iv2)
  {
    if t != [] {
      var p := t[..|t| - 1];
      SelectDeleteOther(p, symbol, exchange, iv, symbol2, exchange2, iv2);
      var tail := if OfKey(Last(t), symbol, exchange, iv) then [] else [Last(t)];
      SelectAppend(Delete(p, symbol, exchange, iv), tail, symbol2, exchange2, iv2);
    }
  }

  lemma {:induction false} SelectTagSame(out: seq<Bar>, symbol: String, exchange: String, iv: Interval)
    ensures Select(Tag(out, symbol, exchange, iv), symbol, exchange, iv) == Tag(out, symbol, exchange, iv)
  {
    if out != [] {
      SelectTagSame(out[..|out| - 1], symbol, exchange, iv);
    }
  }

  lemma {:induction false} SelectDeleteSame(t: seq<StoredBar>, symbol: String, exchange: String, iv: Interval)
    ensures Select(Delete(t, symbol, exchange, iv), symbol, exchange, iv) == []
  {
    if t != [] {
      var p := t[..|t| - 1];
      SelectDeleteSame(p, symbol, exchange, iv);
      var tail := if OfKey(Last(t), symbol, exchange, iv) then [] else [Last(t)];
      SelectAppend(Delete(p, symbol, exchange, iv), tail, symbol, exchange, iv);
    }
  }

  // ---------------------------------------------------------------------
  // One aggregation call
  // ---------------------------------------------------------------------

  /** The bar table a call works on once the plan is carried out (after the DELETE of a forced run). */
  function Cleared(st: Tables, symbol: String, exchange: String, iv: Interval, force: bool): seq<StoredBar>
  {
    if force then Delete(st.bars, symbol, exchange, iv) else st.bars
  }

  /** The call only ever deletes or appends rows of its own key: every other key keeps its rows, in order. */
  lemma RunFrame(st: Tables, symbol: String, exchange: String, iv: Interval, force: bool, incremental: bool, parses: bool,
                 symbol2: String, exchange2: String, iv2: Interval)
    requires iv != Minute
    requires !(symbol2 == symbol && exchange2 == exchange && iv2 == iv)
    ensures Select(Run(st, symbol, exchange, iv, force, incremental, parses).tables.bars, symbol2, exchange2, iv2)
         == Select(st.bars, symbol2, exchange2, iv2)
  {
    var t1 := Cleared(st, symbol, exchange, iv, force);
    var rows := ReadRows(st, symbol, exchange, iv, force, incremental, parses);
    RunStages(st, symbol, exchange, iv, force, incremental, parses);
    assert Select(t1, symbol2, exchange2, iv2) == Select(st.bars, symbol2, exchange2, iv2) by {
      if force { SelectDeleteOther(st.bars, symbol, exchange, iv, symbol2, exchange2, iv2); }
    }
    if rows != [] {
      var out := Fold(iv, rows);
      StoreBars(t1, st.overviews, out, symbol, exchange, iv);
      SelectAppend(t1, Tag(out, symbol, exchange, iv), symbol2, exchange2, iv2);
      SelectTagOther(out, symbol, exchange, iv, symbol2, exchange2, iv2);
    }
  }

  /** The insert appends the tagged bars and counts them, or adds and counts nothing when it raises. */
  lemma StoreBars(t: seq<StoredBar>, ovs: seq<Overview>, out: seq<Bar>, symbol: String, exchange: String, iv: Interval)
    ensures var o := Store(t, ovs, out, symbol, exchange, iv);
      var raised := Collides(t, Tag(out, symbol, exchange, iv));
      o.Raised? == raised
      && o.tables.bars == (if raised then t else t + Tag(out, symbol, exchange, iv))
      && Counted(o) == (if raised then 0 else |out|)
  {
  }

  /**
   * A forced call is a DELETE of the key's rows followed by a fresh call: whatever the
   * incremental flag, the outcome is that of a non-forced call on the cleared table.
   */
  lemma ForceRegenerates(st: Tables, symbol: String, exchange: String, iv: Interval, incremental: bool, incremental2: bool,
                         parses: bool, parses2: bool)
    requires iv != Minute
    ensures Run(st, symbol, exchange, iv, true, incremental, parses)
         == Run(Tables(Delete(st.bars, symbol, exchange, iv), st.overviews), symbol, exchange, iv, false, incremental2, parses2)
  {
    SelectDeleteSame(st.bars, symbol, exchange, iv);
    if Select(st.bars, symbol, exchange, iv) == [] {
      DeleteAbsent(st.bars, symbol, exchange, iv);
    }
  }

  /**
   * After the call the key holds the rows it kept (none after a forced call) plus exactly
   * the rows the call reports as written; a call that raised adds none.
   */
  lemma RunCount(st: Tables, symbol: String, exchange: String, iv: Interval, force: bool, incremental: bool, parses: bool)
    requires iv != Minute
    ensures var o := Run(st, symbol, exchange, iv, force, incremental, parses);
      |Select(o.tables.bars, symbol, exchange, iv)| == |Select(Cleared(st, symbol, exchange, iv, force), symbol, exchange, iv)| + Counted(o)
  {
    var t1 := Cleared(st, symbol, exchange, iv, force);
    var rows := ReadRows(st, symbol, exchange, iv, force, incremental, parses);
    RunStages(st, symbol, exchange, iv, force, incremental, parses);
    if rows != [] {
      var out := Fold(iv, rows);
      StoreBars(t1, st.overviews, out, symbol, exchange, iv);
      SelectAppend(t1, Tag(out, symbol, exchange, iv), symbol, exchange, iv);
      SelectTagSame(out, symbol, exchange, iv);
    }
  }

  /** A contract without minute rows: nothing is written and the overview table is untouched. */
  lemma RunWithoutMinutes(st: Tables, symbol: String, exchange: String, iv: Interval, force: bool, incremental: bool, parses: bool)
    requires iv != Minute
    requires Select(st.bars, symbol, exchange, Minute) == []
    ensures Run(st, symbol, exchange, iv, force, incremental, parses)
         == Returned(Tables(Cleared(st, symbol, exchange, iv, force), st.overviews), 0)
  {
    var existing := |Select(st.bars, symbol, exchange, iv)|;
    var plan := ChoosePlan(existing, force, incremental, LastAggregationTime(st.bars, symbol, exchange, iv, parses));
    var t1 := if plan.DeleteThenReadAll? then Delete(st.bars, symbol, exchange, iv) else st.bars;
    assert Select(t1, symbol, exchange, Minute) == [] by {
      if plan.DeleteThenReadAll? { SelectDeleteOther(st.bars, symbol, exchange, iv, symbol, exchange, Minute); }
    }
    assert t1 == Cleared(st, symbol, exchange, iv, force) by {
      if force && existing == 0 { DeleteAbsent(st.bars, symbol, exchange, iv); }
    }
    var since := if plan.ReadAfter? then Some(plan.since) else None;
    assert After([], since) == [];
  }

  // ---------------------------------------------------------------------
  // The overview table
  // ---------------------------------------------------------------------

  /**
   * After an upsert the key's rows all equal the new row and there is at least one;
   * rows of other keys are exactly those before.
   */
  lemma UpsertSets(ovs: seq<Overview>, o: Overview)
    ensures var r := Upsert(ovs, o);
      (exists k :: 0 <= k < |r| && r[k] == o)
      && (forall k :: 0 <= k < |r| && SameKey(r[k], o.symbol, o.exchange, o.interval) ==> r[k] == o)
      && (forall x :: !SameKey(x, o.symbol, o.exchange, o.interval) ==> (x in r <==> x in ovs))
  {
    var r := Upsert(ovs, o);
    if exists k :: 0 <= k < |ovs| && SameKey(ovs[k], o.symbol, o.exchange, o.interval) {
      var k :| 0 <= k < |ovs| && SameKey(ovs[k], o.symbol, o.exchange, o.interval);
      assert r[k] == o;
      forall x | !SameKey(x, o.symbol, o.exchange, o.interval)
        ensures x in r <==> x in ovs
      {
        if x in r {
          var j :| 0 <= j < |r| && r[j] == x;
          assert ovs[j] == x;
        }
        if x in ovs {
          var j :| 0 <= j < |ovs| && ovs[j] == x;
          assert r[j] == x;
        }
      }
    } else {
      assert r[|ovs|] == o;
    }
  }

  /** An upsert never creates a second row for a key. */
  lemma UpsertKeepsUnique(ovs: seq<Overview>, o: Overview)
    requires UniqueOverviews(ovs)
    ensures UniqueOverviews(Upsert(ovs, o))
  {
    var r := Upsert(ovs, o);
    if !exists k :: 0 <= k < |ovs| && SameKey(ovs[k], o.symbol, o.exchange, o.interval) {
      forall i, j | 0 <= i < j < |r|
        ensures !SameKey(r[j], r[i].symbol, r[i].exchange, r[i].interval)
      {
        if j == |ovs| {
          assert !SameKey(ovs[i], o.symbol, o.exchange, o.interval);
        }
      }
    }
  }

  /**
   * The overview effect of one call: when rows were written, the key has an overview row and every
   * row of the key is COUNT/MIN/MAX of the key's bars; otherwise (nothing read, or the insert
   * raised) the table is untouched. Rows of other keys stay, and at most one row per key is kept.
   */
  lemma RunOverview(st: Tables, symbol: String, exchange: String, iv: Interval, force: bool, incremental: bool, parses: bool)
    requires iv != Minute
    ensures var o := Run(st, symbol, exchange, iv, force, incremental, parses);
      var ovs := o.tables.overviews;
      (Counted(o) == 0 ==> ovs == st.overviews)
      && (Counted(o) > 0 ==>
            Select(o.tables.bars, symbol, exchange, iv) != []
            && (exists k :: 0 <= k < |ovs| && ovs[k] == OverviewOf(o.tables.bars, symbol, exchange, iv))
            && (forall k :: 0 <= k < |ovs| && SameKey(ovs[k], symbol, exchange, iv) ==>
                  ovs[k] == OverviewOf(o.tables.bars, symbol, exchange, iv)))
      && (forall x :: !SameKey(x, symbol, exchange, iv) ==> (x in ovs <==> x in st.overviews))
      && (UniqueOverviews(st.overviews) ==> UniqueOverviews(ovs))
  {
    var existing := |Select(st.bars, symbol, exchange, iv)|;
    var plan := ChoosePlan(existing, force, incremental, LastAggregationTime(st.bars, symbol, exchange, iv, parses));
    var t1 := if plan.DeleteThenReadAll? then Delete(st.bars, symbol, exchange, iv) else st.bars;
    var rows := QueryMinutes(t1, symbol, exchange, if plan.ReadAfter? then Some(plan.since) else None);
    if rows != [] {
      StoreOverview(t1, st.overviews, Fold(iv, rows), symbol, exchange, iv);
    }
  }

  lemma StoreOverview(t: seq<StoredBar>, ovs: seq<Overview>, out: seq<Bar>, symbol: String, exchange: String, iv: Interval)
    ensures var o := Store(t, ovs, out, symbol, exchange, iv);
      var r := o.tables.overviews;
      (Counted(o) == 0 ==> r == ovs)
      && (Counted(o) > 0 ==>
            Select(o.tables.bars, symbol, exchange, iv) != []
            && (exists k :: 0 <= k < |r| && r[k] == OverviewOf(o.tables.bars, symbol, exchange, iv))
            && (forall k :: 0 <= k < |r| && SameKey(r[k], symbol, exchange, iv) ==>
                  r[k] == OverviewOf(o.tables.bars, symbol, exchange, iv)))
      && (forall x :: !SameKey(x, symbol, exchange, iv) ==> (x in r <==> x in ovs))
      && (UniqueOverviews(ovs) ==> UniqueOverviews(r))
  {
    var o := Store(t, ovs, out, symbol, exchange, iv);
    if out != [] && !Collides(t, Tag(out, symbol, exchange, iv)) {
      var ov := OverviewOf(o.tables.bars, symbol, exchange, iv);
      UpsertSets(ovs, ov);
      if UniqueOverviews(ovs) { UpsertKeepsUnique(ovs, ov); }
    }
  }

  // ---------------------------------------------------------------------
  // Reruns
  // ---------------------------------------------------------------------

  /** The minute rows of the contract are never deleted or added by an hourly or daily call. */
  lemma RunKeepsMinutes(st: Tables, symbol: String, exchange: String, iv: Interval, force: bool, incremental: bool, parses: bool, b: StoredBar)
    requires iv != Minute && OfKey(b, symbol, exchange, Minute)
    ensures b in Run(st, symbol, exchange, iv, force, incremental, parses).tables.bars <==> b in st.bars
  {
    RunFrame(st, symbol, exchange, iv, force, incremental, parses, symbol, exchange, Minute);
    SelectMembers(Run(st, symbol, exchange, iv, force, incremental, parses).tables.bars, symbol, exchange, Minute);
    SelectMembers(st.bars, symbol, exchange, Minute);
  }

  /** The point a call resumes after: the key's latest stamp on an incremental, non-forced call with rows. */
  function ResumeOf(st: Tables, symbol: String, exchange: String, iv: Interval, force: bool, incremental: bool, parses: bool): Option<DateTime>
  {
    var existing := Select(st.bars, symbol, exchange, iv);
    var plan := ChoosePlan(|existing|, force, incremental, LastAggregationTime(st.bars, symbol, exchange, iv, parses));
    if plan.ReadAfter? then Some(plan.since) else None
  }

  /** The minute rows a call reads. */
  function ReadRows(st: Tables, symbol: String, exchange: String, iv: Interval, force: bool, incremental: bool, parses: bool): seq<MinuteRow>
  {
    QueryMinutes(Cleared(st, symbol, exchange, iv, force), symbol, exchange, ResumeOf(st, symbol, exchange, iv, force, incremental, parses))
  }

  /** A call in three stages: clear (if forced), read after the resume point, fold and store what was read. */
  lemma RunStages(st: Tables, symbol: String, exchange: String, iv: Interval, force: bool, incremental: bool, parses: bool)
    requires iv != Minute
    ensures var t1 := Cleared(st, symbol, exchange, iv, force);
      var rows := ReadRows(st, symbol, exchange, iv, force, incremental, parses);
      Run(st, symbol, exchange, iv, force, incremental, parses)
        == if rows == [] then Returned(Tables(t1, st.overviews), 0) else Store(t1, st.overviews, Fold(iv, rows), symbol, exchange, iv)
  {
    if force && Select(st.bars, symbol, exchange, iv) == [] {
      DeleteAbsent(st.bars, symbol, exchange, iv);
    }
  }

  /**
   * A call raises exactly when it read some minute rows and the bars folded from them break the
   * unique index of the cleared table; it then leaves the cleared table (the forced DELETE was
   * committed) and the overview table as they were.
   */
  lemma RunRaises(st: Tables, symbol: String, exchange: String, iv: Interval, force: bool, incremental: bool, parses: bool)
    requires iv != Minute
    ensures var t1 := Cleared(st, symbol, exchange, iv, force);
      var rows := ReadRows(st, symbol, exchange, iv, force, incremental, parses);
      var o := Run(st, symbol, exchange, iv, force, incremental, parses);
      (o.Raised? <==> rows != [] && Collides(t1, Tag(Fold(iv, rows), symbol, exchange, iv)))
      && (o.Raised? ==> o.tables == Tables(t1, st.overviews))
  {
    RunStages(st, symbol, exchange, iv, force, incremental, parses);
  }

  /**
   * When the key has rows but its stored last timestamp does not read back, an incremental call
   * falls back to a full read and deletes nothing: it does what a non-incremental, non-forced
   * call does, and every minute row of the contract is read.
   */
  lemma UnparsedLastReadsAll(st: Tables, symbol: String, exchange: String, iv: Interval, parses2: bool, b: StoredBar)
    requires iv != Minute
    requires b in st.bars && OfKey(b, symbol, exchange, Minute)
    ensures ResumeOf(st, symbol, exchange, iv, false, true, false).None?
    ensures Run(st, symbol, exchange, iv, false, true, false) == Run(st, symbol, exchange, iv, false, false, parses2)
    ensures RowOf(b) in ReadRows(st, symbol, exchange, iv, false, true, false)
  {
    QueryHas(st.bars, symbol, exchange, None, b);
  }

  /** A minute row a call did not read lies at or before its resume point, which therefore exists. */
  lemma UnreadBeforeResume(st: Tables, symbol: String, exchange: String, iv: Interval, force: bool, incremental: bool, parses: bool, b: StoredBar)
    requires iv != Minute
    requires b in Run(st, symbol, exchange, iv, force, incremental, parses).tables.bars && OfKey(b, symbol, exchange, Minute)
    requires RowOf(b) !in ReadRows(st, symbol, exchange, iv, force, incremental, parses)
    ensures var since := ResumeOf(st, symbol, exchange, iv, force, incremental, parses);
      since.Some? && !Before(since.value, b.bar.time)
  {
    RunKeepsMinutes(st, symbol, exchange, iv, force, incremental, parses, b);
    DeleteMembers(st.bars, symbol, exchange, iv);
    var since := ResumeOf(st, symbol, exchange, iv, force, incremental, parses);
    if since.None? || Before(since.value, b.bar.time) {
      QueryHas(Cleared(st, symbol, exchange, iv, force), symbol, exchange, since, b);
    }
  }

  /** The rows a call writes extend the cleared table. */
  lemma RunAppends(st: Tables, symbol: String, exchange: String, iv: Interval, force: bool, incremental: bool, parses: bool, b: StoredBar)
    requires iv != Minute && b in Cleared(st, symbol, exchange, iv, force)
    ensures b in Run(st, symbol, exchange, iv, force, incremental, parses).tables.bars
  {
    RunStages(st, symbol, exchange, iv, force, incremental, parses);
    var rows := ReadRows(st, symbol, exchange, iv, force, incremental, parses);
    if rows != [] {
      StoreBars(Cleared(st, symbol, exchange, iv, force), st.overviews, Fold(iv, rows), symbol, exchange, iv);
    }
  }

  /** The target row the resume point came from is still there after the call. */
  lemma ResumeKept(st: Tables, symbol: String, exchange: String, iv: Interval, force: bool, incremental: bool, parses: bool)
    requires iv != Minute
    requires ResumeOf(st, symbol, exchange, iv, force, incremental, parses).Some?
    ensures exists b :: (b in Select(Run(st, symbol, exchange, iv, force, incremental, parses).tables.bars, symbol, exchange, iv)
                         && b.bar.time == ResumeOf(st, symbol, exchange, iv, force, incremental, parses).value)
  {
    var l0 := Select(st.bars, symbol, exchange, iv);
    LatestIsMax(l0);
    SelectMembers(st.bars, symbol, exchange, iv);
    var b0 :| b0 in l0 && b0.bar.time == Latest(l0).value;
    RunAppends(st, symbol, exchange, iv, force, incremental, parses, b0);
    SelectMembers(Run(st, symbol, exchange, iv, force, incremental, parses).tables.bars, symbol, exchange, iv);
  }

  /** Every minute row a daily call that returned read is at or before the stamp of the last bar it stored. */
  lemma DailyReadCovered(st: Tables, symbol: String, exchange: String, force: bool, incremental: bool, parses: bool, r: MinuteRow)
    requires Run(st, symbol, exchange, Day, force, incremental, parses).Returned?
    requires r in ReadRows(st, symbol, exchange, Day, force, incremental, parses)
    ensures exists b :: (b in Select(Run(st, symbol, exchange, Day, force, incremental, parses).tables.bars, symbol, exchange, Day)
                         && Rank(r.time) <= Rank(b.bar.time))
  {
    var t1 := Cleared(st, symbol, exchange, Day, force);
    var rows := ReadRows(st, symbol, exchange, Day, force, incremental, parses);
    var out := DailyBars(rows);
    RunStages(st, symbol, exchange, Day, force, incremental, parses);
    StoreBars(t1, st.overviews, out, symbol, exchange, Day);
    DailyLastStamp(rows);
    QueryLastIsLatest(rows, r);
    TagAt(out, symbol, exchange, Day, |out| - 1);
    var t2 := t1 + Tag(out, symbol, exchange, Day);
    assert Run(st, symbol, exchange, Day, force, incremental, parses).tables.bars == t2;
    SelectMembers(t2, symbol, exchange, Day);
    assert Last(t2) in t2;
  }

  /** After a daily call that returned, every minute row of the contract is at or before some stored daily stamp. */
  lemma DailyCovers(st: Tables, symbol: String, exchange: String, force: bool, incremental: bool, parses: bool, b: StoredBar)
    requires Run(st, symbol, exchange, Day, force, incremental, parses).Returned?
    requires b in Run(st, symbol, exchange, Day, force, incremental, parses).tables.bars && OfKey(b, symbol, exchange, Minute)
    ensures exists d :: (d in Select(Run(st, symbol, exchange, Day, force, incremental, parses).tables.bars, symbol, exchange, Day)
                         && Rank(b.bar.time) <= Rank(d.bar.time))
  {
    if RowOf(b) in ReadRows(st, symbol, exchange, Day, force, incremental, parses) {
      DailyReadCovered(st, symbol, exchange, force, incremental, parses, RowOf(b));
    } else {
      UnreadBeforeResume(st, symbol, exchange, Day, force, incremental, parses, b);
      ResumeKept(st, symbol, exchange, Day, force, incremental, parses);
    }
  }

  /**
   * Rerunning the daily aggregation incrementally right after any daily call that returned adds
   * nothing: the last daily stamp (15:00:00 after a 14:59:00 row, else the last row's own time)
   * is never earlier than any minute row of the contract, so nothing lies strictly after it.
   */
  lemma DailyRerunAddsNothing(st: Tables, symbol: String, exchange: String, force: bool, incremental: bool, parses: bool)
    ensures var o1 := Run(st, symbol, exchange, Day, force, incremental, parses);
      o1.Returned? ==> Run(o1.tables, symbol, exchange, Day, false, true, true) == Returned(o1.tables, 0)
  {
    var o1 := Run(st, symbol, exchange, Day, force, incremental, parses);
    if o1.Returned? {
      DailyRerunAfterReturn(st, symbol, exchange, force, incremental, parses);
    }
  }

  lemma DailyRerunAfterReturn(st: Tables, symbol: String, exchange: String, force: bool, incremental: bool, parses: bool)
    requires Run(st, symbol, exchange, Day, force, incremental, parses).Returned?
    ensures var o1 := Run(st, symbol, exchange, Day, force, incremental, parses);
      Run(o1.tables, symbol, exchange, Day, false, true, true) == Returned(o1.tables, 0)
  {
    var o1 := Run(st, symbol, exchange, Day, force, incremental, parses);
    var t2 := o1.tables.bars;
    var d1 := Select(t2, symbol, exchange, Day);
    RunStages(o1.tables, symbol, exchange, Day, false, true, true);
    var since := ResumeOf(o1.tables, symbol, exchange, Day, false, true, true);
    if d1 == [] {
      // No daily row is left, so the call stored nothing and resumed from nothing: no minute rows exist.
      var m := Select(t2, symbol, exchange, Minute);
      assert m == [] by {
        if m != [] {
          SelectMembers(t2, symbol, exchange, Minute);
          DailyCovers(st, symbol, exchange, force, incremental, parses, m[0]);
        }
      }
      SelectMembers(t2, symbol, exchange, Minute);
      QueryEmpty(t2, symbol, exchange, since);
    } else {
      LatestIsMax(d1);
      forall b | b in t2 && OfKey(b, symbol, exchange, Minute)
        ensures since.Some? && !Before(since.value, b.bar.time)
      {
        DailyCovers(st, symbol, exchange, force, incremental, parses, b);
      }
      QueryEmpty(t2, symbol, exchange, since);
    }
  }

  /** `MAX(datetime)` of rows whose last row is a latest one is that row's timestamp. */
  lemma LatestIsLast(t: seq<StoredBar>)
    requires t != []
    requires forall k :: 0 <= k < |t| ==> Rank(t[k].bar.time) <= Rank(Last(t).bar.time)
    ensures Latest(t) == Some(Last(t).bar.time)
  {
    var p := t[..|t| - 1];
    if p != [] {
      LatestIsMax(p);
      var b :| b in p && b.bar.time == Latest(p).value;
      var k :| 0 <= k < |p| && p[k] == b;
      assert t[k] == b;
    }
  }

  /** The minute rows a call reads are rows of the contract it started from. */
  lemma ReadFrom(st: Tables, symbol: String, exchange: String, iv: Interval, force: bool, incremental: bool, parses: bool, r: MinuteRow)
    requires iv != Minute
    requires r in ReadRows(st, symbol, exchange, iv, force, incremental, parses)
    ensures exists b :: (b in Cleared(st, symbol, exchange, iv, force) && b in st.bars
                         && OfKey(b, symbol, exchange, Minute) && RowOf(b) == r)
  {
    QueryFrom(Cleared(st, symbol, exchange, iv, force), symbol, exchange, ResumeOf(st, symbol, exchange, iv, force, incremental, parses), r);
    DeleteMembers(st.bars, symbol, exchange, iv);
  }

  /** Bars in strictly ascending time are ascending between any two positions. */
  lemma {:induction false} ChainOrdered(out: seq<Bar>, i: nat, j: nat)
    requires forall k :: 0 < k < |out| ==> Before(out[k - 1].time, out[k].time)
    requires i < j < |out|
    ensures Before(out[i].time, out[j].time)
    decreases j - i
  {
    if i + 1 < j {
      ChainOrdered(out, i, j - 1);
    }
  }

  /** Bars in strictly ascending time, inserted under a key the table does not hold, break no unique index. */
  lemma FreshKeyNoCollision(t: seq<StoredBar>, out: seq<Bar>, symbol: String, exchange: String, iv: Interval)
    requires Select(t, symbol, exchange, iv) == []
    requires forall k :: 0 < k < |out| ==> Before(out[k - 1].time, out[k].time)
    ensures !Collides(t, Tag(out, symbol, exchange, iv))
  {
    var tag := Tag(out, symbol, exchange, iv);
    SelectMembers(t, symbol, exchange, iv);
    forall i, j | 0 <= i < |t| && 0 <= j < |tag| ensures !SameSlot(t[i], tag[j]) {
      TagAt(out, symbol, exchange, iv, j);
      assert t[i] in t;
    }
    forall i, j | 0 <= i < j < |tag| ensures !SameSlot(tag[i], tag[j]) {
      TagAt(out, symbol, exchange, iv, i);
      TagAt(out, symbol, exchange, iv, j);
      ChainOrdered(out, i, j);
    }
  }

  /** A stored row of the key with the stamp of the last new bar makes the insert break the unique index. */
  lemma LastStampCollides(t: seq<StoredBar>, s: StoredBar, out: seq<Bar>, symbol: String, exchange: String, iv: Interval)
    requires s in t && OfKey(s, symbol, exchange, iv)
    requires out != [] && Last(out).time == s.bar.time
    ensures Collides(t, Tag(out, symbol, exchange, iv))
  {
    var i :| 0 <= i < |t| && t[i] == s;
    TagAt(out, symbol, exchange, iv, |out| - 1);
    assert SameSlot(t[i], Tag(out, symbol, exchange, iv)[|out| - 1]);
  }

  /** A call that starts without rows of its key reads every minute row of the contract. */
  lemma FreshReadsAll(st: Tables, symbol: String, exchange: String, iv: Interval, force: bool, incremental: bool, parses: bool, b: StoredBar)
    requires iv != Minute
    requires Select(Cleared(st, symbol, exchange, iv, force), symbol, exchange, iv) == []
    requires b in st.bars && OfKey(b, symbol, exchange, Minute)
    ensures ResumeOf(st, symbol, exchange, iv, force, incremental, parses).None?
    ensures RowOf(b) in ReadRows(st, symbol, exchange, iv, force, incremental, parses)
  {
    DeleteMembers(st.bars, symbol, exchange, iv);
    QueryHas(Cleared(st, symbol, exchange, iv, force), symbol, exchange, None, b);
  }

  /**
   * An hourly call that starts without hourly rows of the key (a first or a forced run) returns,
   * and leaves the key's latest hourly stamp at the hour key of the last minute row, so the next
   * incremental call resumes from the start of that hour.
   */
  lemma HourlyResumePoint(st: Tables, symbol: String, exchange: String, force: bool, incremental: bool, parses: bool)
    requires Select(Cleared(st, symbol, exchange, Hour, force), symbol, exchange, Hour) == []
    requires forall b :: b in st.bars && OfKey(b, symbol, exchange, Minute) ==> ValidDateTime(b.bar.time)
    requires ReadRows(st, symbol, exchange, Hour, force, incremental, parses) != []
    ensures var o1 := Run(st, symbol, exchange, Hour, force, incremental, parses);
      o1.Returned?
      && ResumeOf(o1.tables, symbol, exchange, Hour, false, true, true)
           == Some(HourOf(Last(ReadRows(st, symbol, exchange, Hour, force, incremental, parses)).time))
  {
    var t1 := Cleared(st, symbol, exchange, Hour, force);
    var rows := ReadRows(st, symbol, exchange, Hour, force, incremental, parses);
    var out := HourlyBars(rows);
    var h := HourOf(Last(rows).time);
    FreshHourlyStores(st, symbol, exchange, force, incremental, parses);
    HourlyLastStamp(rows);
    var tag := Tag(out, symbol, exchange, Hour);
    var t2 := t1 + tag;
    SelectAppend(t1, tag, symbol, exchange, Hour);
    SelectTagSame(out, symbol, exchange, Hour);
    assert Select(t2, symbol, exchange, Hour) == tag;
    forall k | 0 <= k < |tag| ensures Rank(tag[k].bar.time) <= Rank(Last(tag).bar.time) {
      TagAt(out, symbol, exchange, Hour, k);
      TagAt(out, symbol, exchange, Hour, |out| - 1);
    }
    LatestIsLast(tag);
    TagAt(out, symbol, exchange, Hour, |out| - 1);
  }

  /**
   * An hourly call that starts without hourly rows of the key reads valid rows in time order
   * and returns, storing exactly the hourly bars folded from them.
   */
  lemma FreshHourlyStores(st: Tables, symbol: String, exchange: String, force: bool, incremental: bool, parses: bool)
    requires Select(Cleared(st, symbol, exchange, Hour, force), symbol, exchange, Hour) == []
    requires forall b :: b in st.bars && OfKey(b, symbol, exchange, Minute) ==> ValidDateTime(b.bar.time)
    requires ReadRows(st, symbol, exchange, Hour, force, incremental, parses) != []
    ensures var rows := ReadRows(st, symbol, exchange, Hour, force, incremental, parses);
      var o1 := Run(st, symbol, exchange, Hour, force, incremental, parses);
      ValidRows(rows) && Ascending(rows)
      && o1.Returned? && o1.tables.bars == Cleared(st, symbol, exchange, Hour, force) + Tag(HourlyBars(rows), symbol, exchange, Hour)
  {
    var t1 := Cleared(st, symbol, exchange, Hour, force);
    var rows := ReadRows(st, symbol, exchange, Hour, force, incremental, parses);
    RunStages(st, symbol, exchange, Hour, force, incremental, parses);
    assert ValidRows(rows) by {
      forall i | 0 <= i < |rows| ensures ValidDateTime(rows[i].time) {
        ReadFrom(st, symbol, exchange, Hour, force, incremental, parses, rows[i]);
      }
    }
    assert Ascending(rows) by {
      assert SortedByKey(rows, TimeKey);
    }
    HourlyBarsAscending(rows);
    FreshKeyNoCollision(t1, HourlyBars(rows), symbol, exchange, Hour);
  }

  /** A valid time after the hour key of a later valid time falls in that same hour. */
  lemma WithinHour(h: DateTime, t: DateTime, x: DateTime)
    requires ValidDateTime(t) && ValidDateTime(x) && h == HourOf(x)
    requires Before(h, t) && AtOrBefore(t, x)
    ensures HourOf(t) == h
  {
    HourOfMonotone(h, t);
    HourOfAtOrBefore(t, x);
    RankInjective(HourOf(t), h);
  }

  /**
   * After an hourly call that started without hourly rows, every minute row an incremental
   * rerun reads is valid and falls in the hour of the last minute row the call read.
   */
  lemma RereadInLastHour(st: Tables, symbol: String, exchange: String, force: bool, incremental: bool, parses: bool, r: MinuteRow)
    requires Select(Cleared(st, symbol, exchange, Hour, force), symbol, exchange, Hour) == []
    requires forall b :: b in st.bars && OfKey(b, symbol, exchange, Minute) ==> ValidDateTime(b.bar.time)
    requires ReadRows(st, symbol, exchange, Hour, force, incremental, parses) != []
    requires var o1 := Run(st, symbol, exchange, Hour, force, incremental, parses);
      r in ReadRows(o1.tables, symbol, exchange, Hour, false, true, true)
    ensures var x := Last(ReadRows(st, symbol, exchange, Hour, force, incremental, parses));
      ValidDateTime(r.time) && HourOf(r.time) == HourOf(x.time)
  {
    var rows := ReadRows(st, symbol, exchange, Hour, force, incremental, parses);
    var x := Last(rows);
    var o1 := Run(st, symbol, exchange, Hour, force, incremental, parses);
    var h := HourOf(x.time);
    HourlyResumePoint(st, symbol, exchange, force, incremental, parses);
    QueryFrom(o1.tables.bars, symbol, exchange, Some(h), r);
    var b :| b in o1.tables.bars && OfKey(b, symbol, exchange, Minute) && RowOf(b) == r && Before(h, b.bar.time);
    RunKeepsMinutes(st, symbol, exchange, Hour, force, incremental, parses, b);
    FreshReadsAll(st, symbol, exchange, Hour, force, incremental, parses, b);
    assert SortedByKey(rows, TimeKey);
    QueryLastIsLatest(rows, r);
    ReadFrom(st, symbol, exchange, Hour, force, incremental, parses, x);
    WithinHour(h, r.time, x.time);
  }

  /**
   * So when the last minute row is not exactly on the hour, an incremental rerun with no new
   * minute data reads that hour's rows again and folds them into a bar stamped with the hour the
   * table already holds: the insert breaks the unique index, the call raises and the tables stay
   * as they were. This holds under the time-stamp resume filter `Run` uses; with the code's text
   * comparison the same-day rows are skipped and the rerun returns 0 instead.
   */
  lemma HourlyRerunCollides(st: Tables, symbol: String, exchange: String, force: bool, incremental: bool, parses: bool)
    requires Select(Cleared(st, symbol, exchange, Hour, force), symbol, exchange, Hour) == []
    requires forall b :: b in st.bars && OfKey(b, symbol, exchange, Minute) ==> ValidDateTime(b.bar.time)
    requires var rows := ReadRows(st, symbol, exchange, Hour, force, incremental, parses);
      rows != [] && (Last(rows).time.minute != 0 || Last(rows).time.second != 0)
    ensures var o1 := Run(st, symbol, exchange, Hour, force, incremental, parses);
      o1.Returned? && Run(o1.tables, symbol, exchange, Hour, false, true, true) == Raised(o1.tables)
  {
    var rows := ReadRows(st, symbol, exchange, Hour, force, incremental, parses);
    var x := Last(rows);
    var o1 := Run(st, symbol, exchange, Hour, force, incremental, parses);
    var h := HourOf(x.time);
    HourlyResumePoint(st, symbol, exchange, force, incremental, parses);
    // The rerun reads the last row again.
    ReadKept(st, symbol, exchange, Hour, force, incremental, parses, x);
    var b :| b in o1.tables.bars && OfKey(b, symbol, exchange, Minute) && RowOf(b) == x;
    RunKeepsMinutes(st, symbol, exchange, Hour, force, incremental, parses, b);
    HourStartBefore(x.time);
    QueryHas(o1.tables.bars, symbol, exchange, Some(h), b);
    var rows2 := ReadRows(o1.tables, symbol, exchange, Hour, false, true, true);
    assert rows2 == QueryMinutes(o1.tables.bars, symbol, exchange, Some(h));
    // Its last hourly bar is stamped h.
    assert ValidRows(rows2) && Ascending(rows2) by {
      forall i | 0 <= i < |rows2| ensures ValidDateTime(rows2[i].time) {
        RereadInLastHour(st, symbol, exchange, force, incremental, parses, rows2[i]);
      }
      assert SortedByKey(rows2, TimeKey);
    }
    RereadInLastHour(st, symbol, exchange, force, incremental, parses, Last(rows2));
    HourlyLastStamp(rows2);
    // The table already holds an hourly row stamped h.
    var hs := Select(o1.tables.bars, symbol, exchange, Hour);
    LatestIsMax(hs);
    var s0 :| s0 in hs && s0.bar.time == h;
    SelectMembers(o1.tables.bars, symbol, exchange, Hour);
    LastStampCollides(o1.tables.bars, s0, HourlyBars(rows2), symbol, exchange, Hour);
    RunStages(o1.tables, symbol, exchange, Hour, false, true, true);
  }

  /** The minute rows a call read are still in the table after it. */
  lemma ReadKept(st: Tables, symbol: String, exchange: String, iv: Interval, force: bool, incremental: bool, parses: bool, r: MinuteRow)
    requires iv != Minute
    requires r in ReadRows(st, symbol, exchange, iv, force, incremental, parses)
    ensures exists b :: (b in Run(st, symbol, exchange, iv, force, incremental, parses).tables.bars
                         && OfKey(b, symbol, exchange, Minute) && RowOf(b) == r)
  {
    ReadFrom(st, symbol, exchange, iv, force, incremental, parses, r);
    var b :| b in Cleared(st, symbol, exchange, iv, force) && b in st.bars
      && OfKey(b, symbol, exchange, Minute) && RowOf(b) == r;
    RunAppends(st, symbol, exchange, iv, force, incremental, parses, b);
  }

  /** A call that reads some minute row either raises on the unique index or writes at least one row. */
  lemma RereadWrites(st: Tables, symbol: String, exchange: String, iv: Interval, force: bool, incremental: bool, parses: bool)
    requires iv != Minute && ReadRows(st, symbol, exchange, iv, force, incremental, parses) != []
    ensures var o := Run(st, symbol, exchange, iv, force, incremental, parses);
      o.Raised? || o.written > 0
  {
    var rows := ReadRows(st, symbol, exchange, iv, force, incremental, parses);
    RunStages(st, symbol, exchange, iv, force, incremental, parses);
    assert |Runs(rows)| > 0;
    if iv == Day {
      DailyLastStamp(rows);
    }
  }

  // ---------------------------------------------------------------------
  // process_symbol
  // ---------------------------------------------------------------------

  /** Names that are neither hourly nor daily are skipped: they change nothing and add nothing. */
  lemma {:induction false} ProcessRunSkipsUnknown(st: Tables, symbol: String, exchange: String, names: seq<String>, force: bool, parses: bool)
    requires forall k :: 0 <= k < |names| ==> !IsHourlyName(names[k]) && !IsDailyName(names[k])
    ensures ProcessRun(st, symbol, exchange, names, force, parses) == Processed(st, 0)
  {
    if names != [] {
      ProcessRunSkipsUnknown(st, symbol, exchange, names[..|names| - 1], force, parses);
      assert Last(names) == names[|names| - 1];
    }
  }

  /**
   * Without an explicit list, `process_symbol` runs the hourly aggregation and then the daily one
   * on the tables the hourly call left (even when it raised), and sums what each returned.
   */
  lemma ProcessRunDefault(st: Tables, symbol: String, exchange: String, force: bool, parses: bool)
    ensures var o1 := Run(st, symbol, exchange, Hour, force, !force, parses);
      var o2 := Run(o1.tables, symbol, exchange, Day, force, !force, parses);
      ProcessRun(st, symbol, exchange, IntervalNames(None), force, parses) == Processed(o2.tables, Counted(o1) + Counted(o2))
  {
    var hourly := DefaultIntervals[0];
    var daily := DefaultIntervals[1];
    DefaultKinds();
    assert DefaultIntervals == [] + [hourly] + [daily];
    ProcessRunSnoc(st, symbol, exchange, [], hourly, force, parses);
    ProcessRunSnoc(st, symbol, exchange, [hourly], daily, force, parses);
  }

  /**
   * At the level of `process_symbol`: after an hourly call as in `HourlyRerunCollides`, an
   * unforced `process_symbol` over ['1h'] catches the collision, returns 0 and changes nothing
   * (under the same time-stamp resume filter).
   */
  lemma ProcessHourlyRerun(st: Tables, symbol: String, exchange: String, force: bool, incremental: bool, parses: bool)
    requires Select(Cleared(st, symbol, exchange, Hour, force), symbol, exchange, Hour) == []
    requires forall b :: b in st.bars && OfKey(b, symbol, exchange, Minute) ==> ValidDateTime(b.bar.time)
    requires var rows := ReadRows(st, symbol, exchange, Hour, force, incremental, parses);
      rows != [] && (Last(rows).time.minute != 0 || Last(rows).time.second != 0)
    ensures var o1 := Run(st, symbol, exchange, Hour, force, incremental, parses);
      ProcessRun(o1.tables, symbol, exchange, IntervalNames(Some(["1h"])), false, true) == Processed(o1.tables, 0)
  {
    HourlyRerunCollides(st, symbol, exchange, force, incremental, parses);
    HourlyOnlyCaught(Run(st, symbol, exchange, Hour, force, incremental, parses).tables, symbol, exchange);
  }

  /** `process_symbol` over ['1h'] whose incremental hourly call raises without a change returns 0 and changes nothing. */
  lemma HourlyOnlyCaught(st: Tables, symbol: String, exchange: String)
    requires Run(st, symbol, exchange, Hour, false, true, true) == Raised(st)
    ensures ProcessRun(st, symbol, exchange, IntervalNames(Some(["1h"])), false, true) == Processed(st, 0)
  {
    assert IntervalNames(Some(["1h"])) == [] + ["1h"];
    assert IsHourlyName("1h") by {
      assert Lower("1h") == "1h";
    }
    ProcessRunCatches(st, symbol, exchange, [], "1h", false, true);
  }

  /** The default list names the hourly aggregation first and the daily one second. */
  lemma DefaultKinds()
    ensures |DefaultIntervals| == 2
    ensures IsHourlyName(DefaultIntervals[0])
    ensures !IsHourlyName(DefaultIntervals[1]) && IsDailyName(DefaultIntervals[1])
  {
    assert Lower("1h") == "1h";
    assert Lower("1D") == "1d";
  }

  // ---------------------------------------------------------------------
  // The resume bound as text
  // ---------------------------------------------------------------------

  /** `start_time.isoformat()`: the resume bound as the code sends it, with a `T` separator. */
  function IsoText(t: DateTime): (s: String)
    requires ValidDateTime(t)
    ensures |s| == 19 && s[10] == 'T'
  {
    VnpyCsv.DashDate(t.date) + "T" + VnpyCsv.ClockText(t.hour, t.minute, t.second)
  }

  /** A shared prefix does not decide a string comparison. */
  lemma {:induction false} LessCommonPrefix(p: String, a: String, b: String)
    ensures Less(p + a, p + b) == Less(a, b)
  {
    if p == [] {
      assert p + a == a && p + b == b;
    } else {
      assert (p + a)[0] == p[0] == (p + b)[0];
      assert (p + a)[1..] == p[1..] + a && (p + b)[1..] == p[1..] + b;
      LessCommonPrefix(p[1..], a, b);
    }
  }

  /**
   * As written, `datetime > start_time.isoformat()` compares the stored text
   * `YYYY-MM-DD HH:MM:SS` with `YYYY-MM-DDTHH:MM:SS`; on the bound's own date the
   * two agree up to the separator, and `' '` sorts before `'T'`, so no minute
   * row of that date passes, however late in the day it is.
   */
  lemma TextBoundSkipsSameDay(since: DateTime, t: DateTime)
    requires ValidDateTime(since) && ValidDateTime(t) && since.date == t.date
    ensures !Less(IsoText(since), VnpyCsv.FormatDash(t))
  {
    var p := VnpyCsv.DashDate(since.date);
    var a := "T" + VnpyCsv.ClockText(since.hour, since.minute, since.second);
    var b := " " + VnpyCsv.ClockText(t.hour, t.minute, t.second);
    assert IsoText(since) == p + a;
    assert VnpyCsv.FormatDash(t) == p + b;
    LessCommonPrefix(p, a, b);
    assert a[0] == 'T' && b[0] == ' ';
  }

  /** The row of the example: 10:05 lies after a 10:00 bound, yet its text does not pass. */
  lemma SameDayRowSkipped()
    ensures var since := DateTime(Date(2024, 1, 2), 10, 0, 0);
      var t := DateTime(Date(2024, 1, 2), 10, 5, 0);
      Before(since, t) && !Less(IsoText(since), VnpyCsv.FormatDash(t))
  {
    TextBoundSkipsSameDay(DateTime(Date(2024, 1, 2), 10, 0, 0), DateTime(Date(2024, 1, 2), 10, 5, 0));
  }
}

=== FILE: strings.dfy ===
/**
 * The few Python `str` operations the modelled code relies on, with Python's
 * semantics: `startswith`, `endswith`, `in`, `split`, `replace` (all
 * non-overlapping occurrences, scanned left to right), `strip`, ASCII
 * `isalpha` / `isdigit` / `lower` / `upper`, and code-point string order.
 */
module Strings {
  type String = seq<char>

  predicate StartsWith(s: String, p: String) { |p| <= |s| && s[..|p|] == p }

  predicate EndsWith(s: String, p: String) { |p| <= |s| && s[|s| - |p|..] == p }

  /** `p in s` for strings: p occurs at some position of s. */
  predicate Contains(s: String, p: String)
    decreases |s|
  { StartsWith(s, p) || (s != [] && Contains(s[1..], p)) }

  predicate IsDigit(c: char) { '0' <= c <= '9' }
  predicate IsUpper(c: char) { 'A' <= c <= 'Z' }
  predicate IsLower(c: char) { 'a' <= c <= 'z' }
  predicate IsAlpha(c: char) { IsUpper(c) || IsLower(c) }

  function LowerChar(c: char): (r: char)
    ensures IsUpper(c) ==> IsLower(r)
    ensures !IsUpper(c) ==> r == c
  { if IsUpper(c) then (c as int + 32) as char else c }

  function UpperChar(c: char): (r: char)
    ensures IsLower(c) ==> IsUpper(r)
    ensures !IsLower(c) ==> r == c
  { if IsLower(c) then (c as int - 32) as char else c }

  function Lower(s: String): (r: String)
    ensures |r| == |s| && forall i :: 0 <= i < |s| ==> r[i] == LowerChar(s[i])
  { if s == [] then [] else [LowerChar(s[0])] + Lower(s[1..]) }

  function Upper(s: String): (r: String)
    ensures |r| == |s| && forall i :: 0 <= i < |s| ==> r[i] == UpperChar(s[i])
  { if s == [] then [] else [UpperChar(s[0])] + Upper(s[1..]) }

  /** The characters of s that satisfy `isalpha`, in order. */
  function Letters(s: String): (r: String)
    ensures forall i :: 0 <= i < |r| ==> IsAlpha(r[i])
    ensures |r| <= |s|
  { if s == [] then [] else (if IsAlpha(s[0]) then [s[0]] else []) + Letters(s[1..]) }

  /** The longest prefix of s made of letters only. */
  function LeadingLetters(s: String): (r: String)
    ensures StartsWith(s, r)
    ensures forall i :: 0 <= i < |r| ==> IsAlpha(r[i])
    ensures |r| < |s| ==> !IsAlpha(s[|r|])
  { if s == [] || !IsAlpha(s[0]) then [] else [s[0]] + LeadingLetters(s[1..]) }

  /** The whitespace set of Python's `str.isspace` (Unicode White_Space plus the separators Python adds). */
  predicate IsSpace(c: char)
  {
    ('\U{0009}' <= c <= '\U{000D}') || ('\U{001C}' <= c <= '\U{001F}') || c == ' '
    || c == '\U{0085}' || c == '\U{00A0}' || c == '\U{1680}' || ('\U{2000}' <= c <= '\U{200A}')
    || c == '\U{2028}' || c == '\U{2029}' || c == '\U{202F}' || c == '\U{205F}' || c == '\U{3000}'
  }

  /** Every character is whitespace. */
  predicate AllSpace(s: String) { forall i :: 0 <= i < |s| ==> IsSpace(s[i]) }

  function StripLeft(s: String): (r: String)
    ensures r == [] || !IsSpace(r[0])
    ensures |r| <= |s|
  { if s != [] && IsSpace(s[0]) then StripLeft(s[1..]) else s }

  function StripRight(s: String): (r: String)
    ensures r == [] || !IsSpace(r[|r| - 1])
    ensures |r| <= |s|
  { if s != [] && IsSpace(s[|s| - 1]) then StripRight(s[..|s| - 1]) else s }

  /** `lstrip()` removes a run of whitespace from the front and nothing else. */
  lemma {:induction false} StripLeftSuffix(s: String)
    ensures var r := StripLeft(s); r == s[|s| - |r|..] && AllSpace(s[..|s| - |r|])
    decreases |s|
  {
    if s != [] && IsSpace(s[0]) {
      StripLeftSuffix(s[1..]);
      var r := StripLeft(s);
      assert s[1..][|s| - 1 - |r|..] == s[|s| - |r|..];
      assert forall i :: 1 <= i < |s| - |r| ==> s[i] == s[1..][..|s| - 1 - |r|][i - 1];
    }
  }

  /** `rstrip()` removes a run of whitespace from the back and nothing else. */
  lemma {:induction false} StripRightPrefix(s: String)
    ensures var r := StripRight(s); r == s[..|r|] && AllSpace(s[|r|..])
    decreases |s|
  {
    if s != [] && IsSpace(s[|s| - 1]) {
      StripRightPrefix(s[..|s| - 1]);
      var r := StripRight(s);
      assert s[..|s| - 1][..|r|] == s[..|r|];
      assert forall i :: |r| <= i < |s| - 1 ==> s[i] == s[..|s| - 1][|r|..][i - |r|];
    }
  }

  /** `str.strip()` with no argument. */
  function Strip(s: String): (r: String)
    ensures r == [] || (!IsSpace(r[0]) && !IsSpace(r[|r| - 1]))
    ensures |r| <= |s|
  {
    StripRightPrefix(StripLeft(s));
    StripRight(StripLeft(s))
  }

  /** Stripping keeps a character out if it was out. */
  lemma StripNoChar(s: String, c: char)
    requires NoChar(s, c)
    ensures NoChar(Strip(s), c)
  {
    StripLeftSuffix(s);
    StripRightPrefix(StripLeft(s));
    var l := StripLeft(s);
    assert forall i :: 0 <= i < |l| ==> l[i] == s[|s| - |l| + i];
  }

  /** A string strips to nothing exactly when it is all whitespace. */
  lemma StripEmpty(s: String)
    ensures Strip(s) == [] <==> AllSpace(s)
  {
    StripLeftSuffix(s);
    StripRightPrefix(StripLeft(s));
  }

  /** Python `s.replace(pat, rep)` for a non-empty `pat`. */
  function ReplaceAll(s: String, pat: String, rep: String): (r: String)
    requires pat != []
    decreases |s|
  {
    if |s| < |pat| then s
    else if s[..|pat|] == pat then rep + ReplaceAll(s[|pat|..], pat, rep)
    else [s[0]] + ReplaceAll(s[1..], pat, rep)
  }

  /** Removing every occurrence of one character (`s.replace(c, '')`). */
  function RemoveChar(s: String, c: char): (r: String)
    ensures forall i :: 0 <= i < |r| ==> r[i] != c
    ensures |r| <= |s|
  { if s == [] then [] else (if s[0] == c then [] else [s[0]]) + RemoveChar(s[1..], c) }

  /** Python `s.split(sep)` for a single separator character. */
  function Split(s: String, sep: char): (r: seq<String>)
    ensures |r| >= 1
    ensures forall i :: 0 <= i < |r| ==> NoChar(r[i], sep)
    decreases |s|
  {
    if s == [] then [[]]
    else
      var rest := Split(s[1..], sep);
      if s[0] == sep then [[]] + rest else [[s[0]] + rest[0]] + rest[1..]
  }

  /** Inverse of `Split`: `sep.join(parts)`. */
  function Join(parts: seq<String>, sep: char): (r: String)
    requires |parts| >= 1
  {
    if |parts| == 1 then parts[0] else parts[0] + [sep] + Join(parts[1..], sep)
  }

  lemma {:induction false} JoinSplit(s: String, sep: char)
    ensures Join(Split(s, sep), sep) == s
    decreases |s|
  {
    if s != [] {
      JoinSplit(s[1..], sep);
      var rest := Split(s[1..], sep);
      if s[0] == sep {
        assert Split(s, sep) == [[]] + rest;
        assert ([[]] + rest)[1..] == rest;
      } else {
        var r := Split(s, sep);
        assert r == [[s[0]] + rest[0]] + rest[1..];
        if |rest| == 1 {
        } else {
          assert r[1..] == rest[1..];
        }
      }
    }
  }

  /** The character c occurs nowhere in s. */
  predicate NoChar(s: String, c: char) { forall i :: 0 <= i < |s| ==> s[i] != c }

  /** Replacing a suffix pattern whose first character occurs nowhere before it. */
  lemma {:induction false} ReplaceSuffix(u: String, pat: String, rep: String)
    requires pat != [] && NoChar(u, pat[0])
    ensures ReplaceAll(u + pat, pat, rep) == u + rep
    decreases |u|
  {
    var s := u + pat;
    if u == [] {
      assert s[..|pat|] == pat && s[|pat|..] == [];
      assert ReplaceAll(s, pat, rep) == rep + ReplaceAll([], pat, rep);
    } else {
      assert s[..|pat|] != pat by {
        assert s[..|pat|][0] == u[0] != pat[0];
      }
      assert s[1..] == u[1..] + pat;
      assert ReplaceAll(s, pat, rep) == [s[0]] + ReplaceAll(s[1..], pat, rep);
      ReplaceSuffix(u[1..], pat, rep);
    }
  }

  /** A string with no occurrence of a pattern is left alone by `replace`. */
  lemma {:induction false} ReplaceAbsent(s: String, pat: String, rep: String)
    requires pat != [] && !Contains(s, pat)
    ensures ReplaceAll(s, pat, rep) == s
    decreases |s|
  {
    if |s| >= |pat| {
      ReplaceAbsent(s[1..], pat, rep);
      assert s == [s[0]] + s[1..];
    }
  }

  /** A split on a character that occurs in s: the last piece is what follows its last occurrence. */
  lemma {:induction false} SplitLastPiece(u: String, sep: char, c: String)
    requires NoChar(c, sep)
    ensures var parts := Split(u + [sep] + c, sep); |parts| >= 2 && parts[|parts| - 1] == c
    decreases |u|
  {
    if u == [] {
      SplitNoSep(c, sep);
      assert ([sep] + c)[1..] == c;
    } else {
      SplitLastPiece(u[1..], sep, c);
      assert (u + [sep] + c)[1..] == u[1..] + [sep] + c;
    }
  }

  lemma {:induction false} SplitNoSep(c: String, sep: char)
    requires NoChar(c, sep)
    ensures Split(c, sep) == [c]
    decreases |c|
  {
    if c != [] {
      SplitNoSep(c[1..], sep);
      assert c == [c[0]] + c[1..];
    }
  }

  /** Splitting after a first piece free of the separator gives that piece, then the rest's pieces. */
  lemma {:induction false} SplitFirstPiece(u: String, sep: char, rest: String)
    requires NoChar(u, sep)
    ensures Split(u + [sep] + rest, sep) == [u] + Split(rest, sep)
    decreases |u|
  {
    if u == [] {
      assert [] + [sep] + rest == [sep] + rest;
      assert ([sep] + rest)[1..] == rest;
    } else {
      SplitFirstPiece(u[1..], sep, rest);
      var s := u + [sep] + rest;
      assert s[1..] == u[1..] + [sep] + rest;
      assert [u[0]] + u[1..] == u;
    }
  }

  /** A string holding the separator splits into at least two pieces. */
  lemma {:induction false} SplitAtLeastTwo(s: String, sep: char)
    requires sep in s
    ensures |Split(s, sep)| >= 2
    decreases |s|
  {
    if s[0] != sep {
      assert sep in s[1..] by {
        var i :| 0 <= i < |s| && s[i] == sep;
        assert s[1..][i - 1] == sep;
      }
      SplitAtLeastTwo(s[1..], sep);
    }
  }

  /** An occurrence at a known position. */
  lemma {:induction false} ContainsAt(s: String, p: String, i: nat)
    requires i + |p| <= |s| && s[i..i + |p|] == p
    ensures Contains(s, p)
    decreases i
  {
    if i > 0 {
      assert s[1..][i - 1..i - 1 + |p|] == s[i..i + |p|];
      ContainsAt(s[1..], p, i - 1);
    }
  }

  /** Every character of an occurring pattern occurs in the string. */
  lemma {:induction false} ContainsChars(s: String, p: String, k: nat)
    requires Contains(s, p) && k < |p|
    ensures p[k] in s
    decreases |s|
  {
    if StartsWith(s, p) {
      assert s[k] == p[k];
    } else {
      ContainsChars(s[1..], p, k);
      var i :| 0 <= i < |s[1..]| && s[1..][i] == p[k];
      assert s[i + 1] == p[k];
    }
  }

  /** Python's code-point string order: `a < b`. */
  predicate Less(a: String, b: String)
  {
    if a == [] then b != []
    else if b == [] then false
    else if a[0] != b[0] then a[0] < b[0]
    else Less(a[1..], b[1..])
  }

  predicate LessEq(a: String, b: String) { a == b || Less(a, b) }

  lemma {:induction false} LessIrreflexive(a: String)
    ensures !Less(a, a)
  { if a != [] { LessIrreflexive(a[1..]); } }

  lemma {:induction false} LessTotal(a: String, b: String)
    ensures a == b || Less(a, b) || Less(b, a)
  {
    if a != [] && b != [] && a[0] == b[0] {
      LessTotal(a[1..], b[1..]);
      if a[1..] == b[1..] { assert a == [a[0]] + a[1..] && b == [b[0]] + b[1..]; }
    }
  }

  lemma {:induction false} LessTransitive(a: String, b: String, c: String)
    requires Less(a, b) && Less(b, c)
    ensures Less(a, c)
  {
    if a != [] && b != [] && c != [] && a[0] == b[0] && b[0] == c[0] {
      LessTransitive(a[1..], b[1..], c[1..]);
    }
  }

  lemma {:induction false} LessAsymmetric(a: String, b: String)
    requires Less(a, b)
    ensures !Less(b, a)
  {
    if a != [] && b != [] && a[0] == b[0] { LessAsymmetric(a[1..], b[1..]); }
  }
}

=== FILE: tdx.dfy ===
/**
 * Conversion of TDX (TongDaXin) `.lc1` one-minute files: the packed date and
 * minute fields of a record, the night-session relabelling loop that assigns
 * each minute to its trading date, the output file name, the timestamp
 * order check and the batch counter.
 *
 * A night session starts after the 14:5x bars of a trading day and runs
 * through 21:00 to the early morning; its bars belong to the trading date
 * they were recorded on (21:00 to midnight) or the calendar day after it
 * (midnight to 03:00).
 */
module Tdx {
  import opened Wrappers
  import opened Strings
  import opened Calendar
  import VnpyCsv

  type U16 = x: int | 0 <= x < 0x1_0000

  /** One 32-byte `.lc1` record; the price fields are carried through unchanged. */
  datatype Record = Record(packedDate: U16, packedMinute: U16, open: real, high: real, low: real,
                           close: real, amount: real, volume: int)

  /** A time of day at minute resolution (the seconds are always 00). */
  datatype Clock = Clock(hour: int, minute: int)

  function Minutes(c: Clock): int { c.hour * 60 + c.minute }

  // ---------------------------------------------------------------------------
  // Packed fields
  // ---------------------------------------------------------------------------

  /** year = a0 // 2048 + 2004, month = (a0 % 2048) // 100, day = (a0 % 2048) % 100. */
  function DecodeDate(a0: U16): (d: Date)
    ensures 2004 <= d.year <= 2035 && 0 <= d.month <= 20 && 0 <= d.day < 100
    ensures d.month * 100 + d.day < 2048
  {
    Date(a0 / 2048 + 2004, (a0 % 2048) / 100, (a0 % 2048) % 100)
  }

  /** The packing TDX applies; defined for the dates that fit in 16 bits. */
  function EncodeDate(d: Date): (a0: U16)
    requires 2004 <= d.year <= 2035 && 0 <= d.month && 0 <= d.day < 100 && d.month * 100 + d.day < 2048
  {
    (d.year - 2004) * 2048 + d.month * 100 + d.day
  }

  /** Every packed value is the packing of what it decodes to, and every packable date decodes back to itself. */
  lemma DateRoundTrip(a0: U16, d: Date)
    requires 2004 <= d.year <= 2035 && 0 <= d.month && 0 <= d.day < 100 && d.month * 100 + d.day < 2048
    ensures EncodeDate(DecodeDate(a0)) == a0
    ensures DecodeDate(EncodeDate(d)) == d
  {
    var k := d.month * 100 + d.day;
    assert EncodeDate(d) / 2048 == d.year - 2004 && EncodeDate(d) % 2048 == k by {
      assert EncodeDate(d) == (d.year - 2004) * 2048 + k;
    }
  }

  /** The time of day of `2012-11-11 00:00:00 + (a1 - 1) minutes`. */
  function DecodeMinute(a1: U16): (c: Clock)
    ensures ValidTime(c.hour, c.minute, 0)
    ensures 1 <= a1 <= 1440 ==> Minutes(c) == a1 - 1
    ensures a1 == 0 ==> c == Clock(23, 59)
  {
    var k := (a1 - 1) % 1440;
    Clock(k / 60, k % 60)
  }

  /** Minute numbers one day apart decode to the same time of day. */
  lemma DecodeMinutePeriodic(a1: U16)
    requires a1 + 1440 < 0x1_0000
    ensures DecodeMinute(a1 + 1440) == DecodeMinute(a1)
  {
    assert (a1 + 1440 - 1) % 1440 == (a1 - 1) % 1440;
  }

  // ---------------------------------------------------------------------------
  // Night-session relabelling: the loop as written
  // ---------------------------------------------------------------------------

  /** One output line: its trading date, its time, and the record whose prices it carries. */
  datatype Line = Line(date: Date, time: Clock, record: Record)

  /**
   * Why the loop stops: a date string that is not a calendar date fails
   * `strptime` (ValueError); `old_date` read before it was ever assigned
   * (NameError); the initial empty `line` split into fields (IndexError); the
   * day after 9999-12-31 (OverflowError). Only the first can happen (see
   * `RelabelMatchesLabels`).
   */
  datatype Failure = BadDate | Unbound | NoLine | Overflow

  /** The previous bar's time starts with "14:5" and the current hour is not "14". */
  predicate Trigger(prev: Clock, cur: Clock)
  {
    prev.hour == 14 && 50 <= prev.minute <= 59 && cur.hour != 14
  }

  /** `last_time` before the first record: ('20200101', '11:00:00'). */
  const InitialDate := Date(2020, 1, 1)
  const InitialTime := Clock(11, 0)

  /** The loop variables of the conversion between two records. */
  datatype Scan = Scan(lastDate: Date, lastTime: Clock, cover: bool, oldDate: Option<Date>,
                       filter: bool, line: Option<Line>, out: seq<Line>)

  const Start := Scan(InitialDate, InitialTime, false, None, false, None, [])

  /**
   * One iteration. The trigger arms the output filter and night mode and
   * remembers the previous bar's date; in night mode 21:00 and later keep
   * that date, before 03:00 take the day after it, from 03:01 take the bar's
   * own date and leave night mode, and exactly 03:00 keeps the previous line.
   * The line's date is then parsed back, and the line is written once the
   * filter is armed.
   */
  function Feed(s: Scan, r: Record): Result<Scan, Failure>
  {
    var date := DecodeDate(r.packedDate);
    var hm := DecodeMinute(r.packedMinute);
    var trig := Trigger(s.lastTime, hm);
    var filter := s.filter || trig;
    var oldDate := if trig then Some(s.lastDate) else s.oldDate;
    match Branch(s.cover || trig, oldDate, date, hm, r, s.line)
    case Err(e) => Err(e)
    case Ok((stillNight, line)) =>
      if line.None? then Err(NoLine)
      else if !ValidDate(line.value.date) then Err(BadDate)
      else Ok(Scan(date, hm, stillNight, oldDate, filter, line, if filter then s.out + [line.value] else s.out))
  }

  /** The date branches of one iteration: whether night mode goes on, and the new `line`. */
  function Branch(cover: bool, oldDate: Option<Date>, date: Date, hm: Clock, r: Record, line: Option<Line>)
    : Result<(bool, Option<Line>), Failure>
  {
    if !cover then Ok((false, Some(Line(date, hm, r))))
    else if oldDate.None? then Err(Unbound)
    else if !ValidDate(oldDate.value) then Err(BadDate)
    else if oldDate.value == Date(9999, 12, 31) then Err(Overflow)
    else if hm.hour >= 21 then Ok((true, Some(Line(oldDate.value, hm, r))))
    else if hm.hour < 3 then Ok((true, Some(Line(NextDay(oldDate.value), hm, r))))
    else if Minutes(hm) >= 181 then Ok((false, Some(Line(date, hm, r))))
    else Ok((true, line))
  }

  /** The loop variables after the first n records; the first failure stops the loop. */
  function FoldN(rs: seq<Record>, n: nat): Result<Scan, Failure>
    requires n <= |rs|
  {
    if n == 0 then Ok(Start)
    else match FoldN(rs, n - 1)
      case Err(e) => Err(e)
      case Ok(s) => Feed(s, rs[n - 1])
  }

  /** The lines `miniute2csv_data` writes for a file's records, or the exception it stops with. */
  function Relabel(rs: seq<Record>): Result<seq<Line>, Failure>
  {
    match FoldN(rs, |rs|)
    case Err(e) => Err(e)
    case Ok(s) => Ok(s.out)
  }

  lemma {:induction false} FailureSticks(rs: seq<Record>, n: nat, e: Failure)
    requires n <= |rs| && FoldN(rs, n) == Err(e)
    ensures Relabel(rs) == Err(e)
    decreases |rs| - n
  {
    if n < |rs| {
      FailureSticks(rs, n + 1, e);
    }
  }

  /** The conversion loop over the records of one file. */
  method RelabelNight(records: seq<Record>) returns (res: Result<seq<Line>, Failure>)
    ensures res == Relabel(records)
  {
    var lastDate, lastTime := InitialDate, InitialTime;
    var cover := false;
    var oldDate: Option<Date> := None;
    var filter := false;
    var line: Option<Line> := None;
    var out: seq<Line> := [];
    var i := 0;
    while i < |records|
      invariant 0 <= i <= |records|
      invariant FoldN(records, i) == Ok(Scan(lastDate, lastTime, cover, oldDate, filter, line, out))
      invariant lastDate.year <= 2035
      invariant cover ==> oldDate.Some? && oldDate.value.year <= 2035
      invariant line.None? ==> lastTime == InitialTime && !cover
    {
      var ok;
      ok, lastDate, lastTime, cover, oldDate, filter, line, out :=
        FeedRecord(lastDate, lastTime, cover, oldDate, filter, line, out, records[i]);
      if !ok {
        FailureSticks(records, i + 1, BadDate);
        return Err(BadDate);
      }
      i := i + 1;
    }
    return Ok(out);
  }

  /**
   * One turn of the conversion loop, proved to be `Feed`: `ok` is false
   * exactly when the line's date does not parse back.
   */
  method FeedRecord(lastDate: Date, lastTime: Clock, cover: bool, oldDate: Option<Date>, filter: bool,
                    line: Option<Line>, out: seq<Line>, r: Record)
    returns (ok: bool, lastDate': Date, lastTime': Clock, cover': bool, oldDate': Option<Date>, filter': bool,
             line': Option<Line>, out': seq<Line>)
    requires lastDate.year <= 2035
    requires cover ==> oldDate.Some? && oldDate.value.year <= 2035
    requires line.None? ==> lastTime == InitialTime && !cover
    ensures var f := Feed(Scan(lastDate, lastTime, cover, oldDate, filter, line, out), r);
      if ok then f == Ok(Scan(lastDate', lastTime', cover', oldDate', filter', line', out')) else f == Err(BadDate)
    ensures ok ==> lastDate'.year <= 2035 && line'.Some? && (cover' ==> oldDate'.Some? && oldDate'.value.year <= 2035)
  {
    ok, lastDate', lastTime' := true, lastDate, lastTime;
    cover', oldDate', filter', line', out' := cover, oldDate, filter, line, out;
    var date := DecodeDate(r.packedDate);
    var hm := DecodeMinute(r.packedMinute);
    if Trigger(lastTime, hm) {
      filter' := true;
      oldDate' := Some(lastDate);
      cover' := true;
    }
    if cover' {
      if !ValidDate(oldDate'.value) {
        ok := false;
        return;
      }
      var newDate := NextDay(oldDate'.value);
      if hm.hour >= 21 {
        line' := Some(Line(oldDate'.value, hm, r));
      } else if hm.hour < 3 {
        line' := Some(Line(newDate, hm, r));
      } else if Minutes(hm) >= 181 {
        line' := Some(Line(date, hm, r));
        cover' := false;
      }
    } else {
      line' := Some(Line(date, hm, r));
    }
    lastDate', lastTime' := date, hm;
    if !ValidDate(line'.value.date) {
      ok := false;
      return;
    }
    if filter' {
      out' := out' + [line'.value];
    }
  }

  // ---------------------------------------------------------------------------
  // Night-session relabelling: the labelling it should produce, by position
  // ---------------------------------------------------------------------------

  function DateAt(rs: seq<Record>, k: nat): Date
    requires k < |rs|
  { DecodeDate(rs[k].packedDate) }

  function TimeAt(rs: seq<Record>, k: nat): Clock
    requires k < |rs|
  { DecodeMinute(rs[k].packedMinute) }

  /** Record k starts a night session: the bar before it (or the initial 11:00) is a 14:5x bar. */
  predicate TriggerAt(rs: seq<Record>, k: nat)
    requires k < |rs|
  {
    Trigger(if k == 0 then InitialTime else TimeAt(rs, k - 1), TimeAt(rs, k))
  }

  /** A day-session bar (03:01 to 20:59) ends a night session. */
  predicate DayTime(c: Clock)
  {
    3 <= c.hour < 21 && Minutes(c) >= 181
  }

  /** The latest night-session start among records 0..n. */
  function LastTrigger(rs: seq<Record>, n: nat): (j: Option<nat>)
    requires n < |rs|
    ensures j.Some? ==> 1 <= j.value <= n && TriggerAt(rs, j.value)
    decreases n
  {
    if TriggerAt(rs, n) then Some(n)
    else if n == 0 then None
    else LastTrigger(rs, n - 1)
  }

  /**
   * Record n is read in night mode: a session starts at it, or the previous
   * record was read in night mode and was not a day bar.
   */
  predicate Night(rs: seq<Record>, n: nat)
    requires n < |rs|
    decreases n
  {
    TriggerAt(rs, n) || (n > 0 && Night(rs, n - 1) && !DayTime(TimeAt(rs, n - 1)))
  }

  /** The trading date of the night session record n is read in: the date of the 14:5x bar that started it. */
  function SessionDate(rs: seq<Record>, n: nat): (d: Date)
    requires n < |rs| && Night(rs, n)
    ensures 2004 <= d.year <= 2035
    decreases n
  {
    if TriggerAt(rs, n) then DateAt(rs, n - 1) else SessionDate(rs, n - 1)
  }

  /**
   * Night mode in closed form: a session started at or before record n and
   * no day bar has ended it since; the session date is the date of the bar
   * before the latest start.
   */
  lemma {:induction false} NightSince(rs: seq<Record>, n: nat)
    requires n < |rs|
    ensures Night(rs, n) <==> LastTrigger(rs, n).Some?
                              && forall k :: LastTrigger(rs, n).value <= k < n ==> !DayTime(TimeAt(rs, k))
    ensures Night(rs, n) ==> SessionDate(rs, n) == DateAt(rs, LastTrigger(rs, n).value - 1)
    decreases n
  {
    if !TriggerAt(rs, n) && n > 0 {
      NightSince(rs, n - 1);
      assert LastTrigger(rs, n) == LastTrigger(rs, n - 1);
    }
  }

  /**
   * The line record n stands for, or None if its date cannot be parsed:
   * outside night mode the bar's own date; in night mode the session date
   * from 21:00, the day after it before 03:00, the bar's own date from
   * 03:01, and at exactly 03:00 a repeat of the previous line.
   */
  function Label(rs: seq<Record>, n: nat): (l: Option<Line>)
    requires n < |rs|
    ensures l.Some? ==> ValidDate(l.value.date)
    decreases n
  {
    var own := if ValidDate(DateAt(rs, n)) then Some(Line(DateAt(rs, n), TimeAt(rs, n), rs[n])) else None;
    if !Night(rs, n) then own
    else
      var session := SessionDate(rs, n);
      var hm := TimeAt(rs, n);
      if !ValidDate(session) then None
      else if hm.hour >= 21 then Some(Line(session, hm, rs[n]))
      else if hm.hour < 3 then Some(Line(NextDay(session), hm, rs[n]))
      else if Minutes(hm) >= 181 then own
      else Label(rs, n - 1)
  }

  /** The position of the first night-session start, or |rs| if there is none. */
  function FirstTrigger(rs: seq<Record>): (f: nat)
    ensures f <= |rs|
    ensures forall k :: 0 <= k < f ==> !TriggerAt(rs, k)
    ensures f < |rs| ==> TriggerAt(rs, f)
  {
    FirstTriggerFrom(rs, 0)
  }

  function FirstTriggerFrom(rs: seq<Record>, i: nat): (f: nat)
    requires i <= |rs|
    ensures i <= f <= |rs|
    ensures forall k :: i <= k < f ==> !TriggerAt(rs, k)
    ensures f < |rs| ==> TriggerAt(rs, f)
    decreases |rs| - i
  {
    if i == |rs| || TriggerAt(rs, i) then i else FirstTriggerFrom(rs, i + 1)
  }

  /** A session has started at or before record n exactly when n is at or after the first start. */
  lemma {:induction false} ArmedFrom(rs: seq<Record>, n: nat)
    requires n < |rs|
    ensures LastTrigger(rs, n).Some? <==> FirstTrigger(rs) <= n
    decreases n
  {
    if !TriggerAt(rs, n) && n > 0 {
      ArmedFrom(rs, n - 1);
    }
  }

  /** The loop variables after n records, in terms of the labelling. */
  predicate Matches(rs: seq<Record>, n: nat, s: Scan)
    requires n <= |rs|
  {
    VarsMatch(rs, n, s) && OutMatches(rs, n, s.out)
  }

  predicate VarsMatch(rs: seq<Record>, n: nat, s: Scan)
    requires n <= |rs|
  {
    (n == 0 ==> s == Start)
    && (n > 0 ==>
          s.lastDate == DateAt(rs, n - 1) && s.lastTime == TimeAt(rs, n - 1)
          && s.cover == (Night(rs, n - 1) && !DayTime(TimeAt(rs, n - 1)))
          && (s.cover ==> s.oldDate == Some(SessionDate(rs, n - 1)))
          && s.line.Some? && s.line == Label(rs, n - 1)
          && s.filter == (FirstTrigger(rs) < n))
  }

  /** The lines written for the first n records: the labels from the first night-session start on. */
  predicate OutMatches(rs: seq<Record>, n: nat, out: seq<Line>)
    requires n <= |rs|
  {
    |out| == (if FirstTrigger(rs) < n then n - FirstTrigger(rs) else 0)
    && forall i :: 0 <= i < |out| ==> Label(rs, FirstTrigger(rs) + i) == Some(out[i])
  }

  /** Trigger and night mode of the loop at record n agree with the labelling. */
  lemma FeedNight(rs: seq<Record>, n: nat, s: Scan)
    requires n < |rs| && Matches(rs, n, s)
    ensures Trigger(s.lastTime, TimeAt(rs, n)) == TriggerAt(rs, n)
    ensures (s.cover || TriggerAt(rs, n)) == Night(rs, n)
    ensures Night(rs, n) ==> (if TriggerAt(rs, n) then Some(s.lastDate) else s.oldDate) == Some(SessionDate(rs, n))
    ensures (s.filter || TriggerAt(rs, n)) == (FirstTrigger(rs) <= n)
  {
    ArmedFrom(rs, n);
    if n > 0 {
      ArmedFrom(rs, n - 1);
    } else {
      assert !TriggerAt(rs, 0);
    }
  }

  /** The date branches on matching loop variables produce record n's label. */
  lemma BranchLabel(rs: seq<Record>, n: nat, s: Scan)
    requires n < |rs| && Matches(rs, n, s)
    ensures var trig := TriggerAt(rs, n);
      var b := Branch(s.cover || trig, if trig then Some(s.lastDate) else s.oldDate,
                      DateAt(rs, n), TimeAt(rs, n), rs[n], s.line);
      && (b.Err? ==> b.error == BadDate && Label(rs, n).None?)
      && (b.Ok? ==> b.value.0 == (Night(rs, n) && !DayTime(TimeAt(rs, n))))
      && (b.Ok? ==> b.value.1.Some?)
      && (b.Ok? && ValidDate(b.value.1.value.date) ==> b.value.1 == Label(rs, n))
      && (b.Ok? && !ValidDate(b.value.1.value.date) ==> Label(rs, n).None?)
  {
    FeedNight(rs, n, s);
  }

  /** The loop variables after record n, given those before it. */
  function Next(rs: seq<Record>, n: nat, s: Scan): Scan
    requires n < |rs| && Label(rs, n).Some?
  {
    var armed := FirstTrigger(rs) <= n;
    Scan(DateAt(rs, n), TimeAt(rs, n), Night(rs, n) && !DayTime(TimeAt(rs, n)),
         if TriggerAt(rs, n) then Some(s.lastDate) else s.oldDate,
         armed, Label(rs, n), if armed then s.out + [Label(rs, n).value] else s.out)
  }

  lemma FeedValue(rs: seq<Record>, n: nat, s: Scan)
    requires n < |rs| && Matches(rs, n, s)
    ensures Feed(s, rs[n]).Ok? <==> Label(rs, n).Some?
    ensures Feed(s, rs[n]).Err? ==> Feed(s, rs[n]).error == BadDate
    ensures Feed(s, rs[n]).Ok? ==> Feed(s, rs[n]).value == Next(rs, n, s)
  {
    FeedNight(rs, n, s);
    BranchLabel(rs, n, s);
  }

  lemma NextMatches(rs: seq<Record>, n: nat, s: Scan)
    requires n < |rs| && Matches(rs, n, s) && Label(rs, n).Some?
    ensures Matches(rs, n + 1, Next(rs, n, s))
  {
    FeedNight(rs, n, s);
    NextOut(rs, n, s.out);
  }

  lemma NextOut(rs: seq<Record>, n: nat, out: seq<Line>)
    requires n < |rs| && OutMatches(rs, n, out) && Label(rs, n).Some?
    ensures OutMatches(rs, n + 1, if FirstTrigger(rs) <= n then out + [Label(rs, n).value] else out)
  {
    var f := FirstTrigger(rs);
    if f <= n {
      var t := out + [Label(rs, n).value];
      forall i | 0 <= i < |t| ensures Label(rs, f + i) == Some(t[i]) {
        if i == |out| {
          assert f + i == n;
        }
      }
    }
  }

  /** One iteration on matching loop variables fails exactly when the record has no label, and keeps the match otherwise. */
  lemma FeedMatches(rs: seq<Record>, n: nat, s: Scan)
    requires n < |rs| && Matches(rs, n, s)
    ensures Feed(s, rs[n]).Ok? <==> Label(rs, n).Some?
    ensures Feed(s, rs[n]).Err? ==> Feed(s, rs[n]).error == BadDate
    ensures Feed(s, rs[n]).Ok? ==> Matches(rs, n + 1, Feed(s, rs[n]).value)
  {
    FeedValue(rs, n, s);
    if Label(rs, n).Some? {
      NextMatches(rs, n, s);
    }
  }

  /** Records 0..n-1 all have labels. */
  predicate Labelled(rs: seq<Record>, n: nat)
    requires n <= |rs|
  {
    n == 0 || (Labelled(rs, n - 1) && Label(rs, n - 1).Some?)
  }

  lemma {:induction false} LabelledAll(rs: seq<Record>, n: nat)
    requires n <= |rs|
    ensures Labelled(rs, n) <==> forall k :: 0 <= k < n ==> Label(rs, k).Some?
  {
    if n > 0 {
      LabelledAll(rs, n - 1);
      if Labelled(rs, n) {
        forall k | 0 <= k < n
          ensures Label(rs, k).Some?
        {
          if k < n - 1 {
            assert Labelled(rs, n - 1);
          }
        }
      } else {
        var k := if Label(rs, n - 1).Some? then NotLabelled(rs, n - 1) else n - 1;
        assert 0 <= k < n && !Label(rs, k).Some?;
        assert !(forall j :: 0 <= j < n ==> Label(rs, j).Some?);
      }
    }
  }

  /** A record without a label among the first n, when they are not all labelled. */
  function NotLabelled(rs: seq<Record>, n: nat): (k: nat)
    requires n <= |rs| && !Labelled(rs, n)
    ensures k < n && Label(rs, k).None?
  {
    if Label(rs, n - 1).None? then n - 1 else NotLabelled(rs, n - 1)
  }

  /** The loop runs to completion exactly when every record has a label, and then matches the labelling. */
  lemma {:induction false} FoldMatches(rs: seq<Record>, n: nat)
    requires n <= |rs|
    ensures FoldN(rs, n).Ok? <==> Labelled(rs, n)
    ensures FoldN(rs, n).Err? ==> FoldN(rs, n).error == BadDate
    ensures FoldN(rs, n).Ok? ==> Matches(rs, n, FoldN(rs, n).value)
  {
    if n > 0 {
      FoldMatches(rs, n - 1);
      var prev := FoldN(rs, n - 1);
      if prev.Ok? {
        FeedMatches(rs, n - 1, prev.value);
        assert FoldN(rs, n) == Feed(prev.value, rs[n - 1]);
      } else {
        assert FoldN(rs, n) == prev;
      }
    }
  }

  /**
   * What the conversion writes: it fails (only ever with a date that does
   * not parse) exactly when some record has no label, and otherwise writes
   * the labels of the records from the first night-session start on, one
   * line per record, and nothing for the records before it.
   */
  lemma RelabelMatchesLabels(rs: seq<Record>)
    ensures Relabel(rs).Ok? <==> forall k :: 0 <= k < |rs| ==> Label(rs, k).Some?
    ensures Relabel(rs).Err? ==> Relabel(rs).error == BadDate
    ensures Relabel(rs).Ok? ==> |Relabel(rs).value| == |rs| - FirstTrigger(rs)
    ensures Relabel(rs).Ok? ==> forall i :: 0 <= i < |Relabel(rs).value| ==>
              Label(rs, FirstTrigger(rs) + i) == Some(Relabel(rs).value[i])
  {
    FoldMatches(rs, |rs|);
    LabelledAll(rs, |rs|);
  }

  // ---------------------------------------------------------------------------
  // Output file name
  // ---------------------------------------------------------------------------

  /** `s.split(sep)[-1]` for a non-empty separator: the text after the last occurrence, scanning left to right. */
  function AfterLast(s: String, sep: String): (r: String)
    requires sep != []
    ensures |r| <= |s| && r == s[|s| - |r|..]
    decreases |s|
  {
    if |s| < |sep| then s
    else if s[..|sep|] == sep then AfterLast(s[|sep|..], sep)
    else if Contains(s[1..], sep) then AfterLast(s[1..], sep)
    else s
  }

  /** `s[-4:]`. */
  function LastFour(s: String): (r: String)
    ensures |r| == if |s| < 4 then |s| else 4
  {
    if |s| < 4 then s else s[|s| - 4..]
  }

  /** `s[1:]`, which is empty for the empty string. */
  function Tail(s: String): String { if s == [] then [] else s[1..] }

  /** `fname.replace('.lc1','').split('#')[-1].replace('L9','8888')`. */
  function BaseName(fname: String): String
  {
    var parts := Split(ReplaceAll(fname, ".lc1", ""), '#');
    ReplaceAll(parts[|parts| - 1], "L9", "8888")
  }

  /** What the contract attribute file says about one product code (None: no "exchange" key). */
  datatype Contract = Contract(exchange: Option<String>)

  /**
   * The file's short name: with a non-empty contract table and a product
   * code (the letters of the name), a code known only in lower case is
   * lowered in the name, and a CZCE contract that is not an index (`8888`)
   * keeps only the text after its code minus the first year digit.
   */
  function ShortName(base: String, contracts: map<String, Contract>): String
  {
    var code := Letters(base);
    if |contracts| == 0 || code == [] then base
    else
      var lowered := code !in contracts && Lower(code) in contracts;
      var name := if lowered then ReplaceAll(base, code, Lower(code)) else base;
      var key := if lowered then Lower(code) else code;
      if key in contracts && contracts[key].exchange == Some("CZCE") && LastFour(name) != "8888"
      then key + Tail(AfterLast(name, key))
      else name
  }

  /** The name of the CSV file `miniute2csv_data` writes for `fname`. */
  function OutputFileName(fname: String, contracts: map<String, Contract>): String
  {
    ShortName(BaseName(fname), contracts) + "_1min_1.csv"
  }

  /**
   * A TDX file name `<market>#<code>.lc1` (no '.' before the extension,
   * no '#' in the code) reduces to the code with `L9` turned into `8888`.
   */
  lemma BaseNameOf(market: String, code: String)
    requires NoChar(market, '.') && NoChar(code, '.') && NoChar(code, '#')
    ensures BaseName(market + "#" + code + ".lc1") == ReplaceAll(code, "L9", "8888")
  {
    var u := market + "#" + code;
    assert NoChar(u, '.');
    ReplaceSuffix(u, ".lc1", "");
    assert u + "" == u;
    assert market + "#" + code + ".lc1" == u + ".lc1";
    SplitLastPiece(market, '#', code);
    assert market + "#" + code == market + ['#'] + code;
  }

  /** The main-contract index name: `<letters>L9` becomes `<letters>8888`. */
  lemma {:induction false} IndexName(code: String)
    requires NoChar(code, '9')
    ensures ReplaceAll(code + "L9", "L9", "8888") == code + "8888"
    decreases |code|
  {
    var s := code + "L9";
    if code == [] {
      assert s[..2] == "L9" && s[2..] == [];
    } else {
      assert s[1] != '9';
      assert s[1..] == code[1..] + "L9";
      IndexName(code[1..]);
    }
  }

  /** Letters followed by digits: the letters are the product code. */
  lemma {:induction false} LettersOfContract(code: String, digits: String)
    requires forall i :: 0 <= i < |code| ==> IsAlpha(code[i])
    requires VnpyCsv.AllDigits(digits)
    ensures Letters(code + digits) == code
    decreases |code| + |digits|
  {
    if code == [] {
      if digits != [] {
        assert VnpyCsv.AllDigits(digits[1..]) && IsDigit(digits[0]) && !IsAlpha(digits[0]);
        LettersOfContract(code, digits[1..]);
        assert code + digits == digits && code + digits[1..] == digits[1..];
      }
    } else {
      LettersOfContract(code[1..], digits);
      assert (code + digits)[1..] == code[1..] + digits;
    }
  }

  /** Digits contain no pattern that starts with a letter. */
  lemma {:induction false} DigitsAvoid(digits: String, pat: String)
    requires VnpyCsv.AllDigits(digits) && pat != [] && IsAlpha(pat[0])
    ensures !Contains(digits, pat)
    decreases |digits|
  {
    if digits != [] {
      assert VnpyCsv.AllDigits(digits[1..]);
      DigitsAvoid(digits[1..], pat);
    }
  }

  /** The two rewrites on a `<code><digits>` name, with the table key they use. */
  lemma ContractName(code: String, digits: String, key: String)
    requires code != [] && forall i :: 0 <= i < |code| ==> IsAlpha(code[i])
    requires VnpyCsv.AllDigits(digits)
    requires key == code || key == Lower(code)
    ensures ReplaceAll(code + digits, code, key) == key + digits
    ensures AfterLast(key + digits, key) == digits
  {
    DigitsAvoid(digits, code);
    DigitsAvoid(digits, key);
    var s := code + digits;
    assert s[..|code|] == code && s[|code|..] == digits;
    ReplaceAbsent(digits, code, key);
    var t := key + digits;
    assert t[..|key|] == key && t[|key|..] == digits;
    assert |t| >= |key|;
    AfterLastAbsent(digits, key);
  }

  lemma AfterLastAbsent(s: String, sep: String)
    requires sep != [] && !Contains(s, sep)
    ensures AfterLast(s, sep) == s
  {
  }

  /**
   * The short name of a `<code><digits>` contract with a non-empty table:
   * the code is looked up as written, else in lower case (and then lowered
   * in the name); a CZCE contract whose name does not end in 8888 loses the
   * first digit after the code (RM2405 becomes RM405).
   */
  lemma ShortNameOfContract(code: String, digits: String, contracts: map<String, Contract>)
    requires code != [] && forall i :: 0 <= i < |code| ==> IsAlpha(code[i])
    requires VnpyCsv.AllDigits(digits) && |contracts| > 0
    ensures var key := if code !in contracts && Lower(code) in contracts then Lower(code) else code;
      ShortName(code + digits, contracts)
        == if key in contracts && contracts[key].exchange == Some("CZCE") && LastFour(key + digits) != "8888"
           then key + Tail(digits)
           else key + digits
  {
    LettersOfContract(code, digits);
    var key := if code !in contracts && Lower(code) in contracts then Lower(code) else code;
    ContractName(code, digits, key);
    if key == code {
      assert ReplaceAll(code + digits, code, key) == code + digits;
    }
  }

  /** The output stem of a `<code><digits>` contract, as `ShortNameOfContract` computes it. */
  function ContractStem(code: String, digits: String, contracts: map<String, Contract>): String
  {
    var key := if code !in contracts && Lower(code) in contracts then Lower(code) else code;
    if key in contracts && contracts[key].exchange == Some("CZCE") && LastFour(key + digits) != "8888"
    then key + Tail(digits)
    else key + digits
  }

  /**
   * The file `miniute2csv_data` writes for the TDX file
   * `<market>#<code><digits>.lc1`: the contract's stem followed by
   * `_1min_1.csv`, where the stem is made of letters and digits only, so it
   * holds no '_'.
   */
  lemma OutputFileNameOf(market: String, code: String, digits: String, contracts: map<String, Contract>)
    requires NoChar(market, '.')
    requires code != [] && forall i :: 0 <= i < |code| ==> IsAlpha(code[i])
    requires VnpyCsv.AllDigits(digits) && |contracts| > 0
    requires !Contains(code + digits, "L9")
    ensures OutputFileName(market + "#" + code + digits + ".lc1", contracts)
              == ContractStem(code, digits, contracts) + "_1min_1.csv"
    ensures NoChar(ContractStem(code, digits, contracts), '_')
  {
    LettersDigitsChars(code, digits);
    AlnumNoChar(code + digits, '.');
    AlnumNoChar(code + digits, '#');
    ContractBaseName(market, code + digits);
    assert market + "#" + code + digits + ".lc1" == market + "#" + (code + digits) + ".lc1";
    ShortNameOfContract(code, digits, contracts);
    assert ShortName(code + digits, contracts) == ContractStem(code, digits, contracts);
    StemChars(code, digits, contracts);
  }

  /** The base name of `<market>#<base>.lc1`, for a base without '.', '#' or `L9`, is the base. */
  lemma ContractBaseName(market: String, base: String)
    requires NoChar(market, '.') && NoChar(base, '.') && NoChar(base, '#')
    requires !Contains(base, "L9")
    ensures BaseName(market + "#" + base + ".lc1") == base
  {
    BaseNameOf(market, base);
    ReplaceAbsent(base, "L9", "8888");
  }

  /** A string of letters and digits holds no other character. */
  lemma AlnumNoChar(s: String, c: char)
    requires forall i :: 0 <= i < |s| ==> IsAlpha(s[i]) || IsDigit(s[i])
    requires !IsAlpha(c) && !IsDigit(c)
    ensures NoChar(s, c)
  {
  }

  /** A contract stem is made of letters and digits. */
  lemma StemChars(code: String, digits: String, contracts: map<String, Contract>)
    requires forall i :: 0 <= i < |code| ==> IsAlpha(code[i])
    requires VnpyCsv.AllDigits(digits)
    ensures NoChar(ContractStem(code, digits, contracts), '_')
  {
    var lower := Lower(code);
    assert forall i :: 0 <= i < |lower| ==> IsAlpha(lower[i]) by {
      forall i | 0 <= i < |lower| ensures IsAlpha(lower[i]) {
        assert lower[i] == LowerChar(code[i]);
      }
    }
    var tail := Tail(digits);
    assert VnpyCsv.AllDigits(tail) by {
      if digits != [] {
        assert forall i :: 0 <= i < |tail| ==> tail[i] == digits[i + 1];
      }
    }
    LettersDigitsChars(code, digits);
    LettersDigitsChars(code, tail);
    LettersDigitsChars(lower, digits);
    LettersDigitsChars(lower, tail);
  }

  /** Letters followed by digits: every character is a letter or a digit, so none is '_'. */
  lemma LettersDigitsChars(letters: String, digits: String)
    requires forall i :: 0 <= i < |letters| ==> IsAlpha(letters[i])
    requires VnpyCsv.AllDigits(digits)
    ensures forall i :: 0 <= i < |letters + digits| ==> IsAlpha((letters + digits)[i]) || IsDigit((letters + digits)[i])
    ensures NoChar(letters + digits, '_')
  {
    forall i | 0 <= i < |letters + digits|
      ensures IsAlpha((letters + digits)[i]) || IsDigit((letters + digits)[i])
    {
      if i < |letters| {
        assert (letters + digits)[i] == letters[i];
      } else {
        assert (letters + digits)[i] == digits[i - |letters|];
      }
    }
  }

  // ---------------------------------------------------------------------------
  // convert_to_vnpy_format, check_timestamp, conver_all_with_vnpy_format
  // ---------------------------------------------------------------------------

  /** The default output path: `_1min_1.csv` becomes `_vnpy_import.csv`, failing that `.csv` does. */
  function VnpyOutputName(inputFile: String, outputFile: Option<String>): String
  {
    if outputFile.Some? then outputFile.value
    else
      var o := ReplaceAll(inputFile, "_1min_1.csv", "_vnpy_import.csv");
      if o == inputFile then ReplaceAll(inputFile, ".csv", "_vnpy_import.csv") else o
  }

  /** A converted TDX file `<stem>_1min_1.csv` gets the import file `<stem>_vnpy_import.csv`. */
  lemma VnpyOutputOfConverted(stem: String)
    requires NoChar(stem, '_')
    ensures VnpyOutputName(stem + "_1min_1.csv", None) == stem + "_vnpy_import.csv"
  {
    ReplaceSuffix(stem, "_1min_1.csv", "_vnpy_import.csv");
    assert stem + "_vnpy_import.csv" != stem + "_1min_1.csv" by {
      assert (stem + "_vnpy_import.csv")[|stem| + 1] == 'v';
    }
  }

  function StripLine(line: String): String { Strip(line) }

  /**
   * `convert_to_vnpy_format` on the lines of the input file: blank lines
   * (after `strip`) are dropped uncounted, and the remaining lines go
   * through the shared row loop.
   */
  method ConvertToVnpyFormat(inputFile: String, outputFile: Option<String>, fileLines: seq<String>)
    returns (outName: String, rows: seq<VnpyCsv.VnpyRow>, totalIn: nat, totalOut: nat, badLines: nat)
    ensures outName == VnpyOutputName(inputFile, outputFile)
    ensures rows == VnpyCsv.Converted(VnpyCsv.NonBlankLines(fileLines, StripLine))
    ensures totalIn == |VnpyCsv.NonBlankLines(fileLines, StripLine)|
    ensures totalOut == |rows| && totalIn == totalOut + badLines
  {
    outName := VnpyOutputName(inputFile, outputFile);
    var rawLines := VnpyCsv.CollectLines(fileLines, StripLine);
    rows, totalIn, totalOut, badLines := VnpyCsv.ConvertRows(rawLines);
  }

  /** The positions whose timestamp is not after the previous row's, in order. */
  function Disorders(ts: seq<real>): (r: seq<nat>)
    ensures forall k :: 0 <= k < |r| ==> 0 < r[k] < |ts| && ts[r[k]] <= ts[r[k] - 1]
  {
    if |ts| <= 1 then []
    else Disorders(ts[..|ts| - 1]) + (if ts[|ts| - 1] <= ts[|ts| - 2] then [|ts| - 1] else [])
  }

  predicate StrictlyIncreasing(ts: seq<real>)
  {
    forall i :: 0 < i < |ts| ==> ts[i - 1] < ts[i]
  }

  /** No position is reported exactly when the timestamps strictly increase. */
  lemma {:induction false} DisordersEmpty(ts: seq<real>)
    ensures Disorders(ts) == [] <==> StrictlyIncreasing(ts)
  {
    if |ts| > 1 {
      var p := ts[..|ts| - 1];
      DisordersEmpty(p);
      if StrictlyIncreasing(ts) {
        assert StrictlyIncreasing(p) by {
          forall i | 0 < i < |p| ensures p[i - 1] < p[i] {
            assert p[i - 1] == ts[i - 1] && p[i] == ts[i];
          }
        }
      } else if Disorders(ts) == [] {
        assert StrictlyIncreasing(p);
        forall i | 0 < i < |ts| ensures ts[i - 1] < ts[i] {
          if i < |ts| - 1 {
            assert p[i - 1] == ts[i - 1] && p[i] == ts[i];
          }
        }
      }
    }
  }

  lemma DisordersStep(ts: seq<real>, idx: nat)
    requires idx < |ts|
    ensures Disorders(ts[..idx + 1]) == Disorders(ts[..idx]) + (if idx > 0 && ts[idx] <= ts[idx - 1] then [idx] else [])
  {
    assert ts[..idx + 1][..idx] == ts[..idx];
  }

  /**
   * `check_timestamp` on the timestamp column of a contract file (None: the
   * file does not exist): every position whose timestamp is not after the
   * previous one is reported, and the check passes when there is none.
   */
  method CheckTimestamp(file: Option<seq<real>>) returns (passed: Option<bool>, errors: seq<nat>)
    ensures file.None? ==> passed.None? && errors == []
    ensures file.Some? ==> errors == Disorders(file.value) && passed == Some(errors == [])
  {
    if file.None? {
      return None, [];
    }
    var ts := file.value;
    errors := [];
    var prev: Option<real> := None;
    for idx := 0 to |ts|
      invariant errors == Disorders(ts[..idx])
      invariant prev == if idx == 0 then None else Some(ts[idx - 1])
    {
      DisordersStep(ts, idx);
      var current := ts[idx];
      if prev.Some? && current <= prev.value {
        errors := errors + [idx];
      }
      prev := Some(current);
    }
    assert ts[..|ts|] == ts;
    if errors != [] {
      return Some(false), errors;
    }
    return Some(true), errors;
  }

  /** The names that contain `.lc1`, in directory order. */
  function Lc1Files(names: seq<String>): (r: seq<String>)
    ensures |r| <= |names|
    ensures forall i :: 0 <= i < |r| ==> Contains(r[i], ".lc1")
  {
    if names == [] then []
    else Lc1Files(names[..|names| - 1]) + (if Contains(names[|names| - 1], ".lc1") then [names[|names| - 1]] else [])
  }

  /**
   * The counting in `conver_all_with_vnpy_format`: `count` goes up once
   * before and once after each `.lc1` file, so the reported number is twice
   * the number of files converted.
   */
  method ConvertAllCount(fileList: seq<String>) returns (count: nat, converted: seq<String>)
    ensures converted == Lc1Files(fileList)
    ensures count == 2 * |converted|
  {
    count := 0;
    converted := [];
    for k := 0 to |fileList|
      invariant converted == Lc1Files(fileList[..k])
      invariant count == 2 * |converted|
    {
      assert fileList[..k + 1][..k] == fileList[..k];
      if Contains(fileList[k], ".lc1") {
        count := count + 1;
        converted := converted + [fileList[k]];
        count := count + 1;
      }
    }
    assert fileList[..|fileList|] == fileList;
  }
}

=== FILE: trade_pairs.dfy ===
/**
 * `generate_trade_pairs` of the backtester chart: closing trades are matched
 * first-in first-out against the queued opening trades of the other side,
 * and whatever a trade does not close is queued on its own side.
 *
 * Volumes are whole lots (`nat`); prices are `real` and only copied.
 */
module TradePairs {
  import opened Calendar

  /** vnpy's `Direction`: everything that is not LONG goes to the short side. */
  datatype Direction = Long | Short | Net

  datatype Trade = Trade(direction: Direction, time: DateTime, price: real, volume: nat)

  /** One row of the pair table. */
  datatype TradePair = TradePair(openTime: DateTime, openPrice: real, closeTime: DateTime, closePrice: real,
                                 direction: Direction, volume: nat)

  function Min(a: nat, b: nat): nat { if a <= b then a else b }

  /** The pairs one trade makes against a queue, the queue left over, and the unmatched volume. */
  datatype Matched = Matched(pairs: seq<TradePair>, queue: seq<Trade>, remaining: nat)

  /**
   * The inner `while trade.volume and opposite_direction` loop as a
   * function: close `min(open volume, trade volume)` against the head of
   * the queue, pop the head once it is used up, repeat.
   */
  function Match(queue: seq<Trade>, t: Trade): (m: Matched)
    decreases t.volume, |queue|
  {
    if t.volume == 0 || queue == [] then Matched([], queue, t.volume)
    else
      var o := queue[0];
      var v := Min(o.volume, t.volume);
      var pair := TradePair(o.time, o.price, t.time, t.price, o.direction, v);
      var rest := if o.volume - v == 0 then queue[1..] else [o.(volume := o.volume - v)] + queue[1..];
      var m := Match(rest, t.(volume := t.volume - v));
      Matched([pair] + m.pairs, m.queue, m.remaining)
  }

  /** The two queues and the pairs made so far. */
  datatype Book = Book(longs: seq<Trade>, shorts: seq<Trade>, pairs: seq<TradePair>)

  /** One iteration of the outer loop. */
  function Step(b: Book, t: Trade): Book
  {
    if t.direction == Long then
      var m := Match(b.shorts, t);
      Book(if m.remaining > 0 then b.longs + [t.(volume := m.remaining)] else b.longs, m.queue, b.pairs + m.pairs)
    else
      var m := Match(b.longs, t);
      Book(m.queue, if m.remaining > 0 then b.shorts + [t.(volume := m.remaining)] else b.shorts, b.pairs + m.pairs)
  }

  /** The book after the given trades. */
  function Replay(trades: seq<Trade>): Book
  {
    if trades == [] then Book([], [], []) else Step(Replay(trades[..|trades| - 1]), trades[|trades| - 1])
  }

  /** The inner loop: close the trade against the opposite queue as far as both go. */
  method CloseAgainst(queue: seq<Trade>, t: Trade) returns (made: seq<TradePair>, opposite: seq<Trade>, trade: Trade)
    ensures Match(queue, t) == Matched(made, opposite, trade.volume)
    ensures trade == t.(volume := trade.volume)
  {
    opposite, trade, made := queue, t, [];
    while trade.volume > 0 && opposite != []
      invariant trade == t.(volume := trade.volume)
      invariant Match(opposite, trade).queue == Match(queue, t).queue
      invariant Match(opposite, trade).remaining == Match(queue, t).remaining
      invariant made + Match(opposite, trade).pairs == Match(queue, t).pairs
      decreases trade.volume, |opposite|
    {
      var openTrade := opposite[0];
      var closeVolume := Min(openTrade.volume, trade.volume);
      made := made + [TradePair(openTrade.time, openTrade.price, trade.time, trade.price,
                                openTrade.direction, closeVolume)];
      openTrade := openTrade.(volume := openTrade.volume - closeVolume);
      if openTrade.volume == 0 {
        opposite := opposite[1..];
      } else {
        opposite := [openTrade] + opposite[1..];
      }
      trade := trade.(volume := trade.volume - closeVolume);
    }
  }

  /** `generate_trade_pairs`. */
  method GenerateTradePairs(trades: seq<Trade>) returns (tradePairs: seq<TradePair>)
    ensures tradePairs == Replay(trades).pairs
  {
    var longTrades: seq<Trade> := [];
    var shortTrades: seq<Trade> := [];
    tradePairs := [];
    for k := 0 to |trades|
      invariant Replay(trades[..k]) == Book(longTrades, shortTrades, tradePairs)
    {
      assert trades[..k + 1][..k] == trades[..k];
      if trades[k].direction == Long {
        var made, opposite, trade := CloseAgainst(shortTrades, trades[k]);
        tradePairs := tradePairs + made;
        shortTrades := opposite;
        if trade.volume > 0 {
          longTrades := longTrades + [trade];
        }
      } else {
        var made, opposite, trade := CloseAgainst(longTrades, trades[k]);
        tradePairs := tradePairs + made;
        longTrades := opposite;
        if trade.volume > 0 {
          shortTrades := shortTrades + [trade];
        }
      }
    }
    assert trades[..|trades|] == trades;
  }

  // ---------------------------------------------------------------------------
  // Properties of the matching
  // ---------------------------------------------------------------------------

  function QueueVolume(q: seq<Trade>): nat
  {
    if q == [] then 0 else q[0].volume + QueueVolume(q[1..])
  }

  function PairVolume(ps: seq<TradePair>): nat
  {
    if ps == [] then 0 else ps[0].volume + PairVolume(ps[1..])
  }

  lemma {:induction false} QueueVolumeAppend(a: seq<Trade>, b: seq<Trade>)
    ensures QueueVolume(a + b) == QueueVolume(a) + QueueVolume(b)
  {
    if a != [] {
      assert (a + b)[1..] == a[1..] + b;
      QueueVolumeAppend(a[1..], b);
    } else {
      assert a + b == b;
    }
  }

  lemma {:induction false} PairVolumeAppend(a: seq<TradePair>, b: seq<TradePair>)
    ensures PairVolume(a + b) == PairVolume(a) + PairVolume(b)
  {
    if a != [] {
      assert (a + b)[1..] == a[1..] + b;
      PairVolumeAppend(a[1..], b);
    } else {
      assert a + b == b;
    }
  }

  /** Queued trades never have zero volume. */
  predicate AllPositive(q: seq<Trade>) { forall i :: 0 <= i < |q| ==> q[i].volume > 0 }

  /** The partial-head case of a match: the queue lost its first n - 1 entries and the n-th got smaller. */
  predicate ReducedHead(queue: seq<Trade>, left: seq<Trade>, n: nat)
  {
    0 < n <= |queue| && |left| > 0 && left[1..] == queue[n..]
    && left[0] == queue[n - 1].(volume := left[0].volume) && 0 < left[0].volume
  }

  /**
   * The shape of one match: the loop stops with the trade used up or the
   * queue empty, and the queue left over is the queue without the entries
   * the pairs used up, the last of them possibly only reduced.
   */
  lemma {:induction false} MatchShape(queue: seq<Trade>, t: Trade)
    ensures var m := Match(queue, t);
      && (m.remaining == 0 || m.queue == [])
      && m.remaining <= t.volume
      && |m.pairs| <= |queue|
      && (m.queue == queue[|m.pairs|..] || ReducedHead(queue, m.queue, |m.pairs|))
    decreases t.volume, |queue|
  {
    if t.volume == 0 || queue == [] {
      assert queue[0..] == queue;
    } else {
      var o := queue[0];
      var v := Min(o.volume, t.volume);
      var rest := if o.volume - v == 0 then queue[1..] else [o.(volume := o.volume - v)] + queue[1..];
      var t' := t.(volume := t.volume - v);
      MatchShape(rest, t');
      var m := Match(rest, t');
      var n := |m.pairs| + 1;
      if o.volume - v != 0 {
        assert m.pairs == [] && m.queue == rest;
        assert ReducedHead(queue, rest, 1);
      } else {
        assert rest == queue[1..];
        assert rest[|m.pairs|..] == queue[n..];
        if m.queue != rest[|m.pairs|..] {
          assert ReducedHead(rest, m.queue, |m.pairs|);
          assert rest[|m.pairs| - 1] == queue[n - 1];
        }
      }
    }
  }

  /**
   * The pairs of one match: the i-th pair is opened by the i-th queued
   * trade (first in, first out), closed by the trade, and has positive
   * volume when the queue does.
   */
  lemma {:induction false} MatchPairs(queue: seq<Trade>, t: Trade)
    requires AllPositive(queue)
    ensures var m := Match(queue, t);
      && |m.pairs| <= |queue|
      && forall i :: 0 <= i < |m.pairs| ==>
            && m.pairs[i].volume > 0
            && m.pairs[i].openTime == queue[i].time && m.pairs[i].openPrice == queue[i].price
            && m.pairs[i].direction == queue[i].direction
            && m.pairs[i].closeTime == t.time && m.pairs[i].closePrice == t.price
    decreases t.volume, |queue|
  {
    if t.volume > 0 && queue != [] {
      var o := queue[0];
      var v := Min(o.volume, t.volume);
      var pair := TradePair(o.time, o.price, t.time, t.price, o.direction, v);
      var t' := t.(volume := t.volume - v);
      if o.volume - v != 0 {
        var rest := [o.(volume := o.volume - v)] + queue[1..];
        assert Match(rest, t') == Matched([], rest, 0);
      } else {
        var rest := queue[1..];
        assert AllPositive(rest) by {
          forall i | 0 <= i < |rest| ensures rest[i].volume > 0 {
            assert rest[i] == queue[i + 1];
          }
        }
        MatchPairs(rest, t');
        var m := Match(rest, t');
        var ps := [pair] + m.pairs;
        assert Match(queue, t).pairs == ps;
        forall i | 0 <= i < |ps|
          ensures ps[i].openTime == queue[i].time && ps[i].openPrice == queue[i].price
          ensures ps[i].direction == queue[i].direction && ps[i].volume > 0
          ensures ps[i].closeTime == t.time && ps[i].closePrice == t.price
        {
          if i > 0 {
            assert ps[i] == m.pairs[i - 1] && rest[i - 1] == queue[i];
          }
        }
      }
    }
  }

  /**
   * Volume is conserved by one match: the trade's volume is what it paired
   * plus what it has left, and the queue lost exactly the paired volume.
   */
  lemma {:induction false} MatchVolume(queue: seq<Trade>, t: Trade)
    ensures var m := Match(queue, t);
      && t.volume == PairVolume(m.pairs) + m.remaining
      && QueueVolume(queue) == PairVolume(m.pairs) + QueueVolume(m.queue)
      && t.volume + QueueVolume(queue) == 2 * PairVolume(m.pairs) + m.remaining + QueueVolume(m.queue)
    decreases t.volume, |queue|
  {
    if t.volume > 0 && queue != [] {
      var o := queue[0];
      var v := Min(o.volume, t.volume);
      var pair := TradePair(o.time, o.price, t.time, t.price, o.direction, v);
      var rest := if o.volume - v == 0 then queue[1..] else [o.(volume := o.volume - v)] + queue[1..];
      var t' := t.(volume := t.volume - v);
      MatchVolume(rest, t');
      var m := Match(rest, t');
      assert QueueVolume(queue) == o.volume + QueueVolume(queue[1..]);
      if o.volume - v != 0 {
        assert rest[1..] == queue[1..];
        assert QueueVolume(rest) == (o.volume - v) + QueueVolume(queue[1..]);
      }
      assert ([pair] + m.pairs)[1..] == m.pairs;
      assert PairVolume([pair] + m.pairs) == v + PairVolume(m.pairs);
    }
  }

  /**
   * The volume of each pair: pair i closes min(volume of queued trade i,
   * what the trade has left after the pairs before it), and every pair but
   * the last uses its queued trade up.
   */
  lemma {:induction false} MatchTakesMin(queue: seq<Trade>, t: Trade)
    ensures var m := Match(queue, t);
      && |m.pairs| <= |queue|
      && forall i :: 0 <= i < |m.pairs| ==>
            var left: int := t.volume - PairVolume(m.pairs[..i]);
            && m.pairs[i].volume == (if queue[i].volume <= left then queue[i].volume else left)
            && (i < |m.pairs| - 1 ==> m.pairs[i].volume == queue[i].volume)
    decreases t.volume, |queue|
  {
    if t.volume > 0 && queue != [] {
      var o := queue[0];
      var v := Min(o.volume, t.volume);
      var pair := TradePair(o.time, o.price, t.time, t.price, o.direction, v);
      var t' := t.(volume := t.volume - v);
      if o.volume - v != 0 {
        var rest := [o.(volume := o.volume - v)] + queue[1..];
        assert Match(rest, t') == Matched([], rest, 0);
        assert Match(queue, t).pairs == [pair];
        assert [pair][..0] == [];
      } else {
        var rest := queue[1..];
        MatchTakesMin(rest, t');
        var m := Match(rest, t');
        var ps := [pair] + m.pairs;
        assert Match(queue, t).pairs == ps;
        forall i | 0 <= i < |ps|
          ensures ps[i].volume == (if queue[i].volume <= t.volume - PairVolume(ps[..i]) then queue[i].volume
                                   else t.volume - PairVolume(ps[..i]))
          ensures i < |ps| - 1 ==> ps[i].volume == queue[i].volume
        {
          if i == 0 {
            assert ps[..0] == [];
          } else {
            assert ps[i] == m.pairs[i - 1] && rest[i - 1] == queue[i];
            assert ps[..i] == [pair] + m.pairs[..i - 1];
            assert ([pair] + m.pairs[..i - 1])[1..] == m.pairs[..i - 1];
            assert PairVolume(ps[..i]) == v + PairVolume(m.pairs[..i - 1]);
          }
        }
      }
    }
  }

  /** The queue left over by a match has no empty entry when the queue had none. */
  lemma MatchPositive(queue: seq<Trade>, t: Trade)
    requires AllPositive(queue)
    ensures AllPositive(Match(queue, t).queue)
  {
    MatchShape(queue, t);
    var m := Match(queue, t);
    var n := |m.pairs|;
    forall i | 0 <= i < |m.queue| ensures m.queue[i].volume > 0 {
      if m.queue == queue[n..] {
        assert m.queue[i] == queue[n + i];
      } else if i > 0 {
        assert m.queue[i] == m.queue[1..][i - 1] == queue[n + i - 1];
      }
    }
  }

  /** Every trade in the queue has the given side: LONG, or anything else. */
  predicate Side(q: seq<Trade>, long: bool)
  {
    forall i :: 0 <= i < |q| ==> (q[i].direction == Long) == long
  }

  /**
   * The state the outer loop keeps: at most one side has open trades, every
   * queued trade has positive volume, and each queue holds its own side.
   */
  predicate ValidBook(b: Book)
  {
    (b.longs == [] || b.shorts == []) && AllPositive(b.longs) && AllPositive(b.shorts)
    && Side(b.longs, true) && Side(b.shorts, false)
  }

  /** Matching leaves a suffix of the queue, possibly with a smaller head: the side and positivity survive. */
  lemma MatchKeepsSide(queue: seq<Trade>, t: Trade, long: bool)
    requires AllPositive(queue) && Side(queue, long)
    ensures Side(Match(queue, t).queue, long)
    ensures forall i :: 0 <= i < |Match(queue, t).pairs| ==> (Match(queue, t).pairs[i].direction == Long) == long
  {
    MatchShape(queue, t);
    MatchPairs(queue, t);
    var m := Match(queue, t);
    var n := |m.pairs|;
    forall i | 0 <= i < |m.queue| ensures (m.queue[i].direction == Long) == long {
      if m.queue == queue[n..] {
        assert m.queue[i] == queue[n + i];
      } else if i == 0 {
        assert m.queue[0].direction == queue[n - 1].direction;
      } else {
        assert m.queue[i] == m.queue[1..][i - 1] == queue[n + i - 1];
      }
    }
  }

  /** A step keeps the book valid. */
  lemma StepValid(b: Book, t: Trade)
    requires ValidBook(b)
    ensures ValidBook(Step(b, t))
  {
    if t.direction == Long {
      MatchShape(b.shorts, t);
      MatchPositive(b.shorts, t);
      MatchKeepsSide(b.shorts, t, false);
      var m := Match(b.shorts, t);
      if m.remaining > 0 {
        var l := b.longs + [t.(volume := m.remaining)];
        assert forall i :: 0 <= i < |l| ==> l[i] == (if i < |b.longs| then b.longs[i] else t.(volume := m.remaining));
      }
    } else {
      MatchShape(b.longs, t);
      MatchPositive(b.longs, t);
      MatchKeepsSide(b.longs, t, true);
      var m := Match(b.longs, t);
      if m.remaining > 0 {
        var s := b.shorts + [t.(volume := m.remaining)];
        assert forall i :: 0 <= i < |s| ==> s[i] == (if i < |b.shorts| then b.shorts[i] else t.(volume := m.remaining));
      }
    }
  }

  function TradeVolume(trades: seq<Trade>): nat
  {
    if trades == [] then 0 else TradeVolume(trades[..|trades| - 1]) + trades[|trades| - 1].volume
  }

  /** After any trades the book is valid: one side open at most, no empty queued trade. */
  lemma {:induction false} ReplayValid(trades: seq<Trade>)
    ensures ValidBook(Replay(trades))
  {
    if trades != [] {
      ReplayValid(trades[..|trades| - 1]);
      StepValid(Replay(trades[..|trades| - 1]), trades[|trades| - 1]);
    }
  }

  /**
   * Volume is conserved: the traded volume is twice the paired volume (each
   * pair closes lots of an opening trade with as many lots of a closing
   * trade) plus what is still queued.
   */
  lemma {:induction false} ReplayVolume(trades: seq<Trade>)
    ensures var b := Replay(trades);
      TradeVolume(trades) == 2 * PairVolume(b.pairs) + QueueVolume(b.longs) + QueueVolume(b.shorts)
  {
    if trades != [] {
      var init := trades[..|trades| - 1];
      var t := trades[|trades| - 1];
      var b := Replay(init);
      ReplayVolume(init);
      var q := if t.direction == Long then b.shorts else b.longs;
      MatchVolume(q, t);
      var m := Match(q, t);
      PairVolumeAppend(b.pairs, m.pairs);
      assert QueueVolume([t.(volume := m.remaining)]) == m.remaining;
      if t.direction == Long {
        QueueVolumeAppend(b.longs, [t.(volume := m.remaining)]);
      } else {
        QueueVolumeAppend(b.shorts, [t.(volume := m.remaining)]);
      }
    }
  }

  /** Every pair of the table has positive volume. */
  lemma {:induction false} PairsPositive(trades: seq<Trade>)
    ensures forall i :: 0 <= i < |Replay(trades).pairs| ==> Replay(trades).pairs[i].volume > 0
  {
    if trades != [] {
      var init := trades[..|trades| - 1];
      var t := trades[|trades| - 1];
      var b := Replay(init);
      PairsPositive(init);
      ReplayValid(init);
      var q := if t.direction == Long then b.shorts else b.longs;
      MatchPairs(q, t);
      var ps := b.pairs + Match(q, t).pairs;
      assert Replay(trades).pairs == ps;
      forall i | 0 <= i < |ps| ensures ps[i].volume > 0 {
        if i >= |b.pairs| {
          assert ps[i] == Match(q, t).pairs[i - |b.pairs|];
        }
      }
    }
  }
}

=== FILE: wrappers.dfy ===
/** Option and Result values used for the source's `None` returns and caught exceptions. */
module Wrappers {
  datatype Option<T> = None | Some(value: T)

  datatype Result<T, E> = Ok(value: T) | Err(error: E)
}
